=== FILE: README.md ===
# Video-sharing backend: a verified model of its service core

This project models, in Dafny, the service layer of a video-sharing web API: the
comment threads under a video, likes on comments and videos, channel
subscriptions, the notification inbox and its DynamoDB table, search over
videos and channels, and the small rule sets around them. Those rule sets are:
the partial profile, video and channel edits; the phone-number rewrite sent to
the identity provider; the request validators; the exception-to-HTTP-status
handler; and the paging rules of the comment and search endpoints.

Every DynamoDB table is a finite map keyed by the entity's own key, so a
comment lives under `(videoId, commentId)`, a like record under
`(commentId, userId)` and a notification under `(recipientUserId, createdAt)`.
The whole store is one `Db` value (`entities.dfy`). Each service operation is a
pure function from a store and its inputs to a `Result` (a value or one of the
exceptions the services throw) and the store afterwards. The clock, new GUIDs,
storage URLs and presigned URLs are inputs. Timestamps are `Instant`s: 100 ns
ticks since the Unix epoch, ordered as the round-trip ("o") strings the
services store are ordered.

Modules, in dependency order:

- `Wrappers`: `Option`, `Result` and the exceptions, named after the .NET types
  the services throw.
- `Text`: the .NET string operations the services use (`Trim`,
  `TrimStart(c)`, ASCII `ToLower`/`ToUpper`, `Contains`, `Split(' ')`,
  `string.Length` in UTF-16 code units,
  `long.TryParse`, number rendering, the unchecked `(int)` cast).
- `Entities`: users, channels, videos, comments, like records, subscriptions,
  notifications, the notification types and the store.
- `Ordering`: LINQ `OrderBy`/`OrderByDescending` as a stable insertion sort,
  `Where`, `Skip`/`Take`, ascending key scans and the page-size rule.
- `CommentStore`, `CommentTree`, `CommentService`, `CommentInvariants`: the
  comment repository, the reply tree walked by a cascade delete, the four
  comment operations, and the counter invariants they keep.
- `CommentLikeService`, `VideoLikeService`: the like toggles and listings.
- `SubscriptionStore`: the subscription repository and `SubscriptionService`.
- `NotificationStore`, `NotificationService`: the notification table (attribute
  items, the two indexes, paging, batch writes) and the service on top of it.
- `Search`, `VideoRepository`, `Paths`, `VideoService`, `UserService`,
  `ChannelService`: search scoring, the video scans and trending, file
  extensions and storage keys, and the edit operations.
- `CognitoAuth`, `Validators`, `ExceptionHandler`, `Controllers`: the phone
  rewrite, the FluentValidation rules, `GlobalExceptionHandler`, and the two
  endpoints with their own parameter rules.

Some behaviour the proofs bring out, as the code is written:

- The cascade delete walks only live children, so its count is the size of the
  live subtree.
- The video's comment count is lowered only when it is at least the number
  removed; otherwise it is left unchanged, not floored.
- The upload fan-out always quotes the title. A directly created upload
  notification quotes it only when it is not empty (`UploadMessageAgrees`).
- Deleting a video compares owner ids trimmed and case-insensitively, while
  editing and re-thumbnailing compare them exactly. So a case-only difference
  may delete a video it may not edit (`DeleteLooserThanEdit`).
- The login check accepts "@@" as an email; registration does not
  (`LoginEmailLooserThanRegister`).
- A phone number the validators accept may end in one newline, because .NET's
  `$` matches before a final newline. The rewrite trims it before the number is
  sent (`PatternTrim`).
- `MarkAllAsReadAsync` marks at most 100 unread notifications per call, so
  the unread count drops by `min(100, unread)` (`MarkAllAsReadCount`).

## Model

| member | source | states |
|---|---|---|
| CommentStore.Get | backend-video-sharing-platform.Infrastructure/Repositories/CommentRepository.cs:17-18 | A point read finds the comment stored under `(videoId, commentId)` and nothing otherwise. |
| CommentStore.Save | backend-video-sharing-platform.Infrastructure/Repositories/CommentRepository.cs:20-24 | Save and update are one upsert: the comment is stored under its own key, and every other item is left as it was. |
| CommentStore.SaveRestores | backend-video-sharing-platform.Infrastructure/Repositories/CommentRepository.cs:20-24 | Saving the old version of an item back over a later one restores the table. |
| CommentStore.Delete | backend-video-sharing-platform.Infrastructure/Repositories/CommentRepository.cs:47-48 | Removes exactly the `(videoId, commentId)` key and leaves every other item unchanged. |
| CommentStore.AllIncludingDeleted | backend-video-sharing-platform.Infrastructure/Repositories/CommentRepository.cs:50-54 | Lists every item of the video, deleted or not, once each and in range-key order. |
| CommentStore.VideoComments | backend-video-sharing-platform.Infrastructure/Repositories/CommentRepository.cs:26-30 | Lists exactly the video's comments not flagged deleted, and is a sub-list of the listing that includes the deleted ones. |
| CommentStore.CountVideoComments | backend-video-sharing-platform.Infrastructure/Repositories/CommentRepository.cs:41-45 | The count of live comments equals the length of the live listing. |
| CommentStore.Replies | backend-video-sharing-platform.Infrastructure/Repositories/CommentRepository.cs:32-39 | Lists exactly the live comments of the video whose parent is the given id, oldest first, with ties kept in range-key order. |
| CommentTree.Subtree | backend-video-sharing-platform.Infrastructure/Services/CommentService.cs:324-346 | The ids the cascade removes: the target, when stored, and everything reachable from it through live children; closed under taking live children. It is empty when the target is absent. |
| CommentTree.SubtreeLeast | backend-video-sharing-platform.Infrastructure/Services/CommentService.cs:324-346 | The walk removes nothing extra: every set that contains the target and is closed under live children contains the whole subtree. |
| CommentTree.DeleteAll | backend-video-sharing-platform.Infrastructure/Services/CommentService.cs:141-144 | Deleting the collected ids one by one removes exactly those keys of the video and keeps every other item unchanged. |
| CommentService.ContentError | backend-video-sharing-platform.Infrastructure/Services/CommentService.cs:34-38 | Content is accepted if and only if it is present, not blank and at most 10000 UTF-16 code units long (`string.Length`); otherwise the error is `BadRequestException`. |
| CommentService.ParentIdOf | backend-video-sharing-platform.Infrastructure/Services/CommentService.cs:48-50 | A missing or whitespace parent id means a root comment; any other id is trimmed and non-empty. |
| CommentService.CreateChecks | backend-video-sharing-platform.Infrastructure/Services/CommentService.cs:34-61 | The checks run in the source's order. Bad content is `BadRequestException`. A missing video, user or parent is `NotFoundException`. A deleted parent is `BadRequestException`. Success returns the parent, if any. |
| CommentService.InsertComment | backend-video-sharing-platform.Infrastructure/Services/CommentService.cs:80-86 | The new comment is stored and its parent, if any, is saved with one more reply. Every other comment is unchanged. |
| CommentService.ChangeCommentCount | backend-video-sharing-platform.Infrastructure/Services/CommentService.cs:88-89 | Only the video's comment count moves, by exactly `delta`; every other video is unchanged. |
| CommentService.Create | backend-video-sharing-platform.Infrastructure/Services/CommentService.cs:28-112 | Fails exactly when the checks fail, and then changes nothing. On success the new comment has the trimmed content, the author's name and avatar, no likes, no replies, is neither edited nor deleted, and has no update time. The parent gains one reply exactly when this is a reply. The video's count rises by one. The message says reply or comment. |
| CommentService.Update | backend-video-sharing-platform.Infrastructure/Services/CommentService.cs:250-302 | It fails exactly when the content is bad, the comment is missing or deleted, the user is not its author, or the trimmed content is unchanged; so the author's real edit of a live comment always succeeds. Errors change nothing. Bad content is `BadRequestException`. A missing comment is `NotFoundException`. A deleted comment is `BadRequestException`. Another user is `ForbiddenException`. Content equal to the trimmed new content is `BadRequestException` when the author edits a live comment. Success stores the trimmed content, marks the comment edited with an update time, and keeps every other field and item. |
| CommentService.UpdateTwiceRejected | backend-video-sharing-platform.Infrastructure/Services/CommentService.cs:277-279 | No-op edits are refused: repeating a successful edit is `BadRequestException` and changes nothing. |
| CommentService.SortOrderOf | backend-video-sharing-platform.Infrastructure/Services/CommentService.cs:208-213 | "popular" and "oldest" are recognised in any case; anything else means most recent first. |
| CommentService.RootKeyOrder | backend-video-sharing-platform.Infrastructure/Services/CommentService.cs:208-213 | The sort key gives the promised order. "popular" is most likes first, then newest. "oldest" is oldest first. Otherwise newest first. |
| CommentService.Roots | backend-video-sharing-platform.Infrastructure/Services/CommentService.cs:189-191 | Lists exactly the video's live comments without a parent. |
| CommentService.ReplyList | backend-video-sharing-platform.Infrastructure/Services/CommentService.cs:189-191 | Lists exactly the video's live comments with a parent. |
| CommentService.RootsAndReplies | backend-video-sharing-platform.Infrastructure/Services/CommentService.cs:240-246 | Roots and replies partition the live comments, so their counts add up to the video's live count. |
| CommentService.SortedRoots | backend-video-sharing-platform.Infrastructure/Services/CommentService.cs:208-213 | A permutation of the roots, sorted by the requested key. |
| CommentService.RootPage | backend-video-sharing-platform.Infrastructure/Services/CommentService.cs:215-218 | The page has exactly `min(limit, roots - offset)` comments, clamped at zero. It holds only roots and keeps the requested order. |
| CommentService.InlineReplies | backend-video-sharing-platform.Infrastructure/Services/CommentService.cs:225-235 | At most 20 replies are inlined, all replying to that root, oldest first. |
| CommentService.ThreadOf | backend-video-sharing-platform.Infrastructure/Services/CommentService.cs:225-235 | Replies are inlined exactly when they were asked for and the root counts at least one reply. |
| CommentService.ReplyPage | backend-video-sharing-platform.Infrastructure/Services/CommentService.cs:193-206 | With a parent id, the listing is exactly that comment's live replies, oldest first, with nothing inlined; all three counts equal the list's length. |
| CommentService.ThreadPage | backend-video-sharing-platform.Infrastructure/Services/CommentService.cs:208-246 | The listing is one page of the sorted roots, each threaded by `ThreadOf`. The total counts every live comment and equals roots plus replies, whatever the page. |
| CommentService.GetComments | backend-video-sharing-platform.Infrastructure/Services/CommentService.cs:181-248 | Fails, with `NotFoundException`, exactly when the video is missing. A non-empty parent id gives the replies listing; otherwise the threaded page. |
| CommentService.InlineRepliesAreFirstReplies | backend-video-sharing-platform.Infrastructure/Services/CommentService.cs:225-235 | The replies inlined under a root are the first 20 of the repository's replies listing for it. |
| CommentService.DeleteMessage | backend-video-sharing-platform.Infrastructure/Services/CommentService.cs:175-177 | The plain message is used exactly when no reply was removed. Otherwise the number of replies removed can be read back from the message. |
| CommentService.DeleteMessageNamesCount | backend-video-sharing-platform.Infrastructure/Services/CommentService.cs:175-177 | Two deletes give the same message only when they removed the same number of replies, or none. |
| CommentService.DecrementParent | backend-video-sharing-platform.Infrastructure/Services/CommentService.cs:147-155 | The surviving parent loses one reply only when its count is positive; nothing else changes. |
| CommentService.RemoveThread | backend-video-sharing-platform.Infrastructure/Services/CommentService.cs:141-155 | Exactly the listed comments of the video disappear, and the parent, if any, is decremented as above. |
| CommentService.DeleteChecks | backend-video-sharing-platform.Infrastructure/Services/CommentService.cs:120-134 | A missing comment or video is `NotFoundException`. The check passes if and only if the caller wrote the comment or owns the video; otherwise `ForbiddenException`. |
| CommentService.Delete | backend-video-sharing-platform.Infrastructure/Services/CommentService.cs:114-179 | Fails exactly when the checks fail, and then changes nothing. On success it removes the whole subtree and reports its size. The parent is decremented. The video's count drops by that size only when the count is at least the size. |
| CommentInvariants.SubtreeIsCut | backend-video-sharing-platform.Infrastructure/Services/CommentService.cs:324-346 | When every parent is stored and older than its replies, the subtree of a stored comment can be cut out. It holds the target and every reply of its members. Each other member replies to a member. The target's parent lies outside it. |
| CommentInvariants.RemoveThreadKeepsThreads | backend-video-sharing-platform.Infrastructure/Services/CommentService.cs:141-155 | Removing such a cut and decrementing the target's parent keeps the threads consistent. No comment is flagged deleted. Every parent is stored and older. Every reply count equals the comment's number of live replies. |
| CommentInvariants.RemovedCounts | backend-video-sharing-platform.Infrastructure/Services/CommentService.cs:158-162 | Removing comments of one video, and lowering its count by their number when the count is at least that, keeps every video's count equal to its number of stored comments. |
| CommentInvariants.DeleteKeepsConsistent | backend-video-sharing-platform.Infrastructure/Services/CommentService.cs:114-179 | A delete, successful or not, keeps the threads consistent and every video's comment count exact. |
| CommentInvariants.InsertKeepsThreads | backend-video-sharing-platform.Infrastructure/Services/CommentService.cs:63-86 | Inserting a fresh, newer comment and bumping its parent keeps the threads consistent. |
| CommentInvariants.InsertedCounts | backend-video-sharing-platform.Infrastructure/Services/CommentService.cs:80-89 | Adding one comment and one to its video's count keeps every video's count exact. |
| CommentInvariants.CreateKeepsConsistent | backend-video-sharing-platform.Infrastructure/Services/CommentService.cs:28-112 | A create keeps the threads consistent and the comment counts exact, given an unused id and a clock later than every stored comment. |
| CommentInvariants.DeleteUndoesCreate | backend-video-sharing-platform.Infrastructure/Services/CommentService.cs:114-179 | The author deleting the comment they just posted gets a count of one and "Comment deleted successfully", and the store is exactly as it was before the create. |
| CommentInvariants.DeleteSingle | backend-video-sharing-platform.Infrastructure/Services/CommentService.cs:136-177 | Deleting a permitted comment with no replies removes that one comment and reports a count of one with "Comment deleted successfully". The video's count drops by one when it is positive. |
| CommentLikeService.CheckLiked | backend-video-sharing-platform.Infrastructure/Services/CommentLikeService.cs:103-110 | True if and only if the user's like record for the comment exists; a liked comment has a positive like count. |
| CommentLikeService.GetLikeCount | backend-video-sharing-platform.Infrastructure/Services/CommentLikeService.cs:93-101 | Counts the comment's like records; zero exactly when nobody likes it. |
| CommentLikeService.GetLikeCountStep | backend-video-sharing-platform.Infrastructure/Repositories/CommentLikeRepository.cs:19-29 | Adding a new record counts one more like, and deleting one counts one fewer. |
| CommentLikeService.ToggleRecord | backend-video-sharing-platform.Infrastructure/Services/CommentLikeService.cs:32-42 | The like state flips, the record count moves by one in the matching direction, and no other record changes. |
| CommentLikeService.Counted | backend-video-sharing-platform.Infrastructure/Services/CommentLikeService.cs:79-80 | A like adds one. An unlike subtracts one only when the count is positive. |
| NotificationService.NotifyOwner | backend-video-sharing-platform.Infrastructure/Services/CommentLikeService.cs:48-65 | The notification step of both like toggles. Only a like of content someone else owns asks for a notification. Only the notification table can change, and it changes only when that notification was created, so a failure is swallowed. |
| CommentLikeService.ToggleLike | backend-video-sharing-platform.Infrastructure/Services/CommentLikeService.cs:26-91 | Fails, with `NotFoundException` and no change, exactly when the comment is missing. Otherwise the response reports the flipped state and the floored new count, and the store is toggled and then notified. |
| CommentLikeService.ToggleFlipsLiked | backend-video-sharing-platform.Infrastructure/Services/CommentLikeService.cs:67-89 | After a toggle the stored like state is the one the response reports, the opposite of the state before. |
| CommentLikeService.ToggleTracksCount | backend-video-sharing-platform.Infrastructure/Services/CommentLikeService.cs:44-89 | When the comment's counter equals its number of like records, it still does after a toggle, and the response reports that number. |
| CommentLikeService.LikeThenUnlikeRestores | backend-video-sharing-platform.Infrastructure/Services/CommentLikeService.cs:34-89 | A like followed by an unlike from the same user restores the like records and the comments, given a counter that was not negative. |
| VideoLikeService.ToggleRecord | backend-video-sharing-platform.Infrastructure/Services/VideoLikeService.cs:47-76 | The like state flips. A new record carries the time of the like, and no other record changes. |
| VideoLikeService.ToggleLike | backend-video-sharing-platform.Infrastructure/Services/VideoLikeService.cs:37-117 | Fails, with `NotFoundException` and no change, exactly when the video is missing. Otherwise it reports the flipped state, the floored new count after the 32-bit cast, and the matching message. |
| VideoLikeService.GetLikeStatus | backend-video-sharing-platform.Infrastructure/Services/VideoLikeService.cs:119-133 | A missing video is `NotFoundException`. Otherwise liked is true if and only if the record exists, and the total is the count cast to 32 bits. |
| VideoLikeService.ToggleThenStatus | backend-video-sharing-platform.Infrastructure/Services/VideoLikeService.cs:109-131 | After a toggle the status reports the state and total the toggle announced, the opposite of the state before. |
| VideoLikeService.LikeThenUnlikeRestores | backend-video-sharing-platform.Infrastructure/Services/VideoLikeService.cs:47-80 | A like followed by an unlike restores the like records and the videos, given a counter that was not negative. |
| VideoLikeService.LikedDto | backend-video-sharing-platform.Infrastructure/Services/VideoLikeService.cs:155-188 | A listed like carries the video's fields and the time of the like. The channel name is "Unknown" when the channel is gone. The uploader's name and avatar are "" when the id is empty or the user is gone. |
| VideoLikeService.UserLikes | backend-video-sharing-platform.Infrastructure/Repositories/VideoLikeRepository.cs:26-30 | Lists exactly the user's like records, in ascending video id. |
| VideoLikeService.Listed | backend-video-sharing-platform.Infrastructure/Services/VideoLikeService.cs:148-190 | Likes whose video is missing are skipped. Every like of an existing video is listed, and nothing else. |
| VideoLikeService.GetUserLikedVideos | backend-video-sharing-platform.Infrastructure/Services/VideoLikeService.cs:135-197 | Lists exactly the user's likes of existing videos, each video once, latest like first; the total is the list's length, so it is the number of such likes. |
| VideoLikeService.LikedVideoListed | backend-video-sharing-platform.Infrastructure/Services/VideoLikeService.cs:68-80 | A new like shows up in the user's liked videos, stamped with the time of the like. |
| Text.WrapInt32 | backend-video-sharing-platform.Infrastructure/Services/VideoLikeService.cs:62 | The unchecked `(int)` cast: the result is in the 32-bit range, agrees with the input modulo 2^32, and is the input itself when that fits. |
| Text.Utf16Length | backend-video-sharing-platform.Infrastructure/Services/CommentService.cs:37 | `string.Length` counts UTF-16 code units, so the length lies between the character count and twice it. |
| Text.Utf16LengthBmp | backend-video-sharing-platform.Infrastructure/Services/CommentService.cs:37 | The length equals the character count exactly when every character lies in the Basic Multilingual Plane. |
| Text.Utf16LengthAppend | backend-video-sharing-platform.Infrastructure/Services/CommentService.cs:37 | The length of a concatenation is the sum of the lengths. |
| SubscriptionStore.ChannelSubscribers | backend-video-sharing-platform.Infrastructure/Repositories/SubscriptionRepository.cs:47-56 | The filtered scan returns every stored subscription to the channel and nothing else, one per subscriber. |
| SubscriptionStore.SubscriberIdsStored | backend-video-sharing-platform.Infrastructure/Repositories/SubscriptionRepository.cs:47-56 | A user is among the channel's subscribers if and only if their record is stored. |
| SubscriptionStore.UserSubscriptions | backend-video-sharing-platform.Infrastructure/Repositories/SubscriptionRepository.cs:36-45 | The partition query returns every stored subscription of the user and nothing else, one per channel. |
| SubscriptionStore.ChannelIdsStored | backend-video-sharing-platform.Infrastructure/Repositories/SubscriptionRepository.cs:36-45 | A channel is among the user's subscriptions if and only if the record is stored. |
| SubscriptionStore.CountSubscribers | backend-video-sharing-platform.Infrastructure/Repositories/SubscriptionRepository.cs:23-32 | The count equals the length of the channel's subscriber scan. |
| SubscriptionStore.AddSubscriber | backend-video-sharing-platform.Infrastructure/Repositories/SubscriptionRepository.cs:20-21 | Saving a new subscription adds its user to that channel's subscribers, who did not hold one before, and changes no other channel's subscribers. |
| SubscriptionStore.RemoveSubscriber | backend-video-sharing-platform.Infrastructure/Repositories/SubscriptionRepository.cs:33-34 | Deleting a stored subscription removes its user from that channel's subscribers only. |
| SubscriptionStore.SubscribeChecks | backend-video-sharing-platform.Infrastructure/Services/SubscriptionService.cs:92-101 | A missing channel is `NotFoundException`. Subscribing to one's own channel, or twice, is `BadRequestException`. The checks pass in exactly the remaining case. |
| SubscriptionStore.Subscribe | backend-video-sharing-platform.Infrastructure/Services/SubscriptionService.cs:90-120 | Errors change nothing. Success stores the subscription with the current time and saves the channel with one more subscriber. |
| SubscriptionStore.UnsubscribeChecks | backend-video-sharing-platform.Infrastructure/Services/SubscriptionService.cs:124-129 | A missing channel is `NotFoundException`; a user without a subscription is `BadRequestException`. |
| SubscriptionStore.Unsubscribe | backend-video-sharing-platform.Infrastructure/Services/SubscriptionService.cs:122-142 | Errors change nothing. Success deletes the record and lowers the counter only when it is positive. |
| SubscriptionStore.SubscribeKeepsCounts | backend-video-sharing-platform.Infrastructure/Services/SubscriptionService.cs:103-113 | When every channel's counter equals its number of subscribers, a subscribe keeps that true. |
| SubscriptionStore.UnsubscribeKeepsCounts | backend-video-sharing-platform.Infrastructure/Services/SubscriptionService.cs:130-135 | An unsubscribe keeps the counters exact: the leaving subscriber was counted, so the counter was positive. |
| SubscriptionStore.SubscribeThenUnsubscribe | backend-video-sharing-platform.Infrastructure/Services/SubscriptionService.cs:90-142 | Unsubscribing right after a successful subscribe restores the store and reports the original count. |
| SubscriptionStore.SubscriberRowsCount | backend-video-sharing-platform.Infrastructure/Services/SubscriptionService.cs:38-51 | One row per subscription whose user exists; subscriptions of missing users are skipped. |
| SubscriptionStore.GetChannelSubscribers | backend-video-sharing-platform.Infrastructure/Services/SubscriptionService.cs:28-59 | A missing channel is `NotFoundException`. Otherwise the rows are a permutation of the subscribers whose user exists, newest subscription first; the total is the list's length. |
| SubscriptionStore.ChannelSubscribersListed | backend-video-sharing-platform.Infrastructure/Services/SubscriptionService.cs:34-57 | The listed users are exactly the channel's subscribers that are stored users. |
| SubscriptionStore.GetMySubscriptions | backend-video-sharing-platform.Infrastructure/Services/SubscriptionService.cs:61-88 | The rows are a permutation of the user's subscribed channels that exist, newest subscription first; the total is the list's length. |
| SubscriptionStore.MySubscriptionsListed | backend-video-sharing-platform.Infrastructure/Services/SubscriptionService.cs:63-86 | A channel is listed if and only if it exists and the user subscribes to it. |
| NotificationStore.Decode | backend-video-sharing-platform.Infrastructure/Repositories/NotificationRepository.cs:238-257 | The key fields come from the item's key. A missing id or message decodes to "", a missing video or comment id to null, and a missing `isRead` to "false". A missing or unparseable `ttl` is 0, and the `ttl` always fits a `long`. |
| NotificationStore.DecodeEmpty | backend-video-sharing-platform.Infrastructure/Repositories/NotificationRepository.cs:242-255 | An item with every attribute missing decodes to exactly the defaults. |
| NotificationStore.Encode | backend-video-sharing-platform.Infrastructure/Repositories/NotificationRepository.cs:76-79 | The saved item holds an attribute exactly for each property that is written (no nulls; `ttl` as a number), with that value. |
| NotificationStore.DecodeEncode | backend-video-sharing-platform.Infrastructure/Repositories/NotificationRepository.cs:238-257 | Decoding what was saved gives back the notification, for every `ttl` that fits a `long`. |
| NotificationStore.ResaveKeepsView | backend-video-sharing-platform.Infrastructure/Repositories/NotificationRepository.cs:84-87 | Saving a loaded notification back leaves what later loads see unchanged. |
| NotificationStore.Load | backend-video-sharing-platform.Infrastructure/Repositories/NotificationRepository.cs:68-71 | A point read finds a notification under the key exactly when an item is stored there. |
| NotificationStore.Save | backend-video-sharing-platform.Infrastructure/Repositories/NotificationRepository.cs:76-87 | Save and update are one upsert under the notification's key; every other item is unchanged, and the saved notification loads back. |
| NotificationStore.Remove | backend-video-sharing-platform.Infrastructure/Repositories/NotificationRepository.cs:92-95 | Removes one key and nothing else. |
| NotificationStore.UserNotifications | backend-video-sharing-platform.Infrastructure/Repositories/NotificationRepository.cs:100-128 | The store rejects a limit below one and a start key of another user. Otherwise the page is the user's notifications strictly older than the start key, newest first, and `min(limit, remaining)` long. It reports a last key exactly when the page is full. |
| NotificationStore.ContinueFrom | backend-video-sharing-platform.Infrastructure/Repositories/NotificationRepository.cs:114-127 | Continuing from the reported last key reads exactly what the previous page left: nothing skipped, nothing twice. |
| NotificationStore.SaveUnreadKeys | backend-video-sharing-platform.Infrastructure/Repositories/NotificationRepository.cs:139-143 | Saving an unread notification adds its key to its recipient's unread keys and changes no one else's. |
| NotificationStore.UnreadNotifications | backend-video-sharing-platform.Infrastructure/Repositories/NotificationRepository.cs:133-158 | A limit below one is rejected. Otherwise the result is `min(limit, unread)` of the user's items whose `isRead` is "false", each loaded from its key. |
| NotificationStore.CountUnread | backend-video-sharing-platform.Infrastructure/Repositories/NotificationRepository.cs:163-180 | Counts the user's items whose `isRead` is "false". |
| NotificationStore.UnreadListingMatchesCount | backend-video-sharing-platform.Infrastructure/Repositories/NotificationRepository.cs:133-180 | The unread listing and the unread count use the same condition. The listing has `min(limit, count)` items, and it has all of them exactly when the limit reaches the count. |
| NotificationStore.MarkAllAsRead | backend-video-sharing-platform.Infrastructure/Repositories/NotificationRepository.cs:185-202 | Only the marked items change. Each is saved back with `isRead` "true". |
| NotificationStore.MarkAllAsReadMarks | backend-video-sharing-platform.Infrastructure/Repositories/NotificationRepository.cs:188-195 | Each marked notification was unread and is read afterwards, and otherwise loads as it was. |
| NotificationStore.MarkAllUnreadKeys | backend-video-sharing-platform.Infrastructure/Repositories/NotificationRepository.cs:188-195 | The marked keys are among the user's unread ones, and afterwards the user's unread keys are the others. |
| NotificationStore.MarkAllAsReadCount | backend-video-sharing-platform.Infrastructure/Repositories/NotificationRepository.cs:185-195 | One call lowers the user's unread count by `min(100, unread)`. |
| NotificationStore.MarkAllAsReadOthers | backend-video-sharing-platform.Infrastructure/Repositories/NotificationRepository.cs:185-195 | Every other recipient's unread notifications and count are unchanged. |
| NotificationStore.ByNotificationId | backend-video-sharing-platform.Infrastructure/Repositories/NotificationRepository.cs:29-49 | Finds nothing exactly when no item has the id. Otherwise it finds an item that has it, as a point read of that key would. |
| NotificationStore.ByNotificationIdAfterSave | backend-video-sharing-platform.Infrastructure/Repositories/NotificationRepository.cs:84-87 | After the found notification is saved back with its id unchanged, the lookup finds the saved version. |
| NotificationStore.SaveFreshId | backend-video-sharing-platform.Infrastructure/Repositories/NotificationRepository.cs:76-79 | Saving a notification under an unused id makes it the one item the id lookup finds. |
| NotificationStore.ByNotificationIdUnique | backend-video-sharing-platform.Infrastructure/Repositories/NotificationRepository.cs:29-49 | With unique ids the lookup finds the one notification carrying the id. |
| NotificationStore.DeleteByNotificationId | backend-video-sharing-platform.Infrastructure/Repositories/NotificationRepository.cs:51-64 | An unknown id changes nothing. Otherwise exactly the found item's key is removed. |
| NotificationStore.DeleteByNotificationIdRemovesIt | backend-video-sharing-platform.Infrastructure/Repositories/NotificationRepository.cs:51-64 | With unique ids, afterwards no item has the id and ids stay unique. The table shrinks by one exactly when the id was known. |
| NotificationStore.Chunks | backend-video-sharing-platform.Infrastructure/Repositories/NotificationRepository.cs:213-217 | `ceil(n/25)` batches, each of 1 to 25 items, which joined in order give back the list. |
| NotificationStore.ChunkAt | backend-video-sharing-platform.Infrastructure/Repositories/NotificationRepository.cs:215-217 | Batch `i` is `Skip(25*i).Take(25)` of the list. |
| NotificationStore.SaveAllWrites | backend-video-sharing-platform.Infrastructure/Repositories/NotificationRepository.cs:220-225 | The last write to a key is what the key holds afterwards. |
| NotificationStore.SaveAllKeeps | backend-video-sharing-platform.Infrastructure/Repositories/NotificationRepository.cs:220-225 | A key no listed notification is written under is left alone. |
| NotificationStore.BatchSave | backend-video-sharing-platform.Infrastructure/Repositories/NotificationRepository.cs:207-233 | An empty list issues no request and changes nothing. Otherwise the requests are the batches above, and the table is as if every notification were put in list order. |
| NotificationService.Message | backend-video-sharing-platform.Infrastructure/Services/NotificationService.cs:75-127 | The message starts with the actor's name and the type's action. It ends in the quoted title exactly when the title is shown. An unknown type reads "interacted with your content". |
| NotificationService.MessageIgnoresHiddenTitle | backend-video-sharing-platform.Infrastructure/Services/NotificationService.cs:75-127 | A title that is not shown (an empty title, or a comment type) does not change the message. |
| NotificationService.MessageTitleInjective | backend-video-sharing-platform.Infrastructure/Services/NotificationService.cs:75-127 | A shown title can be read back off the message: two shown titles give one message only when they are equal. |
| NotificationService.UploadMessageAgrees | backend-video-sharing-platform.Infrastructure/Services/NotificationService.cs:223 | The fan-out's upload message equals the one a direct upload notification composes exactly when the title is not empty. |
| NotificationService.UploadMessage | backend-video-sharing-platform.Infrastructure/Services/NotificationService.cs:223 | The fan-out message starts with the owner's name and the upload action, and ends with the quoted title, whatever the title. |
| NotificationService.RelatedVideo | backend-video-sharing-platform.Infrastructure/Services/NotificationService.cs:77-126 | A video type without a video id, or with an empty one, fails. Only video types carry the title, present exactly when the video exists. Comment types take only the thumbnail, and only for a non-empty id. An unknown type looks nothing up. |
| NotificationService.Expiry | backend-video-sharing-platform.Infrastructure/Services/NotificationService.cs:146 | The expiry is the Unix second 30 days after creation. It fails exactly when that is past the last representable instant. |
| NotificationService.Built | backend-video-sharing-platform.Infrastructure/Services/NotificationService.cs:129-147 | The built notification is unread and keyed by recipient and creation time. It carries the new id, the request's fields, the actor's name and avatar, the related video's title and thumbnail, the composed message and the 30-day expiry. |
| NotificationService.CreateNotification | backend-video-sharing-platform.Infrastructure/Services/NotificationService.cs:44-165 | Notifying oneself answers unsuccessfully and stores nothing. It fails exactly when, for two different users, the actor or recipient is missing or the notification cannot be built. A missing actor or recipient is `NotFoundException`. Otherwise exactly the built notification is saved. Only the notification table ever changes. |
| NotificationService.CreateStoresIt | backend-video-sharing-platform.Infrastructure/Services/NotificationService.cs:129-150 | After a successful create the notification loads under its key and the fresh id finds it. The recipient's unread count grows by one unless an unread item already had that key. |
| NotificationService.SaveNew | backend-video-sharing-platform.Infrastructure/Services/NotificationService.cs:150 | Saving an unread notification under an unused id makes it load under its key and the one the id finds. Its recipient's unread count grows by one unless an unread item already had that key. |
| NotificationService.Recipients | backend-video-sharing-platform.Infrastructure/Services/NotificationService.cs:208-212 | Every subscription except the channel owner's own. |
| NotificationService.Audience | backend-video-sharing-platform.Infrastructure/Services/NotificationService.cs:174-212 | For a stored channel, exactly the users subscribed to it other than its owner. For a missing channel, nobody. |
| NotificationService.RecipientsAreAudience | backend-video-sharing-platform.Infrastructure/Services/NotificationService.cs:206-229 | The fan-out reaches exactly the channel's subscribers other than its owner, once each. |
| NotificationService.NotifySubscribers | backend-video-sharing-platform.Infrastructure/Services/NotificationService.cs:170-243 | Does nothing unless the channel, the video and the owner exist and someone other than the owner subscribes. Otherwise it adds exactly one key per audience member at the creation time. Only the notification table changes. |
| NotificationService.DeliverWrites | backend-video-sharing-platform.Infrastructure/Services/NotificationService.cs:211-229 | Each recipient's key holds the notification built for it: no two recipients share a key. |
| NotificationService.Deliver | backend-video-sharing-platform.Infrastructure/Services/NotificationService.cs:206-234 | Fails exactly when the expiry cannot be computed. Otherwise it adds one key per recipient, at the creation time, and no other key. |
| NotificationService.NotifySubscribersDelivers | backend-video-sharing-platform.Infrastructure/Services/NotificationService.cs:206-234 | Every audience member gets an unread NEW_VIDEO_UPLOADED notification. Its actor is the channel's owner and it carries the video and the upload message. |
| NotificationService.NotifySubscribersKeeps | backend-video-sharing-platform.Infrastructure/Services/NotificationService.cs:206-234 | No item changes except the audience's at the creation time. The owner is never notified of their own upload. |
| NotificationService.DecodeEncodeCursor | backend-video-sharing-platform.Infrastructure/Services/NotificationService.cs:427-443 | Every key survives the cursor round trip. |
| NotificationService.Page | backend-video-sharing-platform.Infrastructure/Services/NotificationService.cs:287-309 | The items are mapped in order, and the total is the page length. The unread count is the user's. A cursor is given exactly when the store reported a last key, and it decodes to that key. |
| NotificationService.GetUserNotifications | backend-video-sharing-platform.Infrastructure/Services/NotificationService.cs:247-310 | The limit is clamped to 1..100. Unread only: `min(limit, unread)` unread notifications and never a cursor. Otherwise: the newest ones older than the cursor, and an error exactly when the cursor names another user's key. The total is the page length and the unread count is the user's. |
| NotificationService.UnreadableCursorIgnored | backend-video-sharing-platform.Infrastructure/Services/NotificationService.cs:266-277 | A cursor that does not decode is treated as absent. |
| NotificationService.NextCursorResumes | backend-video-sharing-platform.Infrastructure/Services/NotificationService.cs:278-306 | Following a page's cursor is accepted, and the next page starts right after it. |
| NotificationService.GetUnreadCount | backend-video-sharing-platform.Infrastructure/Services/NotificationService.cs:315-318 | The count of unread notifications, the same count every unread listing reports. |
| NotificationService.MarkAsRead | backend-video-sharing-platform.Infrastructure/Services/NotificationService.cs:323-366 | It fails exactly when the id is unknown or the notification is another user's: an unknown id is `NotFoundException`, and another user's notification is `UnauthorizedAccessException`; errors change nothing. An already read notification is left alone. Otherwise it is saved back with `isRead` "true". |
| NotificationService.MarkAsReadIdempotent | backend-video-sharing-platform.Infrastructure/Services/NotificationService.cs:339-352 | After a successful mark the notification is read, and repeating the request answers "already marked" and writes nothing. |
| NotificationService.MarkAllRead | backend-video-sharing-platform.Infrastructure/Services/NotificationService.cs:371-382 | Always succeeds, and the table is the store's `MarkAllAsRead`: the same keys, the picked unread items saved back read, every other item unchanged. The user's unread count drops by `min(100, unread)`, and no other user's unread notifications change. |
| NotificationService.DeleteNotification | backend-video-sharing-platform.Infrastructure/Services/NotificationService.cs:387-420 | It fails exactly when the id is unknown or the notification is another user's: an unknown id is `NotFoundException`, and another user's notification is `UnauthorizedAccessException`; errors change nothing. Otherwise exactly the found item is removed. |
| NotificationService.DeleteTwiceNotFound | backend-video-sharing-platform.Infrastructure/Services/NotificationService.cs:392-406 | With unique ids, deleting the same notification again is `NotFoundException`. |
| Search.WordsScore | backend-video-sharing-platform.Infrastructure/Services/SearchService.cs:181-187 | The per-word points are at most 15 per word. They are positive exactly when some query word occurs in the title or the description. |
| Search.Score | backend-video-sharing-platform.Infrastructure/Services/SearchService.cs:162-191 | The score is between 0 and 175 plus 15 per word. It is at least 150 when the title is the query, at least 50 when the title contains it, and at least 25 when the description does. |
| Search.Relevance | backend-video-sharing-platform.Infrastructure/Services/SearchService.cs:162-166 | The lower-cased score is never negative. It is at least 50 when the lower-cased title contains the query. |
| Search.RelevantIffWordOccurs | backend-video-sharing-platform.Infrastructure/Services/SearchService.cs:162-191 | For a trimmed, non-empty query, a video scores above zero exactly when one of the query's words occurs in its title or description. The whole-query points never decide inclusion on their own. |
| Search.VideoResult | backend-video-sharing-platform.Infrastructure/Services/SearchService.cs:110-123 | The hit carries the video's fields and its channel's name. |
| Search.MatchingVideoIds | backend-video-sharing-platform.Infrastructure/Services/SearchService.cs:97-108 | A stored video is found exactly when its upper-cased status is COMPLETE and its relevance is positive. |
| Search.FoundVideos | backend-video-sharing-platform.Infrastructure/Services/SearchService.cs:91-126 | The scan lists every found video once and nothing else. |
| Search.SearchVideos | backend-video-sharing-platform.Infrastructure/Services/SearchService.cs:128-130 | The same hits reordered, with those whose lower-cased title holds the query first. |
| Search.SortVideos | backend-video-sharing-platform.Infrastructure/Services/SearchService.cs:49-54 | The result is a permutation of the input. "views" sorts it most viewed first and "date" newest first (any case). Any other key keeps the order. |
| Search.ChannelResult | backend-video-sharing-platform.Infrastructure/Services/SearchService.cs:145-155 | The hit carries the channel's fields, and its video count is the number of the channel's stored videos. |
| Search.MatchingChannelIds | backend-video-sharing-platform.Infrastructure/Services/SearchService.cs:140-143 | A stored channel is found exactly when its lower-cased name contains the query. |
| Search.FoundChannels | backend-video-sharing-platform.Infrastructure/Services/SearchService.cs:133-157 | The scan lists every found channel once and nothing else. |
| Search.SearchChannels | backend-video-sharing-platform.Infrastructure/Services/SearchService.cs:159 | The found channels, permuted so that those with the most subscribers come first. |
| Search.SortChannels | backend-video-sharing-platform.Infrastructure/Services/SearchService.cs:63-68 | The result is a permutation of the input. "subscribers" sorts it by subscribers and "date" newest first. Any other key keeps the order. |
| Search.SubscribersSortKeepsOrder | backend-video-sharing-platform.Infrastructure/Services/SearchService.cs:63-68 | Sorting the channel hits by subscribers again changes nothing. |
| Search.Prepared | backend-video-sharing-platform.Infrastructure/Services/SearchService.cs:25-27 | The trimmed, lower-cased query is empty exactly when the query is blank, and it never starts with white space. |
| Search.AllVideoHits | backend-video-sharing-platform.Infrastructure/Services/SearchService.cs:44-55 | When videos are asked for, every found video exactly once; otherwise none. |
| Search.AllChannelHits | backend-video-sharing-platform.Infrastructure/Services/SearchService.cs:58-69 | When channels are asked for, every found channel exactly once; otherwise none. |
| Search.SearchAll | backend-video-sharing-platform.Infrastructure/Services/SearchService.cs:23-89 | A blank query answers empty lists and zero totals. Otherwise each total counts every hit of a kind asked for, and the overall total is their sum. Each list is its own page of its sorted hits, no longer than the page size, and only found items appear. |
| VideoRepository.AllVideos | backend-video-sharing-platform.Infrastructure/Repositories/VideoRepository.cs:18-22 | The full scan lists every stored video exactly once and nothing else. |
| VideoRepository.VideosByChannel | backend-video-sharing-platform.Infrastructure/Repositories/VideoRepository.cs:24-32 | Exactly the stored videos of the channel, each once, so the list is as long as the channel has videos. |
| VideoRepository.Trending | backend-video-sharing-platform.Infrastructure/Repositories/VideoRepository.cs:74-84 | `min(max(limit, 0), n)` stored videos, most viewed first. They are the first ones of the scan sorted stably by views. |
| VideoRepository.TrendingIsTop | backend-video-sharing-platform.Infrastructure/Repositories/VideoRepository.cs:74-84 | A stored video left out has no more views than any video returned. |
| VideoRepository.UpdateThumbnail | backend-video-sharing-platform.Infrastructure/Repositories/VideoRepository.cs:34-41 | Only the video's thumbnail URL changes. A missing video leaves the table as it was. |
| VideoRepository.UpdateThumbnailIdempotent | backend-video-sharing-platform.Infrastructure/Repositories/VideoRepository.cs:34-41 | Setting the same thumbnail twice is setting it once. |
| VideoRepository.OwnedChannelIds | backend-video-sharing-platform.Infrastructure/Repositories/ChannelRepository.cs:19-23 | Exactly the ids of the channels whose owner is the user. |
| VideoRepository.ChannelOfUser | backend-video-sharing-platform.Infrastructure/Repositories/ChannelRepository.cs:17-27 | A channel is found exactly when the user owns one. The one found is stored, owned by the user, and has the least id among theirs. |
| VideoRepository.ChannelOfUserKeepsOwner | backend-video-sharing-platform.Infrastructure/Repositories/ChannelRepository.cs:17-27 | Which channel is the user's depends only on the channels' ids and owners. |
| Paths.Extension | backend-video-sharing-platform.Infrastructure/Services/UserService.cs:83 | The extension is empty, or a '.' followed by at least one character and no '.' or '/', ending the path. A path with no '.' or '/' has none. |
| Paths.ExtensionOfSuffix | backend-video-sharing-platform.Infrastructure/Services/VideoService.cs:201-209 | An extension appended to any path is the extension found. |
| ChannelService.UpdateChannelName | backend-video-sharing-platform.Infrastructure/Services/ChannelService.cs:23-41 | Reports a change exactly when the user has a channel and its name differs from the new one. Only then is that channel saved with the new name. Otherwise nothing changes. |
| ChannelService.RenameTakesEffect | backend-video-sharing-platform.Infrastructure/Services/ChannelService.cs:23-41 | After a rename the user's channel has the new name, and repeating the rename reports no change. |
| ChannelService.UpdateDescription | backend-video-sharing-platform.Infrastructure/Services/ChannelService.cs:70-84 | Succeeds exactly when a channel is stored under the user's id. Only that channel's description changes. A failure changes nothing. |
| ChannelService.DescriptionTargetsOwnChannel | backend-video-sharing-platform.Infrastructure/Services/ChannelService.cs:70-84 | Suppose channels are stored under their owners' ids. Then the description update succeeds exactly when the user has a channel. It updates the same channel the rename targets, and the invariant is kept. |
| UserService.Merge | backend-video-sharing-platform.Infrastructure/Services/UserService.cs:33-56 | A field takes the requested value when one is given and not empty, and keeps its value otherwise. |
| UserService.UpdateUser | backend-video-sharing-platform.Infrastructure/Services/UserService.cs:22-65 | An unknown user answers false and changes nothing. Otherwise the answer is true exactly when a field changed, and the merged user is saved only then. A changed name also renames the user's channel. Nothing else changes. |
| UserService.UpdateUserIdempotent | backend-video-sharing-platform.Infrastructure/Services/UserService.cs:22-65 | Repeating an update answers false and changes nothing. |
| UserService.NameReachesChannel | backend-video-sharing-platform.Infrastructure/Services/UserService.cs:36-40 | A new name given to a user who owns a channel becomes the channel's name. |
| UserService.AvatarExtension | backend-video-sharing-platform.Infrastructure/Services/UserService.cs:83-85 | The file name's extension, or ".png" or ".jpg" by content type when there is none. The result is always a dot and a plain name. |
| UserService.AvatarKey | backend-video-sharing-platform.Infrastructure/Services/UserService.cs:87 | The key lies in the user's avatar folder and ends in the chosen extension. |
| UserService.UploadAvatar | backend-video-sharing-platform.Infrastructure/Services/UserService.cs:66-97 | An unknown user gets no answer and nothing changes. A content type other than JPEG or PNG is `InvalidOperationException`. Otherwise only the user's avatar URL changes, to the uploaded key's URL, and that URL is returned. |
| UserService.UploadAvatarTakesEffect | backend-video-sharing-platform.Infrastructure/Services/UserService.cs:66-97 | After an accepted upload the user's stored avatar is the returned URL, nothing else about the user changes, and the same upload again answers the same and changes nothing. |
| VideoService.DeleteVideo | backend-video-sharing-platform.Infrastructure/Services/VideoService.cs:45-78 | A missing video is `NotFoundException`. A caller whose trimmed id does not equal the owner's, ignoring case, is `ForbiddenException`. Otherwise exactly that video is removed and nothing else changes. |
| VideoService.DeleteLooserThanEdit | backend-video-sharing-platform.Infrastructure/Services/VideoService.cs:47-53 | A caller id differing from the owner's only in case may delete the video, but is refused an edit. |
| VideoService.OwnerMayDelete | backend-video-sharing-platform.Infrastructure/Services/VideoService.cs:45-78 | The owner, giving their own id, may delete the video, and afterwards it is gone. |
| VideoService.CaseOnlyIdsMatch | backend-video-sharing-platform.Infrastructure/Services/VideoService.cs:52 | Ids that differ only in case count as the same owner for a delete. |
| VideoService.UpdateVideo | backend-video-sharing-platform.Infrastructure/Services/VideoService.cs:223-255 | A missing video is `NotFoundException` and another user's is `ForbiddenException`; errors change nothing. Otherwise the given title and description replace the old ones. The video is saved with a new update time only if that changed something. |
| VideoService.UpdateVideoIdempotent | backend-video-sharing-platform.Infrastructure/Services/VideoService.cs:235-254 | Repeating an edit, at any later time, answers the same video and changes nothing. |
| VideoService.ImageExtensionIsPlain | backend-video-sharing-platform.Infrastructure/Services/VideoService.cs:205-206 | Each accepted image extension is a dot and a plain name. |
| VideoService.ThumbnailExtension | backend-video-sharing-platform.Infrastructure/Services/VideoService.cs:201-206 | Without an extension, the content type's default. With one, the lower-cased extension, accepted exactly when it is .jpg, .jpeg or .png; anything else is `BadRequestException`. |
| VideoService.ImageFileAccepted | backend-video-sharing-platform.Infrastructure/Services/VideoService.cs:201-206 | A file name ending in an image extension, in any case, is accepted with that extension lower-cased. |
| VideoService.ThumbnailKey | backend-video-sharing-platform.Infrastructure/Services/VideoService.cs:208 | The key lies in the video's thumbnail folder and ends in the extension. |
| VideoService.UploadThumbnail | backend-video-sharing-platform.Infrastructure/Services/VideoService.cs:186-221 | A missing video is `NotFoundException` and another user's is `ForbiddenException`. It succeeds exactly for the owner with an "image/" type and an accepted extension. Success only sets the video's thumbnail to the uploaded key's URL, and the key keeps the extension. Errors change nothing. |
| VideoService.RawVideoKey | backend-video-sharing-platform.Infrastructure/Services/VideoService.cs:91 | The key lies in the user's raw-video folder and ends in ".mp4". |
| VideoService.GenerateUploadUrl | backend-video-sharing-platform.Infrastructure/Services/VideoService.cs:81-135 | A missing storage configuration is `InvalidOperationException`. Otherwise the answer is the new id and the presigned URL of its raw key. Exactly one video is added: UPLOADING, with the request's channel, title and description, zero counts, no playback URL, key or thumbnail, created and updated now. |
| VideoService.NewUploadNotSearchable | backend-video-sharing-platform.Infrastructure/Services/SearchService.cs:100-101 | A video just registered for upload is found by no search until it is COMPLETE. |
| CognitoAuth.International | backend-video-sharing-platform.Infrastructure/Services/CognitoAuthService.cs:46-47 | The number gets a leading '+'. A number with a trunk '0' has the zeros replaced by "+84", and any other keeps its digits after the '+'. |
| CognitoAuth.ToE164 | backend-video-sharing-platform.Infrastructure/Services/CognitoAuthService.cs:41-48 | A blank number becomes empty, and only a blank one does. Otherwise the trimmed number comes out with a leading '+': kept as it is when it has one, made international when not. |
| CognitoAuth.ToE164Idempotent | backend-video-sharing-platform.Infrastructure/Services/CognitoAuthService.cs:41-48 | Rewriting an already rewritten number changes nothing. |
| CognitoAuth.RegisterAttributes | backend-video-sharing-platform.Infrastructure/Services/CognitoAuthService.cs:54-64 | Email, name, gender and birth date come first, in that order. The rewritten phone number follows as a fifth attribute exactly when the request has a non-blank number. |
| CognitoAuth.ToE164Blank | backend-video-sharing-platform.Infrastructure/Services/CognitoAuthService.cs:41-48 | The rewritten number is blank exactly when the number given was blank. |
| CognitoAuth.PhoneAttributeIffGiven | backend-video-sharing-platform.Infrastructure/Services/CognitoAuthService.cs:54-64 | The phone attribute is sent exactly when a non-blank number was given. Its value is never empty and starts with '+'. |
| ExceptionHandler.StatusCode | backend-video-sharing-platform/Middlewares/GlobalExceptionHandler.cs:23-32 | 400 exactly for validation and bad-request exceptions; 404, 403, 409 and 401 exactly for not-found, forbidden, conflict and unauthorized access. 500 for everything else. |
| ExceptionHandler.Handle | backend-video-sharing-platform/Middlewares/GlobalExceptionHandler.cs:23-61 | The document's status is the mapped code. The application's `ValidationException` gets the validation title and type. Any other exception gets its type name as title and the type link of the errors base followed by the status code, which reads back to the status. |
| ExceptionHandler.NatToStringInjective | backend-video-sharing-platform/Middlewares/GlobalExceptionHandler.cs:38 | Different status codes render differently. |
| ExceptionHandler.TypeLinkDeterminesStatus | backend-video-sharing-platform/Middlewares/GlobalExceptionHandler.cs:34-56 | Two problem documents with the same type link carry the same status. |
| Controllers.StatusOf | backend-video-sharing-platform/Middlewares/GlobalExceptionHandler.cs:23-32 | An answer is 200 exactly when it is a result; an exception gets the handler's code. |
| Controllers.ClampOffset | backend-video-sharing-platform/Controllers/SearchController.cs:41 | A negative offset becomes 0; any other is kept. |
| Controllers.CommentsQueryOf | backend-video-sharing-platform/Controllers/CommentsController.cs:36-47 | The limit is clamped to 1..100 and the offset made non-negative. Everything else is passed on unchanged. |
| Controllers.CommentPageBounded | backend-video-sharing-platform/Controllers/CommentsController.cs:27-51 | Whatever the query string, a page of top-level comments holds at most 100. An unknown video is answered 404. |
| Controllers.SearchEndpoint | backend-video-sharing-platform/Controllers/SearchController.cs:25-62 | A blank query or a type other than "video" or "channel" (any case) is a bad request, and only those are. Otherwise the search runs with the clamped limit and offset. |
| Controllers.KnownKindWants | backend-video-sharing-platform/Controllers/SearchController.cs:44-49 | An accepted type asks for at least one kind of result. It asks for both exactly when no type is given. |
| Controllers.SearchPagesBounded | backend-video-sharing-platform.Infrastructure/Services/SearchService.cs:72-73 | With a page size of at most 100, each result page holds at most 100 items. |
| Controllers.SearchEndpointBounded | backend-video-sharing-platform/Controllers/SearchController.cs:25-62 | An accepted search asks for at least one kind, and for both exactly when no type is given. Each page holds at most 100 results. A refused one is answered 400. |
| Validators.IndexOf | backend-video-sharing-platform.Application/Validators/RegisterUserRequestValidator.cs:15 | The first position of the character, or -1 exactly when it does not occur. |
| Validators.LastIndexOf | backend-video-sharing-platform.Application/Validators/RegisterUserRequestValidator.cs:15 | The last position of the character, or -1 exactly when it does not occur. |
| Validators.EmailParts | backend-video-sharing-platform.Application/Validators/RegisterUserRequestValidator.cs:13-15 | An accepted address is a non-empty local part, one '@' and a non-empty domain. Neither part holds another '@'. |
| Validators.EmailOfParts | backend-video-sharing-platform.Application/Validators/RegisterUserRequestValidator.cs:13-15 | Every such address is accepted: with the previous row, the email rule holds exactly for these addresses. |
| Validators.StrongPassword | backend-video-sharing-platform.Application/Validators/RegisterUserRequestValidator.cs:18-24 | A password is accepted exactly when it has at least 8 UTF-16 code units, an ASCII upper-case letter, a lower-case letter, a digit and a character outside those classes. |
| Validators.SurrogatePairsCountTwice | backend-video-sharing-platform.Application/Validators/RegisterUserRequestValidator.cs:18-24 | A six-character password with two emoji has length 8 and is accepted. |
| Validators.EqualsLowerWord | backend-video-sharing-platform.Application/Validators/RegisterUserRequestValidator.cs:33-35 | Comparing with a lower-case word while ignoring case is comparing the lower-cased string with it. |
| Validators.GenderValues | backend-video-sharing-platform.Application/Validators/RegisterUserRequestValidator.cs:32-36 | A gender is accepted exactly when it is empty or is "male" or "female" in any case. |
| Validators.DaysInMonth | backend-video-sharing-platform.Application/Validators/RegisterUserRequestValidator.cs:55-61 | A month has 28 to 31 days, by the Gregorian leap-year rule. |
| Validators.ParseDate | backend-video-sharing-platform.Application/Validators/RegisterUserRequestValidator.cs:50-62 | A parsed date has the exact "yyyy-MM-dd" layout and is a day of the calendar. |
| Validators.FormatDate | backend-video-sharing-platform.Application/Validators/RegisterUserRequestValidator.cs:57 | A valid date is written in the "yyyy-MM-dd" layout. |
| Validators.ParseFormattedDate | backend-video-sharing-platform.Application/Validators/RegisterUserRequestValidator.cs:50-62 | Every calendar date written "yyyy-MM-dd" is accepted and parses back to itself. |
| Validators.FormatParsedDate | backend-video-sharing-platform.Application/Validators/RegisterUserRequestValidator.cs:50-62 | Every accepted string is exactly the rendering of its date: the format admits nothing else. |
| Validators.TwoDigits | backend-video-sharing-platform.Application/Validators/RegisterUserRequestValidator.cs:57 | A number below 100 is written as two digits that read back as it. |
| Validators.TwoDigitsOfValue | backend-video-sharing-platform.Application/Validators/RegisterUserRequestValidator.cs:57 | Two digits read and written again are the same two digits. |
| Validators.BeforeNewline | backend-video-sharing-platform.Application/Validators/RegisterUserRequestValidator.cs:46 | The final '$' admits at most one trailing newline. |
| Validators.AfterPlus | backend-video-sharing-platform.Application/Validators/RegisterUserRequestValidator.cs:46 | The optional '+' is at most one leading plus sign. |
| Validators.PatternTrim | backend-video-sharing-platform.Application/Validators/RegisterUserRequestValidator.cs:46 | For a number the pattern accepts, trimming drops only the final newline. |
| Validators.ValidPhoneIsInternational | backend-video-sharing-platform.Application/Validators/RegisterUserRequestValidator.cs:45-47 | A non-blank number the phone rule accepts is sent to the identity provider as '+' and 2 to 16 digits: the rewrite keeps it in international form. |
| Validators.InternationalDigits | backend-video-sharing-platform.Application/Validators/RegisterUserRequestValidator.cs:46 | Nine to fifteen digits made international give '+' and only digits. |
| Validators.ValidUpdateKeepsProfile | backend-video-sharing-platform.Application/Validators/UpdateUserRequestValidator.cs:13-45 | A profile that meets the profile rules still meets them after a valid update. |
| Validators.RegisteredCredentialsPassLogin | backend-video-sharing-platform.Application/Validators/LoginRequestValidator.cs:15-26 | Every email and password that registration accepts pass the login check. |
| Validators.LoginEmailLooserThanRegister | backend-video-sharing-platform.Application/Validators/LoginRequestValidator.cs:21 | The login check takes "@@" as an email, which the registration rule refuses. |
| Validators.Hyphenated | backend-video-sharing-platform.Application/Validators/PresignUrlRequestValidator.cs:10-12 | Thirty-two hex digits written with hyphens take 36 characters. |
| Validators.RenderedGuidAccepted | backend-video-sharing-platform.Application/Validators/PresignUrlRequestValidator.cs:10-12 | A GUID written as 32 digits, hyphenated, or hyphenated in braces is an accepted channel id. |
| Validators.RegisteredProfileValid | backend-video-sharing-platform.Application/Validators/UpdateUserRequestValidator.cs:13-45 | A profile that registration accepts also meets the update rules. |
| Validators.MergeKeepsProfile | backend-video-sharing-platform.Application/Validators/UpdateUserRequestValidator.cs:13-45 | Merging a valid update into a valid profile gives a valid profile. |
| Validators.PresignRules | backend-video-sharing-platform.Application/Validators/PresignUrlRequestValidator.cs:10-26 | An upload request is accepted exactly when the channel id is a GUID and the title is not blank and at most 100 UTF-16 code units. A description must be blank or at most 500 code units. The channel id's emptiness rule adds nothing. |
| Validators.ValidPresignStoresValidVideo | backend-video-sharing-platform.Application/Validators/PresignUrlRequestValidator.cs:10-20 | The video stored for an accepted upload request has a GUID channel id and a non-blank title of at most 100 UTF-16 code units. Its description is blank or at most 500 code units. |
| Validators.ValidDescriptionStored | backend-video-sharing-platform.Application/Validators/UpdateDescriptionRequestValidator.cs:10-12 | An accepted description for a user who has a channel is stored. It is not blank and at most 500 UTF-16 code units. |
| Validators.ValidEditKeepsTitle | backend-video-sharing-platform.Application/Validators/UpdateVideoRequestValidator.cs:15-26 | An accepted edit of a video with a non-blank title of at most 200 UTF-16 code units keeps its title so. Its description stays at most 2000 code units. |
| Ordering.ClampLimit | backend-video-sharing-platform.Infrastructure/Services/NotificationService.cs:254-255 | The limit ends up in 1..100. One in range is kept, one below 1 becomes 20, and one above 100 becomes 100. |
| Ordering.SortByKey | backend-video-sharing-platform.Infrastructure/Repositories/VideoRepository.cs:80-82 | The sorted list is a permutation of the input, in key order. |
| Ordering.SortIsStable | backend-video-sharing-platform.Infrastructure/Services/SearchService.cs:49-54 | Elements with equal keys keep their relative order, as LINQ's ordering does. |
| Ordering.Page | backend-video-sharing-platform.Infrastructure/Services/SearchService.cs:72-73 | The page is the window after the clamped offset, of length `min(max(limit, 0), remaining)`. |
| Ordering.PagesJoin | backend-video-sharing-platform.Infrastructure/Services/SearchService.cs:72-73 | Two consecutive pages of one size together are the page twice as long: paging loses nothing. |
| Ordering.TakeOfSortedIsLeast | backend-video-sharing-platform.Infrastructure/Repositories/VideoRepository.cs:80-82 | Taking from a sorted list takes the least: nothing left out sorts before anything taken. |
| Entities.ParseNotificationType | backend-video-sharing-platform.Domain/Enums/NotificationType.cs:6-32 | A type string names the type whose name it is, and no type when no name matches. |
| Text.Words | backend-video-sharing-platform.Infrastructure/Services/SearchService.cs:181 | Every word is non-empty, holds no space, and occurs in the query. A query that starts with a non-space has at least one word. Run together, the words give back the query with its spaces taken out. |
| Text.WordsOfSpaceJoined | backend-video-sharing-platform.Infrastructure/Services/SearchService.cs:181 | Splitting words joined by single spaces gives back those words, in order. |
| Text.ParseInt64OfIntToString | backend-video-sharing-platform.Infrastructure/Repositories/NotificationRepository.cs:255 | Every 64-bit value written as a number parses back to itself. |

## Left out

- Request validation: the validators are registered with `AddFluentValidation` (backend-video-sharing-platform/Program.cs:41-43), so a failing rule becomes a model-state error that the framework answers with its automatic 400 before any action runs. Failed validation never reaches the handler's "Validation Error" branch, which answers only the application's own `ValidationException`; the model states the rules (`Validators`) and the handler separately.
- Logging, the DynamoDB, S3, Cognito and IVS clients, and the ASP.NET plumbing (dependency injection, model binding, authentication) are not modelled. Each store call is a map operation, and each storage or presign call is a function parameter.
- The clock, `Guid.NewGuid()`, the storage URL of an uploaded key, and the presigned URL are inputs to the operations that use them.
- Concurrency is not modelled. Each service call runs alone against one store value, and two calls never interleave.
- The controllers other than the comment listing and search are thin wrappers around the services and are not modelled separately. The query-string defaults of the two modelled endpoints are the model binder's, so the model takes the bound values as inputs.
- The HMAC secret hash and the sign-up call of `CognitoAuthService` are not modelled. Only the attributes it sends are.
- Timestamps are `Instant`s (ticks), not the round-trip "o" strings the services store. Comparing two such strings of the same format orders them as their instants are ordered.
- `Duration` on videos and search results is floating point and is not carried.
- The avatar and description of a channel search result are not carried, because the source leaves them unset.
- DynamoDB's expiry of notifications past their `ttl` happens outside the service and is not modelled. Expired items stay in the map.
- Table scans return items in an order the store chooses. The model scans in ascending key order, and every contract that depends on scan order says so.
- The paging cursor of `GetUserNotificationsAsync` is a Base64 JSON document of the last key. The model uses a `digits:recipient` token with the same round trip, so the encoding itself is not modelled.
- `DeleteVideoAsync` also calls `DecreaseVideoCountAsync` on the channel service, and `ChannelService.cs` holds no body for it. The channel's video count is therefore left unchanged.
- `GetChannelByIdAsync` of the channel service is a plain load and mapping and is not modelled.
- The problem document's `Detail` and `Instance`, and the validation errors dictionary, are not modelled. Only status, title and type are.
- A controller's `BadRequest(...)` with a message body is modelled as `Err(BadRequestException)`, because the handler maps that exception to 400 as well.
- Counters (`LikeCount`, `ReplyCount`, `CommentCount`, `SubscriberCount`, view counts) are unbounded integers. The 32-bit wrap-around of an `int` counter is not modelled, except for the `(int)` cast of a long like count (`Text.WrapInt32`).
- Text.ToLower: lower-cases only the ASCII letters, where .NET's `ToLower` and `OrdinalIgnoreCase` use Unicode case mappings. Search matching and the case-insensitive comparisons are therefore exact only for ASCII text.
- Search.Score: the 32-bit sum can only overflow for a query of more than 143 million words, and that is not modelled.
- NotificationStore.Decode: an item whose text attribute is stored as a number decodes to the default "" where the .NET code would read null. Such items are never written by the services.
- NotificationStore.FirstMatch: the order of the id index among items with the same notification id is the store's. The model takes the least key, and with unique ids (which the services keep) there is only one.
- Validators.IsGuid: accepts the 32-digit, hyphenated, braced and parenthesised layouts of `Guid.TryParse`, but not its hexadecimal-structure layout `X`, nor the "0x" and "+" forms of the components that the parser also tolerates.
- Validators.PhonePattern: `\d` is taken as the ASCII digits, while .NET's regular expressions also match other Unicode decimal digits.
- Paths.Extension: only '/' separates directories, while `Path.GetExtension` on Windows also stops at '\' and ':'.
- A like followed by an unlike restores the like records and the counter (`LikeThenUnlikeRestores`). The notification the like requested stays in the notification table, as it does in the source.
- NotificationStore.UnreadNotifications: the unread index is sorted on `isRead` alone, so which unread items a limited query returns is the store's choice. The model returns them newest first; the counts (`UnreadListingMatchesCount`, `MarkAllAsReadCount`) hold whatever the order.
- NotificationService.GetUserNotifications: the unread-only listing inherits that order; which unread notifications fill the page is unspecified by the source, and the model shows the newest.
- NotificationStore.MarkAllAsRead: likewise marks the first 100 unread items in the model's order, where the store may hand back any 100 of them.
- CommentTree.Subtree: `GetCommentTreeAsync` keeps no visited set, so on a table whose parent links form a cycle it recurses without end, while the model's walk stops. Such tables never arise: `ParentsOlder` (every parent older than its reply) is kept by `CreateKeepsConsistent` and `DeleteKeepsConsistent` and rules cycles out.
- DynamoDB refuses a read with an empty key. Only NotificationService.RelatedVideo models that (a video-type notification with an empty video id fails). Other point reads with an empty id are read as a missing item, which the services turn into `NotFoundException` rather than a server error.
- CognitoAuth.ToE164: the source's one-argument `StartsWith("+")` and `StartsWith("0")` are culture-sensitive and skip ignorable code points such as U+00AD; the model compares ordinally, so a number that begins with an ignorable character before its '+' is treated differently.
- VideoService.UploadThumbnail: the same holds for its culture-sensitive `StartsWith("image/")` test of the content type.

=== FILE: channel_service.dfy ===
/** `ChannelService`: renaming the channel a user owns and setting its
    description. The two find "the user's channel" differently: the rename
    scans for the channel whose owner is the user, the description update
    loads the channel whose id is the user's id. Channels are created with
    the owner's id as their id, and then the two agree.
 */
module ChannelService {
  import opened Wrappers
  import opened Entities
  import VideoRepository

  /** `UpdateChannelNameByUserIdAsync`: false when the user owns no channel
      or the channel already has the name; otherwise the channel is saved
      under the new name, nothing else changes, and the answer is true. */
  function UpdateChannelName(t: ChannelTable, userId: string, newName: string): (r: (bool, ChannelTable))
    ensures var c := VideoRepository.ChannelOfUser(t, userId);
            && (r.0 <==> c.Some? && c.value.name != newName)
            && (!r.0 ==> r.1 == t)
            && (r.0 ==> r.1 == t[c.value.channelId := c.value.(name := newName)])
  {
    match VideoRepository.ChannelOfUser(t, userId)
    case None => (false, t)
    case Some(c) =>
      if c.name != newName then (true, SaveChannel(t, c.(name := newName))) else (false, t)
  }

  /** After a rename the user's channel carries the new name, and asking
      for the same name again writes nothing. */
  lemma RenameTakesEffect(t: ChannelTable, userId: string, newName: string)
    requires VideoRepository.ChannelOfUser(t, userId).Some?
    ensures var u := UpdateChannelName(t, userId, newName).1;
            && VideoRepository.ChannelOfUser(u, userId).Some?
            && VideoRepository.ChannelOfUser(u, userId).value.name == newName
            && UpdateChannelName(u, userId, newName) == (false, u)
  {
    var u := UpdateChannelName(t, userId, newName).1;
    VideoRepository.ChannelOfUserKeepsOwner(t, u, userId);
  }

  /** `UpdateDescriptionAsync`: loads the channel stored under the user's
      id; false when there is none, otherwise its description is set and
      the answer is true. */
  function UpdateDescription(t: ChannelTable, userId: string, description: string): (r: (bool, ChannelTable))
    ensures r.0 <==> userId in t
    ensures !r.0 ==> r.1 == t
    ensures r.0 ==> r.1.Keys == t.Keys && r.1[userId].description == description
    ensures forall id | id in t && (id != userId || !r.0) :: r.1[id] == t[id]
  {
    if userId !in t then (false, t)
    else (true, SaveChannel(t, t[userId].(description := description)))
  }

  /** Every channel is stored under its owner's id. */
  predicate KeyedByOwner(t: ChannelTable) {
    forall id | id in t :: t[id].userId == id
  }

  /** When channels are stored under their owners' ids, the channel whose
      description `UpdateDescription` sets is the one `UpdateChannelName`
      renames, and the description update keeps that invariant. */
  lemma DescriptionTargetsOwnChannel(t: ChannelTable, userId: string, description: string)
    requires KeyedByOwner(t)
    ensures UpdateDescription(t, userId, description).0 <==> VideoRepository.ChannelOfUser(t, userId).Some?
    ensures var c := VideoRepository.ChannelOfUser(t, userId);
            c.Some? ==> c.value.channelId == userId
                        && UpdateDescription(t, userId, description).1[userId] == c.value.(description := description)
    ensures KeyedByOwner(UpdateDescription(t, userId, description).1)
  {
    var c := VideoRepository.ChannelOfUser(t, userId);
    assert VideoRepository.OwnedChannelIds(t, userId) == if userId in t then {userId} else {};
  }
}

=== FILE: comment_invariants.dfy ===
/** The denormalised counters of the comment service and why create and
    delete keep them right.

    `ReplyCount` is meant to be the number of live replies of a comment and
    `CommentCount` the number of comments of a video. Neither is recomputed:
    `CreateCommentAsync` adds one to each, `DeleteCommentAsync` subtracts.
    On a state where the counters are exact, every reply points at an older
    comment of the same video, and nothing is flagged deleted (no operation
    sets the flag), both operations keep all of that true, provided the
    fresh comment id is unused and the clock reads later than every stored
    comment.
 */
module CommentInvariants {
  import opened Wrappers
  import opened Text
  import opened Entities
  import CommentStore
  import CommentTree
  import CommentService

  /** No stored comment carries the deleted flag. */
  predicate NoneFlagged(t: CommentTable) {
    forall k | k in t :: !t[k].isDeleted
  }

  /** Every reply names a non-empty parent id that is stored under the same
      video and is strictly older than the reply. */
  predicate ParentsOlder(t: CommentTable) {
    forall k | k in t && t[k].parentCommentId.Some? ::
      var p := CommentKey(k.videoId, t[k].parentCommentId.value);
      t[k].parentCommentId.value != [] && p in t && t[p].createdAt < t[k].createdAt
  }

  /** Every comment's `ReplyCount` is the number of its live replies. */
  predicate ReplyCountsExact(t: CommentTable) {
    forall k | k in t :: t[k].replyCount == |CommentTree.ChildIds(t, k.videoId, k.commentId)|
  }

  predicate ThreadsConsistent(t: CommentTable) {
    NoneFlagged(t) && ParentsOlder(t) && ReplyCountsExact(t)
  }

  /** Every video's `CommentCount` is the number of its stored comments. */
  predicate CommentCountsExact(db: Db) {
    forall v | v in db.videos :: db.videos[v].commentCount == |CommentStore.CommentIds(db.comments, v)|
  }

  predicate Consistent(db: Db) {
    ThreadsConsistent(db.comments) && CommentCountsExact(db)
  }

  // ---------------------------------------------------------------------
  // The shape of a subtree

  /** Comment `z` of video `v` is a reply whose parent id is in `s`. */
  predicate ParentIn(t: CommentTable, v: string, z: string, s: set<string>) {
    var k := CommentKey(v, z);
    k in t && t[k].parentCommentId.Some? && t[k].parentCommentId.value in s
  }

  /** `s` can be cut out of video `v` below comment `id`: it holds `id` and
      every reply of its members, each of its other members replies to one
      of its members, and the parent of `id` is outside it. */
  predicate Cut(t: CommentTable, v: string, id: string, s: set<string>) {
    && CommentKey(v, id) in t && id in s
    && s <= CommentStore.CommentIds(t, v)
    && CommentTree.Closed(t, v, s)
    && (forall z | z in s && z != id :: ParentIn(t, v, z, s))
    && (t[CommentKey(v, id)].parentCommentId.Some? ==> t[CommentKey(v, id)].parentCommentId.value !in s)
  }

  /** Every comment below the target, other than the target, replies to a
      comment that is also below the target. */
  lemma SubtreeParents(t: CommentTable, v: string, id: string)
    ensures forall z | z in CommentTree.Subtree(t, v, id) && z != id :: ParentIn(t, v, z, CommentTree.Subtree(t, v, id))
  {
    var s := CommentTree.Subtree(t, v, id);
    if id in s {
      var z0 := set z | z in s && (z == id || ParentIn(t, v, z, s));
      forall x | x in z0 && CommentKey(v, x) in t
        ensures CommentTree.ChildIds(t, v, x) <= z0
      {
        forall y | y in CommentTree.ChildIds(t, v, x)
          ensures y in z0
        {
          assert CommentTree.IsChild(t, v, x, y);
        }
      }
      CommentTree.SubtreeLeast(t, v, id, z0);
    }
  }

  /** When parents are older, nothing below the target is older than it. */
  lemma SubtreeNewer(t: CommentTable, v: string, id: string)
    requires ParentsOlder(t)
    requires CommentKey(v, id) in t
    ensures forall z | z in CommentTree.Subtree(t, v, id) ::
              CommentKey(v, z) in t && t[CommentKey(v, z)].createdAt >= t[CommentKey(v, id)].createdAt
  {
    var s := CommentTree.Subtree(t, v, id);
    var c0 := t[CommentKey(v, id)].createdAt;
    var z0 := set z | z in s && CommentKey(v, z) in t && t[CommentKey(v, z)].createdAt >= c0;
    forall x | x in z0 && CommentKey(v, x) in t
      ensures CommentTree.ChildIds(t, v, x) <= z0
    {
      forall y | y in CommentTree.ChildIds(t, v, x)
        ensures y in z0
      {
        assert CommentTree.IsChild(t, v, x, y);
        var k := CommentKey(v, y);
        assert k in t && t[k].parentCommentId.Some?;
      }
    }
    CommentTree.SubtreeLeast(t, v, id, z0);
  }

  /** When parents are older, the subtree of a stored comment can be cut. */
  lemma SubtreeIsCut(t: CommentTable, v: string, id: string)
    requires ParentsOlder(t)
    requires CommentKey(v, id) in t
    ensures Cut(t, v, id, CommentTree.Subtree(t, v, id))
  {
    SubtreeParents(t, v, id);
    SubtreeNewer(t, v, id);
  }

  // ---------------------------------------------------------------------
  // Removing a subtree

  /** A comment that survives the removal keeps a reply unless the reply
      was removed, which only happens for the target under its parent. */
  lemma RemovedChild(t: CommentTable, v: string, id: string, s: set<string>, t': CommentTable, k: CommentKey, y: string)
    requires Cut(t, v, id, s)
    requires t' == CommentService.RemoveThread(t, v, s, t[CommentKey(v, id)].parentCommentId)
    requires k in t'
    ensures CommentTree.IsChild(t', k.videoId, k.commentId, y) <==>
              CommentTree.IsChild(t, k.videoId, k.commentId, y)
              && !(k.videoId == v && y == id && t[CommentKey(v, id)].parentCommentId == Some(k.commentId))
  {
    var ky := CommentKey(k.videoId, y);
    if ky in t' {
      assert t'[ky].parentCommentId == t[ky].parentCommentId && t'[ky].isDeleted == t[ky].isDeleted;
    }
    assert k.videoId == v && y in s && y != id ==> ParentIn(t, v, y, s);
  }

  lemma RemovedChildIds(t: CommentTable, v: string, id: string, s: set<string>, t': CommentTable, k: CommentKey)
    requires Cut(t, v, id, s)
    requires t' == CommentService.RemoveThread(t, v, s, t[CommentKey(v, id)].parentCommentId)
    requires k in t'
    ensures CommentTree.ChildIds(t', k.videoId, k.commentId)
              == CommentTree.ChildIds(t, k.videoId, k.commentId)
                 - (if k.videoId == v && t[CommentKey(v, id)].parentCommentId == Some(k.commentId) then {id} else {})
  {
    forall y
      ensures y in CommentTree.ChildIds(t', k.videoId, k.commentId) <==>
              y in CommentTree.ChildIds(t, k.videoId, k.commentId)
              && !(k.videoId == v && y == id && t[CommentKey(v, id)].parentCommentId == Some(k.commentId))
    {
      RemovedChild(t, v, id, s, t', k, y);
    }
  }

  /** A surviving comment's reply count stays exact: the target's parent
      loses exactly the target. */
  lemma RemovedReplyCount(t: CommentTable, v: string, id: string, s: set<string>, t': CommentTable, k: CommentKey)
    requires NoneFlagged(t) && ParentsOlder(t)
    requires Cut(t, v, id, s)
    requires t' == CommentService.RemoveThread(t, v, s, t[CommentKey(v, id)].parentCommentId)
    requires k in t'
    requires t[k].replyCount == |CommentTree.ChildIds(t, k.videoId, k.commentId)|
    ensures t'[k].replyCount == |CommentTree.ChildIds(t', k.videoId, k.commentId)|
  {
    RemovedChildIds(t, v, id, s, t', k);
    var parent := t[CommentKey(v, id)].parentCommentId;
    if k.videoId == v && parent == Some(k.commentId) {
      assert CommentTree.IsChild(t, v, k.commentId, id);
      assert k == CommentKey(v, parent.value);
    }
  }

  /** A surviving reply keeps its parent, which stays older. */
  lemma RemovedParent(t: CommentTable, v: string, id: string, s: set<string>, t': CommentTable, k: CommentKey)
    requires NoneFlagged(t) && ParentsOlder(t)
    requires Cut(t, v, id, s)
    requires t' == CommentService.RemoveThread(t, v, s, t[CommentKey(v, id)].parentCommentId)
    requires k in t' && t'[k].parentCommentId.Some?
    ensures var p := CommentKey(k.videoId, t'[k].parentCommentId.value);
            t'[k].parentCommentId.value != [] && p in t' && t'[p].createdAt < t'[k].createdAt
  {
    var q := t[k].parentCommentId.value;
    assert k.videoId == v && q in s ==> k.commentId in CommentTree.ChildIds(t, v, q);
  }

  /** Removing a cut and decrementing the parent keeps the threads
      consistent. */
  lemma RemoveThreadKeepsThreads(t: CommentTable, v: string, id: string, s: set<string>)
    requires ThreadsConsistent(t)
    requires Cut(t, v, id, s)
    ensures ThreadsConsistent(CommentService.RemoveThread(t, v, s, t[CommentKey(v, id)].parentCommentId))
  {
    var t' := CommentService.RemoveThread(t, v, s, t[CommentKey(v, id)].parentCommentId);
    forall k | k in t'
      ensures t'[k].replyCount == |CommentTree.ChildIds(t', k.videoId, k.commentId)|
    {
      RemovedReplyCount(t, v, id, s, t', k);
    }
    forall k | k in t' && t'[k].parentCommentId.Some?
      ensures var p := CommentKey(k.videoId, t'[k].parentCommentId.value);
              t'[k].parentCommentId.value != [] && p in t' && t'[p].createdAt < t'[k].createdAt
    {
      RemovedParent(t, v, id, s, t', k);
    }
  }

  /** The ids left under each video after removing the comments `s` of
      video `v`. */
  lemma RemovedIds(t: CommentTable, t': CommentTable, v: string, s: set<string>, w: string)
    requires forall k :: k in t' <==> k in t && !(k.videoId == v && k.commentId in s)
    ensures CommentStore.CommentIds(t', w) == CommentStore.CommentIds(t, w) - (if w == v then s else {})
  {
    assert forall id :: id in CommentStore.CommentIds(t', w) <==> CommentKey(w, id) in t';
  }

  /** Removing the comments `s` of video `v` and lowering the video's count
      by their number, when it is at least that, keeps the counts exact. */
  lemma RemovedCounts(db: Db, db': Db, v: string, s: set<string>)
    requires CommentCountsExact(db)
    requires v in db.videos && s <= CommentStore.CommentIds(db.comments, v)
    requires forall k :: k in db'.comments <==> k in db.comments && !(k.videoId == v && k.commentId in s)
    requires db'.videos == if db.videos[v].commentCount >= |s|
                           then CommentService.ChangeCommentCount(db.videos, v, -(|s| as int))
                           else db.videos
    ensures CommentCountsExact(db')
  {
    forall w | w in db'.videos
      ensures db'.videos[w].commentCount == |CommentStore.CommentIds(db'.comments, w)|
    {
      RemovedCountAt(db, db', v, s, w);
    }
  }

  lemma RemovedCountAt(db: Db, db': Db, v: string, s: set<string>, w: string)
    requires v in db.videos && w in db.videos
    requires db.videos[w].commentCount == |CommentStore.CommentIds(db.comments, w)|
    requires db.videos[v].commentCount == |CommentStore.CommentIds(db.comments, v)|
    requires s <= CommentStore.CommentIds(db.comments, v)
    requires forall k :: k in db'.comments <==> k in db.comments && !(k.videoId == v && k.commentId in s)
    requires db'.videos == if db.videos[v].commentCount >= |s|
                           then CommentService.ChangeCommentCount(db.videos, v, -(|s| as int))
                           else db.videos
    ensures w in db'.videos && db'.videos[w].commentCount == |CommentStore.CommentIds(db'.comments, w)|
  {
    DifferenceCount(CommentStore.CommentIds(db.comments, v), s);
    RemovedIds(db.comments, db'.comments, v, s, w);
  }

  lemma DifferenceCount(a: set<string>, s: set<string>)
    requires s <= a
    ensures |a - s| == |a| - |s|
  {
    assert a == (a - s) + s;
  }

  /** Removing a cut as `DeleteCommentAsync` does, and lowering the video's
      count by its size when that does not go negative, keeps the counters
      exact. */
  lemma RemoveKeepsConsistent(db: Db, db': Db, v: string, id: string, s: set<string>)
    requires Consistent(db)
    requires Cut(db.comments, v, id, s)
    requires v in db.videos
    requires db' == db.(comments := CommentService.RemoveThread(db.comments, v, s, db.comments[CommentKey(v, id)].parentCommentId),
                        videos := if db.videos[v].commentCount >= |s|
                                  then CommentService.ChangeCommentCount(db.videos, v, -(|s| as int))
                                  else db.videos)
    ensures Consistent(db')
  {
    RemoveThreadKeepsThreads(db.comments, v, id, s);
    RemovedCounts(db, db', v, s);
  }

  /** What a successful delete writes, in terms of the stored comment. */
  lemma DeleteEffect(db: Db, videoId: string, commentId: string, userId: string)
    requires CommentService.Delete(db, videoId, commentId, userId).0.Ok?
    ensures var k := CommentKey(videoId, commentId);
            var s := CommentTree.Subtree(db.comments, videoId, commentId);
            && k in db.comments && videoId in db.videos
            && CommentService.Delete(db, videoId, commentId, userId).1
               == db.(comments := CommentService.RemoveThread(db.comments, videoId, s, db.comments[k].parentCommentId),
                      videos := if db.videos[videoId].commentCount >= |s|
                                then CommentService.ChangeCommentCount(db.videos, videoId, -(|s| as int))
                                else db.videos)
  {
    var c := CommentService.DeleteChecks(db, videoId, commentId, userId).value;
    assert c == db.comments[CommentKey(videoId, commentId)];
  }

  /** `DeleteCommentAsync` keeps the counters exact. */
  lemma DeleteKeepsConsistent(db: Db, videoId: string, commentId: string, userId: string)
    requires Consistent(db)
    ensures Consistent(CommentService.Delete(db, videoId, commentId, userId).1)
  {
    var r := CommentService.Delete(db, videoId, commentId, userId);
    if r.0.Ok? {
      DeleteEffect(db, videoId, commentId, userId);
      SubtreeIsCut(db.comments, videoId, commentId);
      RemoveKeepsConsistent(db, r.1, videoId, commentId, CommentTree.Subtree(db.comments, videoId, commentId));
    }
  }

  // ---------------------------------------------------------------------
  // Inserting a comment

  /** What `InsertComment` is given by `CreateCommentAsync`: a fresh, live
      comment without replies, newer than every stored one, whose parent
      (if any) is stored under the same video. */
  predicate Insertable(t: CommentTable, c: Comment, parent: Option<Comment>) {
    && c.Key() !in t
    && (forall k | k in t :: t[k].createdAt < c.createdAt)
    && !c.isDeleted && c.replyCount == 0
    && (parent.None? ==> c.parentCommentId.None?)
    && (parent.Some? ==> CommentStore.StoredIn(t, parent.value) && parent.value.videoId == c.videoId
                         && c.parentCommentId == Some(parent.value.commentId) && parent.value.commentId != [])
  }

  /** After the insertion, the new comment has no replies, its parent has
      gained it, and every other comment keeps its replies. */
  lemma InsertedChild(t: CommentTable, c: Comment, parent: Option<Comment>, t': CommentTable, k: CommentKey, y: string)
    requires ParentsOlder(t)
    requires Insertable(t, c, parent)
    requires t' == CommentService.InsertComment(t, c, parent)
    requires k in t'
    ensures CommentTree.IsChild(t', k.videoId, k.commentId, y) <==>
              k != c.Key()
              && (CommentTree.IsChild(t, k.videoId, k.commentId, y)
                  || (parent.Some? && k == parent.value.Key() && y == c.commentId))
  {
    var ky := CommentKey(k.videoId, y);
    assert CommentStore.StoredIn(t', c);
    if ky in t {
      assert t'[ky].parentCommentId == t[ky].parentCommentId && t'[ky].isDeleted == t[ky].isDeleted;
    }
    assert ky in t && t[ky].parentCommentId == Some(k.commentId) ==> CommentKey(k.videoId, k.commentId) in t;
  }

  lemma InsertedChildIds(t: CommentTable, c: Comment, parent: Option<Comment>, t': CommentTable, k: CommentKey)
    requires ParentsOlder(t)
    requires Insertable(t, c, parent)
    requires t' == CommentService.InsertComment(t, c, parent)
    requires k in t'
    ensures CommentTree.ChildIds(t', k.videoId, k.commentId)
              == if k == c.Key() then {}
                 else CommentTree.ChildIds(t, k.videoId, k.commentId)
                      + (if parent.Some? && k == parent.value.Key() then {c.commentId} else {})
  {
    forall y
      ensures y in CommentTree.ChildIds(t', k.videoId, k.commentId) <==>
              k != c.Key()
              && (y in CommentTree.ChildIds(t, k.videoId, k.commentId)
                  || (parent.Some? && k == parent.value.Key() && y == c.commentId))
    {
      InsertedChild(t, c, parent, t', k, y);
    }
  }

  /** Every reply count stays exact: only the parent gains one. */
  lemma InsertedReplyCount(t: CommentTable, c: Comment, parent: Option<Comment>, t': CommentTable, k: CommentKey)
    requires ParentsOlder(t)
    requires Insertable(t, c, parent)
    requires t' == CommentService.InsertComment(t, c, parent)
    requires k in t'
    requires k in t ==> t[k].replyCount == |CommentTree.ChildIds(t, k.videoId, k.commentId)|
    ensures t'[k].replyCount == |CommentTree.ChildIds(t', k.videoId, k.commentId)|
  {
    InsertedChildIds(t, c, parent, t', k);
    assert CommentStore.StoredIn(t', c);
    if k != c.Key() {
      var before := CommentTree.ChildIds(t, k.videoId, k.commentId);
      if parent.Some? && k == parent.value.Key() {
        assert c.commentId !in before;
        assert |before + {c.commentId}| == |before| + 1;
      }
    }
  }

  /** Every reply keeps an older parent. */
  lemma InsertedParent(t: CommentTable, c: Comment, parent: Option<Comment>, t': CommentTable, k: CommentKey)
    requires ParentsOlder(t)
    requires Insertable(t, c, parent)
    requires t' == CommentService.InsertComment(t, c, parent)
    requires k in t' && t'[k].parentCommentId.Some?
    ensures var p := CommentKey(k.videoId, t'[k].parentCommentId.value);
            t'[k].parentCommentId.value != [] && p in t' && t'[p].createdAt < t'[k].createdAt
  {
    assert CommentStore.StoredIn(t', c);
  }

  /** Inserting as `CreateCommentAsync` does keeps the threads consistent. */
  lemma InsertKeepsThreads(t: CommentTable, c: Comment, parent: Option<Comment>)
    requires ThreadsConsistent(t)
    requires Insertable(t, c, parent)
    ensures ThreadsConsistent(CommentService.InsertComment(t, c, parent))
  {
    var t' := CommentService.InsertComment(t, c, parent);
    InsertedFlags(t, c, parent, t');
    InsertedReplyCounts(t, c, parent, t');
    InsertedParents(t, c, parent, t');
  }

  lemma InsertedFlags(t: CommentTable, c: Comment, parent: Option<Comment>, t': CommentTable)
    requires NoneFlagged(t)
    requires Insertable(t, c, parent)
    requires t' == CommentService.InsertComment(t, c, parent)
    ensures NoneFlagged(t')
  {
    assert CommentStore.StoredIn(t', c);
  }

  lemma InsertedReplyCounts(t: CommentTable, c: Comment, parent: Option<Comment>, t': CommentTable)
    requires ParentsOlder(t) && ReplyCountsExact(t)
    requires Insertable(t, c, parent)
    requires t' == CommentService.InsertComment(t, c, parent)
    ensures ReplyCountsExact(t')
  {
    forall k | k in t'
      ensures t'[k].replyCount == |CommentTree.ChildIds(t', k.videoId, k.commentId)|
    {
      assert k in t ==> t[k].replyCount == |CommentTree.ChildIds(t, k.videoId, k.commentId)|;
      InsertedReplyCount(t, c, parent, t', k);
    }
  }

  lemma InsertedParents(t: CommentTable, c: Comment, parent: Option<Comment>, t': CommentTable)
    requires ParentsOlder(t)
    requires Insertable(t, c, parent)
    requires t' == CommentService.InsertComment(t, c, parent)
    ensures ParentsOlder(t')
  {
    forall k | k in t' && t'[k].parentCommentId.Some?
      ensures var p := CommentKey(k.videoId, t'[k].parentCommentId.value);
              t'[k].parentCommentId.value != [] && p in t' && t'[p].createdAt < t'[k].createdAt
    {
      InsertedParent(t, c, parent, t', k);
    }
  }

  /** The ids under each video after adding comment `id` to video `v`. */
  lemma InsertedIds(t: CommentTable, t': CommentTable, v: string, id: string, w: string)
    requires forall k :: k in t' <==> k in t || k == CommentKey(v, id)
    ensures CommentStore.CommentIds(t', w) == CommentStore.CommentIds(t, w) + (if w == v then {id} else {})
  {
    assert forall x :: x in CommentStore.CommentIds(t', w) <==> CommentKey(w, x) in t';
  }

  lemma InsertedCount(db: Db, db': Db, v: string, id: string, w: string)
    requires w in db.videos ==> db.videos[w].commentCount == |CommentStore.CommentIds(db.comments, w)|
    requires CommentKey(v, id) !in db.comments
    requires forall k :: k in db'.comments <==> k in db.comments || k == CommentKey(v, id)
    requires v in db.videos && db'.videos == CommentService.ChangeCommentCount(db.videos, v, 1)
    requires w in db'.videos
    ensures db'.videos[w].commentCount == |CommentStore.CommentIds(db'.comments, w)|
  {
    InsertedIds(db.comments, db'.comments, v, id, w);
  }

  /** Adding a fresh comment, bumping its stored parent, and adding one to
      the video's count keeps the counts exact. */
  lemma InsertedCounts(db: Db, db': Db, c: Comment, parent: Option<Comment>)
    requires CommentCountsExact(db)
    requires c.Key() !in db.comments
    requires parent.Some? ==> parent.value.Key() in db.comments
    requires c.videoId in db.videos
    requires db' == db.(comments := CommentService.InsertComment(db.comments, c, parent),
                        videos := CommentService.ChangeCommentCount(db.videos, c.videoId, 1))
    ensures CommentCountsExact(db')
  {
    assert forall k :: k in db'.comments <==> k in db.comments || k == CommentKey(c.videoId, c.commentId);
    forall w | w in db'.videos
      ensures db'.videos[w].commentCount == |CommentStore.CommentIds(db'.comments, w)|
    {
      InsertedCount(db, db', c.videoId, c.commentId, w);
    }
  }

  /** A successful create inserts what `InsertComment` expects, given an
      unused id and a clock later than every stored comment. */
  lemma CreateInsertable(db: Db, videoId: string, userId: string, content: Option<string>,
                         parentCommentId: Option<string>, newId: string, now: Instant)
    requires CommentKey(videoId, newId) !in db.comments
    requires forall k | k in db.comments :: db.comments[k].createdAt < now
    requires CommentService.Create(db, videoId, userId, content, parentCommentId, newId, now).0.Ok?
    ensures Insertable(db.comments, CommentService.Create(db, videoId, userId, content, parentCommentId, newId, now).0.value.comment,
                       CommentService.CreateChecks(db, videoId, userId, content, parentCommentId).value)
  {
  }

  /** Inserting as `CreateCommentAsync` does, and counting the new comment
      on its video, keeps the counters exact. */
  lemma InsertKeepsConsistent(db: Db, db': Db, c: Comment, parent: Option<Comment>)
    requires Consistent(db)
    requires Insertable(db.comments, c, parent)
    requires c.videoId in db.videos
    requires db' == db.(comments := CommentService.InsertComment(db.comments, c, parent),
                        videos := CommentService.ChangeCommentCount(db.videos, c.videoId, 1))
    ensures Consistent(db')
  {
    InsertKeepsThreads(db.comments, c, parent);
    InsertedCounts(db, db', c, parent);
  }

  /** `CreateCommentAsync` keeps the counters exact, given an unused id and
      a clock later than every stored comment. */
  lemma CreateKeepsConsistent(db: Db, videoId: string, userId: string, content: Option<string>,
                              parentCommentId: Option<string>, newId: string, now: Instant)
    requires Consistent(db)
    requires CommentKey(videoId, newId) !in db.comments
    requires forall k | k in db.comments :: db.comments[k].createdAt < now
    ensures Consistent(CommentService.Create(db, videoId, userId, content, parentCommentId, newId, now).1)
  {
    var r := CommentService.Create(db, videoId, userId, content, parentCommentId, newId, now);
    if r.0.Ok? {
      CreateInsertable(db, videoId, userId, content, parentCommentId, newId, now);
      InsertKeepsConsistent(db, r.1, r.0.value.comment, CommentService.CreateChecks(db, videoId, userId, content, parentCommentId).value);
    }
  }

  // ---------------------------------------------------------------------
  // Delete undoes create

  /** A freshly inserted comment has nothing below it. */
  lemma InsertedSubtree(t: CommentTable, c: Comment, parent: Option<Comment>, t': CommentTable)
    requires ParentsOlder(t)
    requires Insertable(t, c, parent)
    requires t' == CommentService.InsertComment(t, c, parent)
    ensures CommentTree.Subtree(t', c.videoId, c.commentId) == {c.commentId}
  {
    assert c.Key() in t';
    InsertedChildIds(t, c, parent, t', c.Key());
    CommentTree.SubtreeLeast(t', c.videoId, c.commentId, {c.commentId});
  }

  /** Removing the fresh comment and decrementing its parent gives back the
      comments as they were. */
  lemma RemoveInserted(t: CommentTable, c: Comment, parent: Option<Comment>, t': CommentTable)
    requires Insertable(t, c, parent)
    requires parent.Some? ==> parent.value.replyCount >= 0
    requires t' == CommentService.InsertComment(t, c, parent)
    ensures CommentService.RemoveThread(t', c.videoId, {c.commentId}, c.parentCommentId) == t
  {
    var r := CommentService.RemoveThread(t', c.videoId, {c.commentId}, c.parentCommentId);
    forall k
      ensures k in r <==> k in t
    {
      RemoveInsertedKey(t, c, parent, t', k);
    }
    forall k | k in t
      ensures r[k] == t[k]
    {
      RemoveInsertedValue(t, c, parent, t', k);
    }
  }

  lemma RemoveInsertedKey(t: CommentTable, c: Comment, parent: Option<Comment>, t': CommentTable, k: CommentKey)
    requires Insertable(t, c, parent)
    requires t' == CommentService.InsertComment(t, c, parent)
    ensures k in CommentService.RemoveThread(t', c.videoId, {c.commentId}, c.parentCommentId) <==> k in t
  {
    assert (k.videoId == c.videoId && k.commentId in {c.commentId}) <==> k == c.Key();
    assert k in t' <==> k in t || k == c.Key();
  }

  lemma RemoveInsertedValue(t: CommentTable, c: Comment, parent: Option<Comment>, t': CommentTable, k: CommentKey)
    requires Insertable(t, c, parent)
    requires parent.Some? ==> parent.value.replyCount >= 0
    requires t' == CommentService.InsertComment(t, c, parent)
    requires k in t
    ensures k in CommentService.RemoveThread(t', c.videoId, {c.commentId}, c.parentCommentId)
    ensures CommentService.RemoveThread(t', c.videoId, {c.commentId}, c.parentCommentId)[k] == t[k]
  {
    RemoveInsertedKey(t, c, parent, t', k);
    assert CommentStore.StoredIn(t', c) by {
      assert parent.Some? ==> parent.value.Key() != c.Key();
    }
    if parent.Some? && k == parent.value.Key() {
      assert k == CommentKey(c.videoId, c.parentCommentId.value);
      assert t'[k] == t[k].(replyCount := t[k].replyCount + 1);
    } else {
      assert t'[k] == t[k];
    }
  }

  /** Moving a video's count up by one and back down restores the table. */
  lemma CountUpDown(t: VideoTable, v: string)
    requires v in t
    ensures CommentService.ChangeCommentCount(CommentService.ChangeCommentCount(t, v, 1), v, -1) == t
  {
    var r := CommentService.ChangeCommentCount(CommentService.ChangeCommentCount(t, v, 1), v, -1);
    assert r[v] == t[v];
    assert forall w | w in t :: r[w] == t[w];
  }

  /** The author deleting the comment they just posted gets "Comment
      deleted successfully" with a count of one, and the state is back to
      what it was before the post. */
  lemma DeleteUndoesCreate(db: Db, videoId: string, userId: string, content: Option<string>,
                           parentCommentId: Option<string>, newId: string, now: Instant)
    requires Consistent(db)
    requires CommentKey(videoId, newId) !in db.comments
    requires forall k | k in db.comments :: db.comments[k].createdAt < now
    requires CommentService.Create(db, videoId, userId, content, parentCommentId, newId, now).0.Ok?
    ensures var db' := CommentService.Create(db, videoId, userId, content, parentCommentId, newId, now).1;
            CommentService.Delete(db', videoId, newId, userId)
              == (Ok(CommentService.DeleteResponse(newId, videoId, 1, true, "Comment deleted successfully")), db)
  {
    var r := CommentService.Create(db, videoId, userId, content, parentCommentId, newId, now);
    var c := r.0.value.comment;
    var parent := CommentService.CreateChecks(db, videoId, userId, content, parentCommentId).value;
    var db' := r.1;
    CreateInsertable(db, videoId, userId, content, parentCommentId, newId, now);
    assert db'.comments == CommentService.InsertComment(db.comments, c, parent);
    assert CommentStore.StoredIn(db'.comments, c);
    assert parent.Some? ==> parent.value.Key() in db.comments && parent.value.replyCount >= 0;
    InsertedSubtree(db.comments, c, parent, db'.comments);
    RemoveInserted(db.comments, c, parent, db'.comments);
    assert CommentService.DeleteChecks(db', videoId, newId, userId) == Ok(c);
    DeleteInserted(db, db', c, userId);
  }

  /** Deleting a permitted comment with nothing below it removes one
      comment and lowers the count by one when it is positive. */
  lemma DeleteSingle(db: Db, c: Comment, userId: string)
    requires c.videoId in db.videos
    requires CommentTree.Subtree(db.comments, c.videoId, c.commentId) == {c.commentId}
    requires CommentService.DeleteChecks(db, c.videoId, c.commentId, userId) == Ok(c)
    ensures CommentService.Delete(db, c.videoId, c.commentId, userId).0
              == Ok(CommentService.DeleteResponse(c.commentId, c.videoId, 1, true, "Comment deleted successfully"))
    ensures CommentService.Delete(db, c.videoId, c.commentId, userId).1
              == db.(comments := CommentService.RemoveThread(db.comments, c.videoId, {c.commentId}, c.parentCommentId),
                     videos := if db.videos[c.videoId].commentCount >= 1
                               then CommentService.ChangeCommentCount(db.videos, c.videoId, -1)
                               else db.videos)
  {
    var x := CommentService.DeletePermitted(db, c.videoId, c.commentId, c);
    SingletonCount(c.commentId);
    assert x.0.deletedCount == 1;
  }

  lemma SingletonCount(id: string)
    ensures |{id}| == 1
  {
  }

  /** Deleting a comment whose subtree is itself alone, once its insertion
      is undone on both tables, restores the database. */
  lemma DeleteInserted(db: Db, db': Db, c: Comment, userId: string)
    requires c.videoId in db.videos && db'.videos == CommentService.ChangeCommentCount(db.videos, c.videoId, 1)
    requires CommentService.RemoveThread(db'.comments, c.videoId, {c.commentId}, c.parentCommentId) == db.comments
    requires db' == db.(comments := db'.comments, videos := db'.videos)
    requires db.videos[c.videoId].commentCount >= 0
    requires CommentTree.Subtree(db'.comments, c.videoId, c.commentId) == {c.commentId}
    requires CommentService.DeleteChecks(db', c.videoId, c.commentId, userId) == Ok(c)
    ensures CommentService.Delete(db', c.videoId, c.commentId, userId)
              == (Ok(CommentService.DeleteResponse(c.commentId, c.videoId, 1, true, "Comment deleted successfully")), db)
  {
    DeleteSingle(db', c, userId);
    CountUpDown(db.videos, c.videoId);
  }
}

=== FILE: comment_service.dfy ===
/** `CommentService`: creating, editing, listing and cascade-deleting the
    comments of a video, with the denormalised counters `ReplyCount` (on the
    parent comment) and `CommentCount` (on the video).

    Every operation is a function from the state and its inputs to a result
    and the new state. A thrown exception is an `Err` and leaves the state as
    it was, because each operation throws before its first write. The fresh
    comment id and the clock are inputs.
 */
module CommentService {
  import opened Wrappers
  import opened Text
  import opened Ordering
  import opened Entities
  import CommentStore
  import CommentTree

  const MaxContentLength: nat := 10000
  const MaxInlineReplies: nat := 20

  // ---------------------------------------------------------------------
  // Create

  /** The content rule shared by create and edit: the raw content must be
      present, not blank, and at most 10000 UTF-16 code units long
      (`string.Length`) before trimming. */
  function ContentError(content: Option<string>): (r: Option<Exception>)
    ensures r.None? <==> content.Some? && !IsBlank(content.value) && Utf16Length(content.value) <= MaxContentLength
    ensures r.Some? ==> r.value == BadRequestException
  {
    if IsNullOrWhiteSpace(content) then Some(BadRequestException)
    else if Utf16Length(content.value) > MaxContentLength then Some(BadRequestException)
    else None
  }

  /** A blank parent id means a root comment; any other id is trimmed. */
  function ParentIdOf(parentCommentId: Option<string>): (r: Option<string>)
    ensures r.None? <==> IsNullOrWhiteSpace(parentCommentId)
    ensures r.Some? ==> r.value != [] && Trim(r.value) == r.value
  {
    if IsNullOrWhiteSpace(parentCommentId) then None
    else
      var id := parentCommentId.value;
      TrimIdempotent(id);
      Some(Trim(id))
  }

  datatype CreateResponse = CreateResponse(comment: Comment, message: string)

  const ReplyPosted := "Reply posted successfully"
  const CommentPosted := "Comment posted successfully"

  /** The checks `CreateCommentAsync` makes before its first write, in their
      order; on success, the comment being replied to, if any. */
  function CreateChecks(db: Db, videoId: string, userId: string, content: Option<string>,
                        parentCommentId: Option<string>): (r: Result<Option<Comment>>)
    ensures ContentError(content).Some? ==> r == Err(BadRequestException)
    ensures ContentError(content).None? && videoId !in db.videos ==> r == Err(NotFoundException)
    ensures ContentError(content).None? && videoId in db.videos && userId !in db.users ==> r == Err(NotFoundException)
    ensures var p := ParentIdOf(parentCommentId);
            ContentError(content).None? && videoId in db.videos && userId in db.users && p.Some? ==>
              && (CommentKey(videoId, p.value) !in db.comments ==> r == Err(NotFoundException))
              && (CommentKey(videoId, p.value) in db.comments && db.comments[CommentKey(videoId, p.value)].isDeleted ==>
                    r == Err(BadRequestException))
    ensures r.Ok? ==>
              && ContentError(content).None? && videoId in db.videos && userId in db.users
              && var p := ParentIdOf(parentCommentId);
                 && (r.value.Some? <==> p.Some?)
                 && (r.value.Some? ==>
                       && CommentStore.StoredIn(db.comments, r.value.value)
                       && r.value.value.Key() == CommentKey(videoId, p.value)
                       && !r.value.value.isDeleted)
  {
    if ContentError(content).Some? then Err(BadRequestException)
    else if videoId !in db.videos then Err(NotFoundException)
    else if userId !in db.users then Err(NotFoundException)
    else
      match ParentIdOf(parentCommentId)
      case None => Ok(None)
      case Some(id) =>
        match CommentStore.Get(db.comments, videoId, id)
        case None => Err(NotFoundException)
        case Some(parent) => if parent.isDeleted then Err(BadRequestException) else Ok(Some(parent))
  }

  /** The comment writes of a successful create: the new comment, and the
      comment it replies to with one more reply. */
  function InsertComment(t: CommentTable, c: Comment, parent: Option<Comment>): (r: CommentTable)
    ensures CommentStore.StoredIn(r, c) || (parent.Some? && parent.value.Key() == c.Key())
    ensures r.Keys == t.Keys + {c.Key()} + (if parent.Some? then {parent.value.Key()} else {})
    ensures parent.Some? ==> CommentStore.StoredIn(r, parent.value.(replyCount := parent.value.replyCount + 1))
    ensures forall k | k in t && k != c.Key() && (parent.None? || k != parent.value.Key()) :: r[k] == t[k]
  {
    var t1 := CommentStore.Save(t, c);
    if parent.Some? then CommentStore.Save(t1, parent.value.(replyCount := parent.value.replyCount + 1)) else t1
  }

  /** The video write: its comment count moved by `delta`, nothing else. */
  function ChangeCommentCount(t: VideoTable, videoId: string, delta: int): (r: VideoTable)
    requires videoId in t
    ensures r.Keys == t.Keys
    ensures r[videoId] == t[videoId].(commentCount := t[videoId].commentCount + delta)
    ensures forall v | v in t && v != videoId :: r[v] == t[v]
  {
    var video := t[videoId];
    SaveVideo(t, video.(commentCount := video.commentCount + delta))
  }

  /** `CreateCommentAsync`: the checks, then the three writes. */
  function Create(db: Db, videoId: string, userId: string, content: Option<string>,
                  parentCommentId: Option<string>, newId: string, now: Instant): (r: (Result<CreateResponse>, Db))
    ensures r.0.Err? <==> CreateChecks(db, videoId, userId, content, parentCommentId).Err?
    ensures r.0.Err? ==> r.1 == db && r.0.error == CreateChecks(db, videoId, userId, content, parentCommentId).error
    ensures r.0.Ok? ==>
              var c := r.0.value.comment;
              var p := ParentIdOf(parentCommentId);
              && content.Some? && c.content == Trim(content.value) && c.content != []
              && c.videoId == videoId && c.commentId == newId && c.userId == userId
              && userId in db.users && c.userName == db.users[userId].name
              && c.userAvatarUrl == db.users[userId].avatarUrl
              && c.parentCommentId == p
              && c.likeCount == 0 && c.replyCount == 0 && !c.isEdited && !c.isDeleted
              && c.createdAt == now && c.updatedAt.None?
              && (r.0.value.message == ReplyPosted <==> p.Some?)
              && (p.None? ==> r.0.value.message == CommentPosted)
    ensures r.0.Ok? ==>
              && videoId in db.videos
              && r.1 == db.(comments := InsertComment(db.comments, r.0.value.comment,
                                                     CreateChecks(db, videoId, userId, content, parentCommentId).value),
                            videos := ChangeCommentCount(db.videos, videoId, 1))
  {
    match CreateChecks(db, videoId, userId, content, parentCommentId)
    case Err(e) => (Err(e), db)
    case Ok(parent) =>
      var user := db.users[userId];
      var c := Comment(videoId, newId, userId, user.name, user.avatarUrl, Trim(content.value),
                       ParentIdOf(parentCommentId), 0, 0, false, false, now, None);
      (Ok(CreateResponse(c, if parent.Some? then ReplyPosted else CommentPosted)),
       db.(comments := InsertComment(db.comments, c, parent), videos := ChangeCommentCount(db.videos, videoId, 1)))
  }

  // ---------------------------------------------------------------------
  // Edit

  datatype UpdateResponse = UpdateResponse(
    commentId: string, videoId: string, content: string, isEdited: bool, updatedAt: Instant, message: string)

  /** `UpdateCommentAsync`. */
  function Update(db: Db, videoId: string, commentId: string, userId: string,
                  content: Option<string>, now: Instant): (r: (Result<UpdateResponse>, Db))
    ensures r.0.Err? ==> r.1 == db
    ensures var k := CommentKey(videoId, commentId);
            r.0.Err? <==> || ContentError(content).Some?
                          || k !in db.comments
                          || db.comments[k].isDeleted
                          || db.comments[k].userId != userId
                          || db.comments[k].content == Trim(content.value)
    ensures ContentError(content).Some? ==> r.0 == Err(BadRequestException)
    ensures var k := CommentKey(videoId, commentId);
            ContentError(content).None? ==>
              && (k !in db.comments ==> r.0 == Err(NotFoundException))
              && (k in db.comments && db.comments[k].isDeleted ==> r.0 == Err(BadRequestException))
              && (k in db.comments && !db.comments[k].isDeleted && db.comments[k].userId != userId ==>
                    r.0 == Err(ForbiddenException))
              && ((k in db.comments && !db.comments[k].isDeleted && db.comments[k].userId == userId
                   && db.comments[k].content == Trim(content.value)) ==> r.0 == Err(BadRequestException))
    ensures r.0.Ok? ==>
              var k := CommentKey(videoId, commentId);
              && content.Some?
              && k in db.comments && k in r.1.comments
              && (var before := db.comments[k];
                  var after := r.1.comments[k];
                  && before.userId == userId && !before.isDeleted
                  && after.content == Trim(content.value) != before.content
                  && after.isEdited && after.updatedAt == Some(now)
                  && after.(content := before.content, isEdited := before.isEdited, updatedAt := before.updatedAt) == before
                  && r.0.value == UpdateResponse(commentId, videoId, after.content, true, now, "Comment updated successfully"))
              && r.1 == db.(comments := db.comments[k := r.1.comments[k]])
  {
    if ContentError(content).Some? then (Err(BadRequestException), db)
    else
      match CommentStore.Get(db.comments, videoId, commentId)
      case None => (Err(NotFoundException), db)
      case Some(c) =>
        if c.isDeleted then (Err(BadRequestException), db)
        else if c.userId != userId then (Err(ForbiddenException), db)
        else
          var newContent := Trim(content.value);
          if c.content == newContent then (Err(BadRequestException), db)
          else
            var c' := c.(content := newContent, isEdited := true, updatedAt := Some(now));
            (Ok(UpdateResponse(commentId, videoId, newContent, true, now, "Comment updated successfully")),
             db.(comments := CommentStore.Save(db.comments, c')))
  }

  /** An edit is a no-op edit the second time: repeating a successful edit
      with the same content is refused and changes nothing. */
  lemma UpdateTwiceRejected(db: Db, videoId: string, commentId: string, userId: string,
                            content: Option<string>, now: Instant, later: Instant)
    requires Update(db, videoId, commentId, userId, content, now).0.Ok?
    ensures var db' := Update(db, videoId, commentId, userId, content, now).1;
            Update(db', videoId, commentId, userId, content, later) == (Err(BadRequestException), db')
  {
  }

  // ---------------------------------------------------------------------
  // Listing

  datatype SortOrder = Popular | Oldest | Recent

  /** `SortBy.ToLower()`: "popular", "oldest", and anything else means the
      most recent first. */
  function SortOrderOf(sortBy: string): (r: SortOrder)
    ensures r == Popular <==> ToLower(sortBy) == "popular"
    ensures r == Oldest <==> ToLower(sortBy) == "oldest"
  {
    var s := ToLower(sortBy);
    if s == "popular" then Popular else if s == "oldest" then Oldest else Recent
  }

  /** The root order as a stable-sort key: most liked then newest first,
      oldest first, or newest first. */
  function RootKey(order: SortOrder): Comment -> Key {
    match order
    case Popular => (c: Comment) => Key(0 - c.likeCount, 0 - c.createdAt as int)
    case Oldest => (c: Comment) => Key(c.createdAt, 0)
    case Recent => (c: Comment) => Key(0 - c.createdAt as int, 0)
  }

  /** `a` may come before `b` in the listing: more likes, or as many likes
      and no older, for "popular"; no newer for "oldest"; no older
      otherwise. */
  predicate InRootOrder(order: SortOrder, a: Comment, b: Comment) {
    match order
    case Popular => a.likeCount > b.likeCount || (a.likeCount == b.likeCount && a.createdAt >= b.createdAt)
    case Oldest => a.createdAt <= b.createdAt
    case Recent => a.createdAt >= b.createdAt
  }

  /** A list sorted by `RootKey(order)` is in root order. */
  lemma RootKeyOrder(s: seq<Comment>, order: SortOrder)
    requires SortedBy(s, RootKey(order))
    ensures forall i, j | 0 <= i < j < |s| :: InRootOrder(order, s[i], s[j])
  {
    forall i, j | 0 <= i < j < |s|
      ensures InRootOrder(order, s[i], s[j])
    {
      assert !KeyLt(RootKey(order)(s[j]), RootKey(order)(s[i]));
    }
  }

  predicate IsRoot(c: Comment) {
    IsNullOrEmpty(c.parentCommentId)
  }

  /** The live root comments of a video. */
  function Roots(t: CommentTable, videoId: string): (r: seq<Comment>)
    ensures forall c :: c in r <==> CommentStore.StoredIn(t, c) && c.videoId == videoId && !c.isDeleted && IsRoot(c)
  {
    Filter(CommentStore.VideoComments(t, videoId), IsRoot)
  }

  /** The live replies of a video, whatever they reply to. */
  function ReplyList(t: CommentTable, videoId: string): (r: seq<Comment>)
    ensures forall c :: c in r <==> CommentStore.StoredIn(t, c) && c.videoId == videoId && !c.isDeleted && !IsRoot(c)
  {
    Filter(CommentStore.VideoComments(t, videoId), (c: Comment) => !IsRoot(c))
  }

  /** Every live comment is a root or a reply, never both. */
  lemma RootsAndReplies(t: CommentTable, videoId: string)
    ensures |Roots(t, videoId)| + |ReplyList(t, videoId)| == CommentStore.CountVideoComments(t, videoId)
  {
    FilterPartition(CommentStore.VideoComments(t, videoId), IsRoot, (c: Comment) => !IsRoot(c));
  }

  /** The roots in listing order. */
  function SortedRoots(t: CommentTable, videoId: string, order: SortOrder): (r: seq<Comment>)
    ensures |r| == |Roots(t, videoId)|
    ensures forall c :: c in r <==> c in Roots(t, videoId)
    ensures SortedBy(r, RootKey(order))
  {
    SortByKeyMembers(Roots(t, videoId), RootKey(order));
    SortByKey(Roots(t, videoId), RootKey(order))
  }

  /** One page of the roots: still in listing order. */
  function RootPage(t: CommentTable, videoId: string, order: SortOrder, offset: int, limit: int): (r: seq<Comment>)
    ensures var n := |Roots(t, videoId)|;
            |r| == Min(Max(limit, 0), n - Min(Max(offset, 0), n))
    ensures forall c | c in r :: c in Roots(t, videoId)
    ensures forall i, j | 0 <= i < j < |r| :: InRootOrder(order, r[i], r[j])
  {
    var sorted := SortedRoots(t, videoId, order);
    PageKeepsOrder(sorted, RootKey(order), offset, limit);
    RootKeyOrder(Page(sorted, offset, limit), order);
    Page(sorted, offset, limit)
  }

  datatype CommentsQuery = CommentsQuery(
    sortBy: string, limit: int, offset: int, includeReplies: bool, parentCommentId: Option<string>)

  /** A listed comment, with its first replies when they are inlined. */
  datatype Thread = Thread(comment: Comment, replies: Option<seq<Comment>>)

  datatype CommentsPage = CommentsPage(
    videoId: string, comments: seq<Thread>, totalCount: nat, rootCount: nat, repliesCount: nat)

  /** The comments a page lists, in order. */
  function Listed(ts: seq<Thread>): (r: seq<Comment>)
    ensures |r| == |ts|
    ensures forall i | 0 <= i < |ts| :: r[i] == ts[i].comment
  {
    seq(|ts|, i requires 0 <= i < |ts| => ts[i].comment)
  }

  /** Comments listed without inlined replies. */
  function Bare(cs: seq<Comment>): (ts: seq<Thread>)
    ensures Listed(ts) == cs
    ensures forall i | 0 <= i < |ts| :: ts[i].replies.None?
  {
    var ts := seq(|cs|, i requires 0 <= i < |cs| => Thread(cs[i], None));
    assert Listed(ts) == cs;
    ts
  }

  /** The replies inlined under `c`: its replies among the listed ones,
      oldest first, at most 20. */
  function InlineReplies(replies: seq<Comment>, c: Comment): (r: seq<Comment>)
    ensures |r| <= MaxInlineReplies
    ensures forall x | x in r :: x in replies && x.parentCommentId == Some(c.commentId)
    ensures forall i, j | 0 <= i < j < |r| :: r[i].createdAt <= r[j].createdAt
  {
    var mine := Filter(replies, (x: Comment) => x.parentCommentId == Some(c.commentId));
    var sorted := SortByKey(mine, CommentStore.ByCreatedAt);
    SortByKeyMembers(mine, CommentStore.ByCreatedAt);
    PageKeepsOrder(sorted, CommentStore.ByCreatedAt, 0, MaxInlineReplies);
    var r := Take(sorted, MaxInlineReplies);
    assert SortedBy(r, CommentStore.ByCreatedAt);
    r
  }

  /** A listed root: the replies are inlined only when asked for and when
      the root counts any. */
  function ThreadOf(replies: seq<Comment>, includeReplies: bool, c: Comment): (th: Thread)
    ensures th.comment == c
    ensures th.replies.Some? <==> includeReplies && c.replyCount > 0
    ensures th.replies.Some? ==> th.replies.value == InlineReplies(replies, c)
  {
    Thread(c, if includeReplies && c.replyCount > 0 then Some(InlineReplies(replies, c)) else None)
  }

  /** Listed roots with their inlined replies. */
  function Threads(replies: seq<Comment>, includeReplies: bool, roots: seq<Comment>): (ts: seq<Thread>)
    ensures Listed(ts) == roots
    ensures forall i | 0 <= i < |ts| :: ts[i] == ThreadOf(replies, includeReplies, ts[i].comment)
  {
    var ts := seq(|roots|, i requires 0 <= i < |roots| => ThreadOf(replies, includeReplies, roots[i]));
    assert Listed(ts) == roots;
    ts
  }

  /** The listing of one comment's replies (a non-empty `ParentCommentId`):
      exactly its live replies, oldest first, nothing inlined. */
  function ReplyPage(t: CommentTable, videoId: string, parentId: string): (p: CommentsPage)
    ensures p.videoId == videoId
    ensures p.totalCount == p.repliesCount == |p.comments| && p.rootCount == 0
    ensures forall i | 0 <= i < |p.comments| :: p.comments[i].replies.None?
    ensures forall c :: c in Listed(p.comments) <==>
              CommentStore.StoredIn(t, c) && c.videoId == videoId && !c.isDeleted && c.parentCommentId == Some(parentId)
    ensures var l := Listed(p.comments); forall i, j | 0 <= i < j < |l| :: l[i].createdAt <= l[j].createdAt
  {
    var threads := Bare(CommentStore.Replies(t, videoId, parentId));
    CommentsPage(videoId, threads, |threads|, 0, |threads|)
  }

  /** The listing of the roots: one page of them in the requested order,
      each with its first replies when asked for; the totals count every
      live comment of the video, not just the page. */
  function ThreadPage(t: CommentTable, videoId: string, q: CommentsQuery): (p: CommentsPage)
    ensures p.videoId == videoId
    ensures p.totalCount == CommentStore.CountVideoComments(t, videoId) == p.rootCount + p.repliesCount
    ensures p.rootCount == |Roots(t, videoId)|
    ensures Listed(p.comments) == RootPage(t, videoId, SortOrderOf(q.sortBy), q.offset, q.limit)
    ensures forall i | 0 <= i < |p.comments| ::
              p.comments[i] == ThreadOf(ReplyList(t, videoId), q.includeReplies, p.comments[i].comment)
  {
    var page := RootPage(t, videoId, SortOrderOf(q.sortBy), q.offset, q.limit);
    var replies := ReplyList(t, videoId);
    var threads := Threads(replies, q.includeReplies, page);
    RootsAndReplies(t, videoId);
    CommentsPage(videoId, threads, CommentStore.CountVideoComments(t, videoId), |Roots(t, videoId)|, |replies|)
  }

  /** `GetCommentsAsync`. */
  function GetComments(db: Db, videoId: string, q: CommentsQuery): (r: Result<CommentsPage>)
    ensures r.Err? <==> videoId !in db.videos
    ensures r.Err? ==> r.error == NotFoundException
    ensures r.Ok? && !IsNullOrEmpty(q.parentCommentId) ==> r.value == ReplyPage(db.comments, videoId, q.parentCommentId.value)
    ensures r.Ok? && IsNullOrEmpty(q.parentCommentId) ==> r.value == ThreadPage(db.comments, videoId, q)
  {
    if videoId !in db.videos then Err(NotFoundException)
    else if !IsNullOrEmpty(q.parentCommentId) then Ok(ReplyPage(db.comments, videoId, q.parentCommentId.value))
    else Ok(ThreadPage(db.comments, videoId, q))
  }

  /** The replies inlined under a listed root are its first 20 replies, as
      the replies listing returns them. */
  lemma InlineRepliesAreFirstReplies(t: CommentTable, videoId: string, c: Comment)
    requires c.commentId != []
    ensures InlineReplies(ReplyList(t, videoId), c) == Take(CommentStore.Replies(t, videoId, c.commentId), MaxInlineReplies)
  {
    var all := CommentStore.VideoComments(t, videoId);
    var isChild := (x: Comment) => x.parentCommentId == Some(c.commentId);
    FilterOfFilter(all, isChild, (x: Comment) => !IsRoot(x));
  }

  // ---------------------------------------------------------------------
  // Cascade delete

  datatype DeleteResponse = DeleteResponse(
    commentId: string, videoId: string, deletedCount: nat, success: bool, message: string)

  const SingleDeletedMessage := "Comment deleted successfully"
  const RepliesPrefix := "Comment and "
  const RepliesSuffix := " replies deleted successfully"

  /** The message of a successful delete, counting the replies removed. */
  function DeleteMessage(deletedCount: nat): (m: string)
    ensures m == SingleDeletedMessage <==> deletedCount <= 1
    ensures RepliesNamed(m) == if deletedCount > 1 then Some(deletedCount - 1) else None
  {
    if deletedCount > 1 then
      var digits := NatToString(deletedCount - 1);
      var m := RepliesPrefix + digits + RepliesSuffix;
      assert m[|RepliesPrefix|..|m| - |RepliesSuffix|] == digits;
      assert m[..|RepliesPrefix|] == RepliesPrefix && m[|m| - |RepliesSuffix|..] == RepliesSuffix;
      DigitsValueOfNatToString(deletedCount - 1);
      m
    else SingleDeletedMessage
  }

  /** Reads back the number of replies a delete message names, if any. */
  function RepliesNamed(m: string): Option<nat> {
    var a := |RepliesPrefix|;
    var b := |RepliesSuffix|;
    if |m| > a + b && m[..a] == RepliesPrefix && m[|m| - b..] == RepliesSuffix
       && forall i | a <= i < |m| - b :: IsDigit(m[i])
    then
      var mid := m[a..|m| - b];
      assert forall i | 0 <= i < |mid| :: mid[i] == m[a + i];
      Some(DigitsValue(mid))
    else None
  }

  /** Two deletes give the same message only when they removed the same
      number of replies: the message tells the count. */
  lemma DeleteMessageNamesCount(n: nat, k: nat)
    requires DeleteMessage(n) == DeleteMessage(k)
    ensures n == k || (n <= 1 && k <= 1)
  {
    assert RepliesNamed(DeleteMessage(n)) == RepliesNamed(DeleteMessage(k));
  }

  /** Only the comment's author or the owner of its video may delete it. */
  predicate MayDelete(c: Comment, video: Video, userId: string) {
    c.userId == userId || video.userId == userId
  }

  /** Step 6 of `DeleteCommentAsync`: after the removal, the parent (if it is
      still there) loses one reply, never going below zero. */
  function DecrementParent(t: CommentTable, videoId: string, parentCommentId: Option<string>): (r: CommentTable)
    ensures r.Keys == t.Keys
    ensures forall k | k in t ::
              if !IsNullOrEmpty(parentCommentId) && k == CommentKey(videoId, parentCommentId.value) && t[k].replyCount > 0
              then r[k] == t[k].(replyCount := t[k].replyCount - 1)
              else r[k] == t[k]
  {
    if IsNullOrEmpty(parentCommentId) then t
    else
      match CommentStore.Get(t, videoId, parentCommentId.value)
      case Some(p) => if p.replyCount > 0 then CommentStore.Save(t, p.(replyCount := p.replyCount - 1)) else t
      case None => t
  }

  /** Steps 5 and 6 of `DeleteCommentAsync`: exactly the comments of `gone`
      disappear, and the surviving parent, if any, loses one reply. */
  function RemoveThread(t: CommentTable, videoId: string, gone: set<string>, parentCommentId: Option<string>): (r: CommentTable)
    ensures forall k :: k in r <==> k in t && !(k.videoId == videoId && k.commentId in gone)
    ensures forall k | k in r ::
              if !IsNullOrEmpty(parentCommentId) && k == CommentKey(videoId, parentCommentId.value) && t[k].replyCount > 0
              then r[k] == t[k].(replyCount := t[k].replyCount - 1)
              else r[k] == t[k]
  {
    DecrementParent(CommentTree.DeleteAll(t, videoId, gone), videoId, parentCommentId)
  }

  /** Steps 1 to 3 of `DeleteCommentAsync`: the comment and its video must
      exist, and the caller must own one of them. */
  function DeleteChecks(db: Db, videoId: string, commentId: string, userId: string): (r: Result<Comment>)
    ensures CommentKey(videoId, commentId) !in db.comments ==> r == Err(NotFoundException)
    ensures CommentKey(videoId, commentId) in db.comments && videoId !in db.videos ==> r == Err(NotFoundException)
    ensures CommentKey(videoId, commentId) in db.comments && videoId in db.videos ==>
              (r.Ok? <==> MayDelete(db.comments[CommentKey(videoId, commentId)], db.videos[videoId], userId))
    ensures CommentKey(videoId, commentId) in db.comments && videoId in db.videos
            && !MayDelete(db.comments[CommentKey(videoId, commentId)], db.videos[videoId], userId) ==>
              r == Err(ForbiddenException)
    ensures r.Ok? ==> videoId in db.videos && CommentStore.StoredIn(db.comments, r.value)
                      && r.value.Key() == CommentKey(videoId, commentId)
  {
    match CommentStore.Get(db.comments, videoId, commentId)
    case None => Err(NotFoundException)
    case Some(c) =>
      if videoId !in db.videos then Err(NotFoundException)
      else if !MayDelete(c, db.videos[videoId], userId) then Err(ForbiddenException)
      else Ok(c)
  }

  /** Steps 4 to 7 of `DeleteCommentAsync` for a permitted delete of the
      stored comment `c`: the comment and every reply below it go, the
      parent loses one reply, and the video's count drops by the number
      removed unless that would make it negative. */
  function DeletePermitted(db: Db, videoId: string, commentId: string, c: Comment): (r: (DeleteResponse, Db))
    requires videoId in db.videos && CommentKey(videoId, commentId) in db.comments
    ensures var gone := CommentTree.Subtree(db.comments, videoId, commentId);
            var n := r.0.deletedCount;
            && n == |gone| >= 1 && commentId in gone
            && r.0 == DeleteResponse(commentId, videoId, n, true, DeleteMessage(n))
            && r.1 == db.(comments := RemoveThread(db.comments, videoId, gone, c.parentCommentId),
                          videos := if db.videos[videoId].commentCount >= n
                                    then ChangeCommentCount(db.videos, videoId, -(n as int))
                                    else db.videos)
  {
    var gone := CommentTree.Subtree(db.comments, videoId, commentId);
    SubtreeNotEmpty(gone, commentId);
    var n := |gone|;
    var comments := RemoveThread(db.comments, videoId, gone, c.parentCommentId);
    var videos := if db.videos[videoId].commentCount >= n then ChangeCommentCount(db.videos, videoId, -(n as int)) else db.videos;
    (DeleteResponse(commentId, videoId, n, true, DeleteMessage(n)), db.(comments := comments, videos := videos))
  }

  /** A set holding the deleted comment counts at least one. */
  lemma SubtreeNotEmpty(gone: set<string>, commentId: string)
    requires commentId in gone
    ensures |gone| >= 1
  {
    assert {commentId} <= gone;
  }

  /** `DeleteCommentAsync`: the checks, then the permitted delete. */
  function Delete(db: Db, videoId: string, commentId: string, userId: string): (r: (Result<DeleteResponse>, Db))
    ensures r.0.Err? <==> DeleteChecks(db, videoId, commentId, userId).Err?
    ensures r.0.Err? ==> r.1 == db && r.0.error == DeleteChecks(db, videoId, commentId, userId).error
    ensures r.0.Ok? ==>
              var c := DeleteChecks(db, videoId, commentId, userId).value;
              var gone := CommentTree.Subtree(db.comments, videoId, commentId);
              var n := r.0.value.deletedCount;
              && n == |gone| >= 1 && commentId in gone
              && r.0.value == DeleteResponse(commentId, videoId, n, true, DeleteMessage(n))
              && r.1 == db.(comments := RemoveThread(db.comments, videoId, gone, c.parentCommentId),
                            videos := if db.videos[videoId].commentCount >= n
                                      then ChangeCommentCount(db.videos, videoId, -(n as int))
                                      else db.videos)
  {
    match DeleteChecks(db, videoId, commentId, userId)
    case Err(e) => (Err(e), db)
    case Ok(c) =>
      var x := DeletePermitted(db, videoId, commentId, c);
      (Ok(x.0), x.1)
  }
}

=== FILE: comment_store.dfy ===
/** `CommentRepository`: the Comments table, hash key `videoId`, range key
    `commentId`. A query on one video returns its items in ascending
    `commentId` order.
 */
module CommentStore {
  import opened Wrappers
  import opened Entities
  import opened Ordering

  /** `c` is the item stored under its own key. */
  predicate StoredIn(t: CommentTable, c: Comment) {
    c.Key() in t && t[c.Key()] == c
  }

  /** `GetAsync`: a point read. */
  function Get(t: CommentTable, videoId: string, commentId: string): (r: Option<Comment>)
    ensures r.Some? <==> CommentKey(videoId, commentId) in t
    ensures r.Some? ==> StoredIn(t, r.value) && r.value.videoId == videoId && r.value.commentId == commentId
  {
    var k := CommentKey(videoId, commentId);
    if k in t then Some(t[k]) else None
  }

  /** `SaveAsync` and `UpdateAsync` (the same upsert): the comment replaces
      whatever was stored under its key, and no other item changes. */
  function Save(t: CommentTable, c: Comment): (r: CommentTable)
    ensures StoredIn(r, c)
    ensures r.Keys == t.Keys + {c.Key()}
    ensures forall k | k in t && k != c.Key() :: r[k] == t[k]
  {
    t[c.Key() := c]
  }

  /** Saving an item back over a later version of itself restores the
      table. */
  lemma SaveRestores(t: CommentTable, c: Comment, d: Comment)
    requires StoredIn(t, c) && d.Key() == c.Key()
    ensures Save(Save(t, d), c) == t
  {
    assert Save(Save(t, d), c).Keys == t.Keys;
  }

  /** `DeleteAsync`: removes the one key and nothing else. */
  function Delete(t: CommentTable, videoId: string, commentId: string): (r: CommentTable)
    ensures r.Keys == t.Keys - {CommentKey(videoId, commentId)}
    ensures forall k | k in r :: r[k] == t[k]
  {
    t - {CommentKey(videoId, commentId)}
  }

  /** The comment ids stored under a video. */
  function CommentIds(t: CommentTable, videoId: string): (r: set<string>)
    ensures forall id :: id in r <==> CommentKey(videoId, id) in t
  {
    var r := set k | k in t && k.videoId == videoId :: k.commentId;
    forall id | id in r
      ensures CommentKey(videoId, id) in t
    {
      var k :| k in t && k.videoId == videoId && k.commentId == id;
      assert k == CommentKey(videoId, id);
    }
    r
  }

  /** The items stored under the given ids of a video, in the same order. */
  function Lookup(t: CommentTable, videoId: string, ids: seq<string>): (r: seq<Comment>)
    requires forall i | 0 <= i < |ids| :: CommentKey(videoId, ids[i]) in t
    ensures |r| == |ids|
    ensures forall i | 0 <= i < |ids| :: StoredIn(t, r[i]) && r[i].videoId == videoId && r[i].commentId == ids[i]
  {
    seq(|ids|, i requires 0 <= i < |ids| => t[CommentKey(videoId, ids[i])])
  }

  /** `GetAllCommentsIncludingDeleted`: every item of the video, each once,
      in range-key order. */
  function AllIncludingDeleted(t: CommentTable, videoId: string): (r: seq<Comment>)
    ensures forall c :: c in r <==> StoredIn(t, c) && c.videoId == videoId
    ensures forall i, j | 0 <= i < j < |r| :: StrLt(r[i].commentId, r[j].commentId)
  {
    var ids := SortedStrings(CommentIds(t, videoId));
    var r := Lookup(t, videoId, ids);
    forall c | StoredIn(t, c) && c.videoId == videoId
      ensures c in r
    {
      var i :| 0 <= i < |ids| && ids[i] == c.commentId;
      assert r[i].Key() == c.Key();
    }
    r
  }

  predicate IsLive(c: Comment) {
    !c.isDeleted
  }

  /** `GetVideoCommentsAsync`: exactly the video's comments that are not
      flagged deleted, a subset of `AllIncludingDeleted`. */
  function VideoComments(t: CommentTable, videoId: string): (r: seq<Comment>)
    ensures forall c :: c in r <==> StoredIn(t, c) && c.videoId == videoId && !c.isDeleted
    ensures forall c | c in r :: c in AllIncludingDeleted(t, videoId)
  {
    Filter(AllIncludingDeleted(t, videoId), IsLive)
  }

  /** `CountVideoCommentsAsync`: counts the live items itself, and agrees
      with the length of the listing. */
  function CountVideoComments(t: CommentTable, videoId: string): (n: nat)
    ensures n == |VideoComments(t, videoId)|
  {
    CountWhereIsFilterLength(AllIncludingDeleted(t, videoId), IsLive);
    CountWhere(AllIncludingDeleted(t, videoId), IsLive)
  }

  function ByCreatedAt(c: Comment): Key {
    Key(c.createdAt, 0)
  }

  /** `GetCommentRepliesAsync`: exactly the live comments of the video whose
      parent is `parentId`, oldest first (ties keep range-key order). */
  function Replies(t: CommentTable, videoId: string, parentId: string): (r: seq<Comment>)
    ensures forall c :: c in r <==>
      StoredIn(t, c) && c.videoId == videoId && !c.isDeleted && c.parentCommentId == Some(parentId)
    ensures forall i, j | 0 <= i < j < |r| :: r[i].createdAt <= r[j].createdAt
  {
    var children := Filter(VideoComments(t, videoId), (c: Comment) => c.parentCommentId == Some(parentId));
    SortByKeyMembers(children, ByCreatedAt);
    var r := SortByKey(children, ByCreatedAt);
    forall i, j | 0 <= i < j < |r|
      ensures r[i].createdAt <= r[j].createdAt
    {
      assert !KeyLt(ByCreatedAt(r[j]), ByCreatedAt(r[i]));
    }
    r
  }
}

=== FILE: comment_tree.dfy ===
/** The reply tree of one video's comments and the cascade walk over it
    (`GetCommentTreeAsync`).

    A comment's children are the live comments of the same video whose
    parent pointer names it, as `GetCommentRepliesAsync` returns them. The
    walk is a worklist with a visited set, so it stops even on parent
    pointers that form a cycle; it returns the LEAST set that contains the
    target and every child of every comment in it.
 */
module CommentTree {
  import opened Wrappers
  import opened Entities
  import opened Ordering
  import CommentStore

  /** Comment `y` of video `v` is stored, live, and replies to `id`. */
  predicate IsChild(t: CommentTable, v: string, id: string, y: string) {
    var k := CommentKey(v, y);
    k in t && !t[k].isDeleted && t[k].parentCommentId == Some(id)
  }

  /** Ids of the live children of comment `id` in video `v`. */
  function ChildIds(t: CommentTable, v: string, id: string): (r: set<string>)
    ensures forall y :: y in r <==> IsChild(t, v, id, y)
    ensures r <= CommentStore.CommentIds(t, v)
  {
    var r := set k | k in t && k.videoId == v && !t[k].isDeleted && t[k].parentCommentId == Some(id) :: k.commentId;
    forall y | y in r
      ensures IsChild(t, v, id, y)
    {
      var k :| k in t && k.videoId == v && !t[k].isDeleted && t[k].parentCommentId == Some(id) && k.commentId == y;
      assert k == CommentKey(v, y);
    }
    r
  }

  /** Every stored comment of `z` has all its children in `z`. */
  predicate Closed(t: CommentTable, v: string, z: set<string>) {
    forall x | x in z && CommentKey(v, x) in t :: ChildIds(t, v, x) <= z
  }

  /** The walk's invariant: each visited comment's children are visited or
      still waiting in the worklist. */
  predicate Frontier(t: CommentTable, v: string, visited: set<string>, work: seq<string>) {
    forall x | x in visited :: forall y | y in ChildIds(t, v, x) :: y in visited || y in work
  }

  /** Dropping a visited or absent head keeps the walk's invariant. */
  lemma FrontierSkip(t: CommentTable, v: string, visited: set<string>, work: seq<string>)
    requires work != [] && (work[0] in visited || CommentKey(v, work[0]) !in t)
    ensures Frontier(t, v, visited, work) ==> Frontier(t, v, visited, work[1..])
  {
    if Frontier(t, v, visited, work) {
      forall x, y | x in visited && y in ChildIds(t, v, x)
        ensures y in visited || y in work[1..]
      {
        if y !in visited {
          assert y in work && y != work[0];
          var i :| 0 <= i < |work| && work[i] == y;
          assert work[1..][i - 1] == y;
        }
      }
    }
  }

  /** Visiting the head and queueing its children keeps the walk's
      invariant. */
  lemma FrontierVisit(t: CommentTable, v: string, visited: set<string>, work: seq<string>)
    requires work != []
    ensures Frontier(t, v, visited, work) ==>
              Frontier(t, v, visited + {work[0]}, work[1..] + SortedStrings(ChildIds(t, v, work[0])))
  {
    var id := work[0];
    var work' := work[1..] + SortedStrings(ChildIds(t, v, id));
    if Frontier(t, v, visited, work) {
      forall x, y | x in visited + {id} && y in ChildIds(t, v, x)
        ensures y in visited + {id} || y in work'
      {
        if x != id && y !in visited && y != id {
          var i :| 0 <= i < |work| && work[i] == y;
          assert work'[i - 1] == y;
        }
      }
    }
  }

  lemma VisitShrinks(ids: set<string>, visited: set<string>, id: string)
    requires id in ids && id !in visited
    ensures |ids - (visited + {id})| < |ids - visited|
  {
    assert ids - visited == (ids - (visited + {id})) + {id};
  }

  function Walk(t: CommentTable, v: string, visited: set<string>, work: seq<string>): (r: set<string>)
    requires visited <= CommentStore.CommentIds(t, v)
    ensures visited <= r <= CommentStore.CommentIds(t, v)
    ensures forall x | x in work && CommentKey(v, x) in t :: x in r
    ensures Frontier(t, v, visited, work) ==> Closed(t, v, r)
    decreases |CommentStore.CommentIds(t, v) - visited|, |work|
  {
    if work == [] then visited
    else
      var id := work[0];
      if id in visited || CommentKey(v, id) !in t then
        FrontierSkip(t, v, visited, work);
        assert forall x | x in work && x != id :: x in work[1..];
        Walk(t, v, visited, work[1..])
      else
        var ids := CommentStore.CommentIds(t, v);
        VisitShrinks(ids, visited, id);
        FrontierVisit(t, v, visited, work);
        var work' := work[1..] + SortedStrings(ChildIds(t, v, id));
        assert forall x | x in work && x != id :: x in work';
        Walk(t, v, visited + {id}, work')
  }

  /** A closed set holding the visited comments and the waiting ones holds
      everything the walk returns. */
  lemma {:induction false} WalkWithin(t: CommentTable, v: string, visited: set<string>, work: seq<string>, z: set<string>)
    requires visited <= CommentStore.CommentIds(t, v)
    requires visited <= z
    requires forall x | x in work && CommentKey(v, x) in t :: x in z
    requires Closed(t, v, z)
    ensures Walk(t, v, visited, work) <= z
    decreases |CommentStore.CommentIds(t, v) - visited|, |work|
  {
    if work != [] {
      var id := work[0];
      if id in visited || CommentKey(v, id) !in t {
        assert forall x | x in work[1..] :: x in work;
        WalkWithin(t, v, visited, work[1..], z);
      } else {
        var ids := CommentStore.CommentIds(t, v);
        VisitShrinks(ids, visited, id);
        var work' := work[1..] + SortedStrings(ChildIds(t, v, id));
        assert forall x | x in work[1..] :: x in work;
        WalkWithin(t, v, visited + {id}, work', z);
      }
    }
  }

  /** The ids `DeleteCommentAsync` removes for comment `id`: the comment and
      all its descendants; nothing when the comment is absent. */
  function Subtree(t: CommentTable, v: string, id: string): (r: set<string>)
    ensures r <= CommentStore.CommentIds(t, v)
    ensures CommentKey(v, id) in t <==> id in r
    ensures CommentKey(v, id) !in t ==> r == {}
    ensures Closed(t, v, r)
  {
    assert [id][1..] == [];
    assert Walk(t, v, {}, []) == {};
    Walk(t, v, {}, [id])
  }

  /** `Subtree` is the least closed set containing the target: any closed
      set containing it contains the whole subtree. */
  lemma SubtreeLeast(t: CommentTable, v: string, id: string, z: set<string>)
    requires id in z && Closed(t, v, z)
    ensures Subtree(t, v, id) <= z
  {
    WalkWithin(t, v, {}, [id], z);
  }

  /** The comments `DeleteAsync` leaves after removing `ids` of video `v`
      one by one: every other item, unchanged. */
  function DeleteAll(t: CommentTable, v: string, ids: set<string>): (r: CommentTable)
    ensures forall k :: k in r <==> k in t && !(k.videoId == v && k.commentId in ids)
    ensures forall k | k in r :: r[k] == t[k]
  {
    map k | k in t && !(k.videoId == v && k.commentId in ids) :: t[k]
  }
}

=== FILE: controllers.dfy ===
/** The query-string rules of the two list endpoints, `GET
    api/videos/{videoId}/comments` and `GET api/search`, and the status each
    answer is sent with. The controllers only bound the paging values and
    reject malformed searches; the work is the services'.
 */
module Controllers {
  import opened Wrappers
  import opened Text
  import opened Ordering
  import opened Entities
  import CommentService
  import Search
  import ExceptionHandler

  const OkStatus: nat := 200

  /** The status an answer goes out with: 200 for a result, the global
      handler's code for an exception. */
  function StatusOf<T>(r: Result<T>): (code: nat)
    ensures r.Ok? <==> code == OkStatus
    ensures r.Err? ==> code == ExceptionHandler.StatusCode(r.error)
  {
    match r
    case Ok(_) => OkStatus
    case Err(e) => ExceptionHandler.StatusCode(e)
  }

  /** The offset rule: a negative offset starts at the beginning. */
  function ClampOffset(offset: int): (r: nat)
    ensures offset >= 0 ==> r == offset
    ensures offset < 0 ==> r == 0
  {
    if offset < 0 then 0 else offset
  }

  // ---------------------------------------------------------------------
  // Comments

  /** The comment listing query the controller builds from the query
      string: paging bounded, everything else passed on. */
  function CommentsQueryOf(sortBy: string, limit: int, offset: int, includeReplies: bool, parentCommentId: Option<string>)
    : (q: CommentService.CommentsQuery)
    ensures 1 <= q.limit <= MaxLimit && q.offset >= 0
    ensures q.limit == ClampLimit(limit) && q.offset == ClampOffset(offset)
    ensures q.sortBy == sortBy && q.includeReplies == includeReplies && q.parentCommentId == parentCommentId
  {
    CommentService.CommentsQuery(sortBy, ClampLimit(limit), ClampOffset(offset), includeReplies, parentCommentId)
  }

  /** `GetComments`: the listing for the bounded query. */
  function GetComments(db: Db, videoId: string, sortBy: string, limit: int, offset: int,
                       includeReplies: bool, parentCommentId: Option<string>)
    : (r: Result<CommentService.CommentsPage>)
    ensures r == CommentService.GetComments(db, videoId, CommentsQueryOf(sortBy, limit, offset, includeReplies, parentCommentId))
  {
    CommentService.GetComments(db, videoId, CommentsQueryOf(sortBy, limit, offset, includeReplies, parentCommentId))
  }

  /** Whatever the query string asks, a page of top-level comments holds at
      most 100 of them, and an unknown video is answered 404. */
  lemma CommentPageBounded(db: Db, videoId: string, sortBy: string, limit: int, offset: int,
                           includeReplies: bool, parentCommentId: Option<string>)
    ensures var r := GetComments(db, videoId, sortBy, limit, offset, includeReplies, parentCommentId);
            && (r.Ok? && IsNullOrEmpty(parentCommentId) ==> |r.value.comments| <= MaxLimit)
            && (videoId !in db.videos ==> StatusOf(r) == 404)
  {
    var q := CommentsQueryOf(sortBy, limit, offset, includeReplies, parentCommentId);
    var r := GetComments(db, videoId, sortBy, limit, offset, includeReplies, parentCommentId);
    if r.Ok? && IsNullOrEmpty(parentCommentId) {
      var p := CommentService.ThreadPage(db.comments, videoId, q);
      assert |CommentService.Listed(p.comments)| == |p.comments|;
    }
  }

  // ---------------------------------------------------------------------
  // Search

  /** The `type` rule: absent, or "video" or "channel" in any case. */
  predicate KnownKind(kind: Option<string>) {
    IsNullOrEmpty(kind) || ToLower(kind.value) == "video" || ToLower(kind.value) == "channel"
  }

  /** `Search`. A blank query or an unknown type is a bad request (a 400
      answer); otherwise the search runs with bounded paging. */
  function SearchEndpoint(db: Db, query: Option<string>, kind: Option<string>, sortBy: string, limit: int, offset: int)
    : (r: Result<Search.SearchResponse>)
    ensures r.Err? <==> IsNullOrWhiteSpace(query) || !KnownKind(kind)
    ensures r.Err? ==> r.error == BadRequestException
    ensures r.Ok? ==> r.value == Search.SearchAll(db, Search.SearchRequest(query.value, kind, sortBy, ClampLimit(limit), ClampOffset(offset)))
  {
    if IsNullOrWhiteSpace(query) then Err(BadRequestException)
    else if !KnownKind(kind) then Err(BadRequestException)
    else Ok(Search.SearchAll(db, Search.SearchRequest(query.value, kind, sortBy, ClampLimit(limit), ClampOffset(offset))))
  }

  /** A known type selects at least one kind of result, and both exactly
      when no type is given. */
  lemma KnownKindWants(kind: Option<string>)
    requires KnownKind(kind)
    ensures Search.Wants(kind, "video") || Search.Wants(kind, "channel")
    ensures Search.Wants(kind, "video") && Search.Wants(kind, "channel") <==> IsNullOrEmpty(kind)
  {
    if !IsNullOrEmpty(kind) {
      assert ToLower(kind.value) != "video" || ToLower(kind.value) != "channel";
    }
  }

  /** A bounded page size bounds both result pages. */
  lemma SearchPagesBounded(db: Db, req: Search.SearchRequest)
    requires 1 <= req.limit <= MaxLimit
    ensures |Search.SearchAll(db, req).videos| <= MaxLimit && |Search.SearchAll(db, req).channels| <= MaxLimit
  {
  }

  /** An accepted search searches at least one kind of result, both when
      no type is given, and each page holds at most 100 results; a
      rejected one is answered 400. */
  lemma SearchEndpointBounded(db: Db, query: Option<string>, kind: Option<string>, sortBy: string, limit: int, offset: int)
    ensures var r := SearchEndpoint(db, query, kind, sortBy, limit, offset);
            && (r.Ok? ==> Search.Wants(kind, "video") || Search.Wants(kind, "channel"))
            && (r.Ok? ==> (Search.Wants(kind, "video") && Search.Wants(kind, "channel") <==> IsNullOrEmpty(kind)))
            && (r.Ok? ==> |r.value.videos| <= MaxLimit && |r.value.channels| <= MaxLimit)
            && (r.Err? ==> StatusOf(r) == 400)
  {
    if !IsNullOrWhiteSpace(query) && KnownKind(kind) {
      KnownKindWants(kind);
      SearchPagesBounded(db, Search.SearchRequest(query.value, kind, sortBy, ClampLimit(limit), ClampOffset(offset)));
    }
  }
}

=== FILE: entities.dfy ===
/** The persisted entities of the platform and the tables that hold them.

    Every table is a finite map from the entity's key to the entity; the
    subset types below record that an entity's key fields always equal the
    key it is stored under, as the key schema of each table guarantees.
    Timestamps are `Instant`s rather than round-trip ("o") strings: the two
    orders agree, and the model never renders a timestamp as text.
 */
module Entities {
  import opened Wrappers

  // ---------------------------------------------------------------------
  // Time

  const TicksPerSecond: nat := 10_000_000
  const SecondsPerDay: nat := 86_400
  /** `DateTime.UnixEpoch.Ticks`. */
  const UnixEpochTicks: nat := 621_355_968_000_000_000
  /** `DateTime.MaxValue.Ticks`: the last tick of year 9999. */
  const MaxDateTimeTicks: nat := 3_155_378_975_999_999_999

  /** A UTC instant in 100-ns ticks since the Unix epoch, no later than
      `DateTime.MaxValue`. */
  type Instant = t: nat | t <= MaxDateTimeTicks - UnixEpochTicks

  /** `DateTime.Ticks` of an instant: ticks since 0001-01-01. */
  function DateTimeTicks(t: Instant): nat {
    t + UnixEpochTicks
  }

  /** `DateTimeOffset.ToUnixTimeSeconds()`. */
  function UnixSeconds(t: Instant): nat {
    t / TicksPerSecond
  }

  // ---------------------------------------------------------------------
  // Entities

  datatype User = User(
    userId: string,
    email: string,
    name: string,
    gender: string,
    birthDate: string,
    phoneNumber: string,
    avatarUrl: Option<string>)

  datatype Channel = Channel(
    channelId: string,
    userId: string,
    name: string,
    description: string,
    avatarUrl: Option<string>,
    subscriberCount: int,
    videoCount: int,
    createdAt: Instant)

  datatype Video = Video(
    videoId: string,
    channelId: string,
    userId: string,
    title: string,
    description: string,
    status: string,            // UPLOADING | PROCESSING | COMPLETE | FAILED
    kind: string,              // upload | vod | stream-recording
    playbackUrl: Option<string>,
    key: Option<string>,
    thumbnailUrl: Option<string>,
    viewCount: int,
    likeCount: int,
    createdAt: Instant,
    updatedAt: Instant,
    commentCount: int)

  datatype CommentKey = CommentKey(videoId: string, commentId: string)

  datatype Comment = Comment(
    videoId: string,
    commentId: string,
    userId: string,
    userName: string,
    userAvatarUrl: Option<string>,
    content: string,
    parentCommentId: Option<string>,   // None for a root comment
    likeCount: int,
    replyCount: int,
    isEdited: bool,
    isDeleted: bool,
    createdAt: Instant,
    updatedAt: Option<Instant>)
  {
    function Key(): CommentKey {
      CommentKey(videoId, commentId)
    }
  }

  datatype CommentLikeKey = CommentLikeKey(commentId: string, userId: string)

  datatype CommentLike = CommentLike(commentId: string, userId: string, createdAt: Instant) {
    function Key(): CommentLikeKey {
      CommentLikeKey(commentId, userId)
    }
  }

  datatype VideoLikeKey = VideoLikeKey(userId: string, videoId: string)

  datatype VideoLike = VideoLike(userId: string, videoId: string, createdAt: Instant) {
    function Key(): VideoLikeKey {
      VideoLikeKey(userId, videoId)
    }
  }

  datatype SubscriptionKey = SubscriptionKey(userId: string, channelId: string)

  datatype Subscription = Subscription(userId: string, channelId: string, createdAt: Instant) {
    function Key(): SubscriptionKey {
      SubscriptionKey(userId, channelId)
    }
  }

  datatype NotificationKey = NotificationKey(recipientUserId: string, createdAt: Instant)

  datatype Notification = Notification(
    recipientUserId: string,
    createdAt: Instant,
    notificationId: string,
    kind: string,
    actorUserId: string,
    actorName: string,
    actorAvatarUrl: Option<string>,
    videoId: Option<string>,
    videoTitle: Option<string>,
    videoThumbnailUrl: Option<string>,
    commentId: Option<string>,
    message: string,
    isRead: string,                    // "true" | "false"
    ttl: int)
  {
    function Key(): NotificationKey {
      NotificationKey(recipientUserId, createdAt)
    }
  }

  /** The notification types, spelled as `nameof` spells them. */
  datatype NotificationType =
    | VideoLiked | VideoCommented | CommentLiked | CommentReplied | NewVideoUploaded
  {
    function Name(): string {
      match this
      case VideoLiked => "VIDEO_LIKED"
      case VideoCommented => "VIDEO_COMMENTED"
      case CommentLiked => "COMMENT_LIKED"
      case CommentReplied => "COMMENT_REPLIED"
      case NewVideoUploaded => "NEW_VIDEO_UPLOADED"
    }
  }

  /** The type a stored `type` string names, if any: the one whose name it
      is, and none when no type has that name. */
  function ParseNotificationType(s: string): (r: Option<NotificationType>)
    ensures r.Some? ==> r.value.Name() == s
    ensures r.None? ==> forall t: NotificationType :: t.Name() != s
  {
    if s == "VIDEO_LIKED" then Some(VideoLiked)
    else if s == "VIDEO_COMMENTED" then Some(VideoCommented)
    else if s == "COMMENT_LIKED" then Some(CommentLiked)
    else if s == "COMMENT_REPLIED" then Some(CommentReplied)
    else if s == "NEW_VIDEO_UPLOADED" then Some(NewVideoUploaded)
    else None
  }

  // ---------------------------------------------------------------------
  // Stored attribute items

  /** A DynamoDB attribute value: a string (`S`) or a decimal number (`N`). */
  datatype AttrValue = S(s: string) | N(n: string)

  /** The non-key attributes a notification item may carry. */
  datatype Attribute =
    | NotificationIdAttr | TypeAttr | ActorUserIdAttr | ActorNameAttr | ActorAvatarUrlAttr
    | VideoIdAttr | VideoTitleAttr | VideoThumbnailUrlAttr | CommentIdAttr | MessageAttr
    | IsReadAttr | TtlAttr
  {
    /** The attribute's name in the table. */
    function Name(): string {
      match this
      case NotificationIdAttr => "notificationId"
      case TypeAttr => "type"
      case ActorUserIdAttr => "actorUserId"
      case ActorNameAttr => "actorName"
      case ActorAvatarUrlAttr => "actorAvatarUrl"
      case VideoIdAttr => "videoId"
      case VideoTitleAttr => "videoTitle"
      case VideoThumbnailUrlAttr => "videoThumbnailUrl"
      case CommentIdAttr => "commentId"
      case MessageAttr => "message"
      case IsReadAttr => "isRead"
      case TtlAttr => "ttl"
    }
  }

  /** The non-key attributes of a stored notification item. */
  type Item = map<Attribute, AttrValue>

  // ---------------------------------------------------------------------
  // Tables

  type UserTable = m: map<string, User> | forall k | k in m :: m[k].userId == k witness map[]
  type ChannelTable = m: map<string, Channel> | forall k | k in m :: m[k].channelId == k witness map[]
  type VideoTable = m: map<string, Video> | forall k | k in m :: m[k].videoId == k witness map[]
  type CommentTable = m: map<CommentKey, Comment> | forall k | k in m :: m[k].Key() == k witness map[]
  type CommentLikeTable = m: map<CommentLikeKey, CommentLike> | forall k | k in m :: m[k].Key() == k witness map[]
  type VideoLikeTable = m: map<VideoLikeKey, VideoLike> | forall k | k in m :: m[k].Key() == k witness map[]
  type SubscriptionTable = m: map<SubscriptionKey, Subscription> | forall k | k in m :: m[k].Key() == k witness map[]
  /** Notifications are kept as attribute items; see `NotificationStore`. */
  type NotificationTable = map<NotificationKey, Item>

  /** `SaveAsync` of the users, channels and videos repositories: an upsert
      under the entity's id that leaves every other item as it was. */
  function SaveUser(t: UserTable, u: User): (r: UserTable)
    ensures u.userId in r && r[u.userId] == u
    ensures r.Keys == t.Keys + {u.userId}
    ensures forall k | k in t && k != u.userId :: r[k] == t[k]
  {
    t[u.userId := u]
  }

  function SaveChannel(t: ChannelTable, c: Channel): (r: ChannelTable)
    ensures c.channelId in r && r[c.channelId] == c
    ensures r.Keys == t.Keys + {c.channelId}
    ensures forall k | k in t && k != c.channelId :: r[k] == t[k]
  {
    t[c.channelId := c]
  }

  function SaveVideo(t: VideoTable, v: Video): (r: VideoTable)
    ensures v.videoId in r && r[v.videoId] == v
    ensures r.Keys == t.Keys + {v.videoId}
    ensures forall k | k in t && k != v.videoId :: r[k] == t[k]
  {
    t[v.videoId := v]
  }

  /** The name listings show for a video's channel when the channel is
      gone. */
  const UnknownChannelName: string := "Unknown"

  /** `channel?.Name ?? "Unknown"` after a load by id. */
  function ChannelNameOf(t: ChannelTable, channelId: string): (n: string)
    ensures channelId in t ==> n == t[channelId].name
    ensures channelId !in t ==> n == UnknownChannelName
  {
    if channelId in t then t[channelId].name else UnknownChannelName
  }

  /** The whole persistent state the services read and write. */
  datatype Db = Db(
    users: UserTable,
    channels: ChannelTable,
    videos: VideoTable,
    comments: CommentTable,
    commentLikes: CommentLikeTable,
    videoLikes: VideoLikeTable,
    subscriptions: SubscriptionTable,
    notifications: NotificationTable)
}

=== FILE: exception_handler.dfy ===
/** `GlobalExceptionHandler`: the one place where an exception thrown by a
    service or by request validation becomes an HTTP answer. The status
    depends only on the exception's type; the answer is a problem document
    whose type link ends in the status, except for validation failures,
    which get a validation problem document of their own.
 */
module ExceptionHandler {
  import opened Wrappers
  import opened Text

  const ErrorsBase: string := "https://your-api.com/errors/"
  const ValidationType: string := "https://your-api.com/errors/validation"
  const ValidationTitle: string := "Validation Error"

  /** The status code chosen by exception type. Client errors are exactly
      the domain exceptions the services throw on purpose, each with its
      own code; every other exception is a server error. */
  function StatusCode(e: Exception): (code: nat)
    ensures code == 400 <==> e == ValidationException || e == BadRequestException
    ensures code == 404 <==> e == NotFoundException
    ensures code == 403 <==> e == ForbiddenException
    ensures code == 409 <==> e == ConflictException
    ensures code == 401 <==> e == UnauthorizedAccess
    ensures code == 500 <==> e == InvalidOperation || e == OtherException
  {
    match e
    case ValidationException => 400
    case BadRequestException => 400
    case NotFoundException => 404
    case ForbiddenException => 403
    case ConflictException => 409
    case UnauthorizedAccess => 401
    case _ => 500
  }

  /** The problem document written to the response. */
  datatype Problem = Problem(status: nat, title: string, typeUri: string)

  /** `TryHandleAsync`: the answer for exception `e`, whose type is named
      `typeName`. The response status and the document's status agree. */
  function Handle(e: Exception, typeName: string): (r: Problem)
    ensures r.status == StatusCode(e)
    ensures e == ValidationException ==> r.title == ValidationTitle && r.typeUri == ValidationType
    ensures e != ValidationException ==> r.title == typeName && StartsWith(r.typeUri, ErrorsBase)
    ensures e != ValidationException ==> r.typeUri == ErrorsBase + NatToString(StatusCode(e))
    ensures e != ValidationException ==>
              var tail := r.typeUri[|ErrorsBase|..];
              && tail != [] && (forall i | 0 <= i < |tail| :: IsDigit(tail[i]))
              && DigitsValue(tail) == r.status
  {
    if e == ValidationException then Problem(400, ValidationTitle, ValidationType)
    else
      var code := StatusCode(e);
      assert (ErrorsBase + NatToString(code))[..|ErrorsBase|] == ErrorsBase;
      assert (ErrorsBase + NatToString(code))[|ErrorsBase|..] == NatToString(code);
      DigitsValueOfNatToString(code);
      Problem(code, typeName, ErrorsBase + NatToString(code))
  }

  /** A rendered number determines the number. */
  lemma NatToStringInjective(a: nat, b: nat)
    requires NatToString(a) == NatToString(b)
    ensures a == b
  {
    DigitsValueOfNatToString(a);
    DigitsValueOfNatToString(b);
  }

  /** The type link of a problem document tells its status: two answers
      with the same link have the same status, whatever the exceptions. */
  lemma TypeLinkDeterminesStatus(e1: Exception, n1: string, e2: Exception, n2: string)
    requires Handle(e1, n1).typeUri == Handle(e2, n2).typeUri
    ensures Handle(e1, n1).status == Handle(e2, n2).status
  {
    var u1, u2 := Handle(e1, n1).typeUri, Handle(e2, n2).typeUri;
    if e1 != ValidationException && e2 != ValidationException {
      assert u1[|ErrorsBase|..] == NatToString(StatusCode(e1));
      assert u2[|ErrorsBase|..] == NatToString(StatusCode(e2));
      NatToStringInjective(StatusCode(e1), StatusCode(e2));
    } else if e1 != ValidationException || e2 != ValidationException {
      // a status link starts with a digit where the validation link has 'v'
      assert false;
    }
  }
}

=== FILE: likes.dfy ===
/** `CommentLikeService`: liking a comment is a toggle over the like
    records of the CommentLikes table (hash key `commentId`, range key
    `userId`) kept in step with the comment's `LikeCount`. A like of
    someone else's comment asks the notification service for a
    COMMENT_LIKED notification; whatever that call does, the like stands.
 */
module CommentLikeService {
  import opened Wrappers
  import opened Entities
  import CommentStore
  import NotificationService

  datatype LikeCommentResponse = LikeCommentResponse(commentId: string, liked: bool, likeCount: int)

  /** `CheckLikedAsync`: whether the user's like record exists. */
  function CheckLiked(t: CommentLikeTable, commentId: string, userId: string): (r: bool)
    ensures r <==> CommentLikeKey(commentId, userId) in t
    ensures r ==> GetLikeCount(t, commentId) > 0
  {
    var k := CommentLikeKey(commentId, userId);
    assert k in t ==> k in Likes(t, commentId);
    k in t
  }

  /** The like records of one comment. */
  function Likes(t: CommentLikeTable, commentId: string): set<CommentLikeKey> {
    set k | k in t && k.commentId == commentId
  }

  /** `GetLikeCountAsync`: how many like records the comment's partition
      holds; zero exactly when nobody likes it. */
  function GetLikeCount(t: CommentLikeTable, commentId: string): (r: nat)
    ensures r == 0 <==> forall k | k in t :: k.commentId != commentId
  {
    var s := Likes(t, commentId);
    assert forall k | k in t && k.commentId == commentId :: k in s;
    |s|
  }

  /** Adding a like record counts one more like; removing one counts one
      fewer. */
  lemma GetLikeCountStep(t: CommentLikeTable, l: CommentLike)
    ensures l.Key() !in t ==> GetLikeCount(t[l.Key() := l], l.commentId) == GetLikeCount(t, l.commentId) + 1
    ensures l.Key() in t ==> GetLikeCount(t - {l.Key()}, l.commentId) == GetLikeCount(t, l.commentId) - 1
  {
    var k := l.Key();
    if k !in t {
      assert Likes(t[k := l], l.commentId) == Likes(t, l.commentId) + {k};
    } else {
      assert Likes(t - {k}, l.commentId) == Likes(t, l.commentId) - {k};
    }
  }

  /** The record side of the toggle: the user's like record is added when
      absent and deleted when present, and no other record changes. */
  function ToggleRecord(t: CommentLikeTable, commentId: string, userId: string, now: Instant): (r: CommentLikeTable)
    ensures CheckLiked(r, commentId, userId) == !CheckLiked(t, commentId, userId)
    ensures forall k | k != CommentLikeKey(commentId, userId) :: (k in r <==> k in t) && (k in r ==> r[k] == t[k])
    ensures GetLikeCount(r, commentId)
            == if CheckLiked(t, commentId, userId) then GetLikeCount(t, commentId) - 1 else GetLikeCount(t, commentId) + 1
  {
    var l := CommentLike(commentId, userId, now);
    GetLikeCountStep(t, l);
    if l.Key() in t then t - {l.Key()} else t[l.Key() := l]
  }

  /** Adding a record and then toggling again removes it. */
  lemma ToggleRecordTwice(t: CommentLikeTable, commentId: string, userId: string, now: Instant, later: Instant)
    requires !CheckLiked(t, commentId, userId)
    ensures ToggleRecord(ToggleRecord(t, commentId, userId, now), commentId, userId, later) == t
  {
    var k := CommentLikeKey(commentId, userId);
    assert ToggleRecord(t, commentId, userId, now) == t[k := CommentLike(commentId, userId, now)];
    assert t[k := CommentLike(commentId, userId, now)] - {k} == t;
  }

  /** The comment's new like count: one more after a like, one fewer after
      an unlike unless it is already zero or below. */
  function Counted(likeCount: int, liked: bool): (n: int)
    ensures liked ==> n == likeCount + 1
    ensures !liked ==> n == if likeCount > 0 then likeCount - 1 else likeCount
  {
    if liked then likeCount + 1 else if likeCount > 0 then likeCount - 1 else likeCount
  }

  /** The notification a like of someone else's comment asks for. */
  function LikedRequest(c: Comment, userId: string): NotificationService.CreateNotificationRequest {
    NotificationService.CreateNotificationRequest(c.userId, userId, CommentLiked.Name(), Some(c.videoId), Some(c.commentId))
  }

  /** The store after the record and the count have changed, before any
      notification. */
  function Toggled(db: Db, c: Comment, userId: string, now: Instant): (r: Db)
    requires CommentStore.StoredIn(db.comments, c)
    ensures r == db.(comments := CommentStore.Save(db.comments, c.(likeCount := Counted(c.likeCount, !CheckLiked(db.commentLikes, c.commentId, userId)))),
                     commentLikes := ToggleRecord(db.commentLikes, c.commentId, userId, now))
  {
    var liked := !CheckLiked(db.commentLikes, c.commentId, userId);
    db.(comments := CommentStore.Save(db.comments, c.(likeCount := Counted(c.likeCount, liked))),
        commentLikes := ToggleRecord(db.commentLikes, c.commentId, userId, now))
  }

  /** `ToggleLikeAsync`. A missing comment is `NotFoundException`. Without
      a like record: one is saved, the count goes up by one, and the
      comment's author is notified unless they liked it themselves; a
      failing notification leaves the like as it is. With a record: it is
      deleted and the count goes down by one, but not below zero. The
      response tells the new state and count. */
  function ToggleLike(db: Db, videoId: string, commentId: string, userId: string, now: Instant, newId: string)
    : (r: (Result<LikeCommentResponse>, Db))
    ensures r.0.Ok? <==> CommentKey(videoId, commentId) in db.comments
    ensures r.0.Err? ==> r == (Err(NotFoundException), db)
    ensures r.0.Ok? ==>
              var c := db.comments[CommentKey(videoId, commentId)];
              var v := r.0.value;
              && v == LikeCommentResponse(commentId, !CheckLiked(db.commentLikes, commentId, userId), Counted(c.likeCount, v.liked))
              && r.1 == NotificationService.NotifyOwner(Toggled(db, c, userId, now), LikedRequest(c, userId), v.liked, newId, now)
  {
    match CommentStore.Get(db.comments, videoId, commentId)
    case None => (Err(NotFoundException), db)
    case Some(c) =>
      var liked := !CheckLiked(db.commentLikes, commentId, userId);
      (Ok(LikeCommentResponse(commentId, liked, Counted(c.likeCount, liked))), NotificationService.NotifyOwner(Toggled(db, c, userId, now), LikedRequest(c, userId), liked, newId, now))
  }

  /** What a toggle of an existing comment does to the two tables it
      owns: the like record flips and the comment is saved with the new
      count. */
  lemma ToggleEffect(db: Db, videoId: string, commentId: string, userId: string, now: Instant, newId: string)
    requires CommentKey(videoId, commentId) in db.comments
    ensures var r := ToggleLike(db, videoId, commentId, userId, now, newId);
            var c := db.comments[CommentKey(videoId, commentId)];
            && c.commentId == commentId && c.Key() == CommentKey(videoId, commentId)
            && r.0.Ok?
            && r.0.value.liked == !CheckLiked(db.commentLikes, commentId, userId)
            && r.1.commentLikes == ToggleRecord(db.commentLikes, commentId, userId, now)
            && r.1.comments == CommentStore.Save(db.comments, c.(likeCount := Counted(c.likeCount, r.0.value.liked)))
  {
    var r := ToggleLike(db, videoId, commentId, userId, now, newId);
    var c := db.comments[CommentKey(videoId, commentId)];
    var db1 := Toggled(db, c, userId, now);
    assert r.1.comments == db1.comments && r.1.commentLikes == db1.commentLikes;
  }

  /** After a toggle the user's like state is the one the response reports,
      and it is the opposite of the state before. */
  lemma ToggleFlipsLiked(db: Db, videoId: string, commentId: string, userId: string, now: Instant, newId: string)
    requires CommentKey(videoId, commentId) in db.comments
    ensures var r := ToggleLike(db, videoId, commentId, userId, now, newId);
            && r.0.Ok?
            && r.0.value.liked == !CheckLiked(db.commentLikes, commentId, userId)
            && CheckLiked(r.1.commentLikes, commentId, userId) == r.0.value.liked
  {
    ToggleEffect(db, videoId, commentId, userId, now, newId);
  }

  /** When the comment's counter agrees with its like records before a
      toggle, it still agrees after, and the response reports it. */
  lemma ToggleTracksCount(db: Db, videoId: string, commentId: string, userId: string, now: Instant, newId: string)
    requires CommentKey(videoId, commentId) in db.comments
    requires db.comments[CommentKey(videoId, commentId)].likeCount == GetLikeCount(db.commentLikes, commentId)
    ensures var r := ToggleLike(db, videoId, commentId, userId, now, newId);
            && r.0.Ok?
            && CommentKey(videoId, commentId) in r.1.comments
            && r.1.comments[CommentKey(videoId, commentId)].likeCount == r.0.value.likeCount
            && r.0.value.likeCount == GetLikeCount(r.1.commentLikes, commentId)
  {
    var c := db.comments[CommentKey(videoId, commentId)];
    ToggleEffect(db, videoId, commentId, userId, now, newId);
    assert CheckLiked(db.commentLikes, commentId, userId) ==> c.likeCount > 0;
  }

  /** Liking and then unliking leaves the like records and the comments as
      they were, provided the counter was not negative. */
  lemma LikeThenUnlikeRestores(db: Db, videoId: string, commentId: string, userId: string,
                               now: Instant, newId: string, later: Instant, laterId: string)
    requires CommentKey(videoId, commentId) in db.comments
    requires !CheckLiked(db.commentLikes, commentId, userId)
    requires db.comments[CommentKey(videoId, commentId)].likeCount >= 0
    ensures var r1 := ToggleLike(db, videoId, commentId, userId, now, newId);
            var r2 := ToggleLike(r1.1, videoId, commentId, userId, later, laterId);
            && r1.0.Ok? && r1.0.value.liked
            && r2.0.Ok? && !r2.0.value.liked
            && r2.1.commentLikes == db.commentLikes
            && r2.1.comments == db.comments
  {
    var k := CommentKey(videoId, commentId);
    var c := db.comments[k];
    var r1 := ToggleLike(db, videoId, commentId, userId, now, newId);
    ToggleEffect(db, videoId, commentId, userId, now, newId);
    ToggleEffect(r1.1, videoId, commentId, userId, later, laterId);
    ToggleRecordTwice(db.commentLikes, commentId, userId, now, later);
    var c1 := c.(likeCount := c.likeCount + 1);
    assert r1.1.comments[k] == c1;
    assert c1.(likeCount := Counted(c1.likeCount, false)) == c;
    CommentStore.SaveRestores(db.comments, c, c1);
  }
}

=== FILE: notification_service.dfy ===
/** The notification service (`NotificationService`): creating one
    notification, telling a channel's subscribers about an upload, the
    paged listing and its cursor, and the read and delete operations.

    The clock and the id generator are parameters: `now` is what
    `DateTime.UtcNow` returns and `newId` (for the i-th notification of a
    fan-out, `ids(i)`) what `Guid.NewGuid()` renders. A thrown exception is
    an `Err` and leaves the state as it was.
 */
module NotificationService {
  import opened Wrappers
  import opened Text
  import opened Entities
  import opened Ordering
  import opened NotificationStore
  import SubscriptionStore

  // ---------------------------------------------------------------------
  // Messages

  /** The types whose notification names a video and shows its title. */
  predicate IsVideoType(kind: string) {
    ParseNotificationType(kind) in {Some(VideoLiked), Some(VideoCommented), Some(NewVideoUploaded)}
  }

  /** What the actor did, as the message says it after the actor's name. */
  function Action(kind: string): (r: string)
    ensures |r| > 0 && r[|r| - 1] != '"'
  {
    match ParseNotificationType(kind)
    case Some(VideoLiked) => " liked your video"
    case Some(VideoCommented) => " commented on your video"
    case Some(CommentLiked) => " liked your comment"
    case Some(CommentReplied) => " replied to your comment"
    case Some(NewVideoUploaded) => " uploaded a new video"
    case None => " interacted with your content"
  }

  /** What stands between the action and the quoted title. */
  function TitleSeparator(kind: string): string {
    if ParseNotificationType(kind) == Some(NewVideoUploaded) then ": " else " "
  }

  /** A message shows the title for a video type with a non-empty title. */
  predicate ShowsTitle(kind: string, title: Option<string>) {
    IsVideoType(kind) && !IsNullOrEmpty(title)
  }

  /** The message `CreateNotificationAsync` composes: the actor's name and
      what they did, then the quoted title when it is shown. An unknown type
      reads "interacted with your content". */
  function Message(kind: string, actorName: string, title: Option<string>): (m: string)
    ensures StartsWith(m, actorName + Action(kind))
    ensures ShowsTitle(kind, title) <==> m[|m| - 1] == '"'
    ensures ShowsTitle(kind, title) ==> EndsWith(m, "\"" + title.value + "\"")
    ensures ParseNotificationType(kind).None? ==> m == actorName + " interacted with your content"
  {
    var head := actorName + Action(kind);
    if ShowsTitle(kind, title) then
      var quoted := "\"" + title.value + "\"";
      var m := head + (TitleSeparator(kind) + quoted);
      assert m[..|head|] == head;
      assert m[|m| - |quoted|..] == quoted;
      m
    else
      assert head[..|head|] == head;
      head
  }

  /** A title that is not shown does not change the message. */
  lemma MessageIgnoresHiddenTitle(kind: string, actorName: string, title: Option<string>)
    requires !ShowsTitle(kind, title)
    ensures Message(kind, actorName, title) == Message(kind, actorName, None)
  {
  }

  /** A shown title can be read back off the message: two titles give the
      same message only when they are the same title. */
  lemma MessageTitleInjective(kind: string, actorName: string, a: string, b: string)
    requires ShowsTitle(kind, Some(a)) && ShowsTitle(kind, Some(b))
    requires Message(kind, actorName, Some(a)) == Message(kind, actorName, Some(b))
    ensures a == b
  {
    var head, sep := actorName + Action(kind), TitleSeparator(kind);
    var qa, qb := "\"" + a + "\"", "\"" + b + "\"";
    var ma := Message(kind, actorName, Some(a));
    assert ma == head + (sep + qa) && ma == head + (sep + qb);
    assert ma[|head| + |sep|..] == qa;
    assert ma[|head| + |sep|..] == qb;
    assert a == qa[1..|qa| - 1];
    assert b == qb[1..|qb| - 1];
  }

  /** The message of an upload fan-out, which quotes the title always. */
  function UploadMessage(ownerName: string, title: string): (m: string)
    ensures StartsWith(m, ownerName + Action(NewVideoUploaded.Name()))
    ensures EndsWith(m, "\"" + title + "\"")
  {
    var head := ownerName + " uploaded a new video";
    var m := head + ": \"" + title + "\"";
    assert m == head + (": \"" + title + "\"");
    assert m[..|head|] == head;
    m
  }

  /** The fan-out's message is the one `CreateNotificationAsync` composes
      for an upload exactly when the title is not empty. */
  lemma UploadMessageAgrees(ownerName: string, title: string)
    ensures UploadMessage(ownerName, title) == Message(NewVideoUploaded.Name(), ownerName, Some(title))
            <==> title != ""
  {
    var m := UploadMessage(ownerName, title);
    if title == "" {
      var c := Message(NewVideoUploaded.Name(), ownerName, Some(title));
      assert m[|m| - 1] == '"';
      assert c[|c| - 1] != '"';
    }
  }

  // ---------------------------------------------------------------------
  // Related video

  /** The title and thumbnail a notification carries for its video. */
  datatype VideoInfo = VideoInfo(title: Option<string>, thumbnailUrl: Option<string>)

  /** The video lookup of `CreateNotificationAsync`. A video type looks up
      `VideoId!`, which fails on a null id, and on an empty one too, since
      the store refuses an empty key; a comment type looks up only a
      non-empty id and takes just the thumbnail; an unknown type looks up
      nothing. A missing video leaves both empty. */
  function RelatedVideo(videos: VideoTable, kind: string, videoId: Option<string>): (r: Result<VideoInfo>)
    ensures r.Err? <==> IsVideoType(kind) && IsNullOrEmpty(videoId)
    ensures r.Ok? && IsVideoType(kind) ==>
              && (r.value.title.Some? <==> videoId.value in videos)
              && (r.value.title.Some? ==> r.value.title.value == videos[videoId.value].title)
    ensures r.Ok? && !IsVideoType(kind) ==> r.value.title.None?
    ensures r.Ok? && r.value.thumbnailUrl.Some? ==>
              videoId.Some? && videoId.value in videos && r.value.thumbnailUrl == videos[videoId.value].thumbnailUrl
    ensures r.Ok? && (videoId.Some? && videoId.value in videos) && (IsVideoType(kind) || (ParseNotificationType(kind).Some? && videoId.value != "")) ==>
              r.value.thumbnailUrl == videos[videoId.value].thumbnailUrl
    ensures ParseNotificationType(kind).None? ==> r == Ok(VideoInfo(None, None))
  {
    if IsVideoType(kind) then
      if IsNullOrEmpty(videoId) then Err(OtherException)
      else if videoId.value in videos then
        var v := videos[videoId.value];
        Ok(VideoInfo(Some(v.title), v.thumbnailUrl))
      else Ok(VideoInfo(None, None))
    else if ParseNotificationType(kind).Some? && !IsNullOrEmpty(videoId) && videoId.value in videos then
      Ok(VideoInfo(None, videos[videoId.value].thumbnailUrl))
    else Ok(VideoInfo(None, None))
  }

  // ---------------------------------------------------------------------
  // Expiry

  /** Days a notification lives before the store's time-to-live removes it. */
  const TtlDays: nat := 30

  /** Ticks in `TtlDays` days. */
  const TtlTicks: nat := TtlDays * SecondsPerDay * TicksPerSecond

  /** Moving a whole number of seconds moves the second count by as many. */
  lemma SecondsShift(a: nat, k: nat)
    ensures (a + k * TicksPerSecond) / TicksPerSecond == a / TicksPerSecond + k
  {
    var q, m := a / TicksPerSecond, a % TicksPerSecond;
    assert a + k * TicksPerSecond == (q + k) * TicksPerSecond + m;
  }

  /** `new DateTimeOffset(now.AddDays(30)).ToUnixTimeSeconds()`: the Unix
      second thirty days on, or the exception `AddDays` throws past the
      last representable instant. */
  function Expiry(now: Instant): (r: Result<int>)
    ensures r.Ok? <==> now + TtlTicks <= MaxDateTimeTicks - UnixEpochTicks
    ensures r.Ok? ==> r.value == UnixSeconds(now) + TtlDays * SecondsPerDay
    ensures r.Ok? ==> 0 <= r.value <= Int64Max
  {
    if now + TtlTicks <= MaxDateTimeTicks - UnixEpochTicks then
      var later: Instant := now + TtlTicks;
      SecondsShift(now, TtlDays * SecondsPerDay);
      Ok(UnixSeconds(later))
    else Err(OtherException)
  }

  // ---------------------------------------------------------------------
  // Create

  datatype CreateNotificationRequest = CreateNotificationRequest(
    recipientUserId: string,
    actorUserId: string,
    kind: string,
    videoId: Option<string>,
    commentId: Option<string>)

  /** The answer to a create; `notificationId` keeps its default `""` when
      nothing was created. */
  datatype CreateNotificationResponse = CreateNotificationResponse(
    notificationId: string, success: bool, message: string)

  const SelfNotificationMessage: string := "Cannot create notification for yourself"
  const CreatedMessage: string := "Notification created successfully"

  /** The notification `CreateNotificationAsync` builds for a request by
      `actor`: unread, keyed by recipient and `now`, carrying the actor's
      name and avatar and the related video's title and thumbnail. */
  function Built(videos: VideoTable, req: CreateNotificationRequest, actor: User, newId: string, now: Instant)
    : (r: Result<Notification>)
    ensures r.Err? <==> (IsVideoType(req.kind) && IsNullOrEmpty(req.videoId)) || Expiry(now).Err?
    ensures r.Ok? ==>
              var n := r.value;
              var info := RelatedVideo(videos, req.kind, req.videoId).value;
              && n.Key() == NotificationKey(req.recipientUserId, now)
              && n.notificationId == newId && n.kind == req.kind
              && n.actorUserId == req.actorUserId && n.actorName == actor.name
              && n.actorAvatarUrl == actor.avatarUrl
              && n.videoId == req.videoId && n.commentId == req.commentId
              && n.videoTitle == info.title && n.videoThumbnailUrl == info.thumbnailUrl
              && n.message == Message(req.kind, actor.name, info.title)
              && n.isRead == "false"
              && n.ttl == UnixSeconds(now) + TtlDays * SecondsPerDay
  {
    match RelatedVideo(videos, req.kind, req.videoId)
    case Err(e) => Err(e)
    case Ok(info) =>
      match Expiry(now)
      case Err(e) => Err(e)
      case Ok(ttl) =>
        Ok(Notification(req.recipientUserId, now, newId, req.kind, req.actorUserId, actor.name, actor.avatarUrl,
                        req.videoId, info.title, info.thumbnailUrl, req.commentId,
                        Message(req.kind, actor.name, info.title), "false", ttl))
  }

  /** `CreateNotificationAsync`. A request to notify oneself is answered
      unsuccessfully and stores nothing; a missing actor, then a missing
      recipient, is `NotFoundException`; otherwise the built notification is
      saved under its key and only the notification table changes. */
  function CreateNotification(db: Db, req: CreateNotificationRequest, newId: string, now: Instant)
    : (r: (Result<CreateNotificationResponse>, Db))
    ensures r.1 == db.(notifications := r.1.notifications)
    ensures r.0.Err? ==> r.1 == db
    ensures r.0.Err? <==> && req.recipientUserId != req.actorUserId
                          && (|| req.actorUserId !in db.users
                              || req.recipientUserId !in db.users
                              || Built(db.videos, req, db.users[req.actorUserId], newId, now).Err?)
    ensures req.recipientUserId == req.actorUserId ==>
              r == (Ok(CreateNotificationResponse("", false, SelfNotificationMessage)), db)
    ensures req.recipientUserId != req.actorUserId && (req.actorUserId !in db.users || req.recipientUserId !in db.users) ==>
              r == (Err(NotFoundException), db)
    ensures r.0.Ok? ==> (r.0.value.success <==> req.recipientUserId != req.actorUserId)
    ensures r.0.Ok? && r.0.value.success ==>
              && req.actorUserId in db.users
              && Built(db.videos, req, db.users[req.actorUserId], newId, now).Ok?
              && r.1.notifications == Save(db.notifications, Built(db.videos, req, db.users[req.actorUserId], newId, now).value)
              && r.0.value == CreateNotificationResponse(newId, true, CreatedMessage)
  {
    if req.recipientUserId == req.actorUserId then
      (Ok(CreateNotificationResponse("", false, SelfNotificationMessage)), db)
    else if req.actorUserId !in db.users || req.recipientUserId !in db.users then
      (Err(NotFoundException), db)
    else
      match Built(db.videos, req, db.users[req.actorUserId], newId, now)
      case Err(e) => (Err(e), db)
      case Ok(n) =>
        (Ok(CreateNotificationResponse(newId, true, CreatedMessage)),
         db.(notifications := Save(db.notifications, n)))
  }

  /** Saving an unread notification under a fresh id: it loads back under
      its key, the id finds it, and its recipient's unread count grows by
      one unless an unread notification was stored under the same key. */
  lemma SaveNew(t: NotificationTable, n: Notification)
    requires Matches(t, n.notificationId) == {}
    requires n.isRead == "false" && Int64Min <= n.ttl <= Int64Max
    ensures Load(Save(t, n), n.Key()) == Some(n)
    ensures ByNotificationId(Save(t, n), n.notificationId) == Some(n)
    ensures CountUnread(Save(t, n), n.recipientUserId)
            == CountUnread(t, n.recipientUserId) + (if n.Key() in UnreadKeys(t, n.recipientUserId) then 0 else 1)
  {
    SaveFreshId(t, n);
    var u, k := n.recipientUserId, n.Key();
    var a := UnreadKeys(t, u);
    SaveUnreadKeys(t, n, u);
    assert CountUnread(Save(t, n), u) == |a + {k}|;
    if k !in a {
      assert |a + {k}| == |a| + 1;
    } else {
      assert a + {k} == a;
    }
  }

  /** After a successful create the notification is stored under the
      recipient and `now`, a fresh id finds it, and the recipient's unread
      count grows by one unless an unread notification of the same instant
      was overwritten. */
  lemma CreateStoresIt(db: Db, req: CreateNotificationRequest, newId: string, now: Instant)
    requires CreateNotification(db, req, newId, now).0.Ok?
    requires CreateNotification(db, req, newId, now).0.value.success
    requires Matches(db.notifications, newId) == {}
    ensures var t := CreateNotification(db, req, newId, now).1.notifications;
            var n := Built(db.videos, req, db.users[req.actorUserId], newId, now).value;
            var key := NotificationKey(req.recipientUserId, now);
            && Load(t, key) == Some(n)
            && ByNotificationId(t, newId) == Some(n)
            && CountUnread(t, req.recipientUserId)
               == CountUnread(db.notifications, req.recipientUserId)
                  + (if key in UnreadKeys(db.notifications, req.recipientUserId) then 0 else 1)
  {
    var n := Built(db.videos, req, db.users[req.actorUserId], newId, now).value;
    SaveNew(db.notifications, n);
  }

  /** The notification step both like toggles end with: a like of content
      someone else owns asks `CreateNotificationAsync` to tell the owner,
      and a failure there is swallowed. Only the notification table can
      change, and it changes only when that notification was created. */
  function NotifyOwner(db: Db, req: CreateNotificationRequest, liked: bool, newId: string, now: Instant): (r: Db)
    ensures r == db.(notifications := r.notifications)
    ensures !liked || req.recipientUserId == req.actorUserId ==> r == db
    ensures liked && req.recipientUserId != req.actorUserId ==> r == CreateNotification(db, req, newId, now).1
    ensures r != db ==> CreateNotification(db, req, newId, now).0 == Ok(CreateNotificationResponse(newId, true, CreatedMessage))
  {
    if liked && req.recipientUserId != req.actorUserId then CreateNotification(db, req, newId, now).1 else db
  }

  // ---------------------------------------------------------------------
  // Upload fan-out

  /** The subscriptions the fan-out notifies: every one but the channel
      owner's own, in the order the store returned them. */
  function Recipients(subs: seq<Subscription>, ownerId: string): (r: seq<Subscription>)
    ensures forall s :: s in r <==> s in subs && s.userId != ownerId
  {
    if subs == [] then []
    else
      var rest := Recipients(subs[1..], ownerId);
      assert forall s | s in subs[1..] :: s in subs;
      if subs[0].userId == ownerId then rest else [subs[0]] + rest
  }

  /** No user holds two of the subscriptions. */
  predicate DistinctUsers(subs: seq<Subscription>) {
    forall i, j | 0 <= i < j < |subs| :: subs[i].userId != subs[j].userId
  }

  /** Leaving out the owner keeps the subscribers distinct. */
  lemma {:induction false} RecipientsDistinct(subs: seq<Subscription>, ownerId: string)
    requires DistinctUsers(subs)
    ensures DistinctUsers(Recipients(subs, ownerId))
  {
    if subs != [] {
      var tail := subs[1..];
      RecipientsDistinct(tail, ownerId);
      var rest := Recipients(tail, ownerId);
      if subs[0].userId != ownerId {
        var r := Recipients(subs, ownerId);
        assert r == [subs[0]] + rest;
        forall i, j | 0 <= i < j < |r|
          ensures r[i].userId != r[j].userId
        {
          assert r[j] == rest[j - 1];
          if i > 0 {
            assert r[i] == rest[i - 1];
          } else {
            HeadNotInTail(subs, rest[j - 1]);
          }
        }
      }
    }
  }

  /** The first subscriber's user holds none of the later subscriptions. */
  lemma HeadNotInTail(subs: seq<Subscription>, s: Subscription)
    requires DistinctUsers(subs) && subs != [] && s in subs[1..]
    ensures s.userId != subs[0].userId
  {
    var k :| 0 <= k < |subs[1..]| && subs[1..][k] == s;
    assert subs[k + 1] == s;
  }

  /** The notification the fan-out builds for one subscriber. */
  function UploadNotification(recipient: string, id: string, ownerId: string, owner: User, videoId: string,
                              video: Video, now: Instant, ttl: int): Notification
  {
    Notification(recipient, now, id, NewVideoUploaded.Name(), ownerId, owner.name, owner.avatarUrl,
                 Some(videoId), Some(video.title), video.thumbnailUrl, None,
                 UploadMessage(owner.name, video.title), "false", ttl)
  }

  /** The fan-out's notifications, the i-th with id `ids(i)`: one per
      recipient, each keyed by its recipient and `now`. */
  function Uploads(kept: seq<Subscription>, ids: nat -> string, ownerId: string, owner: User, videoId: string,
                   video: Video, now: Instant, ttl: int): (r: seq<Notification>)
    ensures |r| == |kept|
    ensures forall i | 0 <= i < |r| :: r[i] == UploadNotification(kept[i].userId, ids(i), ownerId, owner, videoId, video, now, ttl)
    ensures KeysOf(r) == set s | s in kept :: NotificationKey(s.userId, now)
  {
    var r := seq(|kept|, i requires 0 <= i < |kept| => UploadNotification(kept[i].userId, ids(i), ownerId, owner, videoId, video, now, ttl));
    assert forall s | s in kept :: NotificationKey(s.userId, now) in KeysOf(r) by {
      forall s | s in kept
        ensures NotificationKey(s.userId, now) in KeysOf(r)
      {
        var i :| 0 <= i < |kept| && kept[i] == s;
        assert r[i] == UploadNotification(kept[i].userId, ids(i), ownerId, owner, videoId, video, now, ttl);
        assert r[i] in r;
      }
    }
    r
  }

  /** The users the fan-out notifies about an upload to `channelId`: its
      subscribers other than its owner. */
  function Audience(db: Db, channelId: string): (r: set<string>)
    ensures channelId in db.channels ==> forall u :: u in r <==>
              SubscriptionKey(u, channelId) in db.subscriptions && u != db.channels[channelId].userId
    ensures channelId !in db.channels ==> r == {}
  {
    if channelId in db.channels then
      var r := SubscriptionStore.SubscriberIds(db.subscriptions, channelId) - {db.channels[channelId].userId};
      forall u ensures u in r <==> SubscriptionKey(u, channelId) in db.subscriptions && u != db.channels[channelId].userId {
        SubscriptionStore.SubscriberIdsStored(db.subscriptions, channelId, u);
      }
      r
    else {}
  }

  /** The fan-out reaches exactly the audience, once each. */
  lemma RecipientsAreAudience(db: Db, channelId: string, now: Instant)
    requires channelId in db.channels
    ensures var kept := Recipients(SubscriptionStore.ChannelSubscribers(db.subscriptions, channelId),
                                   db.channels[channelId].userId);
            && (set s | s in kept :: s.userId) == Audience(db, channelId)
            && (set s | s in kept :: NotificationKey(s.userId, now))
               == (set u | u in Audience(db, channelId) :: NotificationKey(u, now))
            && DistinctUsers(kept)
  {
    var t := db.subscriptions;
    var owner := db.channels[channelId].userId;
    var subs := SubscriptionStore.ChannelSubscribers(t, channelId);
    var kept := Recipients(subs, owner);
    RecipientsDistinct(subs, owner);
    forall u | u in Audience(db, channelId)
      ensures u in (set s | s in kept :: s.userId)
    {
      var k := SubscriptionKey(u, channelId);
      assert t[k] in subs && t[k].userId == u;
    }
    forall u | u in Audience(db, channelId)
      ensures NotificationKey(u, now) in (set s | s in kept :: NotificationKey(s.userId, now))
    {
      assert u in (set s | s in kept :: s.userId);
    }
  }

  /** Builds and batch-saves the upload notifications for the recipients,
      or fails where `AddDays` throws. */
  function Deliver(t: NotificationTable, kept: seq<Subscription>, ids: nat -> string, ownerId: string, owner: User,
                   videoId: string, video: Video, now: Instant): (r: Result<NotificationTable>)
    ensures r.Err? <==> Expiry(now).Err?
    ensures r.Ok? ==> r.value.Keys == t.Keys + set s | s in kept :: NotificationKey(s.userId, now)
  {
    match Expiry(now)
    case Err(e) => Err(e)
    case Ok(ttl) => Ok(BatchSave(t, Uploads(kept, ids, ownerId, owner, videoId, video, now, ttl)).1)
  }

  /** The fan-out has someone to tell: the channel, the video and the
      owner exist and someone other than the owner subscribes. */
  predicate HasAudience(db: Db, channelId: string, videoId: string) {
    && channelId in db.channels && videoId in db.videos
    && db.channels[channelId].userId in db.users && Audience(db, channelId) != {}
  }

  /** The subscriptions a fan-out about `channelId` tells. */
  function Kept(db: Db, channelId: string): seq<Subscription>
    requires channelId in db.channels
  {
    Recipients(SubscriptionStore.ChannelSubscribers(db.subscriptions, channelId), db.channels[channelId].userId)
  }

  /** `NotifySubscribersAsync`: does nothing unless there is an audience;
      otherwise batch-saves one unread upload notification for each member
      of it, all created at `now`. Only the notification table changes. */
  function NotifySubscribers(db: Db, channelId: string, videoId: string, ids: nat -> string, now: Instant)
    : (r: (Result<()>, Db))
    ensures r.1 == db.(notifications := r.1.notifications)
    ensures r.0.Err? ==> r.1 == db
    ensures !HasAudience(db, channelId, videoId) ==> r == (Ok(()), db)
    ensures HasAudience(db, channelId, videoId) ==>
              && (r.0.Err? <==> Expiry(now).Err?)
              && (r.0.Ok? ==> r.1.notifications.Keys == db.notifications.Keys +
                                set u | u in Audience(db, channelId) :: NotificationKey(u, now))
              && (r.0.Ok? ==> var owner := db.channels[channelId].userId;
                    Deliver(db.notifications, Kept(db, channelId), ids, owner, db.users[owner], videoId, db.videos[videoId], now)
                    == Ok(r.1.notifications))
  {
    if channelId !in db.channels || videoId !in db.videos then (Ok(()), db)
    else
      var channel := db.channels[channelId];
      var subs := SubscriptionStore.ChannelSubscribers(db.subscriptions, channelId);
      var kept := Kept(db, channelId);
      RecipientsAreAudience(db, channelId, now);
      if subs == [] || channel.userId !in db.users || kept == [] then
        assert kept == [] ==> Audience(db, channelId) == {};
        (Ok(()), db)
      else
        match Deliver(db.notifications, kept, ids, channel.userId, db.users[channel.userId], videoId, db.videos[videoId], now)
        case Err(e) => (Err(e), db)
        case Ok(t) => (Ok(()), db.(notifications := t))
  }

  /** Each recipient's notification is the one built for it, under its
      key: no two recipients share a key, so none overwrites another. */
  lemma DeliverWrites(t: NotificationTable, kept: seq<Subscription>, ids: nat -> string, ownerId: string, owner: User,
                      videoId: string, video: Video, now: Instant, i: nat)
    requires DistinctUsers(kept) && i < |kept|
    requires Deliver(t, kept, ids, ownerId, owner, videoId, video, now).Ok?
    ensures Load(Deliver(t, kept, ids, ownerId, owner, videoId, video, now).value, NotificationKey(kept[i].userId, now))
            == Some(UploadNotification(kept[i].userId, ids(i), ownerId, owner, videoId, video, now, Expiry(now).value))
  {
    var ttl := Expiry(now).value;
    var ns := Uploads(kept, ids, ownerId, owner, videoId, video, now, ttl);
    assert LastWrite(ns, i);
    SaveAllWrites(t, ns, i);
    DecodeEncode(ns[i]);
  }

  /** Every recipient finds its upload notification under its key. */
  lemma DeliverReaches(t: NotificationTable, kept: seq<Subscription>, ids: nat -> string, ownerId: string, owner: User,
                       videoId: string, video: Video, now: Instant, u: string)
    requires DistinctUsers(kept) && u in (set s | s in kept :: s.userId)
    requires Deliver(t, kept, ids, ownerId, owner, videoId, video, now).Ok?
    ensures var n := Load(Deliver(t, kept, ids, ownerId, owner, videoId, video, now).value, NotificationKey(u, now));
            && n.Some?
            && n.value == UploadNotification(u, n.value.notificationId, ownerId, owner, videoId, video, now, Expiry(now).value)
  {
    var i :| 0 <= i < |kept| && kept[i].userId == u;
    DeliverWrites(t, kept, ids, ownerId, owner, videoId, video, now, i);
  }

  /** Every item not keyed by a recipient and `now` is left alone. */
  lemma DeliverKeeps(t: NotificationTable, kept: seq<Subscription>, ids: nat -> string, ownerId: string, owner: User,
                     videoId: string, video: Video, now: Instant, k: NotificationKey)
    requires Deliver(t, kept, ids, ownerId, owner, videoId, video, now).Ok?
    requires k in t && k !in set s | s in kept :: NotificationKey(s.userId, now)
    ensures Deliver(t, kept, ids, ownerId, owner, videoId, video, now).value[k] == t[k]
  {
    var ns := Uploads(kept, ids, ownerId, owner, videoId, video, now, Expiry(now).value);
    SaveAllKeeps(t, ns, k);
  }

  /** After a fan-out every member of the audience has, under its key and
      `now`, an unread upload notification from the channel's owner about
      the video, with the upload message. */
  lemma NotifySubscribersDelivers(db: Db, channelId: string, videoId: string, ids: nat -> string, now: Instant, u: string)
    requires HasAudience(db, channelId, videoId) && Expiry(now).Ok?
    requires u in Audience(db, channelId)
    ensures var c := db.channels[channelId];
            var n := Load(NotifySubscribers(db, channelId, videoId, ids, now).1.notifications, NotificationKey(u, now));
            && n.Some?
            && n.value == UploadNotification(u, n.value.notificationId, c.userId, db.users[c.userId], videoId,
                                             db.videos[videoId], now, Expiry(now).value)
  {
    var r := NotifySubscribers(db, channelId, videoId, ids, now);
    var owner := db.channels[channelId].userId;
    var kept := Kept(db, channelId);
    var d := Deliver(db.notifications, kept, ids, owner, db.users[owner], videoId, db.videos[videoId], now);
    assert r.0.Ok? && d == Ok(r.1.notifications);
    AudienceReached(db, channelId, now, u);
    DeliverReaches(db.notifications, kept, ids, owner, db.users[owner], videoId, db.videos[videoId], now, u);
  }

  /** Every member of the audience is among the recipients, and no
      recipient appears twice. */
  lemma AudienceReached(db: Db, channelId: string, now: Instant, u: string)
    requires channelId in db.channels && u in Audience(db, channelId)
    ensures DistinctUsers(Kept(db, channelId)) && u in set s | s in Kept(db, channelId) :: s.userId
  {
    RecipientsAreAudience(db, channelId, now);
  }

  /** A fan-out changes no item but the audience's at `now`; in particular
      the channel's owner is never notified of their own upload. */
  lemma NotifySubscribersKeeps(db: Db, channelId: string, videoId: string, ids: nat -> string, now: Instant,
                               k: NotificationKey)
    requires k in db.notifications
    requires !(k.createdAt == now && k.recipientUserId in Audience(db, channelId))
    ensures NotifySubscribers(db, channelId, videoId, ids, now).1.notifications[k] == db.notifications[k]
  {
    var r := NotifySubscribers(db, channelId, videoId, ids, now);
    if HasAudience(db, channelId, videoId) && Expiry(now).Ok? {
      var owner := db.channels[channelId].userId;
      var kept := Kept(db, channelId);
      var d := Deliver(db.notifications, kept, ids, owner, db.users[owner], videoId, db.videos[videoId], now);
      assert r.0.Ok? && d == Ok(r.1.notifications);
      OutsideAudience(db, channelId, now, k);
      DeliverKeeps(db.notifications, kept, ids, owner, db.users[owner], videoId, db.videos[videoId], now, k);
    } else {
      assert r.1 == db;
    }
  }

  /** A key whose user is outside the audience, or whose instant is not
      `now`, is no recipient's key. */
  lemma OutsideAudience(db: Db, channelId: string, now: Instant, k: NotificationKey)
    requires channelId in db.channels
    requires !(k.createdAt == now && k.recipientUserId in Audience(db, channelId))
    ensures k !in set s | s in Kept(db, channelId) :: NotificationKey(s.userId, now)
  {
    RecipientsAreAudience(db, channelId, now);
  }

  // ---------------------------------------------------------------------
  // Listing

  /** A notification as the listing shows it: `IsRead` becomes a flag that
      is set only for the stored string "true". */
  datatype NotificationDto = NotificationDto(
    notificationId: string,
    kind: string,
    actorUserId: string,
    actorName: string,
    actorAvatarUrl: Option<string>,
    videoId: Option<string>,
    videoTitle: Option<string>,
    videoThumbnailUrl: Option<string>,
    commentId: Option<string>,
    message: string,
    isRead: bool,
    createdAt: Instant)

  function ToDto(n: Notification): NotificationDto {
    NotificationDto(n.notificationId, n.kind, n.actorUserId, n.actorName, n.actorAvatarUrl, n.videoId, n.videoTitle,
                    n.videoThumbnailUrl, n.commentId, n.message, n.isRead == "true", n.createdAt)
  }

  datatype NotificationsResponse = NotificationsResponse(
    notifications: seq<NotificationDto>, totalCount: nat, unreadCount: nat, nextCursor: Option<string>)

  /** The cursor handed out for the key a page stopped at: the instant's
      digits, a colon, then the recipient. */
  function EncodeCursor(k: NotificationKey): string {
    NatToString(k.createdAt) + ":" + k.recipientUserId
  }

  /** The first colon at or after `i`, or `|s|` when there is none. */
  function ColonAt(s: string, i: nat): (r: nat)
    requires i <= |s|
    ensures i <= r <= |s|
    ensures forall j | i <= j < r :: s[j] != ':'
    ensures r < |s| ==> s[r] == ':'
    decreases |s| - i
  {
    if i == |s| || s[i] == ':' then i else ColonAt(s, i + 1)
  }

  /** The key a cursor names, or nothing for a cursor that does not read
      as one (the source logs it and starts from the top). */
  function DecodeCursor(c: string): (r: Option<NotificationKey>)
    ensures r.Some? ==> EndsWith(c, ":" + r.value.recipientUserId)
  {
    var i := ColonAt(c, 0);
    if i == |c| || i == 0 || !(forall j | 0 <= j < i :: IsDigit(c[j])) then None
    else
      var v := DigitsValue(c[..i]);
      assert c[i..] == ":" + c[i + 1..];
      if v <= MaxDateTimeTicks - UnixEpochTicks then Some(NotificationKey(c[i + 1..], v)) else None
  }

  /** Every key survives the cursor round trip. */
  lemma DecodeEncodeCursor(k: NotificationKey)
    ensures DecodeCursor(EncodeCursor(k)) == Some(k)
  {
    var d := NatToString(k.createdAt);
    var c := EncodeCursor(k);
    assert c[|d|] == ':';
    assert forall j | 0 <= j < |d| :: c[j] == d[j] && IsDigit(c[j]);
    var i := ColonAt(c, 0);
    assert i == |d|;
    assert c[..i] == d;
    assert c[i + 1..] == k.recipientUserId;
    DigitsValueOfNatToString(k.createdAt);
  }

  /** The exclusive start key a request's cursor gives: none for a null,
      empty or unreadable cursor. */
  function StartKey(cursor: Option<string>): Option<NotificationKey> {
    if IsNullOrEmpty(cursor) then None else DecodeCursor(cursor.value)
  }

  /** The instant the listing continues below. */
  function StartInstant(cursor: Option<string>): Option<Instant> {
    if StartKey(cursor).Some? then Some(StartKey(cursor).value.createdAt) else None
  }

  /** The page of `GetUserNotificationsAsync` for a clamped limit and the
      store's answer. */
  function Page(t: NotificationTable, u: string, items: seq<Notification>, lastKey: Option<NotificationKey>)
    : (r: NotificationsResponse)
    ensures |r.notifications| == |items| == r.totalCount
    ensures forall i | 0 <= i < |items| :: r.notifications[i] == ToDto(items[i])
    ensures r.unreadCount == CountUnread(t, u)
    ensures r.nextCursor.Some? <==> lastKey.Some?
    ensures r.nextCursor.Some? ==> DecodeCursor(r.nextCursor.value) == lastKey
  {
    assert lastKey.Some? ==> DecodeCursor(EncodeCursor(lastKey.value)) == lastKey by {
      if lastKey.Some? {
        DecodeEncodeCursor(lastKey.value);
      }
    }
    NotificationsResponse(seq(|items|, i requires 0 <= i < |items| => ToDto(items[i])), |items|, CountUnread(t, u),
                          if lastKey.Some? then Some(EncodeCursor(lastKey.value)) else None)
  }

  /** The listed notifications are those of `u` stored at the first of
      the given instants, in order. */
  predicate ListsAt(t: NotificationTable, u: string, times: seq<Instant>, ns: seq<NotificationDto>) {
    && |ns| <= |times|
    && forall i | 0 <= i < |ns| ::
         Load(t, NotificationKey(u, times[i])).Some?
         && ns[i] == ToDto(Load(t, NotificationKey(u, times[i])).value)
  }

  /** The unread-only listing: the first unread notifications in the order
      `UnreadTimes` fixes, no cursor. */
  function UnreadPage(t: NotificationTable, u: string, n: int): (r: NotificationsResponse)
    requires 1 <= n
    ensures r.totalCount == |r.notifications| == Min(n, |UnreadTimes(t, u)|)
    ensures ListsAt(t, u, UnreadTimes(t, u), r.notifications)
    ensures r.unreadCount == CountUnread(t, u) && r.nextCursor.None?
  {
    var items := UnreadNotifications(t, u, n).value;
    var r := Page(t, u, items, None);
    LoadedListed(t, u, UnreadTimes(t, u), items, r.notifications);
    r
  }

  /** The history listing below `start`, for a start key of `u`. */
  function HistoryPage(t: NotificationTable, u: string, n: int, start: Option<NotificationKey>): (r: NotificationsResponse)
    requires 1 <= n && (start.Some? ==> start.value.recipientUserId == u)
    ensures var rest := Remaining(t, u, if start.Some? then Some(start.value.createdAt) else None);
            && r.totalCount == |r.notifications| == Min(n, |rest|)
            && ListsAt(t, u, rest, r.notifications)
            && (r.nextCursor.None? <==> |rest| < n)
            && (r.nextCursor.Some? ==> |rest| >= n && DecodeCursor(r.nextCursor.value) == Some(NotificationKey(u, rest[n - 1])))
    ensures r.unreadCount == CountUnread(t, u)
  {
    var p := UserNotifications(t, u, n, start).value;
    var r := Page(t, u, p.items, p.lastKey);
    LoadedListed(t, u, Remaining(t, u, if start.Some? then Some(start.value.createdAt) else None), p.items, r.notifications);
    r
  }

  /** Notifications loaded at the given instants, mapped in order, are
      listed at those instants. */
  lemma LoadedListed(t: NotificationTable, u: string, times: seq<Instant>, items: seq<Notification>, ns: seq<NotificationDto>)
    requires |ns| == |items| <= |times|
    requires forall i | 0 <= i < |items| :: Load(t, NotificationKey(u, times[i])) == Some(items[i])
    requires forall i | 0 <= i < |items| :: ns[i] == ToDto(items[i])
    ensures ListsAt(t, u, times, ns)
  {
  }

  /** `GetUserNotificationsAsync`. The limit is clamped to 1..100 (20 when
      below one). Unread only: unread notifications in the order
      `UnreadTimes` fixes, and no cursor. Otherwise: the newest
      notifications older than the cursor's
      key, with a cursor when the page is full. A cursor naming another
      user's key is refused by the store. */
  function GetUserNotifications(t: NotificationTable, u: string, unreadOnly: bool, limit: int, cursor: Option<string>)
    : (r: Result<NotificationsResponse>)
    ensures r.Err? <==> !unreadOnly && StartKey(cursor).Some? && StartKey(cursor).value.recipientUserId != u
    ensures r.Ok? ==> r.value.totalCount == |r.value.notifications| <= ClampLimit(limit)
    ensures r.Ok? ==> r.value.unreadCount == CountUnread(t, u)
    ensures r.Ok? && unreadOnly ==>
              && r.value.nextCursor.None?
              && r.value.totalCount == Min(ClampLimit(limit), |UnreadTimes(t, u)|)
              && ListsAt(t, u, UnreadTimes(t, u), r.value.notifications)
    ensures r.Ok? && !unreadOnly ==>
              var rest := Remaining(t, u, StartInstant(cursor));
              && r.value.totalCount == Min(ClampLimit(limit), |rest|)
              && ListsAt(t, u, rest, r.value.notifications)
              && (r.value.nextCursor.None? <==> |rest| < ClampLimit(limit))
              && (r.value.nextCursor.Some? ==>
                    |rest| >= ClampLimit(limit)
                    && DecodeCursor(r.value.nextCursor.value) == Some(NotificationKey(u, rest[ClampLimit(limit) - 1])))
  {
    var n := ClampLimit(limit);
    if unreadOnly then Ok(UnreadPage(t, u, n))
    else
      var start := StartKey(cursor);
      if start.Some? && start.value.recipientUserId != u then Err(UserNotifications(t, u, n, start).error)
      else Ok(HistoryPage(t, u, n, start))
  }

  /** A cursor that does not read as a key is the same as none. */
  lemma UnreadableCursorIgnored(t: NotificationTable, u: string, unreadOnly: bool, limit: int, cursor: string)
    requires DecodeCursor(cursor).None?
    ensures GetUserNotifications(t, u, unreadOnly, limit, Some(cursor)) == GetUserNotifications(t, u, unreadOnly, limit, None)
  {
  }

  /** Following a page's cursor reads exactly what that page left: the
      next page starts right after it and is never refused. */
  lemma NextCursorResumes(t: NotificationTable, u: string, limit: int, cursor: Option<string>)
    requires GetUserNotifications(t, u, false, limit, cursor).Ok?
    requires GetUserNotifications(t, u, false, limit, cursor).value.nextCursor.Some?
    ensures var next := GetUserNotifications(t, u, false, limit, cursor).value.nextCursor;
            && GetUserNotifications(t, u, false, limit, next).Ok?
            && Remaining(t, u, StartInstant(next)) == Remaining(t, u, StartInstant(cursor))[ClampLimit(limit)..]
  {
    var n := ClampLimit(limit);
    var next := GetUserNotifications(t, u, false, limit, cursor).value.nextCursor;
    var rest := Remaining(t, u, StartInstant(cursor));
    assert |rest| >= n && DecodeCursor(next.value) == Some(NotificationKey(u, rest[n - 1]));
    CursorStart(next, NotificationKey(u, rest[n - 1]));
    ContinueFrom(t, u, StartInstant(cursor), n);
  }

  /** A cursor that decodes to a key starts the listing at that key. */
  lemma CursorStart(cursor: Option<string>, k: NotificationKey)
    requires cursor.Some? && DecodeCursor(cursor.value) == Some(k)
    ensures StartKey(cursor) == Some(k) && StartInstant(cursor) == Some(k.createdAt)
  {
  }

  /** `GetUnreadCountAsync`: how many unread notifications the user has,
      the count every listing reports. */
  function GetUnreadCount(t: NotificationTable, u: string): (r: nat)
    ensures r == |UnreadTimes(t, u)|
    ensures forall limit: int, cursor: Option<string> :: GetUserNotifications(t, u, true, limit, cursor).value.unreadCount == r
  {
    CountUnread(t, u)
  }

  // ---------------------------------------------------------------------
  // Read and delete

  /** The answer to a mark; `notificationId` keeps its default `""` for
      the mark-all answer. */
  datatype MarkAsReadResponse = MarkAsReadResponse(notificationId: string, success: bool, message: string)

  const AlreadyReadMessage: string := "Notification already marked as read"
  const MarkedReadMessage: string := "Notification marked as read"
  const AllMarkedReadMessage: string := "All notifications marked as read"

  /** `MarkAsReadAsync`: the notification the id lookup finds, if the user
      is its recipient, is saved back with `IsRead` "true"; one already read
      is left alone. An unknown id is `NotFoundException`, another user's
      notification `UnauthorizedAccessException`. */
  function MarkAsRead(t: NotificationTable, userId: string, id: string): (r: (Result<MarkAsReadResponse>, NotificationTable))
    ensures r.0.Err? ==> r.1 == t
    ensures r.0.Err? <==> ByNotificationId(t, id).None? || ByNotificationId(t, id).value.recipientUserId != userId
    ensures ByNotificationId(t, id).None? ==> r.0 == Err(NotFoundException)
    ensures ByNotificationId(t, id).Some? && ByNotificationId(t, id).value.recipientUserId != userId ==>
              r.0 == Err(UnauthorizedAccess)
    ensures r.0.Ok? ==>
              var n := ByNotificationId(t, id).value;
              && n.recipientUserId == userId
              && r.0.value.notificationId == id && r.0.value.success
              && (n.isRead == "true" ==> r.1 == t && r.0.value.message == AlreadyReadMessage)
              && (n.isRead != "true" ==> r.1 == Save(t, n.(isRead := "true")) && r.0.value.message == MarkedReadMessage)
  {
    match ByNotificationId(t, id)
    case None => (Err(NotFoundException), t)
    case Some(n) =>
      if n.recipientUserId != userId then (Err(UnauthorizedAccess), t)
      else if n.isRead == "true" then (Ok(MarkAsReadResponse(id, true, AlreadyReadMessage)), t)
      else (Ok(MarkAsReadResponse(id, true, MarkedReadMessage)), Save(t, n.(isRead := "true")))
  }

  /** Marking as read is idempotent: after a successful mark the same
      request finds the notification read and changes nothing more. */
  lemma MarkAsReadIdempotent(t: NotificationTable, userId: string, id: string)
    requires MarkAsRead(t, userId, id).0.Ok?
    ensures var t' := MarkAsRead(t, userId, id).1;
            && ByNotificationId(t', id).Some? && ByNotificationId(t', id).value.isRead == "true"
            && MarkAsRead(t', userId, id) == (Ok(MarkAsReadResponse(id, true, AlreadyReadMessage)), t')
  {
    var n := ByNotificationId(t, id).value;
    if n.isRead != "true" {
      ByNotificationIdAfterSave(t, n.(isRead := "true"));
    }
  }

  /** `MarkAllAsReadAsync`: saves back read at most `MarkAllLimit` of the
      user's unread notifications, those `MarkAllAsRead` picks, and reports
      success. Nothing is removed and no other item changes. */
  function MarkAllRead(t: NotificationTable, userId: string): (r: (MarkAsReadResponse, NotificationTable))
    ensures r.0 == MarkAsReadResponse("", true, AllMarkedReadMessage)
    ensures r.1 == MarkAllAsRead(t, userId)
    ensures r.1.Keys == t.Keys
    ensures forall k | k in t :: r.1[k] == if k in MarkedKeys(t, userId) then ReadItem(k, t[k]) else t[k]
    ensures CountUnread(r.1, userId) == CountUnread(t, userId) - Min(MarkAllLimit, CountUnread(t, userId))
    ensures forall other | other != userId :: UnreadKeys(r.1, other) == UnreadKeys(t, other)
  {
    var t' := MarkAllAsRead(t, userId);
    MarkAllAsReadCount(t, userId);
    forall other | other != userId
      ensures UnreadKeys(t', other) == UnreadKeys(t, other)
    {
      MarkAllAsReadOthers(t, userId, other);
    }
    (MarkAsReadResponse("", true, AllMarkedReadMessage), t')
  }

  datatype DeleteNotificationResponse = DeleteNotificationResponse(notificationId: string, success: bool, message: string)

  const DeletedMessage: string := "Notification deleted successfully"

  /** `DeleteNotificationAsync`: the notification the id lookup finds, if
      the user is its recipient, is deleted by id. An unknown id is
      `NotFoundException`, another user's notification
      `UnauthorizedAccessException`. */
  function DeleteNotification(t: NotificationTable, userId: string, id: string)
    : (r: (Result<DeleteNotificationResponse>, NotificationTable))
    ensures r.0.Err? ==> r.1 == t
    ensures r.0.Err? <==> ByNotificationId(t, id).None? || ByNotificationId(t, id).value.recipientUserId != userId
    ensures ByNotificationId(t, id).None? ==> r.0 == Err(NotFoundException)
    ensures ByNotificationId(t, id).Some? && ByNotificationId(t, id).value.recipientUserId != userId ==>
              r.0 == Err(UnauthorizedAccess)
    ensures r.0.Ok? ==>
              && ByNotificationId(t, id).Some? && ByNotificationId(t, id).value.recipientUserId == userId
              && r.0.value == DeleteNotificationResponse(id, true, DeletedMessage)
              && r.1.Keys == t.Keys - {ByNotificationId(t, id).value.Key()}
              && forall k | k in r.1 :: r.1[k] == t[k]
  {
    match ByNotificationId(t, id)
    case None => (Err(NotFoundException), t)
    case Some(n) =>
      if n.recipientUserId != userId then (Err(UnauthorizedAccess), t)
      else (Ok(DeleteNotificationResponse(id, true, DeletedMessage)), DeleteByNotificationId(t, id))
  }

  /** With unique ids a deleted notification is gone: deleting it again
      is `NotFoundException`. */
  lemma DeleteTwiceNotFound(t: NotificationTable, userId: string, id: string)
    requires UniqueIds(t)
    requires DeleteNotification(t, userId, id).0.Ok?
    ensures var t' := DeleteNotification(t, userId, id).1;
            DeleteNotification(t', userId, id) == (Err(NotFoundException), t')
  {
    DeleteByNotificationIdRemovesIt(t, id);
  }
}

=== FILE: notification_store.dfy ===
/** The notifications table and its repository (`NotificationRepository`).

    The table is keyed by (recipientUserId, createdAt) and holds attribute
    items; the repository decodes them with per-attribute defaults. Two
    secondary indexes are queried: `NotificationIdIndex` (by notification id)
    and `UnreadNotificationsIndex` (by recipient and the `isRead` string). The
    unread index only holds items that carry a string `isRead` attribute.
    A recipient's notifications are distinguished by their creation instant,
    so a recipient's timeline is a strictly descending sequence of instants.
 */
module NotificationStore {
  import opened Wrappers
  import opened Text
  import opened Entities
  import opened Ordering

  // ---------------------------------------------------------------------
  // Attribute items

  /** The `S` member of attribute `name`: null when the attribute is absent
      or holds a number. */
  function StrAttr(item: Item, name: Attribute): Option<string> {
    if name in item && item[name].S? then Some(item[name].s) else None
  }

  /** The `N` member of attribute `name`: null when absent or a string. */
  function NumAttr(item: Item, name: Attribute): Option<string> {
    if name in item && item[name].N? then Some(item[name].n) else None
  }

  /** `MapAttributesToNotification`; the key attributes come from the key the
      item is stored under. A missing text attribute becomes the empty string,
      a missing optional one null, a missing `isRead` "false", and a missing
      or unparseable `ttl` zero. */
  function Decode(k: NotificationKey, item: Item): (n: Notification)
    ensures n.Key() == k
    ensures NotificationIdAttr !in item ==> n.notificationId == ""
    ensures MessageAttr !in item ==> n.message == ""
    ensures IsReadAttr !in item ==> n.isRead == "false"
    ensures VideoIdAttr !in item ==> n.videoId.None?
    ensures CommentIdAttr !in item ==> n.commentId.None?
    ensures ParseInt64(NumAttr(item, TtlAttr)).None? ==> n.ttl == 0
    ensures Int64Min <= n.ttl <= Int64Max
  {
    Notification(
      k.recipientUserId,
      k.createdAt,
      StrAttr(item, NotificationIdAttr).GetOr(""),
      StrAttr(item, TypeAttr).GetOr(""),
      StrAttr(item, ActorUserIdAttr).GetOr(""),
      StrAttr(item, ActorNameAttr).GetOr(""),
      StrAttr(item, ActorAvatarUrlAttr),
      StrAttr(item, VideoIdAttr),
      StrAttr(item, VideoTitleAttr),
      StrAttr(item, VideoThumbnailUrlAttr),
      StrAttr(item, CommentIdAttr),
      StrAttr(item, MessageAttr).GetOr(""),
      StrAttr(item, IsReadAttr).GetOr("false"),
      ParseInt64(NumAttr(item, TtlAttr)).GetOr(0))
  }

  /** An item with every attribute missing decodes to the defaults. */
  lemma DecodeEmpty(k: NotificationKey)
    ensures Decode(k, map[]) ==
            Notification(k.recipientUserId, k.createdAt, "", "", "", "", None, None, None, None, None, "", "false", 0)
  {
    assert ParseInt64(NumAttr(map[], TtlAttr)) == None;
  }

  /** Every attribute a notification item may carry. */
  const AllAttributes: set<Attribute> :=
    {NotificationIdAttr, TypeAttr, ActorUserIdAttr, ActorNameAttr, ActorAvatarUrlAttr, VideoIdAttr,
     VideoTitleAttr, VideoThumbnailUrlAttr, CommentIdAttr, MessageAttr, IsReadAttr, TtlAttr}

  /** What the object-persistence model writes for one property: its value,
      `ttl` as a number, and nothing for a null. */
  function Written(n: Notification, a: Attribute): Option<AttrValue> {
    match a
    case NotificationIdAttr => Some(S(n.notificationId))
    case TypeAttr => Some(S(n.kind))
    case ActorUserIdAttr => Some(S(n.actorUserId))
    case ActorNameAttr => Some(S(n.actorName))
    case ActorAvatarUrlAttr => if n.actorAvatarUrl.Some? then Some(S(n.actorAvatarUrl.value)) else None
    case VideoIdAttr => if n.videoId.Some? then Some(S(n.videoId.value)) else None
    case VideoTitleAttr => if n.videoTitle.Some? then Some(S(n.videoTitle.value)) else None
    case VideoThumbnailUrlAttr => if n.videoThumbnailUrl.Some? then Some(S(n.videoThumbnailUrl.value)) else None
    case CommentIdAttr => if n.commentId.Some? then Some(S(n.commentId.value)) else None
    case MessageAttr => Some(S(n.message))
    case IsReadAttr => Some(S(n.isRead))
    case TtlAttr => Some(N(IntToString(n.ttl)))
  }

  /** The attribute item `SaveAsync` writes for a notification (key
      attributes aside): every non-null property. */
  function Encode(n: Notification): (item: Item)
    ensures forall a :: a in item <==> Written(n, a).Some?
    ensures forall a | a in item :: item[a] == Written(n, a).value
  {
    map a | a in AllAttributes && Written(n, a).Some? :: Written(n, a).value
  }

  /** The text attributes of a saved notification, read back. */
  lemma EncodedText(n: Notification)
    ensures StrAttr(Encode(n), NotificationIdAttr) == Some(n.notificationId)
    ensures StrAttr(Encode(n), TypeAttr) == Some(n.kind)
    ensures StrAttr(Encode(n), ActorUserIdAttr) == Some(n.actorUserId)
    ensures StrAttr(Encode(n), ActorNameAttr) == Some(n.actorName)
  {
  }

  /** The nullable attributes of a saved notification, read back. */
  lemma EncodedOptional(n: Notification)
    ensures StrAttr(Encode(n), ActorAvatarUrlAttr) == n.actorAvatarUrl
    ensures StrAttr(Encode(n), VideoIdAttr) == n.videoId
    ensures StrAttr(Encode(n), VideoTitleAttr) == n.videoTitle
    ensures StrAttr(Encode(n), VideoThumbnailUrlAttr) == n.videoThumbnailUrl
    ensures StrAttr(Encode(n), CommentIdAttr) == n.commentId
  {
  }

  /** The message, read flag and expiry of a saved notification, read back. */
  lemma EncodedRest(n: Notification)
    ensures StrAttr(Encode(n), MessageAttr) == Some(n.message)
    ensures StrAttr(Encode(n), IsReadAttr) == Some(n.isRead)
    ensures NumAttr(Encode(n), TtlAttr) == Some(IntToString(n.ttl))
  {
  }

  /** Decoding what was saved gives back the notification, for every `ttl`
      that fits in a `long`. */
  lemma DecodeEncode(n: Notification)
    requires Int64Min <= n.ttl <= Int64Max
    ensures Decode(n.Key(), Encode(n)) == n
  {
    EncodedText(n);
    EncodedOptional(n);
    EncodedRest(n);
    ParseInt64OfIntToString(n.ttl);
  }

  /** Saving a loaded notification again leaves what later loads see
      unchanged. */
  lemma ResaveKeepsView(k: NotificationKey, item: Item)
    ensures Decode(k, Encode(Decode(k, item))) == Decode(k, item)
  {
    DecodeEncode(Decode(k, item));
  }

  // ---------------------------------------------------------------------
  // Access by key

  /** `GetAsync`: the notification stored under a key, if any. */
  function Load(t: NotificationTable, k: NotificationKey): (r: Option<Notification>)
    ensures r.Some? <==> k in t
    ensures r.Some? ==> r.value.Key() == k
  {
    if k in t then Some(Decode(k, t[k])) else None
  }

  /** `SaveAsync` and `UpdateAsync`: an upsert under the notification's key
      that leaves every other item as it was. */
  function Save(t: NotificationTable, n: Notification): (r: NotificationTable)
    ensures r.Keys == t.Keys + {n.Key()}
    ensures r[n.Key()] == Encode(n)
    ensures forall k | k in t && k != n.Key() :: r[k] == t[k]
    ensures Int64Min <= n.ttl <= Int64Max ==> Load(r, n.Key()) == Some(n)
  {
    var r := t[n.Key() := Encode(n)];
    assert Int64Min <= n.ttl <= Int64Max ==> Load(r, n.Key()) == Some(n) by {
      if Int64Min <= n.ttl <= Int64Max {
        DecodeEncode(n);
      }
    }
    r
  }

  /** `DeleteAsync`: removes one key and nothing else. */
  function Remove(t: NotificationTable, k: NotificationKey): (r: NotificationTable)
    ensures r.Keys == t.Keys - {k}
    ensures forall k' | k' in r :: r[k'] == t[k']
  {
    t - {k}
  }

  // ---------------------------------------------------------------------
  // Timelines

  /** The creation instants of a set of keys. */
  function TimesOf(ks: set<NotificationKey>): set<Instant> {
    set k | k in ks :: k.createdAt
  }

  /** Keys of one recipient differ in their instants, so they are as many
      as their instants. */
  lemma {:induction false} TimesOfCard(ks: set<NotificationKey>, u: string)
    requires forall k | k in ks :: k.recipientUserId == u
    ensures |TimesOf(ks)| == |ks|
    decreases |ks|
  {
    if ks != {} {
      var k :| k in ks;
      TimesOfCard(ks - {k}, u);
      assert TimesOf(ks) == TimesOf(ks - {k}) + {k.createdAt};
      assert k.createdAt !in TimesOf(ks - {k});
    }
  }

  /** The members of a set of instants, newest first. */
  function Descending(s: set<Instant>): (r: seq<Instant>)
    ensures |r| == |s|
    ensures forall c :: c in r <==> c in s
    ensures forall i, j | 0 <= i < j < |r| :: r[i] > r[j]
    decreases |s|
  {
    if s == {} then []
    else
      GreatestExists(s);
      var m :| IsGreatest(m, s);
      [m] + Descending(s - {m})
  }

  /** Two newest-first sequences with the same members are equal. */
  lemma {:induction false} DescendingUnique(a: seq<Instant>, b: seq<Instant>)
    requires forall i, j | 0 <= i < j < |a| :: a[i] > a[j]
    requires forall i, j | 0 <= i < j < |b| :: b[i] > b[j]
    requires forall c :: c in a <==> c in b
    ensures a == b
    decreases |a|
  {
    assert a != [] ==> a[0] in b;
    assert b != [] ==> b[0] in a;
    if a != [] && b != [] {
      assert a[0] == b[0] by {
        assert a[0] in b && b[0] in a;
        var i :| 0 <= i < |b| && b[i] == a[0];
        var j :| 0 <= j < |a| && a[j] == b[0];
      }
      forall c
        ensures c in a[1..] <==> c in b[1..]
      {
        if c in a[1..] {
          var i :| 1 <= i < |a| && a[i] == c;
          assert c in b && c != b[0];
        }
        if c in b[1..] {
          var i :| 1 <= i < |b| && b[i] == c;
          assert c in a && c != a[0];
        }
      }
      DescendingUnique(a[1..], b[1..]);
      assert a == [a[0]] + a[1..] && b == [b[0]] + b[1..];
    }
  }

  /** The instants listed in a sequence. */
  function Members(a: seq<Instant>): set<Instant> {
    set c | c in a
  }

  /** A newest-first sequence has no repeated instant. */
  lemma {:induction false} DescendingCard(a: seq<Instant>)
    requires forall i, j | 0 <= i < j < |a| :: a[i] > a[j]
    ensures |Members(a)| == |a|
  {
    if a != [] {
      var tail := a[1..];
      DescendingCard(tail);
      assert forall i | 0 <= i < |tail| :: tail[i] == a[i + 1] < a[0];
      assert a[0] !in Members(tail);
      assert a == [a[0]] + tail;
      assert Members(a) == Members(tail) + {a[0]};
    }
  }

  /** `ExclusiveStartKey`'s effect on a descending query: only instants
      strictly older than the start key's. */
  predicate Older(c: Instant, start: Option<Instant>) {
    start.None? || c < start.value
  }

  /** Creation instants of `u`'s notifications older than `start`, newest
      first: what a descending query on the table reads. */
  function Remaining(t: NotificationTable, u: string, start: Option<Instant>): (r: seq<Instant>)
    ensures forall c: Instant :: c in r <==> NotificationKey(u, c) in t && Older(c, start)
    ensures forall i, j | 0 <= i < j < |r| :: r[i] > r[j]
  {
    var ks := set k | k in t && k.recipientUserId == u && Older(k.createdAt, start);
    var r := Descending(TimesOf(ks));
    assert forall c: Instant | NotificationKey(u, c) in t && Older(c, start) :: c in TimesOf(ks) by {
      forall c: Instant | NotificationKey(u, c) in t && Older(c, start) ensures c in TimesOf(ks) {
        assert NotificationKey(u, c) in ks;
      }
    }
    r
  }

  /** The decoded notifications of `u` at the given instants. */
  function StoredAt(t: NotificationTable, u: string, cs: seq<Instant>): (r: seq<Notification>)
    requires forall i | 0 <= i < |cs| :: NotificationKey(u, cs[i]) in t
    ensures |r| == |cs|
    ensures forall i | 0 <= i < |r| :: Load(t, NotificationKey(u, cs[i])) == Some(r[i])
  {
    seq(|cs|, i requires 0 <= i < |cs| => Decode(NotificationKey(u, cs[i]), t[NotificationKey(u, cs[i])]))
  }

  // ---------------------------------------------------------------------
  // Queries

  /** One page of `GetUserNotificationsAsync`: the items and the key to
      continue from (null when the store reports none). */
  datatype QueryPage = QueryPage(items: seq<Notification>, lastKey: Option<NotificationKey>)

  /** `GetUserNotificationsAsync`: `u`'s notifications newest first, at most
      `limit` of them, strictly older than the exclusive start key. The store
      rejects a limit below one and a start key of another partition. A
      query that stops at its limit reports the last key it read. */
  function UserNotifications(t: NotificationTable, u: string, limit: int, start: Option<NotificationKey>)
    : (r: Result<QueryPage>)
    ensures r.Err? <==> limit < 1 || (start.Some? && start.value.recipientUserId != u)
    ensures r.Ok? ==>
              var rest := Remaining(t, u, if start.Some? then Some(start.value.createdAt) else None);
              && |r.value.items| == Min(limit, |rest|)
              && (forall i | 0 <= i < |r.value.items| ::
                    Load(t, NotificationKey(u, rest[i])) == Some(r.value.items[i]))
              && (r.value.lastKey.None? <==> |rest| < limit)
              && (r.value.lastKey.Some? ==>
                    r.value.lastKey.value == NotificationKey(u, rest[limit - 1]))
  {
    if limit < 1 || (start.Some? && start.value.recipientUserId != u) then Err(OtherException)
    else
      var rest := Remaining(t, u, if start.Some? then Some(start.value.createdAt) else None);
      Ok(QueryPage(FirstStored(t, u, rest, limit),
                   if |rest| < limit then None else Some(NotificationKey(u, rest[limit - 1]))))
  }

  /** In a newest-first sequence, what follows position `n - 1` is exactly
      what is older than the element there. */
  lemma DescendingSuffix(a: seq<Instant>, n: nat)
    requires 1 <= n <= |a|
    requires forall i, j | 0 <= i < j < |a| :: a[i] > a[j]
    ensures forall c :: c in a[n..] <==> c in a && c < a[n - 1]
  {
    forall c | c in a && c < a[n - 1]
      ensures c in a[n..]
    {
      var i :| 0 <= i < |a| && a[i] == c;
      assert forall j | 0 <= j < n - 1 :: a[j] > a[n - 1];
      assert i >= n;
      assert a[n..][i - n] == c;
    }
  }

  /** A newest-first sequence holding exactly what is older than position
      `n - 1` of another is that one's remainder. */
  lemma SuffixUnique(a: seq<Instant>, b: seq<Instant>, n: nat)
    requires 1 <= n <= |a|
    requires forall i, j | 0 <= i < j < |a| :: a[i] > a[j]
    requires forall i, j | 0 <= i < j < |b| :: b[i] > b[j]
    requires forall c :: c in b <==> c in a && c < a[n - 1]
    ensures b == a[n..]
  {
    DescendingSuffix(a, n);
    var tail := a[n..];
    forall i, j | 0 <= i < j < |tail|
      ensures tail[i] > tail[j]
    {
      assert tail[i] == a[n + i] && tail[j] == a[n + j];
    }
    DescendingUnique(b, tail);
  }

  /** Continuing from the reported key reads exactly what the previous page
      left: nothing is skipped and nothing is read twice. */
  lemma ContinueFrom(t: NotificationTable, u: string, start: Option<Instant>, limit: nat)
    requires 1 <= limit <= |Remaining(t, u, start)|
    ensures Remaining(t, u, Some(Remaining(t, u, start)[limit - 1]))
            == Remaining(t, u, start)[limit..]
  {
    var rest := Remaining(t, u, start);
    var last := rest[limit - 1];
    var next := Remaining(t, u, Some(last));
    assert last in rest;
    forall c: Instant
      ensures c in next <==> c in rest && c < last
    {
      assert c < last ==> Older(c, start);
    }
    SuffixUnique(rest, next, limit);
  }

  /** The unread index holds items with a string `isRead` of "false". */
  predicate IsUnread(item: Item) {
    IsReadAttr in item && item[IsReadAttr] == S("false")
  }

  /** Keys of `u`'s unread notifications. */
  function UnreadKeys(t: NotificationTable, u: string): (r: set<NotificationKey>)
    ensures forall k :: k in r <==> k in t && k.recipientUserId == u && IsUnread(t[k])
  {
    set k | k in t && k.recipientUserId == u && IsUnread(t[k])
  }

  /** Creation instants of `u`'s unread notifications, newest first. The
      unread index is sorted on `isRead` alone, so the store may return its
      items in any order; newest first is the order this model fixes. */
  function UnreadTimes(t: NotificationTable, u: string): (r: seq<Instant>)
    ensures forall c: Instant :: c in r <==> NotificationKey(u, c) in t && IsUnread(t[NotificationKey(u, c)])
    ensures forall i, j | 0 <= i < j < |r| :: r[i] > r[j]
    ensures |r| == |UnreadKeys(t, u)|
  {
    var ks := UnreadKeys(t, u);
    TimesOfCard(ks, u);
    var r := Descending(TimesOf(ks));
    assert forall c: Instant | NotificationKey(u, c) in t && IsUnread(t[NotificationKey(u, c)]) :: c in TimesOf(ks) by {
      forall c: Instant | NotificationKey(u, c) in t && IsUnread(t[NotificationKey(u, c)])
        ensures c in TimesOf(ks)
      {
        assert NotificationKey(u, c) in ks;
      }
    }
    r
  }

  /** Saving an unread notification adds its key to its recipient's unread
      keys and leaves everyone else's as they were. */
  lemma SaveUnreadKeys(t: NotificationTable, n: Notification, u: string)
    requires n.isRead == "false"
    ensures UnreadKeys(Save(t, n), u)
            == if u == n.recipientUserId then UnreadKeys(t, u) + {n.Key()} else UnreadKeys(t, u)
  {
    var r := Save(t, n);
    assert IsUnread(r[n.Key()]);
  }

  /** The first `limit` notifications of `u` at the listed instants. */
  function FirstStored(t: NotificationTable, u: string, cs: seq<Instant>, limit: int): (r: seq<Notification>)
    requires forall c | c in cs :: NotificationKey(u, c) in t
    ensures |r| == Min(Max(limit, 0), |cs|)
    ensures forall i | 0 <= i < |r| :: Load(t, NotificationKey(u, cs[i])) == Some(r[i])
  {
    var page := Take(cs, limit);
    assert |page| <= |cs|;
    assert forall i | 0 <= i < |page| :: page[i] == cs[i];
    StoredAt(t, u, page)
  }

  /** `GetUnreadNotificationsAsync`: at most `limit` of `u`'s unread
      notifications, in the order `UnreadTimes` fixes. */
  function UnreadNotifications(t: NotificationTable, u: string, limit: int): (r: Result<seq<Notification>>)
    ensures r.Err? <==> limit < 1
    ensures r.Ok? ==> |r.value| == Min(limit, |UnreadTimes(t, u)|)
    ensures r.Ok? ==> forall i | 0 <= i < |r.value| ::
              Load(t, NotificationKey(u, UnreadTimes(t, u)[i])) == Some(r.value[i])
  {
    if limit < 1 then Err(OtherException) else Ok(FirstStored(t, u, UnreadTimes(t, u), limit))
  }

  /** `CountUnreadNotificationsAsync`. */
  function CountUnread(t: NotificationTable, u: string): (r: nat)
    ensures r == |UnreadTimes(t, u)|
  {
    |UnreadKeys(t, u)|
  }

  /** The unread listing and the unread count agree: a listing returns
      every unread notification exactly when its limit reaches the count. */
  lemma UnreadListingMatchesCount(t: NotificationTable, u: string, limit: int)
    requires limit >= 1
    ensures |UnreadNotifications(t, u, limit).value| == Min(limit, CountUnread(t, u))
    ensures |UnreadNotifications(t, u, limit).value| == CountUnread(t, u) <==> limit >= CountUnread(t, u)
  {
  }

  // ---------------------------------------------------------------------
  // Mark all as read

  /** How many unread notifications one `MarkAllAsReadAsync` call reads. */
  const MarkAllLimit: nat := 100

  /** The instants of the notifications one `MarkAllAsReadAsync` marks: the
      first `MarkAllLimit` unread ones in the order `UnreadTimes` fixes. */
  function MarkedTimes(t: NotificationTable, u: string): (r: seq<Instant>)
    ensures |r| == Min(MarkAllLimit, CountUnread(t, u))
    ensures forall c :: c in r ==> c in UnreadTimes(t, u)
    ensures forall i, j | 0 <= i < j < |r| :: r[i] > r[j]
  {
    Newest(UnreadTimes(t, u), MarkAllLimit)
  }

  /** The first `n` instants of a newest-first sequence. */
  function Newest(cs: seq<Instant>, n: nat): (r: seq<Instant>)
    requires forall i, j | 0 <= i < j < |cs| :: cs[i] > cs[j]
    ensures |r| == Min(n, |cs|)
    ensures forall c :: c in r ==> c in cs
    ensures forall i, j | 0 <= i < j < |r| :: r[i] > r[j]
  {
    var r := Take(cs, n);
    assert |r| <= |cs|;
    r
  }

  /** A notification item saved back with `isRead` "true". */
  function ReadItem(k: NotificationKey, item: Item): (r: Item)
    ensures !IsUnread(r)
    ensures Decode(k, r) == Decode(k, item).(isRead := "true")
  {
    var n := Decode(k, item).(isRead := "true");
    DecodeEncode(n);
    EncodedRest(n);
    Encode(n)
  }

  /** The marked keys of `u`. */
  function MarkedKeys(t: NotificationTable, u: string): (r: set<NotificationKey>)
    ensures r <= t.Keys
  {
    set k | k in t && k.recipientUserId == u && k.createdAt in MarkedTimes(t, u)
  }

  /** `MarkAllAsReadAsync`: each marked notification is saved back with
      `isRead` "true"; every other item is left alone. */
  function MarkAllAsRead(t: NotificationTable, u: string): (r: NotificationTable)
    ensures r.Keys == t.Keys
    ensures forall k | k in t && k !in MarkedKeys(t, u) :: r[k] == t[k]
    ensures forall k | k in MarkedKeys(t, u) :: r[k] == ReadItem(k, t[k])
  {
    MarkRead(t, MarkedKeys(t, u))
  }

  /** The table with the items at `ks` saved back as read. */
  function MarkRead(t: NotificationTable, ks: set<NotificationKey>): (r: NotificationTable)
    requires ks <= t.Keys
    ensures r.Keys == t.Keys
    ensures forall k | k in t && k !in ks :: r[k] == t[k]
    ensures forall k | k in ks :: r[k] == ReadItem(k, t[k])
  {
    map k | k in t :: if k in ks then ReadItem(k, t[k]) else t[k]
  }

  /** Each marked notification was unread, is read afterwards, and is
      otherwise what it was. */
  lemma MarkAllAsReadMarks(t: NotificationTable, u: string, k: NotificationKey)
    requires k in MarkedKeys(t, u)
    ensures IsUnread(t[k]) && !IsUnread(MarkAllAsRead(t, u)[k])
    ensures Load(MarkAllAsRead(t, u), k) == Some(Load(t, k).value.(isRead := "true"))
  {
    assert k.createdAt in UnreadTimes(t, u);
  }

  /** After marking, `u`'s unread notifications are the others. */
  lemma MarkAllUnreadKeys(t: NotificationTable, u: string, r: NotificationTable)
    requires r == MarkAllAsRead(t, u)
    ensures UnreadKeys(r, u) == UnreadKeys(t, u) - MarkedKeys(t, u)
    ensures MarkedKeys(t, u) <= UnreadKeys(t, u)
  {
    forall k | k in MarkedKeys(t, u)
      ensures k in UnreadKeys(t, u) && k !in UnreadKeys(r, u)
    {
      MarkAllAsReadMarks(t, u, k);
    }
  }

  /** The marked keys are as many as the marked instants. */
  lemma MarkedKeysCard(t: NotificationTable, u: string)
    ensures |MarkedKeys(t, u)| == Min(MarkAllLimit, CountUnread(t, u))
  {
    var ks := MarkedKeys(t, u);
    var times := MarkedTimes(t, u);
    TimesOfCard(ks, u);
    DescendingCard(times);
    assert TimesOf(ks) == Members(times) by {
      forall c | c in times ensures c in TimesOf(ks) {
        assert c in UnreadTimes(t, u);
        assert NotificationKey(u, c) in ks;
      }
    }
  }

  /** One call marks at most a hundred of `u`'s unread notifications: the
      unread count drops by the smaller of a hundred and that count. */
  lemma MarkAllAsReadCount(t: NotificationTable, u: string)
    ensures CountUnread(MarkAllAsRead(t, u), u) == CountUnread(t, u) - Min(MarkAllLimit, CountUnread(t, u))
  {
    var r := MarkAllAsRead(t, u);
    MarkAllUnreadKeys(t, u, r);
    MarkedKeysCard(t, u);
  }

  /** Marking `u`'s notifications leaves every other recipient's unread
      notifications as they were. */
  lemma MarkAllAsReadOthers(t: NotificationTable, u: string, other: string)
    requires other != u
    ensures UnreadKeys(MarkAllAsRead(t, u), other) == UnreadKeys(t, other)
    ensures CountUnread(MarkAllAsRead(t, u), other) == CountUnread(t, other)
  {
  }

  // ---------------------------------------------------------------------
  // Lookup by notification id

  /** Keys whose item has notification id `id`, as the id index holds them. */
  function Matches(t: NotificationTable, id: string): (r: set<NotificationKey>)
    ensures forall k :: k in r <==> k in t && StrAttr(t[k], NotificationIdAttr) == Some(id)
  {
    set k | k in t && StrAttr(t[k], NotificationIdAttr) == Some(id)
  }

  /** The key the id index returns first among the matching keys `m`. The
      index's order among equal ids is the store's; the model takes the
      smallest recipient and, for it, the newest instant. */
  function FirstMatch(m: set<NotificationKey>): (k: NotificationKey)
    requires m != {}
    ensures k in m
  {
    var k0 :| k0 in m;
    var us := set k | k in m :: k.recipientUserId;
    assert k0.recipientUserId in us;
    var u := SortedStrings(us)[0];
    assert u in us;
    var times := TimesOf(set k | k in m && k.recipientUserId == u);
    var cs := Descending(times);
    assert cs != [] by {
      var k1 :| k1 in m && k1.recipientUserId == u;
      assert k1.createdAt in times;
    }
    assert cs[0] in times;
    NotificationKey(u, cs[0])
  }

  /** `GetByNotificationIdAsync`: the first item the id index returns. */
  function ByNotificationId(t: NotificationTable, id: string): (r: Option<Notification>)
    ensures r.None? <==> Matches(t, id) == {}
    ensures r.Some? ==> r.value.Key() in Matches(t, id) && Load(t, r.value.Key()) == r
    ensures r.Some? ==> r.value.notificationId == id
  {
    var m := Matches(t, id);
    if m == {} then None
    else
      var k := FirstMatch(m);
      Some(Decode(k, t[k]))
  }

  /** Saving a notification back under its key with its id unchanged
      leaves what every id lookup finds in place. */
  lemma SaveKeepsMatches(t: NotificationTable, n: Notification, id: string)
    requires n.Key() in t && StrAttr(t[n.Key()], NotificationIdAttr) == Some(n.notificationId)
    ensures Matches(Save(t, n), id) == Matches(t, id)
  {
    var r := Save(t, n);
    assert StrAttr(r[n.Key()], NotificationIdAttr) == Some(n.notificationId);
  }

  /** After such a save the lookup by that id finds the saved version. */
  lemma ByNotificationIdAfterSave(t: NotificationTable, n: Notification)
    requires ByNotificationId(t, n.notificationId).Some?
    requires ByNotificationId(t, n.notificationId).value.Key() == n.Key()
    requires Int64Min <= n.ttl <= Int64Max
    ensures ByNotificationId(Save(t, n), n.notificationId) == Some(n)
  {
    assert n.Key() in Matches(t, n.notificationId);
    SaveKeepsMatches(t, n, n.notificationId);
  }

  /** Saving a notification whose id no item has makes it the one the id
      lookup finds. */
  lemma SaveFreshId(t: NotificationTable, n: Notification)
    requires Matches(t, n.notificationId) == {}
    requires Int64Min <= n.ttl <= Int64Max
    ensures Matches(Save(t, n), n.notificationId) == {n.Key()}
    ensures ByNotificationId(Save(t, n), n.notificationId) == Some(n)
  {
    var r := Save(t, n);
    assert StrAttr(r[n.Key()], NotificationIdAttr) == Some(n.notificationId);
    forall k | k in r && k != n.Key()
      ensures StrAttr(r[k], NotificationIdAttr) != Some(n.notificationId)
    {
      assert k !in Matches(t, n.notificationId);
    }
    assert Matches(r, n.notificationId) == {n.Key()};
  }

  /** Notification ids are unique in the table. */
  predicate UniqueIds(t: NotificationTable) {
    forall k1, k2 | k1 in t && k2 in t && StrAttr(t[k1], NotificationIdAttr) == StrAttr(t[k2], NotificationIdAttr)
      && StrAttr(t[k1], NotificationIdAttr).Some? :: k1 == k2
  }

  /** With unique ids the lookup finds the one notification with that id. */
  lemma ByNotificationIdUnique(t: NotificationTable, id: string, k: NotificationKey)
    requires UniqueIds(t)
    requires k in t && StrAttr(t[k], NotificationIdAttr) == Some(id)
    ensures ByNotificationId(t, id) == Load(t, k)
  {
    assert k in Matches(t, id);
  }

  /** `DeleteByNotificationIdAsync`: nothing for an unknown id, otherwise
      the item the lookup found is deleted by its key. */
  function DeleteByNotificationId(t: NotificationTable, id: string): (r: NotificationTable)
    ensures Matches(t, id) == {} ==> r == t
    ensures var f := ByNotificationId(t, id);
            f.Some? ==> r.Keys == t.Keys - {f.value.Key()} && forall k | k in r :: r[k] == t[k]
  {
    match ByNotificationId(t, id)
    case None => t
    case Some(n) => Remove(t, n.Key())
  }

  /** With unique ids, deleting by id leaves no item with that id, keeps
      ids unique, and removes exactly one item when the id is known. */
  lemma DeleteByNotificationIdRemovesIt(t: NotificationTable, id: string)
    requires UniqueIds(t)
    ensures Matches(DeleteByNotificationId(t, id), id) == {}
    ensures UniqueIds(DeleteByNotificationId(t, id))
    ensures |DeleteByNotificationId(t, id)| == if Matches(t, id) == {} then |t| else |t| - 1
  {
    var r := DeleteByNotificationId(t, id);
    var f := ByNotificationId(t, id);
    if f.Some? {
      forall k | k in r
        ensures StrAttr(r[k], NotificationIdAttr) != Some(id)
      {
        assert r[k] == t[k] && k != f.value.Key();
      }
      assert r.Keys == t.Keys - {f.value.Key()};
    }
  }

  // ---------------------------------------------------------------------
  // Batch save

  /** Items per `BatchWriteItem` request. */
  const BatchSize: nat := 25

  /** The batches `BatchSaveAsync` writes: consecutive slices of at most
      `BatchSize` items, none empty, together the whole list in order. */
  function Chunks<T>(xs: seq<T>): (r: seq<seq<T>>)
    ensures |r| == (|xs| + BatchSize - 1) / BatchSize
    ensures forall i | 0 <= i < |r| :: 1 <= |r[i]| <= BatchSize
    ensures Concat(r) == xs
    decreases |xs|
  {
    if xs == [] then []
    else
      var n := Min(BatchSize, |xs|);
      var rest := Chunks(xs[n..]);
      assert Concat([xs[..n]] + rest) == xs[..n] + Concat(rest) by {
        assert ([xs[..n]] + rest)[1..] == rest;
      }
      assert xs == xs[..n] + xs[n..];
      [xs[..n]] + rest
  }

  /** Joins a list of batches. */
  function Concat<T>(bs: seq<seq<T>>): seq<T> {
    if bs == [] then [] else bs[0] + Concat(bs[1..])
  }

  /** Batch `i` is `Skip(i * BatchSize).Take(BatchSize)` of the list. */
  lemma {:induction false} ChunkAt<T>(xs: seq<T>, i: nat)
    requires i < |Chunks(xs)|
    ensures i * BatchSize < |xs|
    ensures Chunks(xs)[i] == xs[i * BatchSize .. Min(i * BatchSize + BatchSize, |xs|)]
    decreases |xs|
  {
    if i > 0 {
      var tail := xs[BatchSize..];
      assert Chunks(xs)[i] == Chunks(tail)[i - 1];
      ChunkAt(tail, i - 1);
      var lo := (i - 1) * BatchSize;
      SliceOfDrop(xs, BatchSize, lo, Min(lo + BatchSize, |tail|));
    }
  }

  /** A slice of a suffix is a slice of the whole. */
  lemma SliceOfDrop<T>(xs: seq<T>, d: nat, lo: nat, hi: nat)
    requires d <= |xs| && lo <= hi <= |xs| - d
    ensures xs[d..][lo..hi] == xs[d + lo .. d + hi]
  {
  }

  /** No notification after position `i` has the same key: the write at
      `i` is the one that stays. */
  predicate LastWrite(ns: seq<Notification>, i: int)
    requires 0 <= i < |ns|
  {
    forall j | i < j < |ns| :: ns[j].Key() != ns[i].Key()
  }

  /** The keys of a list of notifications. */
  function KeysOf(ns: seq<Notification>): set<NotificationKey> {
    set n | n in ns :: n.Key()
  }

  /** Puts a list of notifications in order. */
  function SaveAll(t: NotificationTable, ns: seq<Notification>): (r: NotificationTable)
    ensures r.Keys == t.Keys + KeysOf(ns)
    decreases |ns|
  {
    if ns == [] then t
    else
      var init := ns[..|ns| - 1];
      var last := ns[|ns| - 1];
      assert KeysOf(ns) == KeysOf(init) + {last.Key()} by {
        assert ns == init + [last];
      }
      SaveAll(t, init)[last.Key() := Encode(last)]
  }

  /** An item no listed notification is keyed by is left alone. */
  lemma {:induction false} SaveAllKeeps(t: NotificationTable, ns: seq<Notification>, k: NotificationKey)
    requires k in t && k !in KeysOf(ns)
    ensures SaveAll(t, ns)[k] == t[k]
    decreases |ns|
  {
    if ns != [] {
      var init := ns[..|ns| - 1];
      assert KeysOf(init) <= KeysOf(ns) by {
        assert forall n | n in init :: n in ns;
      }
      SaveAllKeeps(t, init, k);
    }
  }

  /** The last write to a key is what the key holds afterwards. */
  lemma {:induction false} SaveAllWrites(t: NotificationTable, ns: seq<Notification>, i: nat)
    requires i < |ns| && LastWrite(ns, i)
    ensures SaveAll(t, ns)[ns[i].Key()] == Encode(ns[i])
    decreases |ns|
  {
    var init := ns[..|ns| - 1];
    var last := ns[|ns| - 1];
    if i < |ns| - 1 {
      assert ns[i] == init[i] && ns[i].Key() != last.Key();
      assert LastWrite(init, i);
      SaveAllWrites(t, init, i);
    }
  }

  /** Putting `a` and then `b` is putting `a + b`. */
  lemma {:induction false} SaveAllAppend(t: NotificationTable, a: seq<Notification>, b: seq<Notification>)
    ensures SaveAll(SaveAll(t, a), b) == SaveAll(t, a + b)
    decreases |b|
  {
    if b == [] {
      assert a + b == a;
    } else {
      var init := b[..|b| - 1];
      SaveAllAppend(t, a, init);
      assert (a + b)[..|a + b| - 1] == a + init;
      assert (a + b)[|a + b| - 1] == b[|b| - 1];
    }
  }

  /** Writes the batches one after the other. */
  function SaveBatches(t: NotificationTable, bs: seq<seq<Notification>>): (r: NotificationTable)
    ensures r == SaveAll(t, Concat(bs))
    decreases |bs|
  {
    if bs == [] then t
    else
      SaveAllAppend(t, bs[0], Concat(bs[1..]));
      SaveBatches(SaveAll(t, bs[0]), bs[1..])
  }

  /** `BatchSaveAsync`: the batch requests it issues and the table after
      them. An empty list issues no request and changes nothing; otherwise
      the result is as if every notification were saved in list order. */
  function BatchSave(t: NotificationTable, ns: seq<Notification>): (r: (seq<seq<Notification>>, NotificationTable))
    ensures ns == [] ==> r.0 == [] && r.1 == t
    ensures |r.0| == (|ns| + BatchSize - 1) / BatchSize
    ensures forall i | 0 <= i < |r.0| :: 1 <= |r.0[i]| <= BatchSize
    ensures Concat(r.0) == ns
    ensures r.1 == SaveAll(t, ns)
  {
    if ns == [] then ([], t)
    else
      var bs := Chunks(ns);
      (bs, SaveBatches(t, bs))
  }
}

=== FILE: ordering.dfy ===
/** Orders and sequence operations used by the store queries and the services.

    - `StrLt` is the ordinal order of strings; store queries return their
      items in ascending range-key order, so the model enumerates keys through
      `SortedStrings` and, for instants, `IsGreatest`.
    - `SortByKey` is LINQ's `OrderBy`/`OrderByDescending`: a STABLE sort on a
      key. Keys are pairs of integers compared lexicographically, which also
      covers `ThenByDescending`; a descending order negates the key.
    - `Page` is LINQ's `Skip(offset).Take(limit)`.
 */
module Ordering {

  // ---------------------------------------------------------------------
  // Ordinal string order

  predicate StrLt(a: string, b: string) {
    if a == [] then b != []
    else if b == [] then false
    else a[0] < b[0] || (a[0] == b[0] && StrLt(a[1..], b[1..]))
  }

  lemma StrLtIrreflexive(a: string)
    ensures !StrLt(a, a)
  {
  }

  lemma {:induction false} StrLtTransitive(a: string, b: string, c: string)
    requires StrLt(a, b) && StrLt(b, c)
    ensures StrLt(a, c)
  {
    if a != [] && b != [] && c != [] && a[0] == b[0] && b[0] == c[0] {
      StrLtTransitive(a[1..], b[1..], c[1..]);
    }
  }

  lemma {:induction false} StrLtTotal(a: string, b: string)
    ensures a == b || StrLt(a, b) || StrLt(b, a)
  {
    if a != [] && b != [] && a[0] == b[0] {
      StrLtTotal(a[1..], b[1..]);
      if a[1..] == b[1..] {
        assert a == [a[0]] + a[1..] && b == [b[0]] + b[1..];
      }
    }
  }

  predicate IsLeast(m: string, s: set<string>) {
    m in s && forall x | x in s && x != m :: StrLt(m, x)
  }

  lemma {:induction false} LeastExists(s: set<string>)
    requires s != {}
    ensures exists m :: IsLeast(m, s)
    decreases |s|
  {
    var y :| y in s;
    if s != {y} {
      LeastExists(s - {y});
      var m :| IsLeast(m, s - {y});
      StrLtTotal(m, y);
      if StrLt(m, y) {
        assert IsLeast(m, s);
      } else {
        forall x | x in s && x != y
          ensures StrLt(y, x)
        {
          if x != m {
            StrLtTransitive(y, m, x);
          }
        }
        assert IsLeast(y, s);
      }
    } else {
      assert IsLeast(y, s);
    }
  }

  lemma LeastUnique(s: set<string>, m1: string, m2: string)
    requires IsLeast(m1, s) && IsLeast(m2, s)
    ensures m1 == m2
  {
    if m1 != m2 {
      StrLtTransitive(m1, m2, m1);
      StrLtIrreflexive(m1);
    }
  }

  /** The members of a finite set of strings in ascending ordinal order:
      each exactly once. */
  function SortedStrings(s: set<string>): (r: seq<string>)
    ensures |r| == |s|
    ensures forall x :: x in r <==> x in s
    ensures forall i, j | 0 <= i < j < |r| :: StrLt(r[i], r[j])
    decreases |s|
  {
    if s == {} then []
    else
      LeastExists(s);
      forall m1, m2 | IsLeast(m1, s) && IsLeast(m2, s)
        ensures m1 == m2
      {
        LeastUnique(s, m1, m2);
      }
      var m :| IsLeast(m, s);
      [m] + SortedStrings(s - {m})
  }

  /** Ascending means no repetitions. */
  lemma AscendingDistinct(r: seq<string>)
    requires forall i, j | 0 <= i < j < |r| :: StrLt(r[i], r[j])
    ensures forall i, j | 0 <= i < j < |r| :: r[i] != r[j]
  {
    forall i, j | 0 <= i < j < |r|
      ensures r[i] != r[j]
    {
      StrLtIrreflexive(r[i]);
    }
  }

  // ---------------------------------------------------------------------
  // Natural numbers, newest (largest) first

  predicate IsGreatest(m: nat, s: set<nat>) {
    m in s && forall x | x in s :: x <= m
  }

  lemma {:induction false} GreatestExists(s: set<nat>)
    requires s != {}
    ensures exists m :: IsGreatest(m, s)
    decreases |s|
  {
    var y :| y in s;
    if s != {y} {
      GreatestExists(s - {y});
      var m :| IsGreatest(m, s - {y});
      assert forall x | x in s :: x == y || x in s - {y};
      if m < y {
        assert IsGreatest(y, s);
      } else {
        assert IsGreatest(m, s);
      }
    } else {
      assert IsGreatest(y, s);
    }
  }

  // ---------------------------------------------------------------------
  // Stable sort on a key

  /** A sort key: compared on `major`, then on `minor`. */
  datatype Key = Key(major: int, minor: int)

  predicate KeyLt(a: Key, b: Key) {
    a.major < b.major || (a.major == b.major && a.minor < b.minor)
  }

  predicate SortedBy<T>(s: seq<T>, key: T -> Key) {
    forall i, j | 0 <= i < j < |s| :: !KeyLt(key(s[j]), key(s[i]))
  }

  /** Places `x` before the first element that does not sort strictly before
      it, so `x` precedes the elements of equal key already in `s`. */
  function Insert<T>(x: T, s: seq<T>, key: T -> Key): (r: seq<T>)
    ensures |r| == |s| + 1
    ensures multiset(r) == multiset(s) + multiset{x}
  {
    if s == [] || !KeyLt(key(s[0]), key(x)) then [x] + s
    else
      assert s == [s[0]] + s[1..];
      [s[0]] + Insert(x, s[1..], key)
  }

  /** Every element of `Insert(x, s)` is `x` or an element of `s`. */
  lemma InsertMembers<T>(x: T, s: seq<T>, key: T -> Key, i: int)
    requires 0 <= i <= |s|
    ensures Insert(x, s, key)[i] == x || Insert(x, s, key)[i] in s
  {
    var r := Insert(x, s, key);
    assert r[i] in multiset(r);
  }

  lemma {:induction false} InsertKeepsSorted<T>(x: T, s: seq<T>, key: T -> Key)
    requires SortedBy(s, key)
    ensures SortedBy(Insert(x, s, key), key)
  {
    if s != [] && KeyLt(key(s[0]), key(x)) {
      var t := Insert(x, s[1..], key);
      assert SortedBy(s[1..], key) by {
        forall i, j | 0 <= i < j < |s| - 1
          ensures !KeyLt(key(s[1..][j]), key(s[1..][i]))
        {
          assert s[1..][i] == s[i + 1] && s[1..][j] == s[j + 1];
        }
      }
      InsertKeepsSorted(x, s[1..], key);
      forall i | 0 <= i < |t|
        ensures !KeyLt(key(t[i]), key(s[0]))
      {
        InsertMembers(x, s[1..], key, i);
        if t[i] != x {
          var j :| 0 <= j < |s| - 1 && s[1..][j] == t[i];
          assert s[1..][j] == s[j + 1];
        }
      }
      var r := [s[0]] + t;
      assert Insert(x, s, key) == r;
      forall i, j | 0 <= i < j < |r|
        ensures !KeyLt(key(r[j]), key(r[i]))
      {
        if i > 0 {
          assert r[i] == t[i - 1] && r[j] == t[j - 1];
        } else {
          assert r[j] == t[j - 1];
        }
      }
    } else if s != [] {
      var r := [x] + s;
      assert Insert(x, s, key) == r;
      forall i, j | 0 <= i < j < |r|
        ensures !KeyLt(key(r[j]), key(r[i]))
      {
        if i > 0 {
          assert r[i] == s[i - 1] && r[j] == s[j - 1];
        } else {
          assert r[j] == s[j - 1];
          assert !KeyLt(key(s[j - 1]), key(s[0])) || j == 1;
        }
      }
    }
  }

  /** LINQ `OrderBy(key)`: a stable sort. */
  function SortByKey<T>(s: seq<T>, key: T -> Key): (r: seq<T>)
    ensures |r| == |s|
    ensures multiset(r) == multiset(s)
    ensures SortedBy(r, key)
  {
    if s == [] then []
    else
      assert s == [s[0]] + s[1..];
      InsertKeepsSorted(s[0], SortByKey(s[1..], key), key);
      Insert(s[0], SortByKey(s[1..], key), key)
  }

  /** Sorting keeps exactly the elements it was given. */
  lemma SortByKeyMembers<T>(s: seq<T>, key: T -> Key)
    ensures forall x :: x in SortByKey(s, key) <==> x in s
  {
    var r := SortByKey(s, key);
    assert forall x :: x in r <==> x in multiset(r);
    assert forall x :: x in s <==> x in multiset(s);
  }

  /** The elements of `s` whose key is `k`, in their order in `s`. */
  function WithKey<T>(s: seq<T>, key: T -> Key, k: Key): seq<T> {
    if s == [] then []
    else if key(s[0]) == k then [s[0]] + WithKey(s[1..], key, k)
    else WithKey(s[1..], key, k)
  }

  lemma {:induction false} InsertKeepsTies<T>(x: T, s: seq<T>, key: T -> Key, k: Key)
    ensures WithKey(Insert(x, s, key), key, k)
         == if key(x) == k then [x] + WithKey(s, key, k) else WithKey(s, key, k)
  {
    if s == [] || !KeyLt(key(s[0]), key(x)) {
      assert ([x] + s)[1..] == s;
    } else {
      InsertKeepsTies(x, s[1..], key, k);
      assert ([s[0]] + Insert(x, s[1..], key))[1..] == Insert(x, s[1..], key);
    }
  }

  /** Stability: elements with equal keys keep their relative order. */
  lemma {:induction false} SortIsStable<T>(s: seq<T>, key: T -> Key, k: Key)
    ensures WithKey(SortByKey(s, key), key, k) == WithKey(s, key, k)
  {
    if s != [] {
      SortIsStable(s[1..], key, k);
      InsertKeepsTies(s[0], SortByKey(s[1..], key), key, k);
    }
  }

  /** A list already in key order is left as it is. */
  lemma {:induction false} SortOfSorted<T>(s: seq<T>, key: T -> Key)
    requires SortedBy(s, key)
    ensures SortByKey(s, key) == s
  {
    if s != [] {
      assert SortedBy(s[1..], key) by {
        forall i, j | 0 <= i < j < |s[1..]|
          ensures !KeyLt(key(s[1..][j]), key(s[1..][i]))
        {
          assert s[1..][i] == s[i + 1] && s[1..][j] == s[j + 1];
        }
      }
      SortOfSorted(s[1..], key);
      assert s == [s[0]] + s[1..];
    }
  }

  // ---------------------------------------------------------------------
  // Filtering and paging

  /** LINQ `Where(p)`. */
  function Filter<T(!new)>(s: seq<T>, p: T -> bool): (r: seq<T>)
    ensures |r| <= |s|
    ensures forall x :: x in r <==> x in s && p(x)
  {
    if s == [] then []
    else if p(s[0]) then [s[0]] + Filter(s[1..], p)
    else Filter(s[1..], p)
  }

  /** LINQ `Count(p)`, counted element by element. */
  function CountWhere<T>(s: seq<T>, p: T -> bool): nat {
    if s == [] then 0 else (if p(s[0]) then 1 else 0) + CountWhere(s[1..], p)
  }

  /** Counting the matches and listing them agree. */
  lemma {:induction false} CountWhereIsFilterLength<T(!new)>(s: seq<T>, p: T -> bool)
    ensures CountWhere(s, p) == |Filter(s, p)|
  {
    if s != [] {
      CountWhereIsFilterLength(s[1..], p);
    }
  }

  /** A predicate and its negation split a list: the two filtered lists
      together are as long as the list. */
  lemma {:induction false} FilterPartition<T(!new)>(s: seq<T>, p: T -> bool, q: T -> bool)
    requires forall x | x in s :: q(x) == !p(x)
    ensures |Filter(s, p)| + |Filter(s, q)| == |s|
  {
    if s != [] {
      assert forall x | x in s[1..] :: x in s;
      FilterPartition(s[1..], p, q);
    }
  }

  /** Filtering by a weaker predicate first changes nothing. */
  lemma {:induction false} FilterOfFilter<T(!new)>(s: seq<T>, p: T -> bool, q: T -> bool)
    requires forall x | x in s && p(x) :: q(x)
    ensures Filter(Filter(s, q), p) == Filter(s, p)
  {
    if s != [] {
      assert forall x | x in s[1..] :: x in s;
      FilterOfFilter(s[1..], p, q);
      if q(s[0]) {
        assert Filter(s, q) == [s[0]] + Filter(s[1..], q);
        assert ([s[0]] + Filter(s[1..], q))[1..] == Filter(s[1..], q);
      }
    }
  }

  // ---------------------------------------------------------------------
  // Lists without repeated keys

  /** No two elements of `s` share a key under `f`. */
  predicate DistinctBy<T, K(==)>(s: seq<T>, f: T -> K) {
    forall i, j | 0 <= i < j < |s| :: f(s[i]) != f(s[j])
  }

  /** The tail of a repeat-free list is repeat-free, and avoids the head's key. */
  lemma DistinctByTail<T, K>(s: seq<T>, f: T -> K)
    requires s != [] && DistinctBy(s, f)
    ensures DistinctBy(s[1..], f)
    ensures forall x | x in s[1..] :: f(x) != f(s[0])
  {
    assert forall i | 1 <= i < |s| :: s[1..][i - 1] == s[i];
  }

  /** A list starting with a key the rest avoids is repeat-free when the rest is. */
  lemma DistinctByCons<T, K>(x: T, s: seq<T>, f: T -> K)
    requires DistinctBy(s, f) && forall y | y in s :: f(y) != f(x)
    ensures DistinctBy([x] + s, f)
  {
    var r := [x] + s;
    forall i, j | 0 <= i < j < |r| ensures f(r[i]) != f(r[j]) {
      assert r[j] == s[j - 1];
      if i > 0 { assert r[i] == s[i - 1]; }
    }
  }

  /** Taking out one element keeps a list repeat-free, and what is left
      avoids the removed key. */
  lemma RemoveKeepsDistinct<T, K>(a: seq<T>, k: nat, f: T -> K)
    requires k < |a| && DistinctBy(a, f)
    ensures DistinctBy(a[..k] + a[k + 1..], f)
    ensures forall y | y in a[..k] + a[k + 1..] :: f(y) != f(a[k])
  {
    var b := a[..k] + a[k + 1..];
    assert forall m | 0 <= m < |b| :: b[m] == if m < k then a[m] else a[m + 1];
  }

  /** Taking out position `k` takes one copy of `a[k]` out of the multiset. */
  lemma RemoveOneMultiset<T>(a: seq<T>, k: nat)
    requires k < |a|
    ensures multiset(a[..k] + a[k + 1..]) == multiset(a) - multiset{a[k]}
  {
    assert a == a[..k] + [a[k]] + a[k + 1..];
  }

  /** Taking the head of `b` out of a repeat-free permutation `a` of `b`
      leaves a repeat-free permutation of the tail, avoiding the head's key. */
  lemma PermutationStep<T, K>(a: seq<T>, b: seq<T>, f: T -> K) returns (rest: seq<T>)
    requires multiset(a) == multiset(b) && DistinctBy(a, f) && b != []
    ensures multiset(rest) == multiset(b[1..]) && DistinctBy(rest, f)
    ensures forall y | y in rest :: f(y) != f(b[0])
  {
    assert b[0] in multiset(a);
    var k := PositionOf(a, b[0]);
    rest := a[..k] + a[k + 1..];
    RemoveOneMultiset(a, k);
    TailMultiset(b);
    RemoveKeepsDistinct(a, k, f);
  }

  /** A position holding `x`. */
  lemma PositionOf<T>(a: seq<T>, x: T) returns (k: nat)
    requires x in a
    ensures k < |a| && a[k] == x
  {
    k :| 0 <= k < |a| && a[k] == x;
  }

  /** The tail's multiset lacks one copy of the head. */
  lemma TailMultiset<T>(b: seq<T>)
    requires b != []
    ensures multiset(b[1..]) == multiset(b) - multiset{b[0]}
  {
    assert b == [b[0]] + b[1..];
  }

  /** A permutation of a repeat-free list is repeat-free. */
  lemma {:induction false} PermutationKeepsDistinct<T, K>(a: seq<T>, b: seq<T>, f: T -> K)
    requires multiset(a) == multiset(b) && DistinctBy(a, f)
    ensures DistinctBy(b, f)
    decreases |b|
  {
    if b != [] {
      var rest := PermutationStep(a, b, f);
      PermutationKeepsDistinct(rest, b[1..], f);
      forall y | y in b[1..] ensures f(y) != f(b[0]) {
        assert y in multiset(rest);
      }
      DistinctByCons(b[0], b[1..], f);
      assert b == [b[0]] + b[1..];
    }
  }

  /** Filtering keeps a list repeat-free. */
  lemma {:induction false} FilterKeepsDistinct<T(!new), K>(s: seq<T>, p: T -> bool, f: T -> K)
    requires DistinctBy(s, f)
    ensures DistinctBy(Filter(s, p), f)
  {
    if s != [] {
      DistinctByTail(s, f);
      FilterKeepsDistinct(s[1..], p, f);
      if p(s[0]) {
        DistinctByCons(s[0], Filter(s[1..], p), f);
      }
    }
  }

  /** The keys of the elements of `s`. */
  ghost function KeySet<T, K>(s: seq<T>, f: T -> K): set<K> {
    set x | x in s :: f(x)
  }

  /** A repeat-free list has as many keys as elements. */
  lemma {:induction false} DistinctKeysCount<T, K>(s: seq<T>, f: T -> K)
    requires DistinctBy(s, f)
    ensures |KeySet(s, f)| == |s|
  {
    if s != [] {
      DistinctByTail(s, f);
      DistinctKeysCount(s[1..], f);
      var tail := KeySet(s[1..], f);
      assert KeySet(s, f) == {f(s[0])} + tail;
      assert f(s[0]) !in tail;
    }
  }

  function Max(a: int, b: int): int {
    if a < b then b else a
  }

  function Min(a: int, b: int): int {
    if a < b then a else b
  }

  /** The keys of the entries of `t` whose value `keep` accepts. */
  function Selected<V>(t: map<string, V>, keep: V -> bool): (r: set<string>)
    ensures forall id :: id in r <==> id in t && keep(t[id])
  {
    set id | id in t && keep(t[id])
  }

  /** `f` of the values stored under `ids`, in order. */
  function CollectAt<V, R>(t: map<string, V>, ids: seq<string>, f: V -> R): (r: seq<R>)
    requires forall id | id in ids :: id in t
    ensures |r| == |ids|
    ensures forall i | 0 <= i < |r| :: r[i] == f(t[ids[i]])
  {
    if ids == [] then [] else [f(t[ids[0]])] + CollectAt(t, ids[1..], f)
  }

  /** A filtered scan: `f` of every entry `keep` accepts, once each, in
      ascending key order. */
  function Collect<V, R>(t: map<string, V>, keep: V -> bool, f: V -> R): (r: seq<R>)
    ensures |r| == |Selected(t, keep)|
    ensures forall x | x in r :: exists id | id in Selected(t, keep) :: x == f(t[id])
    ensures forall id | id in Selected(t, keep) :: f(t[id]) in r
  {
    var ids := SortedStrings(Selected(t, keep));
    var r := CollectAt(t, ids, f);
    forall id | id in Selected(t, keep) ensures f(t[id]) in r {
      var i :| 0 <= i < |ids| && ids[i] == id;
      assert r[i] == f(t[id]);
    }
    r
  }

  /** LINQ `Skip(offset).Take(limit)`: a negative offset skips nothing and a
      non-positive limit takes nothing. */
  function Page<T>(s: seq<T>, offset: int, limit: int): (r: seq<T>)
    ensures var start := Min(Max(offset, 0), |s|);
            && |r| == Min(Max(limit, 0), |s| - start)
            && forall i | 0 <= i < |r| :: r[i] == s[start + i]
    ensures forall x | x in r :: x in s
  {
    var start := Min(Max(offset, 0), |s|);
    var rest := s[start..];
    if limit <= 0 then [] else if limit >= |rest| then rest else rest[..limit]
  }

  /** Paging loses nothing: consecutive windows of one size, laid end to
      end, give back the window twice as long. */
  lemma PagesJoin<T>(s: seq<T>, offset: nat, limit: nat)
    ensures Page(s, offset, limit) + Page(s, offset + limit, limit) == Page(s, offset, 2 * limit)
  {
    var a := Page(s, offset, limit);
    var b := Page(s, offset + limit, limit);
    var c := Page(s, offset, 2 * limit);
    assert |a| + |b| == |c|;
    forall i | 0 <= i < |c| ensures (a + b)[i] == c[i] {
      if i < |a| {
      } else {
        assert i - |a| < |b|;
      }
    }
  }

  /** LINQ `Take(n)`. */
  function Take<T>(s: seq<T>, n: int): (r: seq<T>)
    ensures |r| == Min(Max(n, 0), |s|)
    ensures forall i | 0 <= i < |r| :: r[i] == s[i]
    ensures forall x | x in r :: x in s
  {
    Page(s, 0, n)
  }

  /** The page size list endpoints use when the caller asks for none that
      makes sense, and the largest they serve. */
  const DefaultLimit: int := 20
  const MaxLimit: int := 100

  /** The page-size rule of the list endpoints: a limit below one becomes
      the default and one above the maximum becomes the maximum. */
  function ClampLimit(limit: int): (r: int)
    ensures 1 <= r <= MaxLimit
    ensures 1 <= limit <= MaxLimit ==> r == limit
    ensures limit < 1 ==> r == DefaultLimit
    ensures limit > MaxLimit ==> r == MaxLimit
  {
    if limit < 1 then DefaultLimit else if limit > MaxLimit then MaxLimit else limit
  }

  /** Taking from a sorted list takes the least: whatever is left out does
      not sort before anything taken. */
  lemma TakeOfSortedIsLeast<T>(s: seq<T>, key: T -> Key, n: int, w: T)
    requires SortedBy(s, key)
    requires w in s && w !in Take(s, n)
    ensures forall v | v in Take(s, n) :: !KeyLt(key(w), key(v))
  {
    var r := Take(s, n);
    var j :| 0 <= j < |s| && s[j] == w;
    assert forall i | 0 <= i < |r| :: s[i] != w by {
      forall i | 0 <= i < |r| ensures s[i] != w {
        assert r[i] == s[i] && r[i] in r;
      }
    }
    forall v | v in r ensures !KeyLt(key(w), key(v)) {
      var i :| 0 <= i < |r| && r[i] == v;
      assert s[i] == v;
    }
  }

  /** A page of a sorted list is sorted. */
  lemma PageKeepsOrder<T>(s: seq<T>, key: T -> Key, offset: int, limit: int)
    requires SortedBy(s, key)
    ensures SortedBy(Page(s, offset, limit), key)
  {
    var r := Page(s, offset, limit);
    var start := Min(Max(offset, 0), |s|);
    assert |r| <= |s| - start;
    forall i, j | 0 <= i < j < |r|
      ensures !KeyLt(key(r[j]), key(r[i]))
    {
      assert r[i] == s[start + i] && r[j] == s[start + j];
    }
  }
}

=== FILE: paths.dfy ===
/** `System.IO.Path.GetExtension` as the services use it to name uploaded
    files. The platform runs on Unix, where '/' is the only directory
    separator.
 */
module Paths {
  import opened Text

  /** No character is a '.' or a directory separator. */
  predicate Plain(s: string) {
    forall i | 0 <= i < |s| :: s[i] != '.' && s[i] != '/'
  }

  /** The index of the last '.' or '/' before `j`, or -1 when there is none. */
  function LastDotOrSlash(s: string, j: nat): (k: int)
    requires j <= |s|
    ensures -1 <= k < j
    ensures k >= 0 ==> s[k] == '.' || s[k] == '/'
    ensures forall i | k < i < j :: s[i] != '.' && s[i] != '/'
  {
    if j == 0 then -1
    else if s[j - 1] == '.' || s[j - 1] == '/' then j - 1
    else LastDotOrSlash(s, j - 1)
  }

  /** `Path.GetExtension`: the file name's last '.' and what follows it; empty
      when the file name has no '.' or ends in one. */
  function Extension(path: string): (e: string)
    ensures e == [] || (|e| >= 2 && e[0] == '.' && Plain(e[1..]) && EndsWith(path, e))
    ensures Plain(path) ==> e == []
  {
    var k := LastDotOrSlash(path, |path|);
    if k < 0 || path[k] == '/' || k == |path| - 1 then []
    else
      assert forall i | 0 <= i < |path| - k - 1 :: path[k..][1..][i] == path[k + 1 + i];
      path[k..]
  }

  /** An extension appended to any path is the one `Extension` finds. */
  lemma ExtensionOfSuffix(path: string, e: string)
    requires |e| >= 2 && e[0] == '.' && Plain(e[1..])
    ensures Extension(path + e) == e
  {
    var s := path + e;
    var k := LastDotOrSlash(s, |s|);
    assert s[|path|] == '.';
    assert forall i | |path| < i < |s| :: s[i] == e[1..][i - |path| - 1];
    assert k == |path|;
    assert s[k..] == e;
  }
}

=== FILE: phone.dfy ===
/** What `CognitoAuthService` sends to the identity provider when a user
    registers: the profile attributes, and the phone number rewritten to
    the international form the provider expects. A number written with a
    leading trunk '0' is taken to be Vietnamese and gets country code 84.
 */
module CognitoAuth {
  import opened Text

  datatype RegisterUserRequest = RegisterUserRequest(
    email: string,
    password: string,
    name: string,
    gender: string,
    birthDate: string,
    phoneNumber: string)

  /** One user attribute of the sign-up call. */
  datatype UserAttribute = UserAttribute(name: string, value: string)

  const CountryCode: string := "+84"
  const PhoneAttribute: string := "phone_number"

  /** A trimmed number without '+' in international form: trunk zeros
      give way to the country code, and the remaining digits are kept. */
  function International(p: string): (r: string)
    requires p != [] && p[0] != '+'
    ensures |r| >= 1 && r[0] == '+'
    ensures !IsWhiteSpace(p[|p| - 1]) ==> !IsWhiteSpace(r[|r| - 1])
    ensures EndsWith(r, TrimStartChar(p, '0'))
    ensures r == "+" + TrimStartChar(p, '0') || (p[0] == '0' && r == CountryCode + TrimStartChar(p, '0'))
    ensures p[0] != '0' ==> r == "+" + p
  {
    var digits := TrimStartChar(p, '0');
    if p[0] == '0' then
      assert (CountryCode + digits)[|CountryCode + digits| - |digits|..] == digits;
      CountryCode + digits
    else
      assert ("+" + p)[1..] == p;
      "+" + p
  }

  /** `ToE164`. A blank number is dropped (the empty string). Otherwise the
      number is trimmed and always comes out with a leading '+': one that
      already has it is kept, any other is made international. */
  function ToE164(phone: string): (r: string)
    ensures r == [] <==> IsBlank(phone)
    ensures r != [] ==> r[0] == '+' && !IsWhiteSpace(r[|r| - 1])
    ensures StartsWith(Trim(phone), "+") ==> r == Trim(phone)
    ensures !IsBlank(phone) && !StartsWith(Trim(phone), "+") ==> r == International(Trim(phone))
  {
    if IsBlank(phone) then ""
    else
      var p := Trim(phone);
      if StartsWith(p, "+") then p
      else
        assert p[0] != '+' by { assert !StartsWith(p, "+") && |p| >= 1; assert p[..1] != "+"; }
        International(p)
  }

  /** A number already in the provider's form is left as it is: the
      rewrite is idempotent. */
  lemma ToE164Idempotent(phone: string)
    ensures ToE164(ToE164(phone)) == ToE164(phone)
  {
    var r := ToE164(phone);
    if r != [] {
      TrimOfTrimmed(r);
      assert StartsWith(Trim(r), "+");
    }
  }

  /** A rewritten number is blank exactly when the number given was. */
  lemma ToE164Blank(phone: string)
    ensures IsBlank(ToE164(phone)) <==> IsBlank(phone)
  {
    var r := ToE164(phone);
    if r != [] {
      assert !IsWhiteSpace(r[0]);
    }
  }

  /** The attributes of the sign-up call: email, name, gender and birth
      date always, and the phone number, rewritten, only when one was
      given. */
  function RegisterAttributes(req: RegisterUserRequest): (r: seq<UserAttribute>)
    ensures |r| == 4 || |r| == 5
    ensures r[..4] == [UserAttribute("email", req.email), UserAttribute("name", req.name),
                       UserAttribute("gender", req.gender), UserAttribute("birthdate", req.birthDate)]
    ensures |r| == 5 <==> !IsBlank(req.phoneNumber)
    ensures |r| == 5 ==> r[4] == UserAttribute(PhoneAttribute, ToE164(req.phoneNumber))
  {
    var attrs := [UserAttribute("email", req.email), UserAttribute("name", req.name),
                  UserAttribute("gender", req.gender), UserAttribute("birthdate", req.birthDate)];
    var phone := ToE164(req.phoneNumber);
    ToE164Blank(req.phoneNumber);
    if !IsBlank(phone) then attrs + [UserAttribute(PhoneAttribute, phone)] else attrs
  }

  /** The phone attribute is sent exactly when the request has a non-blank
      number, and what is sent is never blank and starts with '+'. */
  lemma PhoneAttributeIffGiven(req: RegisterUserRequest)
    ensures (exists i | 0 <= i < |RegisterAttributes(req)| :: RegisterAttributes(req)[i].name == PhoneAttribute)
            <==> !IsBlank(req.phoneNumber)
    ensures forall i | 0 <= i < |RegisterAttributes(req)| && RegisterAttributes(req)[i].name == PhoneAttribute ::
              RegisterAttributes(req)[i].value != [] && RegisterAttributes(req)[i].value[0] == '+'
  {
    var r := RegisterAttributes(req);
    var head := r[..4];
    assert forall i | 0 <= i < 4 :: r[i] == head[i];
    assert forall i | 0 <= i < 4 :: r[i].name != PhoneAttribute;
    if |r| == 5 {
      assert r[4].name == PhoneAttribute;
    }
  }
}

=== FILE: search.dfy ===
/** `SearchService`: a full scan of videos and channels matched against a
    trimmed, lower-cased query. A video is a hit when it is COMPLETE and
    scores above zero; a channel is a hit when its lower-cased name holds
    the query. Each list is sorted, counted in full, and then paged on its
    own.
 */
module Search {
  import opened Wrappers
  import opened Text
  import opened Entities
  import opened Ordering
  import VideoRepository

  // ---------------------------------------------------------------------
  // Relevance

  /** One of `words` occurs in the title or the description. */
  predicate SomeWordOccurs(words: seq<string>, title: string, description: string) {
    exists k | 0 <= k < |words| :: Contains(title, words[k]) || Contains(description, words[k])
  }

  /** The per-word part of the score: 10 for each query word in the title
      and 5 for each in the description. */
  function WordsScore(words: seq<string>, title: string, description: string): (n: nat)
    ensures n > 0 <==> SomeWordOccurs(words, title, description)
    ensures n <= 15 * |words|
  {
    if words == [] then 0
    else
      var rest := WordsScore(words[1..], title, description);
      assert forall k | 1 <= k < |words| :: words[k] == words[1..][k - 1];
      (if Contains(title, words[0]) then 10 else 0)
      + (if Contains(description, words[0]) then 5 else 0)
      + rest
  }

  /** The score of an already lower-cased title and description: 100 when
      the title is the query, 50 when it contains it, 25 when the
      description does, and the per-word points. */
  function Score(title: string, description: string, query: string): (score: int)
    ensures 0 <= score <= 175 + 15 * |Words(query)|
    ensures Contains(title, query) ==> score >= 50
    ensures title == query ==> score >= 150
    ensures Contains(description, query) ==> score >= 25
  {
    assert title == query ==> OccursAt(title, query, 0);
    (if title == query then 100 else 0)
    + (if Contains(title, query) then 50 else 0)
    + (if Contains(description, query) then 25 else 0)
    + WordsScore(Words(query), title, description)
  }

  /** `CalculateVideoRelevance`: the score of the lower-cased title and
      description. */
  function Relevance(title: string, description: string, query: string): (score: int)
    ensures score >= 0
    ensures Contains(ToLower(title), query) ==> score >= 50
  {
    Score(ToLower(title), ToLower(description), query)
  }

  /** The whole-query points never decide inclusion on their own: for a
      query as the search prepares it, a video scores above zero exactly
      when one of the query's words occurs in its title or description. */
  lemma RelevantIffWordOccurs(title: string, description: string, query: string)
    requires query != [] && !IsWhiteSpace(query[0])
    ensures Score(title, description, query) > 0 <==> SomeWordOccurs(Words(query), title, description)
  {
    var ws := Words(query);
    assert |ws| > 0;
    if title == query {
      assert OccursAt(title, query, 0);
    }
    if Contains(title, query) {
      ContainsTransitive(title, query, ws[0]);
      assert Contains(title, ws[0]);
    }
    if Contains(description, query) {
      ContainsTransitive(description, query, ws[0]);
      assert Contains(description, ws[0]);
    }
  }

  // ---------------------------------------------------------------------
  // Videos

  const CompleteStatus: string := "COMPLETE"

  /** A video the query finds: ready, and relevant. */
  predicate Matches(v: Video, query: string) {
    ToUpper(v.status) == CompleteStatus && Relevance(v.title, v.description, query) > 0
  }

  /** `VideoSearchResult`; the floating-point `Duration` is not carried. */
  datatype VideoSearchResult = VideoSearchResult(
    videoId: string,
    title: string,
    description: string,
    thumbnailUrl: Option<string>,
    channelId: string,
    channelName: string,
    viewCount: int,
    likeCount: int,
    createdAt: Instant)

  /** One video as search lists it, with its channel's name. */
  function VideoResult(db: Db, v: Video): (x: VideoSearchResult)
    ensures x.videoId == v.videoId && x.title == v.title && x.description == v.description
    ensures x.viewCount == v.viewCount && x.likeCount == v.likeCount && x.createdAt == v.createdAt
    ensures x.channelId == v.channelId && x.channelName == ChannelNameOf(db.channels, v.channelId)
  {
    VideoSearchResult(v.videoId, v.title, v.description, v.thumbnailUrl, v.channelId,
                      ChannelNameOf(db.channels, v.channelId), v.viewCount, v.likeCount, v.createdAt)
  }

  /** The ids of the stored videos the query finds. */
  function MatchingVideoIds(db: Db, query: string): (r: set<string>)
    ensures forall id :: id in r <==> id in db.videos && Matches(db.videos[id], query)
  {
    Selected(db.videos, VideoHit(query))
  }

  function VideoHit(query: string): Video -> bool {
    v => Matches(v, query)
  }

  function AsVideoResult(db: Db): Video -> VideoSearchResult {
    v => VideoResult(db, v)
  }

  /** The relevance order: results whose lower-cased title contains the
      query come first. */
  function TitleRank(x: VideoSearchResult, query: string): int {
    if Contains(ToLower(x.title), query) then 2 else 1
  }

  function TitleFirst(query: string): VideoSearchResult -> Key {
    x => Key(-TitleRank(x, query), 0)
  }

  /** The scan of `SearchVideosAsync`: every stored video the query finds,
      once each. */
  function FoundVideos(db: Db, query: string): (r: seq<VideoSearchResult>)
    ensures |r| == |MatchingVideoIds(db, query)|
    ensures forall x | x in r :: x.videoId in MatchingVideoIds(db, query) && x == VideoResult(db, db.videos[x.videoId])
    ensures forall id | id in MatchingVideoIds(db, query) :: VideoResult(db, db.videos[id]) in r
  {
    Collect(db.videos, VideoHit(query), AsVideoResult(db))
  }

  /** `SearchVideosAsync`: the hits in relevance order, those whose title
      holds the query first. */
  function SearchVideos(db: Db, query: string): (r: seq<VideoSearchResult>)
    ensures multiset(r) == multiset(FoundVideos(db, query))
    ensures forall i, j | 0 <= i < j < |r| :: TitleRank(r[i], query) >= TitleRank(r[j], query)
  {
    var r := SortByKey(FoundVideos(db, query), TitleFirst(query));
    assert forall i, j | 0 <= i < j < |r| :: !KeyLt(TitleFirst(query)(r[j]), TitleFirst(query)(r[i]));
    r
  }

  function MostViewsFirst(x: VideoSearchResult): Key {
    Key(-x.viewCount, 0)
  }

  function NewestVideoFirst(x: VideoSearchResult): Key {
    Key(-(x.createdAt as int), 0)
  }

  /** The `SortBy` switch on videos: "views" and "date" re-sort, stably, most
      viewed or newest first; anything else keeps the relevance order. */
  function SortVideos(vs: seq<VideoSearchResult>, sortBy: string): (r: seq<VideoSearchResult>)
    ensures multiset(r) == multiset(vs)
    ensures ToLower(sortBy) == "views" ==> forall i, j | 0 <= i < j < |r| :: r[i].viewCount >= r[j].viewCount
    ensures ToLower(sortBy) == "date" ==> forall i, j | 0 <= i < j < |r| :: r[i].createdAt >= r[j].createdAt
    ensures ToLower(sortBy) != "views" && ToLower(sortBy) != "date" ==> r == vs
  {
    var s := ToLower(sortBy);
    if s == "views" then
      var r := SortByKey(vs, MostViewsFirst);
      assert forall i, j | 0 <= i < j < |r| :: !KeyLt(MostViewsFirst(r[j]), MostViewsFirst(r[i]));
      r
    else if s == "date" then
      var r := SortByKey(vs, NewestVideoFirst);
      assert forall i, j | 0 <= i < j < |r| :: !KeyLt(NewestVideoFirst(r[j]), NewestVideoFirst(r[i]));
      r
    else vs
  }

  // ---------------------------------------------------------------------
  // Channels

  /** `ChannelSearchResult`; the avatar and description the service leaves
      unset are not carried. */
  datatype ChannelSearchResult = ChannelSearchResult(
    channelId: string,
    channelName: string,
    subscriberCount: int,
    videoCount: int,
    createdAt: Instant)

  /** A channel the query finds: its lower-cased name holds the query. */
  predicate ChannelMatches(c: Channel, query: string) {
    Contains(ToLower(c.name), query)
  }

  /** One channel as search lists it, with the number of its videos. */
  function ChannelResult(db: Db, c: Channel): (x: ChannelSearchResult)
    ensures x.channelId == c.channelId && x.channelName == c.name
    ensures x.subscriberCount == c.subscriberCount && x.createdAt == c.createdAt
    ensures x.videoCount == |VideoRepository.VideosByChannel(db.videos, c.channelId)|
    ensures x.videoCount == |set id | id in db.videos && db.videos[id].channelId == c.channelId|
  {
    ChannelSearchResult(c.channelId, c.name, c.subscriberCount,
                        |VideoRepository.VideosByChannel(db.videos, c.channelId)|, c.createdAt)
  }

  /** The ids of the stored channels the query finds. */
  function MatchingChannelIds(db: Db, query: string): (r: set<string>)
    ensures forall id :: id in r <==> id in db.channels && ChannelMatches(db.channels[id], query)
  {
    Selected(db.channels, ChannelHit(query))
  }

  function ChannelHit(query: string): Channel -> bool {
    c => ChannelMatches(c, query)
  }

  function AsChannelResult(db: Db): Channel -> ChannelSearchResult {
    c => ChannelResult(db, c)
  }

  function MostSubscribersFirst(x: ChannelSearchResult): Key {
    Key(-x.subscriberCount, 0)
  }

  function NewestChannelFirst(x: ChannelSearchResult): Key {
    Key(-(x.createdAt as int), 0)
  }

  /** The scan of `SearchChannelsAsync`: every stored channel the query
      finds, once each. */
  function FoundChannels(db: Db, query: string): (r: seq<ChannelSearchResult>)
    ensures |r| == |MatchingChannelIds(db, query)|
    ensures forall x | x in r :: x.channelId in MatchingChannelIds(db, query) && x == ChannelResult(db, db.channels[x.channelId])
    ensures forall id | id in MatchingChannelIds(db, query) :: ChannelResult(db, db.channels[id]) in r
  {
    Collect(db.channels, ChannelHit(query), AsChannelResult(db))
  }

  /** `SearchChannelsAsync`: the hits, most subscribers first. */
  function SearchChannels(db: Db, query: string): (r: seq<ChannelSearchResult>)
    ensures multiset(r) == multiset(FoundChannels(db, query))
    ensures SortedBy(r, MostSubscribersFirst)
  {
    SortByKey(FoundChannels(db, query), MostSubscribersFirst)
  }

  /** The `SortBy` switch on channels: "subscribers" and "date" re-sort,
      stably, by subscribers or newest first; anything else keeps the
      order. */
  function SortChannels(cs: seq<ChannelSearchResult>, sortBy: string): (r: seq<ChannelSearchResult>)
    ensures multiset(r) == multiset(cs)
    ensures ToLower(sortBy) == "subscribers" ==> SortedBy(r, MostSubscribersFirst)
    ensures ToLower(sortBy) == "date" ==> SortedBy(r, NewestChannelFirst)
    ensures ToLower(sortBy) != "subscribers" && ToLower(sortBy) != "date" ==> r == cs
  {
    var s := ToLower(sortBy);
    if s == "subscribers" then SortByKey(cs, MostSubscribersFirst)
    else if s == "date" then SortByKey(cs, NewestChannelFirst)
    else cs
  }

  /** Sorting the channel hits by subscribers again changes nothing: they
      already come in that order. */
  lemma SubscribersSortKeepsOrder(db: Db, query: string)
    ensures SortChannels(SearchChannels(db, query), "subscribers") == SearchChannels(db, query)
  {
    SortOfSorted(SearchChannels(db, query), MostSubscribersFirst);
  }

  // ---------------------------------------------------------------------
  // The search

  datatype SearchRequest = SearchRequest(query: string, kind: Option<string>, sortBy: string, limit: int, offset: int)

  datatype SearchResponse = SearchResponse(
    query: string,
    videos: seq<VideoSearchResult>,
    channels: seq<ChannelSearchResult>,
    totalVideos: int,
    totalChannels: int,
    totalResults: int)

  /** The query as matched: trimmed and lower-cased. */
  function Prepared(query: string): (q: string)
    ensures q == [] <==> IsBlank(query)
    ensures q != [] ==> !IsWhiteSpace(q[0])
  {
    ToLower(Trim(query))
  }

  /** A missing or empty type searches both kinds; otherwise only the kind
      it names, in any case. */
  predicate Wants(kind: Option<string>, name: string) {
    IsNullOrEmpty(kind) || ToLower(kind.value) == name
  }

  /** The sorted video hits before paging: every video the query finds
      when videos are asked for, and nothing else. */
  function AllVideoHits(db: Db, req: SearchRequest): (r: seq<VideoSearchResult>)
    ensures |r| == if Wants(req.kind, "video") then |MatchingVideoIds(db, Prepared(req.query))| else 0
    ensures forall x | x in r :: x.videoId in MatchingVideoIds(db, Prepared(req.query)) && x == VideoResult(db, db.videos[x.videoId])
    ensures Wants(req.kind, "video") ==>
              forall id | id in MatchingVideoIds(db, Prepared(req.query)) :: VideoResult(db, db.videos[id]) in r
  {
    if Wants(req.kind, "video") then
      var found := FoundVideos(db, Prepared(req.query));
      var r := SortVideos(SearchVideos(db, Prepared(req.query)), req.sortBy);
      assert forall x :: x in r <==> x in multiset(found);
      r
    else []
  }

  /** The sorted channel hits before paging: every channel the query finds
      when channels are asked for, and nothing else. */
  function AllChannelHits(db: Db, req: SearchRequest): (r: seq<ChannelSearchResult>)
    ensures |r| == if Wants(req.kind, "channel") then |MatchingChannelIds(db, Prepared(req.query))| else 0
    ensures forall x | x in r :: x.channelId in MatchingChannelIds(db, Prepared(req.query)) && x == ChannelResult(db, db.channels[x.channelId])
    ensures Wants(req.kind, "channel") ==>
              forall id | id in MatchingChannelIds(db, Prepared(req.query)) :: ChannelResult(db, db.channels[id]) in r
  {
    if Wants(req.kind, "channel") then
      var found := FoundChannels(db, Prepared(req.query));
      var r := SortChannels(SearchChannels(db, Prepared(req.query)), req.sortBy);
      assert forall x :: x in r <==> x in multiset(found);
      r
    else []
  }

  /** `SearchAsync`. A blank query finds nothing. Otherwise the totals count
      every hit of the kinds asked for, `TotalResults` is their sum, and
      each list is the `Offset`/`Limit` window of its sorted hits, so holds
      hits only. */
  function SearchAll(db: Db, req: SearchRequest): (r: SearchResponse)
    ensures r.query == req.query
    ensures r.totalResults == r.totalVideos + r.totalChannels
    ensures |r.videos| <= Max(req.limit, 0) && |r.channels| <= Max(req.limit, 0)
    ensures IsBlank(req.query) ==> r == SearchResponse(req.query, [], [], 0, 0, 0)
    ensures !IsBlank(req.query) ==>
              && r.totalVideos == (if Wants(req.kind, "video") then |MatchingVideoIds(db, Prepared(req.query))| else 0)
              && r.totalChannels == (if Wants(req.kind, "channel") then |MatchingChannelIds(db, Prepared(req.query))| else 0)
              && r.videos == Page(AllVideoHits(db, req), req.offset, req.limit)
              && r.channels == Page(AllChannelHits(db, req), req.offset, req.limit)
    ensures forall x | x in r.videos :: x.videoId in MatchingVideoIds(db, Prepared(req.query)) && x == VideoResult(db, db.videos[x.videoId])
    ensures forall x | x in r.channels :: x.channelId in MatchingChannelIds(db, Prepared(req.query)) && x == ChannelResult(db, db.channels[x.channelId])
  {
    if Prepared(req.query) == [] then SearchResponse(req.query, [], [], 0, 0, 0)
    else
      var vs := AllVideoHits(db, req);
      var cs := AllChannelHits(db, req);
      SearchResponse(req.query, Page(vs, req.offset, req.limit), Page(cs, req.offset, req.limit), |vs|, |cs|, |vs| + |cs|)
  }
}

=== FILE: subscriptions.dfy ===
/** The subscription table's reads (`SubscriptionRepository`). A
    subscription is keyed by the subscriber's user id and the channel id. */
module SubscriptionStore {
  import opened Entities
  import opened Ordering

  /** The users subscribed to channel `c`. */
  function SubscriberIds(t: SubscriptionTable, c: string): set<string> {
    set k | k in t && k.channelId == c :: k.userId
  }

  /** A user is among the subscribers exactly when their record is stored. */
  lemma SubscriberIdsStored(t: SubscriptionTable, c: string, u: string)
    ensures u in SubscriberIds(t, c) <==> SubscriptionKey(u, c) in t
  {
    if u in SubscriberIds(t, c) {
      var k :| k in t && k.channelId == c && k.userId == u;
      assert k == SubscriptionKey(u, c);
    }
  }

  /** The channels user `u` subscribes to. */
  function ChannelIdsOf(t: SubscriptionTable, u: string): set<string> {
    set k | k in t && k.userId == u :: k.channelId
  }

  /** The stored subscriptions under `keys`, in order. */
  function StoredAt(t: SubscriptionTable, keys: seq<SubscriptionKey>): (r: seq<Subscription>)
    requires forall k | k in keys :: k in t
    ensures |r| == |keys|
    ensures forall i | 0 <= i < |r| :: r[i] == t[keys[i]] && r[i].Key() == keys[i]
  {
    if keys == [] then [] else [t[keys[0]]] + StoredAt(t, keys[1..])
  }

  /** The keys of channel `c`'s subscriptions, by ascending user id. */
  function SubscriberKeys(t: SubscriptionTable, c: string): (keys: seq<SubscriptionKey>)
    ensures |keys| == |SubscriberIds(t, c)|
    ensures forall k :: k in keys <==> k in t && k.channelId == c
    ensures forall i, j | 0 <= i < j < |keys| :: keys[i].userId != keys[j].userId
  {
    var us := SortedStrings(SubscriberIds(t, c));
    var keys := seq(|us|, i requires 0 <= i < |us| => SubscriptionKey(us[i], c));
    SubscriberKeysCover(t, c, us, keys);
    AscendingDistinct(us);
    keys
  }

  lemma SubscriberKeysCover(t: SubscriptionTable, c: string, us: seq<string>, keys: seq<SubscriptionKey>)
    requires forall u :: u in us <==> u in SubscriberIds(t, c)
    requires |keys| == |us| && forall i | 0 <= i < |us| :: keys[i] == SubscriptionKey(us[i], c)
    ensures forall k :: k in keys <==> k in t && k.channelId == c
  {
    forall k | k in keys
      ensures k in t && k.channelId == c
    {
      var i :| 0 <= i < |us| && keys[i] == k;
      SubscriberIdsStored(t, c, us[i]);
    }
    forall k | k in t && k.channelId == c
      ensures k in keys
    {
      SubscriberIdsStored(t, c, k.userId);
      var i :| 0 <= i < |us| && us[i] == k.userId;
      assert keys[i] == k;
    }
  }

  /** `GetChannelSubscribersAsync`: a scan filtered on the channel. A scan
      returns items in the store's order; the model takes ascending user
      id. Every subscription of the channel appears exactly once. */
  function ChannelSubscribers(t: SubscriptionTable, c: string): (r: seq<Subscription>)
    ensures |r| == |SubscriberIds(t, c)|
    ensures forall x | x in r :: x.channelId == c && x.Key() in t && t[x.Key()] == x
    ensures forall k | k in t && k.channelId == c :: t[k] in r
    ensures forall i, j | 0 <= i < j < |r| :: r[i].userId != r[j].userId
  {
    var keys := SubscriberKeys(t, c);
    var r := StoredAt(t, keys);
    forall k | k in t && k.channelId == c
      ensures t[k] in r
    {
      var i :| 0 <= i < |keys| && keys[i] == k;
      assert r[i] == t[k];
    }
    r
  }

  /** The keys of user `u`'s subscriptions, by ascending channel id. */
  function UserKeys(t: SubscriptionTable, u: string): (keys: seq<SubscriptionKey>)
    ensures |keys| == |ChannelIdsOf(t, u)|
    ensures forall k :: k in keys <==> k in t && k.userId == u
    ensures forall i, j | 0 <= i < j < |keys| :: keys[i].channelId != keys[j].channelId
  {
    var cs := SortedStrings(ChannelIdsOf(t, u));
    var keys := seq(|cs|, i requires 0 <= i < |cs| => SubscriptionKey(u, cs[i]));
    UserKeysCover(t, u, cs, keys);
    AscendingDistinct(cs);
    keys
  }

  lemma UserKeysCover(t: SubscriptionTable, u: string, cs: seq<string>, keys: seq<SubscriptionKey>)
    requires forall c :: c in cs <==> c in ChannelIdsOf(t, u)
    requires |keys| == |cs| && forall i | 0 <= i < |cs| :: keys[i] == SubscriptionKey(u, cs[i])
    ensures forall k :: k in keys <==> k in t && k.userId == u
  {
    forall k | k in keys
      ensures k in t && k.userId == u
    {
      var i :| 0 <= i < |cs| && keys[i] == k;
      ChannelIdsStored(t, u, cs[i]);
    }
    forall k | k in t && k.userId == u
      ensures k in keys
    {
      ChannelIdsStored(t, u, k.channelId);
      var i :| 0 <= i < |cs| && cs[i] == k.channelId;
      assert keys[i] == k;
    }
  }

  /** `GetUserSubscriptionsAsync`: a query on the user's partition, in
      ascending channel id. Every subscription of the user appears exactly
      once. */
  function UserSubscriptions(t: SubscriptionTable, u: string): (r: seq<Subscription>)
    ensures |r| == |ChannelIdsOf(t, u)|
    ensures forall x | x in r :: x.userId == u && x.Key() in t && t[x.Key()] == x
    ensures forall k | k in t && k.userId == u :: t[k] in r
    ensures forall i, j | 0 <= i < j < |r| :: r[i].channelId != r[j].channelId
  {
    var keys := UserKeys(t, u);
    var r := StoredAt(t, keys);
    forall k | k in t && k.userId == u
      ensures t[k] in r
    {
      var i :| 0 <= i < |keys| && keys[i] == k;
      assert r[i] == t[k];
    }
    r
  }

  /** A channel is among the user's exactly when the record is stored. */
  lemma ChannelIdsStored(t: SubscriptionTable, u: string, c: string)
    ensures c in ChannelIdsOf(t, u) <==> SubscriptionKey(u, c) in t
  {
    if c in ChannelIdsOf(t, u) {
      var k :| k in t && k.userId == u && k.channelId == c;
      assert k == SubscriptionKey(u, c);
    }
  }

  /** `CountSubscribersAsync`: the length of the channel's subscriber scan. */
  function CountSubscribers(t: SubscriptionTable, c: string): (r: nat)
    ensures r == |ChannelSubscribers(t, c)|
  {
    |SubscriberIds(t, c)|
  }

  /** Storing a new subscription to `c` adds its user to `c`'s subscribers
      and changes no other channel's. */
  lemma AddSubscriber(t: SubscriptionTable, s: Subscription, c: string)
    requires s.Key() !in t
    ensures var t' := t[s.Key() := s];
            && (c == s.channelId ==> SubscriberIds(t', c) == SubscriberIds(t, c) + {s.userId})
            && (c == s.channelId ==> s.userId !in SubscriberIds(t, c))
            && (c != s.channelId ==> SubscriberIds(t', c) == SubscriberIds(t, c))
  {
    SubscriberIdsStored(t, c, s.userId);
  }

  /** Deleting a stored subscription to `c` removes its user from `c`'s
      subscribers and changes no other channel's. */
  lemma RemoveSubscriber(t: SubscriptionTable, k: SubscriptionKey, c: string)
    requires k in t
    ensures var t' := t - {k};
            && (c == k.channelId ==> SubscriberIds(t', c) == SubscriberIds(t, c) - {k.userId})
            && (c == k.channelId ==> k.userId in SubscriberIds(t, c))
            && (c != k.channelId ==> SubscriberIds(t', c) == SubscriberIds(t, c))
  {
    var t' := t - {k};
    forall u | u in SubscriberIds(t', c)
      ensures u in SubscriberIds(t, c)
    {
      SubscriberIdsStored(t', c, u);
      SubscriberIdsStored(t, c, u);
    }
    if c == k.channelId {
      forall u | u in SubscriberIds(t, c) && u != k.userId
        ensures u in SubscriberIds(t', c)
      {
        SubscriberIdsStored(t, c, u);
        SubscriberIdsStored(t', c, u);
      }
      SubscriberIdsStored(t', c, k.userId);
    }
  }
}

/** `SubscriptionService`: subscribing and unsubscribing with the channel's
    denormalised subscriber counter, and the two listings. */
module SubscriptionService {
  import opened Wrappers
  import opened Entities
  import opened Ordering
  import opened SubscriptionStore

  /** `SubscribeResponse` and `UnsubscribeResponse`, which carry the same
      fields. */
  datatype SubscriptionChange = SubscriptionChange(channelId: string, success: bool, subscriberCount: int)

  /** The checks `SubscribeAsync` makes, in order; the channel on success. */
  function SubscribeChecks(db: Db, userId: string, channelId: string): (r: Result<Channel>)
    ensures channelId !in db.channels ==> r == Err(NotFoundException)
    ensures channelId in db.channels && db.channels[channelId].userId == userId ==> r == Err(BadRequestException)
    ensures (channelId in db.channels && db.channels[channelId].userId != userId
             && SubscriptionKey(userId, channelId) in db.subscriptions) ==> r == Err(BadRequestException)
    ensures r.Ok? <==> channelId in db.channels && db.channels[channelId].userId != userId
                       && SubscriptionKey(userId, channelId) !in db.subscriptions
    ensures r.Ok? ==> r.value == db.channels[channelId]
  {
    if channelId !in db.channels then Err(NotFoundException)
    else
      var channel := db.channels[channelId];
      if channel.userId == userId then Err(BadRequestException)
      else if SubscriptionKey(userId, channelId) in db.subscriptions then Err(BadRequestException)
      else Ok(channel)
  }

  /** `SubscribeAsync`: stores the subscription and raises the channel's
      counter by one. */
  function Subscribe(db: Db, userId: string, channelId: string, now: Instant): (r: (Result<SubscriptionChange>, Db))
    ensures r.0.Err? <==> SubscribeChecks(db, userId, channelId).Err?
    ensures r.0.Err? ==> r.1 == db && r.0.error == SubscribeChecks(db, userId, channelId).error
    ensures r.0.Ok? ==>
              var ch := db.channels[channelId];
              && r.0.value == SubscriptionChange(channelId, true, ch.subscriberCount + 1)
              && r.1 == db.(subscriptions := db.subscriptions[SubscriptionKey(userId, channelId) := Subscription(userId, channelId, now)],
                            channels := SaveChannel(db.channels, ch.(subscriberCount := ch.subscriberCount + 1)))
  {
    match SubscribeChecks(db, userId, channelId)
    case Err(e) => (Err(e), db)
    case Ok(channel) =>
      var s := Subscription(userId, channelId, now);
      var channel' := channel.(subscriberCount := channel.subscriberCount + 1);
      (Ok(SubscriptionChange(channelId, true, channel'.subscriberCount)),
       db.(subscriptions := db.subscriptions[s.Key() := s], channels := SaveChannel(db.channels, channel')))
  }

  /** The checks `UnsubscribeAsync` makes, in order. */
  function UnsubscribeChecks(db: Db, userId: string, channelId: string): (r: Result<Channel>)
    ensures channelId !in db.channels ==> r == Err(NotFoundException)
    ensures channelId in db.channels && SubscriptionKey(userId, channelId) !in db.subscriptions ==> r == Err(BadRequestException)
    ensures r.Ok? <==> channelId in db.channels && SubscriptionKey(userId, channelId) in db.subscriptions
    ensures r.Ok? ==> r.value == db.channels[channelId]
  {
    if channelId !in db.channels then Err(NotFoundException)
    else if SubscriptionKey(userId, channelId) !in db.subscriptions then Err(BadRequestException)
    else Ok(db.channels[channelId])
  }

  /** `UnsubscribeAsync`: deletes the subscription and lowers the channel's
      counter by one unless it is already zero or less. */
  function Unsubscribe(db: Db, userId: string, channelId: string): (r: (Result<SubscriptionChange>, Db))
    ensures r.0.Err? <==> UnsubscribeChecks(db, userId, channelId).Err?
    ensures r.0.Err? ==> r.1 == db && r.0.error == UnsubscribeChecks(db, userId, channelId).error
    ensures r.0.Ok? ==>
              var ch := db.channels[channelId];
              var n := if ch.subscriberCount > 0 then ch.subscriberCount - 1 else ch.subscriberCount;
              && r.0.value == SubscriptionChange(channelId, true, n)
              && r.1 == db.(subscriptions := db.subscriptions - {SubscriptionKey(userId, channelId)},
                            channels := SaveChannel(db.channels, ch.(subscriberCount := n)))
              && r.1.channels[channelId].subscriberCount >= 0 <== ch.subscriberCount >= 0
  {
    match UnsubscribeChecks(db, userId, channelId)
    case Err(e) => (Err(e), db)
    case Ok(channel) =>
      var subs := db.subscriptions - {SubscriptionKey(userId, channelId)};
      if channel.subscriberCount > 0 then
        var channel' := channel.(subscriberCount := channel.subscriberCount - 1);
        (Ok(SubscriptionChange(channelId, true, channel'.subscriberCount)),
         db.(subscriptions := subs, channels := SaveChannel(db.channels, channel')))
      else
        (Ok(SubscriptionChange(channelId, true, channel.subscriberCount)), db.(subscriptions := subs))
  }

  /** Every channel's counter equals its number of subscribers. */
  predicate CountsExact(db: Db) {
    forall c | c in db.channels :: db.channels[c].subscriberCount == |SubscriberIds(db.subscriptions, c)|
  }

  /** Subscribing keeps every counter exact. */
  lemma SubscribeKeepsCounts(db: Db, userId: string, channelId: string, now: Instant)
    requires CountsExact(db)
    ensures CountsExact(Subscribe(db, userId, channelId, now).1)
  {
    var r := Subscribe(db, userId, channelId, now);
    if r.0.Ok? {
      var s := Subscription(userId, channelId, now);
      forall c | c in r.1.channels
        ensures r.1.channels[c].subscriberCount == |SubscriberIds(r.1.subscriptions, c)|
      {
        AddSubscriber(db.subscriptions, s, c);
      }
    }
  }

  /** Unsubscribing keeps every counter exact: the channel had at least the
      leaving subscriber, so its counter was positive. */
  lemma UnsubscribeKeepsCounts(db: Db, userId: string, channelId: string)
    requires CountsExact(db)
    ensures CountsExact(Unsubscribe(db, userId, channelId).1)
  {
    var r := Unsubscribe(db, userId, channelId);
    if r.0.Ok? {
      var k := SubscriptionKey(userId, channelId);
      RemoveSubscriber(db.subscriptions, k, channelId);
      assert db.channels[channelId].subscriberCount > 0;
      forall c | c in r.1.channels
        ensures r.1.channels[c].subscriberCount == |SubscriberIds(r.1.subscriptions, c)|
      {
        RemoveSubscriber(db.subscriptions, k, c);
      }
    }
  }

  /** Unsubscribing right after subscribing restores the database, given a
      counter that was not negative. */
  lemma SubscribeThenUnsubscribe(db: Db, userId: string, channelId: string, now: Instant)
    requires Subscribe(db, userId, channelId, now).0.Ok?
    requires db.channels[channelId].subscriberCount >= 0
    ensures Unsubscribe(Subscribe(db, userId, channelId, now).1, userId, channelId) == (
              Ok(SubscriptionChange(channelId, true, db.channels[channelId].subscriberCount)), db)
  {
    var db1 := Subscribe(db, userId, channelId, now).1;
    var k := SubscriptionKey(userId, channelId);
    assert db1.subscriptions - {k} == db.subscriptions;
    assert SaveChannel(db1.channels, db.channels[channelId]) == db.channels;
  }

  // ---------------------------------------------------------------------
  // Listings

  /** `SubscriberDto`: a subscriber as the channel page shows it. */
  datatype SubscriberDto = SubscriberDto(channelId: string, channelName: string, avatarUrl: Option<string>, subscribedAt: Instant)

  /** `SubscribedChannelDto`: a subscribed channel as the user's page shows
      it. */
  datatype SubscribedChannelDto = SubscribedChannelDto(
    channelId: string, channelName: string, avatarUrl: Option<string>, subscriberCount: int, subscribedAt: Instant)

  datatype ChannelSubscribersResponse = ChannelSubscribersResponse(
    channelId: string, subscribers: seq<SubscriberDto>, totalCount: nat)

  datatype MySubscriptionsResponse = MySubscriptionsResponse(channels: seq<SubscribedChannelDto>, totalCount: nat)

  /** Newest subscription first; `OrderByDescending` is stable. */
  function NewestSubscriber(d: SubscriberDto): Key {
    Key(-(d.subscribedAt as int), 0)
  }

  function NewestChannel(d: SubscribedChannelDto): Key {
    Key(-(d.subscribedAt as int), 0)
  }

  /** The subscriber rows of the subscriptions whose user exists, in order. */
  function SubscriberRows(users: UserTable, subs: seq<Subscription>): (r: seq<SubscriberDto>)
    ensures |r| <= |subs|
    ensures forall d | d in r :: exists s | s in subs :: s.userId in users && d == SubscriberRow(users[s.userId], s)
    ensures forall s | s in subs && s.userId in users :: SubscriberRow(users[s.userId], s) in r
  {
    if subs == [] then []
    else
      var rest := SubscriberRows(users, subs[1..]);
      assert forall s | s in subs[1..] :: s in subs;
      if subs[0].userId in users then [SubscriberRow(users[subs[0].userId], subs[0])] + rest else rest
  }

  function SubscriberRow(u: User, s: Subscription): SubscriberDto {
    SubscriberDto(u.userId, u.name, u.avatarUrl, s.createdAt)
  }

  /** How many of the subscriptions have a stored user. */
  function WithUser(users: UserTable, subs: seq<Subscription>): nat {
    if subs == [] then 0 else (if subs[0].userId in users then 1 else 0) + WithUser(users, subs[1..])
  }

  /** One row per subscription whose user exists. */
  lemma {:induction false} SubscriberRowsCount(users: UserTable, subs: seq<Subscription>)
    ensures |SubscriberRows(users, subs)| == WithUser(users, subs)
  {
    if subs != [] {
      SubscriberRowsCount(users, subs[1..]);
    }
  }

  /** `GetChannelSubscribersAsync`: the channel's subscribers whose user
      exists, newest subscription first; the total is the list's length. */
  function GetChannelSubscribers(db: Db, channelId: string): (r: Result<ChannelSubscribersResponse>)
    ensures r.Err? <==> channelId !in db.channels
    ensures r.Err? ==> r.error == NotFoundException
    ensures r.Ok? ==>
              var rows := SubscriberRows(db.users, ChannelSubscribers(db.subscriptions, channelId));
              && r.value.channelId == channelId
              && r.value.totalCount == |r.value.subscribers| == |rows|
              && multiset(r.value.subscribers) == multiset(rows)
              && SortedBy(r.value.subscribers, NewestSubscriber)
  {
    if channelId !in db.channels then Err(NotFoundException)
    else
      var rows := SubscriberRows(db.users, ChannelSubscribers(db.subscriptions, channelId));
      Ok(ChannelSubscribersResponse(channelId, SortByKey(rows, NewestSubscriber), |rows|))
  }

  /** The user ids a subscriber list shows. */
  function ListedUsers(list: seq<SubscriberDto>): set<string> {
    set d | d in list :: d.channelId
  }

  /** The rows of a channel's subscriptions show exactly its subscribers
      that are stored users. */
  lemma SubscriberRowsShow(users: UserTable, t: SubscriptionTable, c: string)
    ensures ListedUsers(SubscriberRows(users, ChannelSubscribers(t, c))) == SubscriberIds(t, c) * users.Keys
  {
    var listed := ListedUsers(SubscriberRows(users, ChannelSubscribers(t, c)));
    forall u
      ensures u in listed <==> u in SubscriberIds(t, c) && u in users
    {
      if u in listed {
        ListedRowSubscriber(users, t, c, u);
      }
      if u in SubscriberIds(t, c) && u in users {
        SubscriberRowListed(users, t, c, u);
      }
    }
  }

  lemma ListedRowSubscriber(users: UserTable, t: SubscriptionTable, c: string, u: string)
    requires u in ListedUsers(SubscriberRows(users, ChannelSubscribers(t, c)))
    ensures u in SubscriberIds(t, c) && u in users
  {
    var subs := ChannelSubscribers(t, c);
    var rows := SubscriberRows(users, subs);
    var d :| d in rows && d.channelId == u;
    var s :| s in subs && s.userId in users && d == SubscriberRow(users[s.userId], s);
    SubscriberIdsStored(t, c, u);
  }

  lemma SubscriberRowListed(users: UserTable, t: SubscriptionTable, c: string, u: string)
    requires u in SubscriberIds(t, c) && u in users
    ensures u in ListedUsers(SubscriberRows(users, ChannelSubscribers(t, c)))
  {
    var subs := ChannelSubscribers(t, c);
    var rows := SubscriberRows(users, subs);
    SubscriberIdsStored(t, c, u);
    var k := SubscriptionKey(u, c);
    assert t[k] in subs;
    assert SubscriberRow(users[u], t[k]) in rows;
  }

  /** Every listed subscriber is a stored user holding a subscription to the
      channel, and every subscriber whose user exists is listed. */
  lemma ChannelSubscribersListed(db: Db, channelId: string)
    requires channelId in db.channels
    ensures ListedUsers(GetChannelSubscribers(db, channelId).value.subscribers)
            == SubscriberIds(db.subscriptions, channelId) * db.users.Keys
  {
    var rows := SubscriberRows(db.users, ChannelSubscribers(db.subscriptions, channelId));
    SortByKeyMembers(rows, NewestSubscriber);
    SubscriberRowsShow(db.users, db.subscriptions, channelId);
  }

  /** The channel rows of the subscriptions whose channel exists, in order. */
  function ChannelRows(channels: ChannelTable, subs: seq<Subscription>): (r: seq<SubscribedChannelDto>)
    ensures |r| <= |subs|
    ensures forall d | d in r :: exists s | s in subs :: s.channelId in channels && d == ChannelRow(channels[s.channelId], s)
    ensures forall s | s in subs && s.channelId in channels :: ChannelRow(channels[s.channelId], s) in r
  {
    if subs == [] then []
    else
      var rest := ChannelRows(channels, subs[1..]);
      assert forall s | s in subs[1..] :: s in subs;
      if subs[0].channelId in channels then [ChannelRow(channels[subs[0].channelId], subs[0])] + rest else rest
  }

  function ChannelRow(c: Channel, s: Subscription): SubscribedChannelDto {
    SubscribedChannelDto(c.channelId, c.name, c.avatarUrl, c.subscriberCount, s.createdAt)
  }

  /** `GetMySubscriptionsAsync`: the user's subscribed channels that exist,
      newest subscription first; the total is the list's length. */
  function GetMySubscriptions(db: Db, userId: string): (r: MySubscriptionsResponse)
    ensures var rows := ChannelRows(db.channels, UserSubscriptions(db.subscriptions, userId));
            && r.totalCount == |r.channels| == |rows|
            && multiset(r.channels) == multiset(rows)
            && SortedBy(r.channels, NewestChannel)
  {
    var rows := ChannelRows(db.channels, UserSubscriptions(db.subscriptions, userId));
    MySubscriptionsResponse(SortByKey(rows, NewestChannel), |rows|)
  }

  /** The channel ids a subscription list shows. */
  function ListedChannels(list: seq<SubscribedChannelDto>): set<string> {
    set d | d in list :: d.channelId
  }

  /** The rows of a user's subscriptions show exactly the subscribed
      channels that exist. */
  lemma ChannelRowsShow(channels: ChannelTable, t: SubscriptionTable, u: string)
    ensures ListedChannels(ChannelRows(channels, UserSubscriptions(t, u))) == ChannelIdsOf(t, u) * channels.Keys
  {
    var listed := ListedChannels(ChannelRows(channels, UserSubscriptions(t, u)));
    forall c
      ensures c in listed <==> c in ChannelIdsOf(t, u) && c in channels
    {
      if c in listed {
        ListedRowSubscribed(channels, t, u, c);
      }
      if c in ChannelIdsOf(t, u) && c in channels {
        SubscribedRowListed(channels, t, u, c);
      }
    }
  }

  lemma ListedRowSubscribed(channels: ChannelTable, t: SubscriptionTable, u: string, c: string)
    requires c in ListedChannels(ChannelRows(channels, UserSubscriptions(t, u)))
    ensures c in ChannelIdsOf(t, u) && c in channels
  {
    var subs := UserSubscriptions(t, u);
    var rows := ChannelRows(channels, subs);
    var d :| d in rows && d.channelId == c;
    var s :| s in subs && s.channelId in channels && d == ChannelRow(channels[s.channelId], s);
    ChannelIdsStored(t, u, c);
  }

  lemma SubscribedRowListed(channels: ChannelTable, t: SubscriptionTable, u: string, c: string)
    requires c in ChannelIdsOf(t, u) && c in channels
    ensures c in ListedChannels(ChannelRows(channels, UserSubscriptions(t, u)))
  {
    var subs := UserSubscriptions(t, u);
    var rows := ChannelRows(channels, subs);
    ChannelIdsStored(t, u, c);
    var k := SubscriptionKey(u, c);
    assert t[k] in subs;
    assert ChannelRow(channels[c], t[k]) in rows;
  }

  /** A channel is listed exactly when it exists and the user subscribes to
      it. */
  lemma MySubscriptionsListed(db: Db, userId: string)
    ensures ListedChannels(GetMySubscriptions(db, userId).channels)
            == ChannelIdsOf(db.subscriptions, userId) * db.channels.Keys
  {
    var rows := ChannelRows(db.channels, UserSubscriptions(db.subscriptions, userId));
    SortByKeyMembers(rows, NewestChannel);
    ChannelRowsShow(db.channels, db.subscriptions, userId);
  }
}

=== FILE: text.dfy ===
/** The .NET string operations the services rely on, over `string = seq<char>`.

    Whitespace follows `char.IsWhiteSpace` exactly. Case mapping is the ASCII
    subset of the culture-aware `ToLower`/`ToUpper`. Decimal rendering and
    parsing follow `long.ToString()` and `long.TryParse` with the invariant
    culture.
 */
module Text {
  import opened Wrappers

  /** `char.IsWhiteSpace`: categories Zs, Zl, Zp, U+0009..U+000D and U+0085. */
  predicate IsWhiteSpace(c: char) {
    || c == ' ' || ('\t' <= c <= '\r') || c == '\U{85}' || c == '\U{A0}'
    || c == '\U{1680}' || ('\U{2000}' <= c <= '\U{200A}') || c == '\U{2028}'
    || c == '\U{2029}' || c == '\U{202F}' || c == '\U{205F}' || c == '\U{3000}'
  }

  predicate IsBlank(s: string) {
    forall i | 0 <= i < |s| :: IsWhiteSpace(s[i])
  }

  /** `string.IsNullOrWhiteSpace` */
  predicate IsNullOrWhiteSpace(s: Option<string>) {
    s.None? || IsBlank(s.value)
  }

  /** `string.IsNullOrEmpty` */
  predicate IsNullOrEmpty(s: Option<string>) {
    s.None? || s.value == ""
  }

  /** The index of the first non-whitespace character at or after `i`, or
      `|s|` when there is none. */
  function SkipWhiteSpace(s: string, i: nat): (n: nat)
    requires i <= |s|
    ensures i <= n <= |s|
    ensures forall k | i <= k < n :: IsWhiteSpace(s[k])
    ensures n < |s| ==> !IsWhiteSpace(s[n])
    decreases |s| - i
  {
    if i == |s| || !IsWhiteSpace(s[i]) then i else SkipWhiteSpace(s, i + 1)
  }

  /** The index just past the last non-whitespace character before `j`, or
      0 when there is none. */
  function SkipWhiteSpaceBack(s: string, j: nat): (n: nat)
    requires j <= |s|
    ensures n <= j
    ensures forall k | n <= k < j :: IsWhiteSpace(s[k])
    ensures n > 0 ==> !IsWhiteSpace(s[n - 1])
  {
    if j == 0 || !IsWhiteSpace(s[j - 1]) then j else SkipWhiteSpaceBack(s, j - 1)
  }

  /** `s.Trim()`: drops the leading and the trailing whitespace. The result
      has no whitespace at either end, and it is empty exactly when the
      input is all whitespace. */
  function Trim(s: string): (r: string)
    ensures |r| <= |s|
    ensures r == [] || (!IsWhiteSpace(r[0]) && !IsWhiteSpace(r[|r| - 1]))
    ensures r == [] <==> IsBlank(s)
  {
    var a := SkipWhiteSpace(s, 0);
    var e := SkipWhiteSpaceBack(s, |s|);
    if e <= a then
      assert a == |s| || e == 0;
      []
    else
      assert !IsBlank(s) by { assert !IsWhiteSpace(s[a]); }
      s[a..e]
  }

  /** A string whose ends are not whitespace is its own trim. */
  lemma TrimOfTrimmed(s: string)
    requires s == [] || (!IsWhiteSpace(s[0]) && !IsWhiteSpace(s[|s| - 1]))
    ensures Trim(s) == s
  {
  }

  /** Trimming twice is trimming once. */
  lemma TrimIdempotent(s: string)
    ensures Trim(Trim(s)) == Trim(s)
  {
    TrimOfTrimmed(Trim(s));
  }

  /** `s.TrimStart(c)`: drops every leading occurrence of `c`. */
  function TrimStartChar(s: string, c: char): (r: string)
    ensures |r| <= |s| && r == s[|s| - |r|..]
    ensures forall i | 0 <= i < |s| - |r| :: s[i] == c
    ensures r == [] || r[0] != c
  {
    if s == [] || s[0] != c then s else TrimStartChar(s[1..], c)
  }

  /** Ordinal `s.StartsWith(p)`. */
  predicate StartsWith(s: string, p: string) {
    |p| <= |s| && s[..|p|] == p
  }

  /** Ordinal `s.EndsWith(p)`. */
  predicate EndsWith(s: string, p: string) {
    |p| <= |s| && s[|s| - |p|..] == p
  }

  predicate OccursAt(s: string, sub: string, i: int) {
    0 <= i && i + |sub| <= |s| && s[i..i + |sub|] == sub
  }

  /** Ordinal `s.Contains(sub)`. */
  predicate Contains(s: string, sub: string) {
    exists i | 0 <= i <= |s| - |sub| :: OccursAt(s, sub, i)
  }

  /** Containment is transitive: a substring of a substring is a substring. */
  lemma ContainsTransitive(a: string, b: string, c: string)
    requires Contains(a, b) && Contains(b, c)
    ensures Contains(a, c)
  {
    var i :| 0 <= i <= |a| - |b| && OccursAt(a, b, i);
    var j :| 0 <= j <= |b| - |c| && OccursAt(b, c, j);
    assert forall m | 0 <= m < |b| :: a[i + m] == b[m];
    assert forall m | 0 <= m < |c| :: a[i + j + m] == c[m];
    assert OccursAt(a, c, i + j);
  }

  function LowerChar(c: char): char {
    if 'A' <= c <= 'Z' then (c as int + 32) as char else c
  }

  function UpperChar(c: char): char {
    if 'a' <= c <= 'z' then (c as int - 32) as char else c
  }

  /** `s.ToLower()`, restricted to the ASCII letters. */
  function ToLower(s: string): (r: string)
    ensures |r| == |s|
    ensures forall i | 0 <= i < |s| :: r[i] == LowerChar(s[i])
  {
    if s == [] then [] else [LowerChar(s[0])] + ToLower(s[1..])
  }

  /** `s.ToUpper()`, restricted to the ASCII letters. */
  function ToUpper(s: string): (r: string)
    ensures |r| == |s|
    ensures forall i | 0 <= i < |s| :: r[i] == UpperChar(s[i])
  {
    if s == [] then [] else [UpperChar(s[0])] + ToUpper(s[1..])
  }

  /** `string.Equals(a, b, StringComparison.OrdinalIgnoreCase)` on ASCII. */
  predicate EqualsIgnoreCase(a: string, b: string) {
    ToUpper(a) == ToUpper(b)
  }

  /** Length of the leading run of non-space characters. */
  function WordLength(s: string): (n: nat)
    ensures n <= |s|
    ensures forall i | 0 <= i < n :: s[i] != ' '
    ensures n == |s| || s[n] == ' '
  {
    if s == [] || s[0] == ' ' then 0 else 1 + WordLength(s[1..])
  }

  /** The strings of `ws` run together. */
  function Joined(ws: seq<string>): string {
    if ws == [] then [] else ws[0] + Joined(ws[1..])
  }

  /** The strings of `ws` with one space between neighbours. */
  function SpaceJoined(ws: seq<string>): string {
    if ws == [] then [] else if |ws| == 1 then ws[0] else ws[0] + " " + SpaceJoined(ws[1..])
  }

  /** `s` with every space taken out. */
  function NonSpaces(s: string): string {
    if s == [] then [] else (if s[0] == ' ' then [] else [s[0]]) + NonSpaces(s[1..])
  }

  /** A space-free prefix survives `NonSpaces` whole. */
  lemma {:induction false} NonSpacesSplit(s: string, n: nat)
    requires n <= |s| && forall i | 0 <= i < n :: s[i] != ' '
    ensures NonSpaces(s) == s[..n] + NonSpaces(s[n..])
  {
    if n > 0 {
      NonSpacesSplit(s[1..], n - 1);
      assert s[1..][n - 1..] == s[n..];
      assert s[..n] == [s[0]] + s[1..][..n - 1];
    }
  }

  /** `s.Split(' ', StringSplitOptions.RemoveEmptyEntries)`. Every word is
      non-empty, holds no space, and occurs in `s`; run together, the words
      give back `s` without its spaces. */
  function Words(s: string): (r: seq<string>)
    ensures forall k | 0 <= k < |r| :: r[k] != [] && ' ' !in r[k] && Contains(s, r[k])
    ensures s != [] && s[0] != ' ' ==> |r| > 0
    ensures Joined(r) == NonSpaces(s)
    decreases |s|
  {
    if s == [] then []
    else if s[0] == ' ' then
      var r := Words(s[1..]);
      ShiftContains(s, 1, r);
      r
    else
      var n := WordLength(s);
      var r := Words(s[n..]);
      ShiftContains(s, n, r);
      assert OccursAt(s, s[..n], 0);
      NonSpacesSplit(s, n);
      assert ([s[..n]] + r)[1..] == r;
      [s[..n]] + r
  }

  /** A space-free word is one run of `WordLength`. */
  lemma {:induction false} WordLengthAppend(w: string, rest: string)
    requires ' ' !in w
    ensures WordLength(w + rest) == |w| + WordLength(rest)
  {
    if w != [] {
      assert (w + rest)[1..] == w[1..] + rest;
      WordLengthAppend(w[1..], rest);
    } else {
      assert w + rest == rest;
    }
  }

  /** Splitting undoes joining with single spaces: non-empty, space-free
      words come back as they were, in order. */
  lemma {:induction false} WordsOfSpaceJoined(ws: seq<string>)
    requires forall k | 0 <= k < |ws| :: ws[k] != [] && ' ' !in ws[k]
    ensures Words(SpaceJoined(ws)) == ws
  {
    if ws != [] {
      var w := ws[0];
      var s := SpaceJoined(ws);
      if |ws| == 1 {
        WordLengthAppend(w, []);
        assert w + [] == w && s == w;
        assert s[|w|..] == [];
      } else {
        var rest := SpaceJoined(ws[1..]);
        assert s == w + (" " + rest);
        WordLengthAppend(w, " " + rest);
        assert s[..|w|] == w && s[|w|..] == " " + rest;
        assert (" " + rest)[1..] == rest;
        WordsOfSpaceJoined(ws[1..]);
      }
    }
  }

  /** Words of a suffix of `s` occur in `s`. */
  lemma ShiftContains(s: string, n: nat, words: seq<string>)
    requires n <= |s|
    requires forall k | 0 <= k < |words| :: Contains(s[n..], words[k])
    ensures forall k | 0 <= k < |words| :: Contains(s, words[k])
  {
    forall k | 0 <= k < |words|
      ensures Contains(s, words[k])
    {
      var w := words[k];
      var i :| 0 <= i <= |s[n..]| - |w| && OccursAt(s[n..], w, i);
      assert s[n + i..n + i + |w|] == s[n..][i..i + |w|];
      assert OccursAt(s, w, n + i);
    }
  }

  // ---------------------------------------------------------------------
  // Decimal numbers

  predicate IsDigit(c: char) {
    '0' <= c <= '9'
  }

  function DigitChar(d: nat): char
    requires d < 10
  {
    (48 + d) as char
  }

  /** `n.ToString()` for a non-negative integer. */
  function NatToString(n: nat): (r: string)
    ensures r != [] && forall i | 0 <= i < |r| :: IsDigit(r[i])
  {
    if n < 10 then [DigitChar(n)] else NatToString(n / 10) + [DigitChar(n % 10)]
  }

  /** The value of a string of decimal digits. */
  function DigitsValue(s: string): nat
    requires forall i | 0 <= i < |s| :: IsDigit(s[i])
  {
    if s == [] then 0
    else
      assert IsDigit(s[|s| - 1]);
      DigitsValue(s[..|s| - 1]) * 10 + (s[|s| - 1] as int - 48)
  }

  /** Reading back a rendered number gives the number. */
  lemma {:induction false} DigitsValueOfNatToString(n: nat)
    ensures DigitsValue(NatToString(n)) == n
  {
    if n >= 10 {
      var s := NatToString(n);
      assert s[..|s| - 1] == NatToString(n / 10);
      DigitsValueOfNatToString(n / 10);
    }
  }

  /** The whitespace `NumberStyles.Integer` allows around a number. */
  predicate IsNumberWhiteSpace(c: char) {
    c == ' ' || ('\t' <= c <= '\r')
  }

  function StripNumberWhiteSpace(s: string): (r: string)
    ensures |r| <= |s|
  {
    if s != [] && IsNumberWhiteSpace(s[0]) then StripNumberWhiteSpace(s[1..])
    else if s != [] && IsNumberWhiteSpace(s[|s| - 1]) then StripNumberWhiteSpace(s[..|s| - 1])
    else s
  }

  /** The UTF-16 code units of one character: a surrogate pair above the
      Basic Multilingual Plane, one unit otherwise. */
  function Utf16Units(c: char): (n: nat)
    ensures n == 1 || n == 2
    ensures n == 2 <==> c as int > 0xFFFF
  {
    if c as int > 0xFFFF then 2 else 1
  }

  /** `string.Length`: .NET strings are UTF-16, so the length counts code
      units and a character outside the Basic Multilingual Plane counts
      twice. */
  function Utf16Length(s: string): (n: nat)
    ensures |s| <= n <= 2 * |s|
  {
    if s == [] then 0 else Utf16Units(s[0]) + Utf16Length(s[1..])
  }

  /** The length of a concatenation is the sum of the lengths. */
  lemma {:induction false} Utf16LengthAppend(a: string, b: string)
    ensures Utf16Length(a + b) == Utf16Length(a) + Utf16Length(b)
  {
    if a == [] {
      assert a + b == b;
    } else {
      assert (a + b)[0] == a[0] && (a + b)[1..] == a[1..] + b;
      Utf16LengthAppend(a[1..], b);
    }
  }

  /** A string inside the Basic Multilingual Plane has one code unit per
      character, and only such a string does. */
  lemma {:induction false} Utf16LengthBmp(s: string)
    ensures Utf16Length(s) == |s| <==> forall i | 0 <= i < |s| :: s[i] as int <= 0xFFFF
  {
    if s != [] {
      Utf16LengthBmp(s[1..]);
      assert forall i | 1 <= i < |s| :: s[i] == s[1..][i - 1];
    }
  }

  /** One emoji is two code units: the length is not the character count. */
  lemma Utf16LengthOfEmoji()
    ensures |"\U{1F600}"| == 1 && Utf16Length("\U{1F600}") == 2
  {
    assert "\U{1F600}"[1..] == [];
  }

  const Int64Min: int := -0x8000_0000_0000_0000
  const Int64Max: int := 0x7FFF_FFFF_FFFF_FFFF
  const Int32Min: int := -0x8000_0000
  const Int32Max: int := 0x7FFF_FFFF

  /** An unchecked `(int)` cast: the value modulo 2^32, read as a signed
      32-bit integer. */
  function WrapInt32(x: int): (r: int)
    ensures Int32Min <= r <= Int32Max
    ensures (x - r) % 0x1_0000_0000 == 0
    ensures Int32Min <= x <= Int32Max ==> r == x
  {
    var m := (x - Int32Min) % 0x1_0000_0000;
    assert x - (m + Int32Min) == ((x - Int32Min) / 0x1_0000_0000) * 0x1_0000_0000;
    m + Int32Min
  }

  /** `long.TryParse(s, out v)`: optional surrounding whitespace, an optional
      sign, at least one decimal digit, and a value that fits in 64 bits. */
  function ParseInt64(s: Option<string>): (r: Option<int>)
    ensures r.Some? ==> Int64Min <= r.value <= Int64Max
  {
    if s.None? then None
    else
      var t := StripNumberWhiteSpace(s.value);
      var neg := t != [] && t[0] == '-';
      var digits := if t != [] && (t[0] == '-' || t[0] == '+') then t[1..] else t;
      if digits == [] || !(forall i | 0 <= i < |digits| :: IsDigit(digits[i])) then None
      else
        var v: int := if neg then 0 - (DigitsValue(digits) as int) else DigitsValue(digits);
        if Int64Min <= v <= Int64Max then Some(v) else None
  }

  /** Every non-negative 64-bit value survives a render-and-parse round trip. */
  lemma ParseInt64OfNatToString(n: nat)
    requires n <= Int64Max
    ensures ParseInt64(Some(NatToString(n))) == Some(n)
  {
    var s := NatToString(n);
    assert StripNumberWhiteSpace(s) == s by {
      assert IsDigit(s[0]) && IsDigit(s[|s| - 1]);
    }
    assert IsDigit(s[0]);
    DigitsValueOfNatToString(n);
  }
  /** `long.ToString()`: a minus sign before the digits of a negative value. */
  function IntToString(n: int): (r: string)
    ensures r != []
  {
    if n < 0 then "-" + NatToString(-n) else NatToString(n)
  }

  /** Every 64-bit value survives a render-and-parse round trip. */
  lemma ParseInt64OfIntToString(n: int)
    requires Int64Min <= n <= Int64Max
    ensures ParseInt64(Some(IntToString(n))) == Some(n)
  {
    if n >= 0 {
      ParseInt64OfNatToString(n);
    } else {
      var d := NatToString(-n);
      var s := "-" + d;
      assert StripNumberWhiteSpace(s) == s by {
        assert IsDigit(d[|d| - 1]) && s[|s| - 1] == d[|d| - 1];
      }
      assert s[1..] == d;
      DigitsValueOfNatToString(-n);
    }
  }
}

=== FILE: user_service.dfy ===
/** `UserService`: the profile merge and the avatar upload. A profile field
    changes only when the request brings a non-empty value that differs
    from the stored one; a new name is passed on to the user's channel.
    The avatar upload stores the file under a key built from the user id,
    the clock and the file's extension; the stored URL comes from the
    storage service and is a parameter here.
 */
module UserService {
  import opened Wrappers
  import opened Text
  import opened Entities
  import opened Paths
  import VideoRepository
  import ChannelService

  datatype UpdateUserRequest = UpdateUserRequest(
    name: Option<string>,
    gender: Option<string>,
    birthDate: Option<string>,
    phoneNumber: Option<string>)

  /** One field of the merge: a non-empty requested value replaces the
      stored one; a missing or empty one keeps it. */
  function Merge(requested: Option<string>, current: string): (r: string)
    ensures !IsNullOrEmpty(requested) ==> r == requested.value
    ensures IsNullOrEmpty(requested) ==> r == current
  {
    if !IsNullOrEmpty(requested) && requested.value != current then requested.value else current
  }

  /** The user with every requested field merged in. */
  function Merged(u: User, req: UpdateUserRequest): User {
    u.(name := Merge(req.name, u.name),
       gender := Merge(req.gender, u.gender),
       birthDate := Merge(req.birthDate, u.birthDate),
       phoneNumber := Merge(req.phoneNumber, u.phoneNumber))
  }

  /** `UpdateUserAsync`. An unknown user is false and changes nothing.
      Otherwise the answer is true exactly when some field changed, and the
      user is saved only then; a changed name is also given to the user's
      channel; nothing else in the store changes. */
  function UpdateUser(db: Db, userId: string, req: UpdateUserRequest): (r: (bool, Db))
    ensures userId !in db.users ==> r == (false, db)
    ensures userId in db.users ==>
              var u := db.users[userId];
              var m := Merged(u, req);
              && (r.0 <==> m != u)
              && (!r.0 ==> r.1 == db)
              && (r.0 ==> r.1.users == db.users[userId := m])
              && r.1.channels == (if m.name != u.name then ChannelService.UpdateChannelName(db.channels, userId, m.name).1 else db.channels)
              && r.1 == db.(users := r.1.users, channels := r.1.channels)
  {
    if userId !in db.users then (false, db)
    else
      var u := db.users[userId];
      var nameChanged := !IsNullOrEmpty(req.name) && req.name.value != u.name;
      var channels := if nameChanged then ChannelService.UpdateChannelName(db.channels, u.userId, req.name.value).1 else db.channels;
      var m := Merged(u, req);
      var updated := nameChanged
        || (!IsNullOrEmpty(req.gender) && req.gender.value != u.gender)
        || (!IsNullOrEmpty(req.birthDate) && req.birthDate.value != u.birthDate)
        || (!IsNullOrEmpty(req.phoneNumber) && req.phoneNumber.value != u.phoneNumber);
      assert updated <==> m != u;
      if updated then (true, db.(users := SaveUser(db.users, m), channels := channels))
      else (false, db.(channels := channels))
  }

  /** Sending the same profile update twice: the second finds nothing to
      change, answers false and writes nothing. */
  lemma UpdateUserIdempotent(db: Db, userId: string, req: UpdateUserRequest)
    requires userId in db.users
    ensures var db1 := UpdateUser(db, userId, req).1;
            UpdateUser(db1, userId, req) == (false, db1)
  {
    var db1 := UpdateUser(db, userId, req).1;
    var u := db.users[userId];
    assert db1.users[userId] == Merged(u, req);
    assert Merged(Merged(u, req), req) == Merged(u, req);
  }

  /** A new name reaches the user's channel: after the update the channel
      the user owns carries it. */
  lemma NameReachesChannel(db: Db, userId: string, req: UpdateUserRequest)
    requires userId in db.users && !IsNullOrEmpty(req.name) && req.name.value != db.users[userId].name
    requires VideoRepository.ChannelOfUser(db.channels, userId).Some?
    ensures var c := VideoRepository.ChannelOfUser(UpdateUser(db, userId, req).1.channels, userId);
            c.Some? && c.value.name == req.name.value
  {
    ChannelService.RenameTakesEffect(db.channels, userId, req.name.value);
  }

  // ---------------------------------------------------------------------
  // Avatar

  datatype UploadAvatarResponse = UploadAvatarResponse(avatarUrl: string)

  /** The extension the avatar is stored with: the file name's own, or by
      content type when it has none. */
  function AvatarExtension(fileName: string, contentType: string): (e: string)
    ensures |e| >= 2 && e[0] == '.' && Plain(e[1..])
    ensures Extension(fileName) != [] ==> e == Extension(fileName)
    ensures Extension(fileName) == [] ==> e == if contentType == "image/png" then ".png" else ".jpg"
  {
    var ext := Extension(fileName);
    if ext == [] then (if contentType == "image/png" then ".png" else ".jpg") else ext
  }

  const AvatarFolder: string := "avatars/"

  /** The storage key `avatars/{userId}/{ticks}{ext}`. */
  function AvatarKey(userId: string, now: Instant, ext: string): (k: string)
    ensures StartsWith(k, AvatarFolder + userId + "/")
    ensures |ext| >= 2 && ext[0] == '.' && Plain(ext[1..]) ==> Extension(k) == ext
  {
    var prefix := AvatarFolder + userId + "/" + NatToString(DateTimeTicks(now));
    assert |ext| >= 2 && ext[0] == '.' && Plain(ext[1..]) ==> Extension(prefix + ext) == ext by {
      if |ext| >= 2 && ext[0] == '.' && Plain(ext[1..]) {
        ExtensionOfSuffix(prefix, ext);
      }
    }
    assert (prefix + ext)[..|AvatarFolder + userId + "/"|] == AvatarFolder + userId + "/";
    prefix + ext
  }

  /** `UploadAvatarAsync`. An unknown user gets no response and nothing
      changes; a content type other than image/jpeg or image/png is an
      `InvalidOperationException`; otherwise the file is stored under the
      avatar key and its URL becomes the user's avatar. */
  function UploadAvatar(db: Db, userId: string, fileName: string, contentType: string, now: Instant, upload: string -> string)
    : (r: (Result<Option<UploadAvatarResponse>>, Db))
    ensures userId !in db.users ==> r == (Ok(None), db)
    ensures userId in db.users && contentType != "image/jpeg" && contentType != "image/png" ==> r == (Err(InvalidOperation), db)
    ensures userId in db.users && (contentType == "image/jpeg" || contentType == "image/png") ==>
              var url := upload(AvatarKey(userId, now, AvatarExtension(fileName, contentType)));
              && r.0 == Ok(Some(UploadAvatarResponse(url)))
              && r.1 == db.(users := db.users[userId := db.users[userId].(avatarUrl := Some(url))])
  {
    if userId !in db.users then (Ok(None), db)
    else if contentType != "image/jpeg" && contentType != "image/png" then (Err(InvalidOperation), db)
    else
      var key := AvatarKey(userId, now, AvatarExtension(fileName, contentType));
      var url := upload(key);
      (Ok(Some(UploadAvatarResponse(url))), db.(users := SaveUser(db.users, db.users[userId].(avatarUrl := Some(url)))))
  }

  /** A successful upload takes effect: the user's stored avatar is the
      returned URL, nothing else about the user changes, and repeating the
      same upload answers the same and changes nothing more. */
  lemma UploadAvatarTakesEffect(db: Db, userId: string, fileName: string, contentType: string, now: Instant,
                                upload: string -> string)
    requires userId in db.users && (contentType == "image/jpeg" || contentType == "image/png")
    ensures var r := UploadAvatar(db, userId, fileName, contentType, now, upload);
            && r.0.Ok? && r.0.value.Some? && userId in r.1.users
            && r.1.users[userId].avatarUrl == Some(r.0.value.value.avatarUrl)
            && r.1.users[userId].(avatarUrl := db.users[userId].avatarUrl) == db.users[userId]
            && UploadAvatar(r.1, userId, fileName, contentType, now, upload) == r
  {
    var r := UploadAvatar(db, userId, fileName, contentType, now, upload);
    var url := upload(AvatarKey(userId, now, AvatarExtension(fileName, contentType)));
    var u' := db.users[userId].(avatarUrl := Some(url));
    assert r.1 == db.(users := db.users[userId := u']);
    assert r.1.users[userId] == u';
    assert r.1.users[userId := u'.(avatarUrl := Some(url))] == r.1.users;
  }
}

=== FILE: validators.dfy ===
/** The FluentValidation rule sets the API runs on request bodies before a
    controller action. A request is valid when every rule of its validator
    holds. A failing rule is recorded in the model state, and the framework
    answers 400 with its own problem document before the action runs; no
    exception is thrown and the global handler is not involved.

    The FluentValidation rules used here mean: `NotEmpty` rejects null, the
    empty string and all-whitespace strings; `MaximumLength` and
    `MinimumLength` let null through; `Matches` asks for a match anywhere in
    the string; `EmailAddress` is the library's default check (exactly one
    '@', neither first nor last).
 */
module Validators {
  import opened Wrappers
  import opened Text
  import opened Entities
  import CognitoAuth
  import ChannelService
  import UserService
  import VideoService

  predicate NotEmpty(s: Option<string>) {
    !IsNullOrWhiteSpace(s)
  }

  /** `MaximumLength(n)`: an absent value passes; a present one has at most
      `n` UTF-16 code units, as `string.Length` counts them. */
  predicate MaxLength(s: Option<string>, n: nat) {
    s.None? || Utf16Length(s.value) <= n
  }

  // ---------------------------------------------------------------------
  // Email

  /** `s.IndexOf(c)`: the first position of `c`, or -1. */
  function IndexOf(s: string, c: char): (i: int)
    ensures -1 <= i < |s|
    ensures i >= 0 ==> s[i] == c
    ensures forall k | 0 <= k < |s| && (i < 0 || k < i) :: s[k] != c
  {
    if s == [] then -1
    else if s[0] == c then 0
    else
      var j := IndexOf(s[1..], c);
      if j < 0 then -1 else j + 1
  }

  /** `s.LastIndexOf(c)`: the last position of `c`, or -1. */
  function LastIndexOf(s: string, c: char): (i: int)
    ensures -1 <= i < |s|
    ensures i >= 0 ==> s[i] == c
    ensures forall k | i < k < |s| :: s[k] != c
  {
    if s == [] then -1
    else if s[|s| - 1] == c then |s| - 1
    else LastIndexOf(s[..|s| - 1], c)
  }

  /** The `EmailAddress` rule. */
  predicate EmailAddress(s: Option<string>) {
    s.None? ||
    var i := IndexOf(s.value, '@');
    i > 0 && i != |s.value| - 1 && i == LastIndexOf(s.value, '@')
  }

  predicate NoAt(s: string) {
    forall k | 0 <= k < |s| :: s[k] != '@'
  }

  /** An accepted address is a non-empty local part, one '@' and a
      non-empty domain, neither part holding another '@'. */
  lemma EmailParts(s: string)
    requires EmailAddress(Some(s))
    ensures var i := IndexOf(s, '@');
            && s == s[..i] + "@" + s[i + 1..]
            && s[..i] != [] && s[i + 1..] != []
            && NoAt(s[..i]) && NoAt(s[i + 1..])
  {
    var i := IndexOf(s, '@');
    assert s == s[..i] + [s[i]] + s[i + 1..];
  }

  /** Conversely, any such composition is accepted. */
  lemma EmailOfParts(local: string, domain: string)
    requires local != [] && domain != [] && NoAt(local) && NoAt(domain)
    ensures EmailAddress(Some(local + "@" + domain))
  {
    var s := local + "@" + domain;
    assert s[|local|] == '@';
    assert forall k | 0 <= k < |local| :: s[k] == local[k];
    assert forall k | |local| < k < |s| :: s[k] == domain[k - |local| - 1];
    assert IndexOf(s, '@') == |local|;
    assert LastIndexOf(s, '@') == |local|;
  }

  // ---------------------------------------------------------------------
  // Password

  predicate IsAsciiUpper(c: char) { 'A' <= c <= 'Z' }
  predicate IsAsciiLower(c: char) { 'a' <= c <= 'z' }
  /** The class `[^a-zA-Z0-9]`. */
  predicate IsSpecial(c: char) { !IsAsciiUpper(c) && !IsAsciiLower(c) && !IsDigit(c) }

  predicate HasUpper(s: string) { exists i | 0 <= i < |s| :: IsAsciiUpper(s[i]) }
  predicate HasLower(s: string) { exists i | 0 <= i < |s| :: IsAsciiLower(s[i]) }
  predicate HasDigit(s: string) { exists i | 0 <= i < |s| :: IsDigit(s[i]) }
  predicate HasSpecial(s: string) { exists i | 0 <= i < |s| :: IsSpecial(s[i]) }

  /** The password rules of registration. */
  predicate PasswordValid(p: string) {
    && NotEmpty(Some(p)) && Utf16Length(p) >= 8
    && HasUpper(p) && HasLower(p) && HasDigit(p) && HasSpecial(p)
  }

  /** A strong password is one of at least eight UTF-16 code units with an upper
      case letter, a lower case letter, a digit and a special character;
      the `NotEmpty` rule adds nothing to the others. */
  lemma StrongPassword(p: string)
    ensures PasswordValid(p) <==> Utf16Length(p) >= 8 && HasUpper(p) && HasLower(p) && HasDigit(p) && HasSpecial(p)
  {
    if HasUpper(p) {
      var i :| 0 <= i < |p| && IsAsciiUpper(p[i]);
      assert !IsWhiteSpace(p[i]);
    }
  }

  /** The length rule counts UTF-16 code units: six characters, two of
      them outside the Basic Multilingual Plane, make a password of eight. */
  lemma SurrogatePairsCountTwice()
    ensures |"Aa1!\U{1F600}\U{1F600}"| == 6 && PasswordValid("Aa1!\U{1F600}\U{1F600}")
  {
    var p := "Aa1!\U{1F600}\U{1F600}";
    Utf16LengthAppend("Aa1!", "\U{1F600}\U{1F600}");
    Utf16LengthAppend("\U{1F600}", "\U{1F600}");
    Utf16LengthOfEmoji();
    assert p == "Aa1!" + ("\U{1F600}" + "\U{1F600}");
    assert IsAsciiUpper(p[0]) && IsAsciiLower(p[1]) && IsDigit(p[2]) && IsSpecial(p[3]);
    assert !IsWhiteSpace(p[0]);
  }

  // ---------------------------------------------------------------------
  // Gender

  /** The gender rule: empty, or "male" or "female" in any case. */
  predicate GenderValid(g: Option<string>) {
    IsNullOrEmpty(g) || EqualsIgnoreCase(g.value, "male") || EqualsIgnoreCase(g.value, "female")
  }

  /** Comparing case-insensitively with a lower-case word is comparing the
      lower-cased string with it. */
  lemma EqualsLowerWord(g: string, w: string)
    requires forall i | 0 <= i < |w| :: IsAsciiLower(w[i])
    ensures EqualsIgnoreCase(g, w) <==> ToLower(g) == w
  {
    if EqualsIgnoreCase(g, w) {
      forall i | 0 <= i < |g|
        ensures ToLower(g)[i] == w[i]
      {
        assert UpperChar(g[i]) == UpperChar(w[i]);
      }
    }
    if ToLower(g) == w {
      forall i | 0 <= i < |g|
        ensures ToUpper(g)[i] == ToUpper(w)[i]
      {
        assert LowerChar(g[i]) == w[i];
      }
    }
  }

  /** The accepted genders are exactly the case variants of "male" and
      "female", and the empty one. */
  lemma GenderValues(g: string)
    ensures GenderValid(Some(g)) <==> g == "" || ToLower(g) == "male" || ToLower(g) == "female"
  {
    EqualsLowerWord(g, "male");
    EqualsLowerWord(g, "female");
  }

  // ---------------------------------------------------------------------
  // Dates

  datatype Date = Date(year: nat, month: nat, day: nat)

  predicate IsLeapYear(y: nat) {
    y % 4 == 0 && (y % 100 != 0 || y % 400 == 0)
  }

  function DaysInMonth(y: nat, m: nat): (n: nat)
    requires 1 <= m <= 12
    ensures 28 <= n <= 31
  {
    if m == 2 then (if IsLeapYear(y) then 29 else 28)
    else if m == 4 || m == 6 || m == 9 || m == 11 then 30
    else 31
  }

  /** A day of the Gregorian calendar `DateTime` can hold. */
  predicate ValidDate(d: Date) {
    1 <= d.year <= 9999 && 1 <= d.month <= 12 && 1 <= d.day <= DaysInMonth(d.year, d.month)
  }

  function DigitValue(c: char): nat
    requires IsDigit(c)
  {
    c as int - '0' as int
  }

  function Value2(s: string, i: nat): (n: nat)
    requires i + 2 <= |s| && IsDigit(s[i]) && IsDigit(s[i + 1])
    ensures n < 100
  {
    10 * DigitValue(s[i]) + DigitValue(s[i + 1])
  }

  function Value4(s: string): nat
    requires |s| >= 4 && IsDigit(s[0]) && IsDigit(s[1]) && IsDigit(s[2]) && IsDigit(s[3])
  {
    100 * Value2(s, 0) + Value2(s, 2)
  }

  /** A number below 100 written with two digits. */
  function TwoDigits(n: nat): (s: string)
    requires n < 100
    ensures |s| == 2 && IsDigit(s[0]) && IsDigit(s[1]) && Value2(s, 0) == n
  {
    [DigitChar(n / 10), DigitChar(n % 10)]
  }

  /** Two digits read and written again are the same two digits. */
  lemma TwoDigitsOfValue(s: string, i: nat)
    requires i + 2 <= |s| && IsDigit(s[i]) && IsDigit(s[i + 1])
    ensures TwoDigits(Value2(s, i)) == s[i..i + 2]
  {
    var a, b := DigitValue(s[i]), DigitValue(s[i + 1]);
    assert (10 * a + b) / 10 == a && (10 * a + b) % 10 == b;
    assert DigitChar(a) == s[i] && DigitChar(b) == s[i + 1];
  }

  /** The string has the layout `dddd-dd-dd`. */
  predicate DateLayout(s: string) {
    && |s| == 10 && s[4] == '-' && s[7] == '-'
    && IsDigit(s[0]) && IsDigit(s[1]) && IsDigit(s[2]) && IsDigit(s[3])
    && IsDigit(s[5]) && IsDigit(s[6]) && IsDigit(s[8]) && IsDigit(s[9])
  }

  /** `DateTime.TryParseExact(s, "yyyy-MM-dd", InvariantCulture, None)`:
      exactly four year digits, two month digits and two day digits, no
      surrounding whitespace, and a day that exists. */
  function ParseDate(s: string): (r: Option<Date>)
    ensures r.Some? ==> DateLayout(s) && ValidDate(r.value)
  {
    if !DateLayout(s) then None
    else
      var d := Date(Value4(s), Value2(s, 5), Value2(s, 8));
      if ValidDate(d) then Some(d) else None
  }

  /** `d.ToString("yyyy-MM-dd")`. */
  function FormatDate(d: Date): (s: string)
    requires ValidDate(d)
    ensures DateLayout(s)
  {
    TwoDigits(d.year / 100) + TwoDigits(d.year % 100) + "-" + TwoDigits(d.month) + "-" + TwoDigits(d.day)
  }

  /** Every day of the calendar is written and read back unchanged. */
  lemma ParseFormattedDate(d: Date)
    requires ValidDate(d)
    ensures ParseDate(FormatDate(d)) == Some(d)
  {
    var s := FormatDate(d);
    var hi, lo := TwoDigits(d.year / 100), TwoDigits(d.year % 100);
    assert s[0..2] == hi && s[2..4] == lo && s[5..7] == TwoDigits(d.month) && s[8..10] == TwoDigits(d.day);
    assert Value2(s, 0) == Value2(hi, 0) && Value2(s, 2) == Value2(lo, 0);
    assert Value2(s, 5) == d.month && Value2(s, 8) == d.day;
    assert Value4(s) == d.year;
  }

  /** Every accepted string is the one way of writing its day: the format
      admits no variants. */
  lemma FormatParsedDate(s: string)
    requires ParseDate(s).Some?
    ensures FormatDate(ParseDate(s).value) == s
  {
    var d := ParseDate(s).value;
    var hi, lo := Value2(s, 0), Value2(s, 2);
    assert d.year / 100 == hi && d.year % 100 == lo;
    TwoDigitsOfValue(s, 0);
    TwoDigitsOfValue(s, 2);
    TwoDigitsOfValue(s, 5);
    TwoDigitsOfValue(s, 8);
    assert s == s[0..2] + s[2..4] + "-" + s[5..7] + "-" + s[8..10];
  }

  /** The birth date rule: empty, or a day in `yyyy-MM-dd`. */
  predicate BirthDateValid(s: Option<string>) {
    IsNullOrEmpty(s) || ParseDate(s.value).Some?
  }

  // ---------------------------------------------------------------------
  // Phone numbers

  predicate AllDigits(s: string) {
    forall i | 0 <= i < |s| :: IsDigit(s[i])
  }

  /** The string without one final newline. */
  function BeforeNewline(s: string): (t: string)
    ensures s == t || s == t + "\n"
  {
    if s != [] && s[|s| - 1] == '\n' then s[..|s| - 1] else s
  }

  /** The digits after an optional leading '+'. */
  function AfterPlus(t: string): (d: string)
    ensures t == d || t == "+" + d
  {
    if t != [] && t[0] == '+' then t[1..] else t
  }

  /** `Regex.IsMatch(s, @"^\+?\d{9,15}$")`. The anchor `$` also matches
      before a final newline, so one trailing '\n' is admitted. */
  predicate PhonePattern(s: string) {
    var digits := AfterPlus(BeforeNewline(s));
    9 <= |digits| <= 15 && AllDigits(digits)
  }

  /** The phone rule: blank, or the pattern above. */
  predicate PhoneValid(p: Option<string>) {
    IsNullOrWhiteSpace(p) || PhonePattern(p.value)
  }

  /** Trimming a number the pattern accepts drops just the final newline. */
  lemma PatternTrim(p: string)
    requires PhonePattern(p)
    ensures Trim(p) == BeforeNewline(p)
  {
    var t := BeforeNewline(p);
    var d := AfterPlus(t);
    assert t[0] == '+' || IsDigit(t[0]);
    assert IsDigit(t[|t| - 1]) by { assert t[|t| - 1] == d[|d| - 1]; }
    TrimOfTrimmed(t);
    if t != p {
      assert SkipWhiteSpaceBack(p, |p|) == |t|;
      assert SkipWhiteSpace(p, 0) == 0;
      assert p[0..|t|] == t;
    }
  }

  /** A number the phone rule accepts is sent to the identity provider as
      '+' and nothing but digits, at least three and at most sixteen of
      them; a trunk '0' makes room for the two digits of the country code. */
  lemma ValidPhoneIsInternational(p: string)
    requires PhoneValid(Some(p)) && !IsBlank(p)
    ensures var r := CognitoAuth.ToE164(p);
            && 3 <= |r| <= 17 && r[0] == '+' && AllDigits(r[1..])
  {
    PatternTrim(p);
    var t := BeforeNewline(p);
    if !StartsWith(t, "+") {
      assert t[..1] != "+";
      InternationalDigits(t);
    }
  }

  /** The international form of a number of nine to fifteen digits. */
  lemma InternationalDigits(t: string)
    requires 9 <= |t| <= 15 && AllDigits(t)
    ensures var r := CognitoAuth.International(t);
            3 <= |r| <= 17 && r[0] == '+' && AllDigits(r[1..])
  {
    var r := CognitoAuth.International(t);
    var rest := TrimStartChar(t, '0');
    DigitsAfterZeros(t);
    if r == "+" + rest {
      PlusDigits("+", rest);
    } else {
      PlusDigits(CognitoAuth.CountryCode, rest);
    }
  }

  /** What remains of a string of digits without its leading zeros is
      still digits, and at most one shorter when the string started with a
      zero. */
  lemma DigitsAfterZeros(t: string)
    requires AllDigits(t)
    ensures AllDigits(TrimStartChar(t, '0'))
  {
    var rest := TrimStartChar(t, '0');
    assert forall i | 0 <= i < |rest| :: rest[i] == t[|t| - |rest| + i];
  }

  lemma PlusDigits(pre: string, rest: string)
    requires |pre| >= 1 && pre[0] == '+' && AllDigits(pre[1..]) && AllDigits(rest)
    ensures (pre + rest)[0] == '+' && AllDigits((pre + rest)[1..])
  {
    assert (pre + rest)[1..] == pre[1..] + rest;
  }

  // ---------------------------------------------------------------------
  // Users

  /** `RegisterUserRequestValidator`. */
  predicate RegisterValid(req: CognitoAuth.RegisterUserRequest) {
    && NotEmpty(Some(req.email)) && EmailAddress(Some(req.email))
    && PasswordValid(req.password)
    && NotEmpty(Some(req.name)) && Utf16Length(req.name) <= 50
    && GenderValid(Some(req.gender))
    && NotEmpty(Some(req.birthDate)) && BirthDateValid(Some(req.birthDate))
    && PhoneValid(Some(req.phoneNumber))
  }

  /** `UpdateUserRequestValidator`: every field optional. */
  predicate UpdateUserValid(req: UserService.UpdateUserRequest) {
    MaxLength(req.name, 50) && GenderValid(req.gender) && BirthDateValid(req.birthDate) && PhoneValid(req.phoneNumber)
  }

  /** A stored profile every field of which the profile rules accept. */
  predicate ProfileValid(u: User) {
    UpdateUserValid(UserService.UpdateUserRequest(Some(u.name), Some(u.gender), Some(u.birthDate), Some(u.phoneNumber)))
  }

  /** A profile registration accepts is one the update rules accept too:
      registration only adds requirements. */
  lemma RegisteredProfileValid(req: CognitoAuth.RegisterUserRequest)
    requires RegisterValid(req)
    ensures UpdateUserValid(UserService.UpdateUserRequest(Some(req.name), Some(req.gender), Some(req.birthDate), Some(req.phoneNumber)))
    ensures NotEmpty(Some(req.name)) && NotEmpty(Some(req.birthDate))
  {
  }

  /** The merge keeps an accepted profile accepted: each field comes
      either from the request, which the rules checked, or from the stored
      profile. */
  lemma MergeKeepsProfile(u: User, req: UserService.UpdateUserRequest)
    requires ProfileValid(u) && UpdateUserValid(req)
    ensures ProfileValid(UserService.Merged(u, req))
  {
  }

  /** An accepted profile update keeps the stored profile accepted. */
  lemma ValidUpdateKeepsProfile(db: Db, userId: string, req: UserService.UpdateUserRequest)
    requires userId in db.users && ProfileValid(db.users[userId]) && UpdateUserValid(req)
    ensures var db1 := UserService.UpdateUser(db, userId, req).1;
            userId in db1.users && ProfileValid(db1.users[userId])
  {
    var m := UserService.Merged(db.users[userId], req);
    MergeKeepsProfile(db.users[userId], req);
    assert UserService.UpdateUser(db, userId, req).1.users[userId] == m;
  }

  /** `IsValidCredentials` of `LoginRequestValidator`: both present and
      not blank, an '@' in the email, a password of at least eight. */
  predicate CredentialsValid(email: Option<string>, password: Option<string>) {
    && !IsNullOrWhiteSpace(email) && !IsNullOrWhiteSpace(password)
    && Contains(email.value, "@") && Utf16Length(password.value) >= 8
  }

  /** Credentials registration accepted pass the login check. */
  lemma RegisteredCredentialsPassLogin(req: CognitoAuth.RegisterUserRequest)
    requires RegisterValid(req)
    ensures CredentialsValid(Some(req.email), Some(req.password))
  {
    var i := IndexOf(req.email, '@');
    assert OccursAt(req.email, "@", i);
  }

  /** The login check's rule on the email is weaker than the register
      rule's: it only asks for an '@'. */
  lemma LoginEmailLooserThanRegister()
    ensures CredentialsValid(Some("@@"), Some("12345678"))
    ensures !EmailAddress(Some("@@"))
  {
    assert !IsWhiteSpace("@@"[0]) && !IsWhiteSpace("12345678"[0]);
    assert OccursAt("@@", "@", 0);
  }

  // ---------------------------------------------------------------------
  // Channels

  /** `UpdateDescriptionRequestValidator`. */
  predicate UpdateDescriptionValid(description: Option<string>) {
    NotEmpty(description) && MaxLength(description, 500)
  }

  /** An accepted description is what the user's channel holds afterwards:
      present, not blank, and at most 500 UTF-16 code units long. */
  lemma ValidDescriptionStored(t: ChannelTable, userId: string, description: Option<string>)
    requires UpdateDescriptionValid(description) && userId in t
    ensures var r := ChannelService.UpdateDescription(t, userId, description.value);
            && r.0 && !IsBlank(r.1[userId].description) && Utf16Length(r.1[userId].description) <= 500
  {
  }

  // ---------------------------------------------------------------------
  // Videos

  predicate IsHex(c: char) {
    IsDigit(c) || 'a' <= c <= 'f' || 'A' <= c <= 'F'
  }

  predicate AllHex(s: string) {
    forall i | 0 <= i < |s| :: IsHex(s[i])
  }

  /** The 32-digit layout `N`. */
  predicate GuidDigits(s: string) {
    |s| == 32 && AllHex(s)
  }

  /** The hyphenated layout `D`: 8-4-4-4-12 hex digits. */
  predicate GuidHyphenated(s: string) {
    && |s| == 36 && s[8] == '-' && s[13] == '-' && s[18] == '-' && s[23] == '-'
    && AllHex(s[..8]) && AllHex(s[9..13]) && AllHex(s[14..18]) && AllHex(s[19..23]) && AllHex(s[24..])
  }

  /** The layouts `B` and `P`: `D` in braces or parentheses. */
  predicate GuidEnclosed(s: string) {
    && |s| == 38 && ((s[0] == '{' && s[37] == '}') || (s[0] == '(' && s[37] == ')'))
    && GuidHyphenated(s[1..37])
  }

  /** `Guid.TryParse`: surrounding whitespace is ignored. */
  predicate IsGuid(s: string) {
    var t := Trim(s);
    GuidDigits(t) || GuidHyphenated(t) || GuidEnclosed(t)
  }

  /** The hyphenated rendering of 32 hex digits, `Guid.ToString()`. */
  function Hyphenated(h: string): (s: string)
    requires GuidDigits(h)
    ensures |s| == 36
  {
    h[..8] + "-" + h[8..12] + "-" + h[12..16] + "-" + h[16..20] + "-" + h[20..]
  }

  /** Every GUID the platform renders is accepted as a channel id, bare or
      enclosed. */
  lemma RenderedGuidAccepted(h: string)
    requires GuidDigits(h)
    ensures IsGuid(h) && IsGuid(Hyphenated(h)) && IsGuid("{" + Hyphenated(h) + "}")
  {
    var s := Hyphenated(h);
    assert s[..8] == h[..8] && s[9..13] == h[8..12] && s[14..18] == h[12..16];
    assert s[19..23] == h[16..20] && s[24..] == h[20..];
    assert GuidHyphenated(s);
    assert !IsWhiteSpace(h[0]) && !IsWhiteSpace(h[31]);
    TrimOfTrimmed(h);
    TrimOfTrimmed(s);
    var e := "{" + s + "}";
    TrimOfTrimmed(e);
    assert e[1..37] == s;
  }

  /** `PresignUrlRequestValidator`: the description limit applies only to
      a description that is not blank. */
  predicate PresignValid(req: VideoService.PresignUrlRequest) {
    && NotEmpty(Some(req.channelId)) && IsGuid(req.channelId)
    && NotEmpty(Some(req.title)) && Utf16Length(req.title) <= 100
    && (IsNullOrWhiteSpace(req.description) || Utf16Length(req.description.value) <= 500)
  }

  /** The channel id's `NotEmpty` rule adds nothing: a GUID is never
      blank. */
  lemma PresignRules(req: VideoService.PresignUrlRequest)
    ensures PresignValid(req) <==>
              && IsGuid(req.channelId) && !IsBlank(req.title) && Utf16Length(req.title) <= 100
              && (IsNullOrWhiteSpace(req.description) || Utf16Length(req.description.value) <= 500)
  {
  }

  /** A video registered for an accepted upload request has a GUID channel
      id, a non-blank title of at most 100 UTF-16 code units, and a
      description that is blank or at most 500 code units long. */
  lemma ValidPresignStoresValidVideo(db: Db, req: VideoService.PresignUrlRequest, userId: string, videoId: string,
                                     now: Instant, presign: string -> string)
    requires PresignValid(req)
    ensures var v := VideoService.GenerateUploadUrl(db, req, userId, true, videoId, now, presign).1.videos[videoId];
            && IsGuid(v.channelId) && !IsBlank(v.title) && Utf16Length(v.title) <= 100
            && (IsBlank(v.description) || Utf16Length(v.description) <= 500)
  {
  }

  /** `UpdateVideoRequestValidator`: each rule applies only to a field the
      request carries. */
  predicate UpdateVideoValid(req: VideoService.UpdateVideoRequest) {
    && (req.title.None? || (NotEmpty(req.title) && Utf16Length(req.title.value) <= 200))
    && MaxLength(req.description, 2000)
  }

  /** An accepted edit never blanks a title or makes it longer than 200
      UTF-16 code units, nor a description longer than 2000. */
  lemma ValidEditKeepsTitle(db: Db, videoId: string, userId: string, req: VideoService.UpdateVideoRequest, now: Instant)
    requires videoId in db.videos && UpdateVideoValid(req)
    requires !IsBlank(db.videos[videoId].title) && Utf16Length(db.videos[videoId].title) <= 200
    requires Utf16Length(db.videos[videoId].description) <= 2000
    ensures var r := VideoService.UpdateVideo(db, videoId, userId, req, now);
            r.0.Ok? ==> !IsBlank(r.0.value.title) && Utf16Length(r.0.value.title) <= 200 && Utf16Length(r.0.value.description) <= 2000
  {
  }
}

=== FILE: video_likes.dfy ===
/** `VideoLikeService`: liking a video is a toggle over the VideoLikes
    table (hash key `userId`, range key `videoId`) kept in step with the
    video's `LikeCount`, on the same pattern as comment likes. The like
    count goes out as a 32-bit `TotalLikes`.
 */
module VideoLikeService {
  import opened Wrappers
  import opened Entities
  import opened Ordering
  import Text
  import NotificationService
  import CommentLikeService

  datatype ToggleLikeResponse = ToggleLikeResponse(videoId: string, isLiked: bool, totalLikes: int, message: string)

  const LikedMessage: string := "Video liked successfully"
  const UnlikedMessage: string := "Video unliked successfully"

  /** Whether the user's like record for the video exists. */
  predicate IsLiked(t: VideoLikeTable, userId: string, videoId: string) {
    VideoLikeKey(userId, videoId) in t
  }

  /** The record side of the toggle: the user's like record is added when
      absent and deleted when present, and no other record changes. */
  function ToggleRecord(t: VideoLikeTable, userId: string, videoId: string, now: Instant): (r: VideoLikeTable)
    ensures IsLiked(r, userId, videoId) == !IsLiked(t, userId, videoId)
    ensures !IsLiked(t, userId, videoId) ==> r[VideoLikeKey(userId, videoId)] == VideoLike(userId, videoId, now)
    ensures forall k | k != VideoLikeKey(userId, videoId) :: (k in r <==> k in t) && (k in r ==> r[k] == t[k])
  {
    var l := VideoLike(userId, videoId, now);
    if l.Key() in t then t - {l.Key()} else t[l.Key() := l]
  }

  /** Adding a record and then toggling again removes it. */
  lemma ToggleRecordTwice(t: VideoLikeTable, userId: string, videoId: string, now: Instant, later: Instant)
    requires !IsLiked(t, userId, videoId)
    ensures ToggleRecord(ToggleRecord(t, userId, videoId, now), userId, videoId, later) == t
  {
    var k := VideoLikeKey(userId, videoId);
    assert ToggleRecord(t, userId, videoId, now) == t[k := VideoLike(userId, videoId, now)];
    assert t[k := VideoLike(userId, videoId, now)] - {k} == t;
  }

  /** Saving a video back over a later version of itself restores the
      table. */
  lemma SaveVideoRestores(t: VideoTable, v: Video, w: Video)
    requires v.videoId in t && t[v.videoId] == v && w.videoId == v.videoId
    ensures SaveVideo(SaveVideo(t, w), v) == t
  {
    assert SaveVideo(SaveVideo(t, w), v).Keys == t.Keys;
  }

  /** The notification a like of someone else's video asks for. */
  function LikedRequest(v: Video, userId: string): NotificationService.CreateNotificationRequest {
    NotificationService.CreateNotificationRequest(v.userId, userId, VideoLiked.Name(), Some(v.videoId), None)
  }

  /** The store after the record and the video's count have changed, before
      any notification. */
  function Toggled(db: Db, v: Video, userId: string, now: Instant): (r: Db)
    ensures r == db.(videos := SaveVideo(db.videos, v.(likeCount := CommentLikeService.Counted(v.likeCount, !IsLiked(db.videoLikes, userId, v.videoId)))),
                     videoLikes := ToggleRecord(db.videoLikes, userId, v.videoId, now))
  {
    var liked := !IsLiked(db.videoLikes, userId, v.videoId);
    db.(videos := SaveVideo(db.videos, v.(likeCount := CommentLikeService.Counted(v.likeCount, liked))),
        videoLikes := ToggleRecord(db.videoLikes, userId, v.videoId, now))
  }

  /** `ToggleLikeAsync`. A missing video is `NotFoundException`. With a
      like record: it is deleted and the count goes down by one, but not
      below zero. Without: one is saved, the count goes up by one and the
      uploader is notified unless they liked their own video; a failing
      notification leaves the like as it is. `TotalLikes` is the new count
      cast to 32 bits. */
  function ToggleLike(db: Db, userId: string, videoId: string, now: Instant, newId: string)
    : (r: (Result<ToggleLikeResponse>, Db))
    ensures r.0.Ok? <==> videoId in db.videos
    ensures r.0.Err? ==> r == (Err(NotFoundException), db)
    ensures r.0.Ok? ==>
              var v := db.videos[videoId];
              var x := r.0.value;
              && x == ToggleLikeResponse(videoId, !IsLiked(db.videoLikes, userId, videoId),
                                         Text.WrapInt32(CommentLikeService.Counted(v.likeCount, x.isLiked)),
                                         if x.isLiked then LikedMessage else UnlikedMessage)
              && r.1 == NotificationService.NotifyOwner(Toggled(db, v, userId, now), LikedRequest(v, userId), x.isLiked, newId, now)
  {
    if videoId !in db.videos then (Err(NotFoundException), db)
    else
      var v := db.videos[videoId];
      var liked := !IsLiked(db.videoLikes, userId, videoId);
      var count := CommentLikeService.Counted(v.likeCount, liked);
      (Ok(ToggleLikeResponse(videoId, liked, Text.WrapInt32(count), if liked then LikedMessage else UnlikedMessage)),
       NotificationService.NotifyOwner(Toggled(db, v, userId, now), LikedRequest(v, userId), liked, newId, now))
  }

  datatype VideoLikeStatusResponse = VideoLikeStatusResponse(videoId: string, isLiked: bool, totalLikes: int)

  /** `GetLikeStatusAsync`: whether the user likes the video and its count
      cast to 32 bits; a missing video is `NotFoundException`. */
  function GetLikeStatus(db: Db, userId: string, videoId: string): (r: Result<VideoLikeStatusResponse>)
    ensures r.Ok? <==> videoId in db.videos
    ensures r.Err? ==> r.error == NotFoundException
    ensures r.Ok? ==> r.value.videoId == videoId
                      && (r.value.isLiked <==> VideoLikeKey(userId, videoId) in db.videoLikes)
                      && r.value.totalLikes == Text.WrapInt32(db.videos[videoId].likeCount)
  {
    if videoId !in db.videos then Err(NotFoundException)
    else Ok(VideoLikeStatusResponse(videoId, IsLiked(db.videoLikes, userId, videoId), Text.WrapInt32(db.videos[videoId].likeCount)))
  }

  /** What a toggle of an existing video does to the two tables it owns:
      the like record flips and the video is saved with the new count. */
  lemma ToggleEffect(db: Db, userId: string, videoId: string, now: Instant, newId: string)
    requires videoId in db.videos
    ensures var r := ToggleLike(db, userId, videoId, now, newId);
            var v := db.videos[videoId];
            && r.0.Ok?
            && r.0.value.isLiked == !IsLiked(db.videoLikes, userId, videoId)
            && r.1.videoLikes == ToggleRecord(db.videoLikes, userId, videoId, now)
            && r.1.videos == SaveVideo(db.videos, v.(likeCount := CommentLikeService.Counted(v.likeCount, r.0.value.isLiked)))
  {
    var r := ToggleLike(db, userId, videoId, now, newId);
    var db1 := Toggled(db, db.videos[videoId], userId, now);
    assert r.1.videos == db1.videos && r.1.videoLikes == db1.videoLikes;
  }

  /** After a toggle the like status reports the state the toggle's
      response announced, the opposite of the state before, and the same
      total. */
  lemma ToggleThenStatus(db: Db, userId: string, videoId: string, now: Instant, newId: string)
    requires videoId in db.videos
    ensures var r := ToggleLike(db, userId, videoId, now, newId);
            var s := GetLikeStatus(r.1, userId, videoId);
            && r.0.Ok? && s.Ok?
            && s.value.isLiked == r.0.value.isLiked
            && s.value.isLiked == !IsLiked(db.videoLikes, userId, videoId)
            && s.value.totalLikes == r.0.value.totalLikes
  {
    ToggleEffect(db, userId, videoId, now, newId);
  }

  /** Liking and then unliking leaves the like records and the videos as
      they were, provided the counter was not negative. */
  lemma LikeThenUnlikeRestores(db: Db, userId: string, videoId: string,
                               now: Instant, newId: string, later: Instant, laterId: string)
    requires videoId in db.videos
    requires !IsLiked(db.videoLikes, userId, videoId)
    requires db.videos[videoId].likeCount >= 0
    ensures var r1 := ToggleLike(db, userId, videoId, now, newId);
            var r2 := ToggleLike(r1.1, userId, videoId, later, laterId);
            && r1.0.Ok? && r1.0.value.isLiked
            && r2.0.Ok? && !r2.0.value.isLiked
            && r2.1.videoLikes == db.videoLikes
            && r2.1.videos == db.videos
  {
    var v := db.videos[videoId];
    var r1 := ToggleLike(db, userId, videoId, now, newId);
    ToggleEffect(db, userId, videoId, now, newId);
    ToggleEffect(r1.1, userId, videoId, later, laterId);
    ToggleRecordTwice(db.videoLikes, userId, videoId, now, later);
    var v1 := v.(likeCount := v.likeCount + 1);
    assert r1.1.videos[videoId] == v1;
    assert v1.(likeCount := CommentLikeService.Counted(v1.likeCount, false)) == v;
    SaveVideoRestores(db.videos, v, v1);
  }

  // ---------------------------------------------------------------------
  // Liked videos

  /** `LikedVideoDto`; the video's `Duration`, a floating-point value, is
      not carried. */
  datatype LikedVideoDto = LikedVideoDto(
    videoId: string,
    channelId: string,
    userId: string,
    title: string,
    description: string,
    playbackUrl: Option<string>,
    key: Option<string>,
    status: string,
    thumbnailUrl: Option<string>,
    kind: string,
    viewCount: int,
    likeCount: int,
    commentCount: int,
    createdAt: Instant,
    updatedAt: Instant,
    likedAt: Instant,
    channelName: string,
    userName: string,
    userAvatarUrl: string)

  datatype UserLikedVideosResponse = UserLikedVideosResponse(videos: seq<LikedVideoDto>, totalCount: int)

  /** One liked video as listed: the video's own fields, when the user liked
      it, the channel's name ("Unknown" when the channel is gone), and the
      uploader's name and avatar (empty when the uploader id is empty or
      the user is gone). */
  function LikedDto(db: Db, v: Video, l: VideoLike): (d: LikedVideoDto)
    ensures d.videoId == v.videoId && d.channelId == v.channelId && d.userId == v.userId
    ensures d.title == v.title && d.likeCount == v.likeCount && d.likedAt == l.createdAt
    ensures d.channelName == ChannelNameOf(db.channels, v.channelId)
    ensures v.userId == "" || v.userId !in db.users ==> d.userName == "" && d.userAvatarUrl == ""
    ensures v.userId != "" && v.userId in db.users ==>
              d.userName == db.users[v.userId].name
              && d.userAvatarUrl == db.users[v.userId].avatarUrl.GetOr("")
  {
    var owner := if v.userId != "" && v.userId in db.users then Some(db.users[v.userId]) else None;
    LikedVideoDto(
      v.videoId, v.channelId, v.userId, v.title, v.description, v.playbackUrl, v.key, v.status,
      v.thumbnailUrl, v.kind, v.viewCount, v.likeCount, v.commentCount, v.createdAt, v.updatedAt,
      l.createdAt,
      ChannelNameOf(db.channels, v.channelId),
      if owner.Some? then owner.value.name else "",
      if owner.Some? then owner.value.avatarUrl.GetOr("") else "")
  }

  /** The ids of the videos the user has a like record for. */
  function LikedVideoIds(t: VideoLikeTable, userId: string): set<string> {
    set k | k in t && k.userId == userId :: k.videoId
  }

  lemma LikedVideoIdsStored(t: VideoLikeTable, userId: string, id: string)
    ensures id in LikedVideoIds(t, userId) <==> VideoLikeKey(userId, id) in t
  {
    if id in LikedVideoIds(t, userId) {
      var k :| k in t && k.userId == userId && k.videoId == id;
      assert k == VideoLikeKey(userId, id);
    }
  }

  /** The user's like records for the videos `ids`, in order. */
  function LikesAt(t: VideoLikeTable, userId: string, ids: seq<string>): (r: seq<VideoLike>)
    requires forall id | id in ids :: VideoLikeKey(userId, id) in t
    ensures |r| == |ids|
    ensures forall i | 0 <= i < |ids| :: r[i] == t[VideoLikeKey(userId, ids[i])] && r[i].videoId == ids[i]
  {
    seq(|ids|, i requires 0 <= i < |ids| => t[VideoLikeKey(userId, ids[i])])
  }

  /** `GetUserLikesAsync`: a query on the user's partition, so the user's
      like records in ascending `videoId` order. */
  function UserLikes(t: VideoLikeTable, userId: string): (r: seq<VideoLike>)
    ensures forall l :: l in r <==> l.Key() in t && t[l.Key()] == l && l.userId == userId
    ensures forall i, j | 0 <= i < j < |r| :: StrLt(r[i].videoId, r[j].videoId)
  {
    var ids := SortedStrings(LikedVideoIds(t, userId));
    forall id | id in ids ensures VideoLikeKey(userId, id) in t {
      LikedVideoIdsStored(t, userId, id);
    }
    var r := LikesAt(t, userId, ids);
    UserLikesCover(t, userId, ids, r);
    r
  }

  lemma UserLikesCover(t: VideoLikeTable, userId: string, ids: seq<string>, r: seq<VideoLike>)
    requires forall id :: id in ids <==> id in LikedVideoIds(t, userId)
    requires |r| == |ids| && forall i | 0 <= i < |ids| :: VideoLikeKey(userId, ids[i]) in t && r[i] == t[VideoLikeKey(userId, ids[i])]
    ensures forall l :: l in r <==> l.Key() in t && t[l.Key()] == l && l.userId == userId
  {
    forall l: VideoLike | l.Key() in t && t[l.Key()] == l && l.userId == userId ensures l in r {
      LikedVideoIdsStored(t, userId, l.videoId);
      var i :| 0 <= i < |ids| && ids[i] == l.videoId;
      assert r[i] == l;
    }
    forall l | l in r ensures l.Key() in t && t[l.Key()] == l && l.userId == userId {
      var i :| 0 <= i < |r| && r[i] == l;
      LikedVideoIdsStored(t, userId, ids[i]);
    }
  }

  /** The order of the response: latest like first. */
  function NewestLikeFirst(d: LikedVideoDto): Key {
    Key(-(d.likedAt as int), 0)
  }

  /** The liked videos that still exist, one per like, in the order of the
      user's likes. */
  function Listed(db: Db, likes: seq<VideoLike>): (r: seq<LikedVideoDto>)
    ensures |r| <= |likes|
    ensures forall i | 0 <= i < |likes| && likes[i].videoId in db.videos ::
              LikedDto(db, db.videos[likes[i].videoId], likes[i]) in r
    ensures forall d | d in r :: d.videoId in db.videos
    ensures forall d | d in r :: exists l | l in likes :: l.videoId == d.videoId && d == LikedDto(db, db.videos[l.videoId], l)
  {
    if likes == [] then []
    else
      var rest := Listed(db, likes[1..]);
      assert forall i | 1 <= i < |likes| :: likes[i] == likes[1..][i - 1];
      assert forall l | l in likes[1..] :: l in likes;
      if likes[0].videoId in db.videos then [LikedDto(db, db.videos[likes[0].videoId], likes[0])] + rest
      else rest
  }

  function LikedVideoId(l: VideoLike): string { l.videoId }
  function ListedVideoId(d: LikedVideoDto): string { d.videoId }

  /** Listing likes of distinct videos lists each video once. */
  lemma {:induction false} ListedDistinct(db: Db, likes: seq<VideoLike>)
    requires DistinctBy(likes, LikedVideoId)
    ensures DistinctBy(Listed(db, likes), ListedVideoId)
  {
    if likes != [] {
      DistinctByTail(likes, LikedVideoId);
      ListedDistinct(db, likes[1..]);
      var rest := Listed(db, likes[1..]);
      if likes[0].videoId in db.videos {
        forall d | d in rest ensures ListedVideoId(d) != ListedVideoId(LikedDto(db, db.videos[likes[0].videoId], likes[0])) {
          var l :| l in likes[1..] && l.videoId == d.videoId && d == LikedDto(db, db.videos[l.videoId], l);
        }
        DistinctByCons(LikedDto(db, db.videos[likes[0].videoId], likes[0]), rest, ListedVideoId);
      }
    }
  }

  /** The user's likes are of distinct videos, so the sorted listing
      names each video once. */
  lemma SortedListingDistinct(db: Db, userId: string)
    ensures DistinctBy(SortByKey(Listed(db, UserLikes(db.videoLikes, userId)), NewestLikeFirst), ListedVideoId)
  {
    var likes := UserLikes(db.videoLikes, userId);
    forall i, j | 0 <= i < j < |likes| ensures LikedVideoId(likes[i]) != LikedVideoId(likes[j]) {
      StrLtIrreflexive(likes[i].videoId);
    }
    ListedDistinct(db, likes);
    var listed := Listed(db, likes);
    PermutationKeepsDistinct(listed, SortByKey(listed, NewestLikeFirst), ListedVideoId);
  }

  /** `GetUserLikedVideosAsync`: for each of the user's likes whose video
      still exists, the video with its channel and uploader details, latest
      like first; `TotalCount` is the number listed. */
  function GetUserLikedVideos(db: Db, userId: string): (r: UserLikedVideosResponse)
    ensures r.totalCount == |r.videos|
    ensures SortedBy(r.videos, NewestLikeFirst)
    ensures forall d | d in r.videos ::
              && d.videoId in db.videos
              && VideoLikeKey(userId, d.videoId) in db.videoLikes
              && d == LikedDto(db, db.videos[d.videoId], db.videoLikes[VideoLikeKey(userId, d.videoId)])
    ensures forall id | VideoLikeKey(userId, id) in db.videoLikes && id in db.videos ::
              LikedDto(db, db.videos[id], db.videoLikes[VideoLikeKey(userId, id)]) in r.videos
    ensures forall i, j | 0 <= i < j < |r.videos| :: r.videos[i].videoId != r.videos[j].videoId
  {
    var likes := UserLikes(db.videoLikes, userId);
    var listed := Listed(db, likes);
    var sorted := SortByKey(listed, NewestLikeFirst);
    SortByKeyMembers(listed, NewestLikeFirst);
    SortedListingDistinct(db, userId);
    ListingCoversLikes(db, userId);
    UserLikedVideosResponse(sorted, |sorted|)
  }

  /** Every like of the user whose video exists is listed. */
  lemma ListingCoversLikes(db: Db, userId: string)
    ensures forall id | VideoLikeKey(userId, id) in db.videoLikes && id in db.videos ::
              LikedDto(db, db.videos[id], db.videoLikes[VideoLikeKey(userId, id)]) in Listed(db, UserLikes(db.videoLikes, userId))
  {
    var likes := UserLikes(db.videoLikes, userId);
    forall id | VideoLikeKey(userId, id) in db.videoLikes && id in db.videos
      ensures LikedDto(db, db.videos[id], db.videoLikes[VideoLikeKey(userId, id)]) in Listed(db, likes)
    {
      var l := db.videoLikes[VideoLikeKey(userId, id)];
      assert l in likes;
      var i :| 0 <= i < |likes| && likes[i] == l;
    }
  }

  /** A like shows up in the user's liked videos, stamped with the time of
      the like. */
  lemma LikedVideoListed(db: Db, userId: string, videoId: string, now: Instant, newId: string)
    requires videoId in db.videos
    requires !IsLiked(db.videoLikes, userId, videoId)
    ensures var r := ToggleLike(db, userId, videoId, now, newId);
            && videoId in r.1.videos
            && LikedDto(r.1, r.1.videos[videoId], VideoLike(userId, videoId, now)) in GetUserLikedVideos(r.1, userId).videos
  {
    ToggleEffect(db, userId, videoId, now, newId);
  }
}

=== FILE: video_repository.dfy ===
/** `VideoRepository` and the channel reads of `ChannelRepository`: the
    Videos table keyed by `videoId` and the Channels table keyed by
    `channelId`. A scan returns items in the store's order; the model takes
    ascending id.
 */
module VideoRepository {
  import opened Wrappers
  import opened Entities
  import opened Ordering

  /** The stored videos under `ids`, in order. */
  function VideosAt(t: VideoTable, ids: seq<string>): (r: seq<Video>)
    requires forall id | id in ids :: id in t
    ensures |r| == |ids|
    ensures forall i | 0 <= i < |r| :: r[i] == t[ids[i]] && r[i].videoId == ids[i]
  {
    if ids == [] then [] else [t[ids[0]]] + VideosAt(t, ids[1..])
  }

  /** `GetAllVideosAsync`: every stored video exactly once. */
  function AllVideos(t: VideoTable): (r: seq<Video>)
    ensures |r| == |t|
    ensures forall v :: v in r <==> v.videoId in t && t[v.videoId] == v
    ensures forall i, j | 0 <= i < j < |r| :: r[i].videoId != r[j].videoId
  {
    var ids := SortedStrings(t.Keys);
    AscendingDistinct(ids);
    var r := VideosAt(t, ids);
    AllVideosCover(t, ids, r);
    assert |t.Keys| == |t|;
    r
  }

  lemma AllVideosCover(t: VideoTable, ids: seq<string>, r: seq<Video>)
    requires forall id :: id in ids <==> id in t
    requires |r| == |ids| && forall i | 0 <= i < |r| :: r[i] == t[ids[i]]
    ensures forall v :: v in r <==> v.videoId in t && t[v.videoId] == v
  {
    forall v: Video | v.videoId in t && t[v.videoId] == v ensures v in r {
      var i :| 0 <= i < |ids| && ids[i] == v.videoId;
      assert r[i] == v;
    }
  }

  function IdOfVideo(v: Video): string { v.videoId }

  /** The filter of a channel's videos. */
  function OnChannel(channelId: string): Video -> bool {
    (v: Video) => v.channelId == channelId
  }

  /** `GetVideosByChannelIdAsync`: the channel's videos, from a filtered
      scan, each once: there are as many as the channel has stored videos. */
  function VideosByChannel(t: VideoTable, channelId: string): (r: seq<Video>)
    ensures forall v :: v in r <==> v.videoId in t && t[v.videoId] == v && v.channelId == channelId
    ensures forall i, j | 0 <= i < j < |r| :: r[i].videoId != r[j].videoId
    ensures |r| == |set id | id in t && t[id].channelId == channelId|
  {
    ChannelListingCounted(t, channelId);
    Filter(AllVideos(t), OnChannel(channelId))
  }

  /** The filtered scan has no repeats, so it counts the channel's ids. */
  lemma ChannelListingCounted(t: VideoTable, channelId: string)
    ensures DistinctBy(Filter(AllVideos(t), OnChannel(channelId)), IdOfVideo)
    ensures |Filter(AllVideos(t), OnChannel(channelId))| == |set id | id in t && t[id].channelId == channelId|
  {
    var all := AllVideos(t);
    var r := Filter(all, OnChannel(channelId));
    assert DistinctBy(all, IdOfVideo);
    FilterKeepsDistinct(all, OnChannel(channelId), IdOfVideo);
    DistinctKeysCount(r, IdOfVideo);
    ChannelIdsListed(t, channelId, r);
  }

  /** The ids of a listing of exactly the channel's videos are the
      channel's stored ids. */
  lemma ChannelIdsListed(t: VideoTable, channelId: string, r: seq<Video>)
    requires forall v :: v in r <==> v.videoId in t && t[v.videoId] == v && v.channelId == channelId
    ensures KeySet(r, IdOfVideo) == set id | id in t && t[id].channelId == channelId
  {
    forall id | id in t && t[id].channelId == channelId ensures id in KeySet(r, IdOfVideo) {
      assert t[id] in r && IdOfVideo(t[id]) == id;
    }
  }

  /** The default of `GetTrendingAsync`'s `limit`. */
  const DefaultTrendingLimit: int := 20

  /** The trending order: most views first. */
  function MostViewedFirst(v: Video): Key {
    Key(-v.viewCount, 0)
  }

  /** `GetTrendingAsync`: the scan sorted by view count, most viewed first,
      cut to `limit` videos (none when `limit` is not positive). */
  function Trending(t: VideoTable, limit: int): (r: seq<Video>)
    ensures |r| == Min(Max(limit, 0), |t|)
    ensures forall v | v in r :: v.videoId in t && t[v.videoId] == v
    ensures forall i, j | 0 <= i < j < |r| :: r[i].viewCount >= r[j].viewCount
    ensures r == Take(SortByKey(AllVideos(t), MostViewedFirst), limit)
  {
    var all := AllVideos(t);
    var sorted := SortByKey(all, MostViewedFirst);
    SortByKeyMembers(all, MostViewedFirst);
    var r := Take(sorted, limit);
    forall i, j | 0 <= i < j < |r| ensures r[i].viewCount >= r[j].viewCount {
      assert r[i] == sorted[i] && r[j] == sorted[j];
      assert !KeyLt(MostViewedFirst(sorted[j]), MostViewedFirst(sorted[i]));
    }
    r
  }

  /** Trending really is the top: a stored video left out has no more views
      than any video returned. */
  lemma TrendingIsTop(t: VideoTable, limit: int, w: Video)
    requires w.videoId in t && t[w.videoId] == w
    requires w !in Trending(t, limit)
    ensures forall v | v in Trending(t, limit) :: w.viewCount <= v.viewCount
  {
    var sorted := SortByKey(AllVideos(t), MostViewedFirst);
    SortByKeyMembers(AllVideos(t), MostViewedFirst);
    TakeOfSortedIsLeast(sorted, MostViewedFirst, limit, w);
  }

  /** `UpdateThumbnailAsync`: sets the stored video's thumbnail URL; a
      missing video is left alone. */
  function UpdateThumbnail(t: VideoTable, videoId: string, url: string): (r: VideoTable)
    ensures r.Keys == t.Keys
    ensures videoId in t ==> r[videoId] == t[videoId].(thumbnailUrl := Some(url))
    ensures forall id | id in t && id != videoId :: r[id] == t[id]
  {
    if videoId !in t then t else SaveVideo(t, t[videoId].(thumbnailUrl := Some(url)))
  }

  /** Setting the same thumbnail again changes nothing. */
  lemma UpdateThumbnailIdempotent(t: VideoTable, videoId: string, url: string)
    ensures UpdateThumbnail(UpdateThumbnail(t, videoId, url), videoId, url) == UpdateThumbnail(t, videoId, url)
  {
    var r := UpdateThumbnail(t, videoId, url);
    if videoId in t {
      assert r[videoId].(thumbnailUrl := Some(url)) == r[videoId];
      assert r[videoId := r[videoId]] == r;
    }
  }

  /** The ids of the channels `userId` owns. */
  function OwnedChannelIds(t: ChannelTable, userId: string): (r: set<string>)
    ensures forall id :: id in r <==> id in t && t[id].userId == userId
  {
    Selected(t, (c: Channel) => c.userId == userId)
  }

  /** `GetByUserIdAsync` of the channel repository: the first channel of a
      scan filtered on the owner, or none; in ascending id order the first
      is the owned channel with the least id. */
  function ChannelOfUser(t: ChannelTable, userId: string): (r: Option<Channel>)
    ensures r.Some? <==> exists id | id in t :: t[id].userId == userId
    ensures r.Some? ==> && r.value.channelId in t && t[r.value.channelId] == r.value
                        && IsLeast(r.value.channelId, OwnedChannelIds(t, userId))
  {
    var owned := OwnedChannelIds(t, userId);
    var ids := SortedStrings(owned);
    if ids == [] then
      assert forall id | id in t && t[id].userId == userId :: id in ids;
      None
    else
      assert ids[0] in owned;
      Some(t[ids[0]])
  }

  /** Which channel counts as the user's depends only on the ids and owners
      of the channels: changing anything else in them keeps it. */
  lemma ChannelOfUserKeepsOwner(t: ChannelTable, u: ChannelTable, userId: string)
    requires t.Keys == u.Keys
    requires forall id | id in t :: t[id].userId == u[id].userId
    ensures ChannelOfUser(t, userId).Some? == ChannelOfUser(u, userId).Some?
    ensures ChannelOfUser(t, userId).Some? ==> ChannelOfUser(t, userId).value.channelId == ChannelOfUser(u, userId).value.channelId
  {
    var a := ChannelOfUser(t, userId);
    var b := ChannelOfUser(u, userId);
    assert OwnedChannelIds(t, userId) == OwnedChannelIds(u, userId);
    if a.Some? && b.Some? {
      LeastUnique(OwnedChannelIds(t, userId), a.value.channelId, b.value.channelId);
    }
  }
}

=== FILE: video_service.dfy ===
/** `VideoService`: deleting, editing and re-thumbnailing a video, and
    registering a new upload. Deleting compares the owner with the caller
    after trimming and ignoring case; editing and re-thumbnailing compare
    them exactly. Storage calls are outside the model: the URL a file gets
    and the presigned upload URL are parameters, and the clock and the new
    id are inputs.
 */
module VideoService {
  import opened Wrappers
  import opened Text
  import opened Entities
  import opened Paths
  import VideoRepository
  import Search

  // ---------------------------------------------------------------------
  // Delete

  /** The delete check: the caller's id, trimmed, equals the owner's,
      trimmed, ignoring case; a missing caller id matches nobody. */
  predicate MayDelete(owner: string, caller: Option<string>) {
    caller.Some? && EqualsIgnoreCase(Trim(owner), Trim(caller.value))
  }

  /** `DeleteVideoAsync`. A missing video is `NotFoundException`; a caller
      who is not the owner is `ForbiddenException`; otherwise the video's
      record is deleted and nothing else in the store changes. */
  function DeleteVideo(db: Db, videoId: string, caller: Option<string>): (r: (Result<()>, Db))
    ensures videoId !in db.videos ==> r == (Err(NotFoundException), db)
    ensures videoId in db.videos && !MayDelete(db.videos[videoId].userId, caller) ==> r == (Err(ForbiddenException), db)
    ensures r.0.Ok? <==> videoId in db.videos && MayDelete(db.videos[videoId].userId, caller)
    ensures r.0.Ok? ==> r.1 == db.(videos := r.1.videos) && r.1.videos.Keys == db.videos.Keys - {videoId}
    ensures forall id | id in r.1.videos :: id in db.videos && r.1.videos[id] == db.videos[id]
  {
    if videoId !in db.videos then (Err(NotFoundException), db)
    else if !MayDelete(db.videos[videoId].userId, caller) then (Err(ForbiddenException), db)
    else (Ok(()), db.(videos := db.videos - {videoId}))
  }

  /** The owner may always delete their own video, and afterwards it is gone. */
  lemma OwnerMayDelete(db: Db, videoId: string)
    requires videoId in db.videos
    ensures var r := DeleteVideo(db, videoId, Some(db.videos[videoId].userId));
            r.0.Ok? && videoId !in r.1.videos
  {
  }

  /** The delete check is looser than the edit check: an id differing from
      the owner's only in case may delete a video it may not edit. */
  lemma DeleteLooserThanEdit(db: Db, videoId: string, req: UpdateVideoRequest, now: Instant)
    requires videoId in db.videos && db.videos[videoId].userId == "abc"
    ensures DeleteVideo(db, videoId, Some("ABC")).0.Ok?
    ensures UpdateVideo(db, videoId, "ABC", req, now).0 == Err(ForbiddenException)
  {
    CaseOnlyIdsMatch();
  }

  lemma CaseOnlyIdsMatch()
    ensures MayDelete("abc", Some("ABC"))
  {
    TrimOfTrimmed("abc");
    TrimOfTrimmed("ABC");
    assert ToUpper("abc") == "ABC";
    assert ToUpper("ABC") == "ABC";
  }

  // ---------------------------------------------------------------------
  // Edit

  datatype UpdateVideoRequest = UpdateVideoRequest(title: Option<string>, description: Option<string>)

  /** `UpdateVideoAsync`. A missing video is `NotFoundException` and
      someone other than the owner gets `ForbiddenException`. A title or
      description that is given replaces the stored one. When that changes
      nothing the stored video comes back and nothing is written; otherwise
      the edited video is stamped with the time and saved. */
  function UpdateVideo(db: Db, videoId: string, userId: string, req: UpdateVideoRequest, now: Instant)
    : (r: (Result<Video>, Db))
    ensures videoId !in db.videos ==> r == (Err(NotFoundException), db)
    ensures videoId in db.videos && db.videos[videoId].userId != userId ==> r == (Err(ForbiddenException), db)
    ensures r.0.Ok? <==> videoId in db.videos && db.videos[videoId].userId == userId
    ensures r.0.Ok? ==>
              var v := db.videos[videoId];
              var e := v.(title := req.title.GetOr(v.title), description := req.description.GetOr(v.description));
              && (e == v ==> r == (Ok(v), db))
              && (e != v ==> r.0.value == e.(updatedAt := now) && r.1 == db.(videos := db.videos[videoId := r.0.value]))
  {
    if videoId !in db.videos then (Err(NotFoundException), db)
    else
      var v := db.videos[videoId];
      if v.userId != userId then (Err(ForbiddenException), db)
      else
        var titleChanged := req.title.Some? && req.title.value != v.title;
        var descriptionChanged := req.description.Some? && req.description.value != v.description;
        var e := v.(title := if titleChanged then req.title.value else v.title,
                    description := if descriptionChanged then req.description.value else v.description);
        if !titleChanged && !descriptionChanged then (Ok(v), db)
        else
          var saved := e.(updatedAt := now);
          (Ok(saved), db.(videos := SaveVideo(db.videos, saved)))
  }

  /** Sending the same edit again changes nothing: the second call writes
      nothing and returns the video as the first left it. */
  lemma UpdateVideoIdempotent(db: Db, videoId: string, userId: string, req: UpdateVideoRequest, now: Instant, later: Instant)
    requires videoId in db.videos && db.videos[videoId].userId == userId
    ensures var r1 := UpdateVideo(db, videoId, userId, req, now);
            var r2 := UpdateVideo(r1.1, videoId, userId, req, later);
            r2 == (r1.0, r1.1)
  {
    var r1 := UpdateVideo(db, videoId, userId, req, now);
    assert r1.1.videos[videoId] == r1.0.value;
  }

  // ---------------------------------------------------------------------
  // Thumbnail

  /** The extensions a thumbnail may have. */
  predicate ImageExtension(e: string) {
    e == ".jpg" || e == ".jpeg" || e == ".png"
  }

  /** Every image extension is a dot and a plain name. */
  lemma ImageExtensionIsPlain(e: string)
    requires ImageExtension(e)
    ensures |e| >= 2 && e[0] == '.' && Plain(e[1..])
  {
    assert e[1..] == "jpg" || e[1..] == "jpeg" || e[1..] == "png";
  }

  /** The content type's default extension when the file name has none. */
  function DefaultImageExtension(contentType: string): string {
    if contentType == "image/png" then ".png" else ".jpg"
  }

  /** The thumbnail's extension: the file name's, lower-cased, or the
      content type's default; anything but .jpg, .jpeg or .png is a
      `BadRequestException`. */
  function ThumbnailExtension(fileName: string, contentType: string): (r: Result<string>)
    ensures r.Ok? ==> ImageExtension(r.value)
    ensures r.Err? ==> r.error == BadRequestException
    ensures Extension(fileName) == [] ==> r == Ok(DefaultImageExtension(contentType))
    ensures Extension(fileName) != [] ==> (r.Ok? <==> ImageExtension(ToLower(Extension(fileName))))
  {
    var ext := ToLower(Extension(fileName));
    var ext := if ext == [] then DefaultImageExtension(contentType) else ext;
    if !ImageExtension(ext) then Err(BadRequestException) else Ok(ext)
  }

  /** A file named with an image extension, in any case, is accepted with
      the extension lower-cased. */
  lemma ImageFileAccepted(name: string, e: string, contentType: string)
    requires |e| >= 2 && e[0] == '.' && Plain(e[1..]) && ImageExtension(ToLower(e))
    ensures ThumbnailExtension(name + e, contentType) == Ok(ToLower(e))
  {
    ExtensionOfSuffix(name, e);
  }

  const ThumbnailFolder: string := "video-thumbnails/"

  /** The storage key `video-thumbnails/{videoId}/{ticks}{ext}`. */
  function ThumbnailKey(videoId: string, now: Instant, ext: string): (k: string)
    ensures StartsWith(k, ThumbnailFolder + videoId + "/")
    ensures |ext| >= 2 && ext[0] == '.' && Plain(ext[1..]) ==> Extension(k) == ext
  {
    var prefix := ThumbnailFolder + videoId + "/" + NatToString(DateTimeTicks(now));
    assert |ext| >= 2 && ext[0] == '.' && Plain(ext[1..]) ==> Extension(prefix + ext) == ext by {
      if |ext| >= 2 && ext[0] == '.' && Plain(ext[1..]) {
        ExtensionOfSuffix(prefix, ext);
      }
    }
    assert (prefix + ext)[..|ThumbnailFolder + videoId + "/"|] == ThumbnailFolder + videoId + "/";
    prefix + ext
  }

  /** `UploadThumbnailAsync`. A missing video is `NotFoundException`, a
      caller other than the owner `ForbiddenException`, and a content type
      not starting "image/" or an extension outside .jpg/.jpeg/.png
      `BadRequestException`, in that order. Otherwise the file is stored
      under the thumbnail key and its URL becomes the video's thumbnail. */
  function UploadThumbnail(db: Db, videoId: string, userId: string, fileName: string, contentType: string,
                           now: Instant, upload: string -> string): (r: (Result<()>, Db))
    ensures r.0.Err? ==> r.1 == db
    ensures videoId !in db.videos ==> r.0 == Err(NotFoundException)
    ensures videoId in db.videos && db.videos[videoId].userId != userId ==> r.0 == Err(ForbiddenException)
    ensures r.0.Ok? <==> && videoId in db.videos && db.videos[videoId].userId == userId
                         && StartsWith(contentType, "image/") && ThumbnailExtension(fileName, contentType).Ok?
    ensures r.0.Ok? ==>
              var key := ThumbnailKey(videoId, now, ThumbnailExtension(fileName, contentType).value);
              && Extension(key) == ThumbnailExtension(fileName, contentType).value
              && r.1 == db.(videos := VideoRepository.UpdateThumbnail(db.videos, videoId, upload(key)))
  {
    if videoId !in db.videos then (Err(NotFoundException), db)
    else
      var v := db.videos[videoId];
      if v.userId != userId then (Err(ForbiddenException), db)
      else if !StartsWith(contentType, "image/") then (Err(BadRequestException), db)
      else
        match ThumbnailExtension(fileName, contentType)
        case Err(e) => (Err(e), db)
        case Ok(ext) =>
          ImageExtensionIsPlain(ext);
          var url := upload(ThumbnailKey(videoId, now, ext));
          (Ok(()), db.(videos := SaveVideo(db.videos, v.(thumbnailUrl := Some(url)))))
  }

  // ---------------------------------------------------------------------
  // New upload

  datatype PresignUrlRequest = PresignUrlRequest(channelId: string, title: string, description: Option<string>)

  datatype PresignUrlResponse = PresignUrlResponse(videoId: string, uploadUrl: string)

  const UploadingStatus: string := "UPLOADING"
  const UploadKind: string := "upload"

  /** The raw upload's storage key `raw-videos/{userId}/{videoId}.mp4`. */
  function RawVideoKey(userId: string, videoId: string): (k: string)
    ensures StartsWith(k, "raw-videos/" + userId + "/")
    ensures Extension(k) == ".mp4"
  {
    var prefix := "raw-videos/" + userId + "/" + videoId;
    ExtensionOfSuffix(prefix, ".mp4");
    assert (prefix + ".mp4")[..|"raw-videos/" + userId + "/"|] == "raw-videos/" + userId + "/";
    prefix + ".mp4"
  }

  /** `GenerateUploadUrlAsync`. Without the bucket and table settings it is
      an `InvalidOperationException`. Otherwise the new video is put under
      the new id, uploading, with no views, likes or comments, created and
      updated now, and the answer carries the id and the presigned URL of
      its raw key. */
  function GenerateUploadUrl(db: Db, req: PresignUrlRequest, userId: string, configured: bool,
                             videoId: string, now: Instant, presign: string -> string)
    : (r: (Result<PresignUrlResponse>, Db))
    ensures !configured ==> r == (Err(InvalidOperation), db)
    ensures configured ==>
              && r.0 == Ok(PresignUrlResponse(videoId, presign(RawVideoKey(userId, videoId))))
              && r.1 == db.(videos := r.1.videos)
              && r.1.videos.Keys == db.videos.Keys + {videoId}
              && (forall id | id in db.videos && id != videoId :: r.1.videos[id] == db.videos[id])
              && var v := r.1.videos[videoId];
              && v.channelId == req.channelId && v.userId == userId && v.title == req.title
              && v.description == req.description.GetOr("")
              && v.status == UploadingStatus && v.kind == UploadKind
              && v.viewCount == 0 && v.likeCount == 0 && v.commentCount == 0
              && v.createdAt == now && v.updatedAt == now
              && v.playbackUrl.None? && v.key.None? && v.thumbnailUrl.None?
  {
    if !configured then (Err(InvalidOperation), db)
    else
      var uploadUrl := presign(RawVideoKey(userId, videoId));
      var v := Video(videoId, req.channelId, userId, req.title, req.description.GetOr(""),
                     UploadingStatus, UploadKind, None, None, None, 0, 0, now, now, 0);
      (Ok(PresignUrlResponse(videoId, uploadUrl)), db.(videos := SaveVideo(db.videos, v)))
  }

  /** A video still uploading is invisible to search, whatever the query. */
  lemma NewUploadNotSearchable(db: Db, req: PresignUrlRequest, userId: string, videoId: string,
                               now: Instant, presign: string -> string, query: string)
    ensures var r := GenerateUploadUrl(db, req, userId, true, videoId, now, presign);
            !Search.Matches(r.1.videos[videoId], query)
  {
    var v := GenerateUploadUrl(db, req, userId, true, videoId, now, presign).1.videos[videoId];
    assert |ToUpper(v.status)| != |Search.CompleteStatus|;
  }
}

=== FILE: wrappers.dfy ===
/** Failure-carrying datatypes shared by every service of the model.

    The services of the platform signal failure by throwing typed exceptions;
    the model returns them as values of `Exception` inside a `Result`.
 */
module Wrappers {

  /** A nullable reference: `None` stands for C#'s `null`. */
  datatype Option<+T> = None | Some(value: T) {
    function GetOr(default: T): T {
      match this
      case Some(v) => v
      case None => default
    }
  }

  /** The exception types the services throw and the global handler knows. */
  datatype Exception =
    | ValidationException        // the application's own validation exception type
    | BadRequestException        // invalid input or invalid state transition
    | NotFoundException          // a referenced entity is absent
    | ForbiddenException         // authenticated but not allowed on the target
    | ConflictException
    | UnauthorizedAccess         // System.UnauthorizedAccessException
    | InvalidOperation           // System.InvalidOperationException
    | OtherException             // anything else (store client errors, ...)

  /** The outcome of a service call: a value or the exception it throws. */
  datatype Result<+T> = Ok(value: T) | Err(error: Exception)
}
